=== FILE: README.md ===
# Guest views, web preferences, the DOM guard and the JavaScript scanner fragments, in Dafny

This project models four groups of sequential logic from an Electron/Chromium tree and proves
properties of them.

- **The `<webview>` guest registry** of Electron's browser process (`GuestViewManager`). It covers
  the guest map, the slot map keyed by `"<embedder id>-<element instance id>"` and the watched
  embedders. The operations are creating, attaching and detaching guests, the embedder's
  `will-destroy` cascade and visibility listener, the authorisation of guest lookups, the allow-list
  and `<webview>`-enabled guards on the IPC handlers (create, attach, detach and the call/get/set requests), and the inheritance of security preferences
  from embedder to guest. Handles (WebContents, embedders, frames) are integers.
- **`WebContentsPreferences`** (`WebContentsPreferences`). The preference dictionary maps keys to
  typed values. The model covers the constructor's defaulting, `SetDefaultBoolIfUndefined`,
  `IsEnabled`, `SetDefaults` with its sandbox ⇒ `nativeWindowOpen` rule, `Merge`, the renderer
  switches of `AppendCommandLineSwitches`, and the string-to-enum mappings of
  `OverrideWebkitPrefs`.
- **The DOM guard's recorded-value language** (`DomPattern`, `DomGuard`, `DomStyle`).
  - A recorded attribute or style value is a `|`-separated list of alternatives with `\` escapes.
  - Each alternative is a glob with `*` and `?`.
  - The model covers the encoder `escapeAndAddToAttributeValue`, the splitting loop that decodes it,
    the matcher `stringEquals`, `idEquals`, `attributeEquals`, `mergeShadowAttribute`,
    `propertyEquals`, the numeric range state machine of `cssValueEquals`, and the attribute hook
    `WillModifyDOMAttrExtended`.
- **Fragments of V8's JavaScript scanner** (`ScannerUtils`, `Unicode`, `ScannerInput`,
  `ScannerEscapes`, `ScannerNumbers`, `ScannerLiterals`, `LiteralBuffer`, `CharacterStreams`).
  - Scanners: hex, octal and Unicode escapes, numeric literals with separators, string literals,
    regular-expression bodies and template spans. They follow the lexical grammar of ECMA-262
    (sections 11.8.3-11.8.6 of the 2015 edition, with the numeric separators of section 12.8.3 of
    the 2021 edition).
  - Support code: character classification, UTF-16 surrogate arithmetic (section 2 of RFC 2781),
    the one-byte/two-byte literal buffer and the testing character streams.

Each scanner is a function over the source's UTF-16 code units and a cursor position. It returns
the token (or the scanner's verdict), the characters added to the literal, the cursor where it
stopped and, for the escape, string and template scanners, the first message it reported. The
number scanners return their verdict without the scanner error.

## Model

| member | source | states |
|---|---|---|
| GuestViewManager.SanitizeOptionsForGuest | electron/lib/browser/guest-view-manager.ts:24-29 | The copy holds every option except `webContents`, with its value, and nothing else |
| GuestViewManager.SanitizeIdempotent | electron/lib/browser/guest-view-manager.ts:24-29 | Sanitising an already sanitised object changes nothing |
| GuestViewManager.CreateGuest | electron/lib/browser/guest-view-manager.ts:32-44 | A new guest gets a fresh id not already in the registry, hosted by its embedder, with no element and no visibility; other records, slots and watched embedders are untouched |
| GuestViewManager.CreateGuestValid | electron/lib/browser/guest-view-manager.ts:32-44 | Creating a guest keeps the registry invariant: records filed under their guest's id, each guest hosted by its recorded embedder |
| GuestViewManager.GetGuest | electron/lib/browser/guest-view-manager.ts:388-392 | A guest is returned exactly for a recorded id, and it is that record's guest |
| GuestViewManager.GetGuestForWebContents | electron/lib/browser/guest-view-manager.ts:376-385 | Fails with an invalid-id error exactly for unknown ids and with access denied exactly when the guest's host is not the caller; success returns a guest hosted by the caller |
| GuestViewManager.GetGuestOnlyForEmbedder | electron/lib/browser/guest-view-manager.ts:376-385 | In a valid registry a lookup succeeds exactly when the caller is the recorded embedder |
| GuestViewManager.HandleRequest | electron/lib/browser/guest-view-manager.ts:333-367 | A call, get or set request succeeds exactly when the lookup succeeds and the name is in the matching allow-list; lookup failures pass through; success returns a guest hosted by the sender |
| GuestViewManager.IsWebViewTagEnabled | electron/lib/browser/guest-view-manager.ts:278-285 | The answer for a WebContents is what the cache holds for it afterwards; a WebContents not yet cached is answered by the truthiness of its `webviewTag` preference and added; every earlier entry is kept |
| GuestViewManager.WebViewTagCacheSticks | electron/lib/browser/guest-view-manager.ts:277-286 | Once cached, the answer stays the same whatever the preference says later |
| GuestViewManager.GuardedRequestAllowed | electron/lib/browser/guest-view-manager.ts:278-367 | A call, get or set request behind the `<webview>` guard succeeds exactly when the sender has `<webview>` enabled (its cached answer, or else its `webviewTag` preference), the guest exists and is hosted by the sender, and the name is on the matching allow-list; a disabled sender is refused with the `<webview>`-disabled error |
| GuestViewManager.GuardedRequestCached | electron/lib/browser/guest-view-manager.ts:278-296 | After one guarded request from a sender, a later one from the same sender has the same outcome whatever `webviewTag` preference it sees |
| GuestViewManager.HandleGuestMessage | electron/lib/browser/guest-view-manager.ts:306-321 | Create answers with the id of a new recorded guest and touches neither the slots nor anything else outside the registry; attach and detach answer nothing (a failed attach is logged and swallowed); detach keeps the watched embedders |
| GuestViewManager.GuardedMessage | electron/lib/browser/guest-view-manager.ts:287-321 | A create, attach or detach message succeeds exactly when the sender has `<webview>` enabled (its cached answer, or else its `webviewTag` preference); a disabled sender gets the `<webview>`-disabled error, no effect, and the registry unchanged; an enabled sender's message runs its handler unchanged; the sender's answer is cached |
| GuestViewManager.GuardedMessageCached | electron/lib/browser/guest-view-manager.ts:278-296 | After one guarded message from a sender, whether a later one from the same sender gets through no longer depends on the `webviewTag` preference it sees |
| GuestViewManager.GuardedCreate | electron/lib/browser/guest-view-manager.ts:287-309 | Behind the guard, a disabled sender's create leaves the guest ids as they were; an enabled sender's create adds exactly one new guest id, not recorded before, whose guest it hosts |
| GuestViewManager.FocusChangeEmitted | electron/lib/browser/guest-view-manager.ts:324-330 | `focus-change` is re-emitted exactly when the named guest exists and is the sender |
| GuestViewManager.FocusOnlyForOwnId | electron/lib/browser/guest-view-manager.ts:324-330 | In a valid registry a guest can report focus only for its own id |
| GuestViewManager.InheritAt | electron/lib/browser/guest-view-manager.ts:185-203 | Key by key, a listed security option is forced to its secure value exactly when the embedder's last preferences hold that value; every other key keeps the requested value |
| GuestViewManager.RequestedPreferences | electron/lib/browser/guest-view-manager.ts:160-183 | Every option parsed from the `webpreferences` attribute, except `preloadURL`, overrides the attribute-derived defaults; a truthy `preload` becomes `preloadURL` |
| GuestViewManager.EffectivePreferencesAt | electron/lib/browser/guest-view-manager.ts:160-203 | Whatever the attributes and the `webpreferences` string ask for, an embedder holding a secure value passes it on to the guest |
| GuestViewManager.SandboxInherited | electron/lib/browser/guest-view-manager.ts:185-203 | A sandboxed embedder without Node integration yields a sandboxed guest without Node integration |
| GuestViewManager.AttachDetachesOccupant | electron/lib/browser/guest-view-manager.ts:120-136 | An attach to a slot held by another guest with a record first detaches that guest from its frame, whatever becomes of the request, and leaves its record unchanged; with no such occupant no guest is detached |
| GuestViewManager.LeavePrevious | electron/lib/browser/guest-view-manager.ts:148-157 | Leaving the previous element touches only the slot map: a guest sitting in an element loses exactly its old slot key, and a guest in no element changes nothing and causes no effect |
| GuestViewManager.WatchEmbedder | electron/lib/browser/guest-view-manager.ts:245-250 | The embedder joins the watched set and nothing else changes |
| GuestViewManager.WatchEmbedderIdempotent | electron/lib/browser/guest-view-manager.ts:245-250 | Watching twice is watching once, and watching a watched embedder changes nothing |
| GuestViewManager.Attach | electron/lib/browser/guest-view-manager.ts:120-223 | Re-attaching the guest already in the slot is a no-op. Failures write nothing and keep only the occupant's detach. The invalid-id and access-denied failures happen exactly for an unknown guest and for a guest hosted elsewhere |
| GuestViewManager.AttachGuest | electron/lib/browser/guest-view-manager.ts:124-220 | The attach the IPC handler runs, with the preferences computed from the attributes, the parsed `webpreferences` string and the embedder: a committed attach maps the slot to the guest and hands it every secure value the embedder holds and the requested preload script as `preloadURL` |
| GuestViewManager.AttachedPreferences | electron/lib/browser/guest-view-manager.ts:159-203 | A committed attach hands the guest the effective preferences: the embedder's secure values win, and every other requested property stays as requested |
| GuestViewManager.AttachPrevented | electron/lib/browser/guest-view-manager.ts:205-210 | A prevented attach destroys the guest and sets `viewInstanceId` only if it had none; the slots lose only the guest's previous key; embedder, element, watched set and every other record are unchanged |
| GuestViewManager.AttachCommitted | electron/lib/browser/guest-view-manager.ts:148-222 | A committed attach drops the guest's previous slot key, maps the new key to the guest, records embedder and element, watches the embedder, hands the effective preferences to the native manager, and leaves every other record, the occupant's included, as it was |
| GuestViewManager.AttachKeepsEmbedder | electron/lib/browser/guest-view-manager.ts:138-146 | Attaching keeps the registry valid and never changes a record's embedder, because the host check precedes `setEmbedder` |
| GuestViewManager.DetachGuest | electron/lib/browser/guest-view-manager.ts:226-240 | Unknown ids and callers other than the recorded embedder change nothing; otherwise exactly that record and its slot key go |
| GuestViewManager.DetachKeepsEmbedder | electron/lib/browser/guest-view-manager.ts:226-240 | Detaching keeps the registry valid and changes no surviving record's embedder |
| GuestViewManager.GuestDestroyed | electron/lib/browser/guest-view-manager.ts:46-51 | The `destroyed` listener of an unknown guest changes nothing |
| GuestViewManager.GuestDestroyedRemoves | electron/lib/browser/guest-view-manager.ts:46-51 | Because embedders never change, the embedder captured at creation still matches, so the listener removes the guest's record |
| GuestViewManager.GuestsOf | electron/lib/browser/guest-view-manager.ts:266-270 | The guests recorded under an embedder, exactly |
| GuestViewManager.EmbedderWillDestroy | electron/lib/browser/guest-view-manager.ts:262-274 | For a watched embedder, exactly the records under it go, the others stay as they were, and the embedder leaves the watched set; an unwatched embedder has no listener |
| GuestViewManager.DetachEachRemoves | electron/lib/browser/guest-view-manager.ts:266-270 | Detaching distinct guests of one embedder in turn removes exactly those records and their slot keys |
| GuestViewManager.KeysOfMember | electron/lib/browser/guest-view-manager.ts:238-239 | A slot key is deleted by the listed guests' detaches exactly when it is the key of one of them |
| GuestViewManager.WillDestroyIsDetachEach | electron/lib/browser/guest-view-manager.ts:262-274 | The listener's closed form agrees with its loop, for any enumeration order of the embedder's guests |
| GuestViewManager.WillDestroyKeepsEmbedder | electron/lib/browser/guest-view-manager.ts:262-274 | The cascade keeps the registry valid and changes no surviving record's embedder |
| GuestViewManager.VisibilityChange | electron/lib/browser/guest-view-manager.ts:252-260 | A watched embedder's visibility change is written into every record, but sent only to this embedder's guests; the slots, watched embedders, creators and next id are unchanged |
| GuestViewManager.VisibilityChangeKeepsValid | electron/lib/browser/guest-view-manager.ts:252-260 | A visibility change keeps the registry valid and changes no embedder |
| GuestViewManager.VisibilityOverwritesOthers | electron/lib/browser/guest-view-manager.ts:253-258 | A guest of another embedder has its recorded visibility overwritten without being told |
| GuestViewManager.OccupantDetachClearsReplacement | electron/lib/browser/guest-view-manager.ts:126-136 | After a second guest takes an occupied element, detaching the first guest deletes the second guest's slot |
| GuestViewManager.AttachUnplacedGuest | electron/lib/browser/guest-view-manager.ts:212-222 | A caller's guest that sits in no element is mapped into the requested slot and recorded there |
| WebContentsPreferences.FindBool | electron/shell/browser/web_contents_preferences.cc:193-216 | A boolean is found exactly when the key holds a boolean value |
| WebContentsPreferences.FindString | electron/shell/browser/web_contents_preferences.cc:38-62 | A string is found exactly when the key holds a string value |
| WebContentsPreferences.IsEnabled | electron/shell/browser/web_contents_preferences.cc:209-216 | The stored boolean, or the default when the key is absent or not a boolean |
| WebContentsPreferences.SetDefaultBoolIfUndefined | electron/shell/browser/web_contents_preferences.cc:193-203 | An existing boolean is kept and returned; otherwise the default is stored, replacing any non-boolean value, and returned |
| WebContentsPreferences.SetDefaultsAt | electron/shell/browser/web_contents_preferences.cc:121-137 | Defaulting a list acts key by key: listed keys keep a boolean or get their default, other keys are untouched |
| WebContentsPreferences.TrailingOptions | electron/shell/browser/web_contents_preferences.cc:148-154 | The platform defaults: `scrollBounce` only on macOS, the build-dependent options only when built in |
| WebContentsPreferences.ApplySandboxDefaults | electron/shell/browser/web_contents_preferences.cc:181-187 | A sandboxed WebContents gets `nativeWindowOpen` on, nothing else changes, and the snapshot equals the preferences |
| WebContentsPreferences.FindWebSecurity | electron/shell/browser/web_contents_preferences.cc:138-147 | `webSecurity` is read exactly when present |
| WebContentsPreferences.PreparedAt | electron/shell/browser/web_contents_preferences.cc:104-171 | The constructor's sequence of updates agrees with its key-by-key description |
| WebContentsPreferences.CreateAt | electron/shell/browser/web_contents_preferences.cc:104-174 | After construction every key holds the key-by-key value, except that sandboxing can still turn `nativeWindowOpen` on |
| WebContentsPreferences.Create | electron/shell/browser/web_contents_preferences.cc:104-174 | The constructor's preference dictionary; CreateAt states every key's value, CreateInvariants the sandbox rule and snapshot, and CreateDropsReservedKeys the deleted keys |
| WebContentsPreferences.CreateDropsReservedKeys | electron/shell/browser/web_contents_preferences.cc:109-115 | `embedder`, `session` and `type` are never stored: no key the constructor keeps carries one of those names |
| WebContentsPreferences.CreateInsecureContent | electron/shell/browser/web_contents_preferences.cc:138-147 | `allowRunningInsecureContent` keeps an explicit boolean; otherwise it is on exactly when `webSecurity` was given falsy |
| WebContentsPreferences.CreateDefaults | electron/shell/browser/web_contents_preferences.cc:121-137 | Each defaulted option holds the caller's boolean if given, else its default |
| WebContentsPreferences.CreateSecurityDefaults | electron/shell/browser/web_contents_preferences.cc:121-137 | Node integration and web security default on; sandbox and context isolation default off |
| WebContentsPreferences.CreateOffscreen | electron/shell/browser/web_contents_preferences.cc:156-171 | `offscreen` is on for a guest of an offscreen embedder, and otherwise defaults to off |
| WebContentsPreferences.CreateInvariants | electron/shell/browser/web_contents_preferences.cc:174-187 | A constructed sandboxed WebContents has `nativeWindowOpen` on, and the snapshot equals the preferences |
| WebContentsPreferences.Merge | electron/shell/browser/web_contents_preferences.cc:218-223 | Merged keys take the new values, other keys keep theirs, sandbox still implies `nativeWindowOpen`, and the snapshot is refreshed |
| WebContentsPreferences.SandboxSwitches | electron/shell/browser/web_contents_preferences.cc:286-296 | `enable-sandbox` is added exactly when sandboxed or a subframe without `nodeIntegrationInSubFrames`; `no-sandbox` and `no-zygote` exactly when neither holds and the command line has no `enable-sandbox` yet; no other switch is added, and none carries a value |
| WebContentsPreferences.HasSwitchAppend | electron/shell/browser/web_contents_preferences.cc:278-350 | A command line extended by more items has a switch exactly when one of the parts has it |
| WebContentsPreferences.Args | electron/shell/browser/web_contents_preferences.cc:298-306 | Each custom argument becomes one plain argument, in order, and no switch is added |
| WebContentsPreferences.CustomSwitches | electron/shell/browser/web_contents_preferences.cc:321-332 | Each custom switch becomes one switch of that name without a value, in order, so a name is switched on exactly when it is listed |
| WebContentsPreferences.SwitchIf | electron/shell/browser/web_contents_preferences.cc:308-344 | The named switch is added exactly when its condition holds, no other switch is, and no plain argument is |
| WebContentsPreferences.TrailingItems | electron/shell/browser/web_contents_preferences.cc:298-344 | After the sandbox decision, a switch name appears exactly when a custom switch has it or its own condition holds (`offscreen`, scroll bounce, the two Blink feature lists, Node integration in workers); the plain arguments are exactly the custom ones |
| WebContentsPreferences.TrailingSwitches | electron/shell/browser/web_contents_preferences.cc:298-344 | Read out of the preferences: `enable-sandbox` and `no-sandbox` appear there exactly when listed among the custom switches, `offscreen` exactly when enabled or listed, and the plain arguments are the string custom arguments |
| WebContentsPreferences.AppendCommandLineSwitches | electron/shell/browser/web_contents_preferences.cc:278-350 | The command line is only extended; the new part has `enable-sandbox` exactly by the sandbox rule or a custom switch of that name, and `no-sandbox` exactly when the rule fails and the line had no `enable-sandbox`, or a custom switch names it; the snapshot is refreshed |
| WebContentsPreferences.SandboxDecided | electron/shell/browser/web_contents_preferences.cc:286-296 | Every command line the WebContents extends ends up with `enable-sandbox` or `no-sandbox` |
| WebContentsPreferences.NonEmpty | electron/shell/browser/web_contents_preferences.cc:298-307 | Exactly the non-empty strings are kept |
| WebContentsPreferences.GetAsAutoplayPolicy | electron/shell/browser/web_contents_preferences.cc:77-96 | Each of the three policies is returned exactly for its own string |
| WebContentsPreferences.AutoplayFallback | electron/shell/browser/web_contents_preferences.cc:361-365 | A missing or unrecognised autoplay string yields `NoUserGestureRequired` |
| WebContentsPreferences.V8CacheOptionsOf | electron/shell/browser/web_contents_preferences.cc:490-505 | Each of the four settings is selected exactly by its own name; any other string gives `Default` |
| WebContentsPreferences.V8CacheOptionsSetting | electron/shell/browser/web_contents_preferences.cc:490-505 | Without a `v8CacheOptions` string the setting is left unchanged; with one it follows the mapping |
| WebContentsPreferences.CreatedInsecureContentSetting | electron/shell/browser/web_contents_preferences.cc:373-378 | For a new WebContents, Blink's insecure-content setting is the explicit boolean, or on exactly when `webSecurity` was given falsy |
| WebContentsPreferences.InsecureContentSetting | electron/shell/browser/web_contents_preferences.cc:373-378 | The same for any preferences holding the constructor's `allowRunningInsecureContent` |
| WebContentsPreferences.OverrideWebkitPrefs | electron/shell/browser/web_contents_preferences.cc:352-506 | The Blink settings derived from the preferences; V8CacheOptionsSetting, InsecureContentSetting and CreatedInsecureContentSetting state the mapped settings |
| DomPattern.LiteralPatternExact | third_party/blink/renderer/core/frame/dom_guard.cc:32-64 | A pattern without `*`, `?` or `\` matches a value exactly when they are equal |
| DomPattern.StringEquals | third_party/blink/renderer/core/frame/dom_guard.cc:32-64 | The glob match of a pattern against a value; its meaning is stated by LiteralPatternExact, QuestionMatchesAnyChar, EscapeMatchesLiteral, ExhaustedValue and StarAlternatives |
| DomPattern.Glob | third_party/blink/renderer/core/frame/dom_guard.cc:32-45 | The recursive matcher behind StringEquals, with the pending-escape flag; its cases are stated through StringEquals by the same lemmas |
| DomPattern.QuestionMatchesAnyChar | third_party/blink/renderer/core/frame/dom_guard.cc:57-62 | An unescaped `?` consumes any one character |
| DomPattern.EscapeMatchesLiteral | third_party/blink/renderer/core/frame/dom_guard.cc:43-51 | `\c` consumes exactly a literal `c`, so `\?` and `\*` are literals |
| DomPattern.ExhaustedValue | third_party/blink/renderer/core/frame/dom_guard.cc:37-41 | An exhausted value is matched only by an exhausted pattern or a lone `*` |
| DomPattern.StarAlternatives | third_party/blink/renderer/core/frame/dom_guard.cc:52-53 | An unescaped `*` matches by skipping itself or by consuming one character |
| DomPattern.Split | third_party/blink/renderer/core/frame/dom_guard.cc:195-224 | Splitting always yields at least one alternative |
| DomPattern.ScanAppend | third_party/blink/renderer/core/frame/dom_guard.cc:195-224 | Splitting a concatenation continues from the state the first part left |
| DomPattern.SplitPlain | third_party/blink/renderer/core/frame/dom_guard.cc:195-224 | A value without `\` or `|` is a single alternative |
| DomPattern.ScanAddEscape | third_party/blink/renderer/core/frame/dom_guard.cc:579-596 | Splitting an escaped value from a state without a pending escape adds the value, unchanged, to the alternative being built |
| DomPattern.GlobEscape | third_party/blink/renderer/core/frame/dom_guard.cc:43-53 | The glob-escaped form of a value is no shorter than the value |
| DomPattern.GlobEscapeExact | third_party/blink/renderer/core/frame/dom_guard.cc:32-64 | The glob-escaped form of `v` matches `w` exactly when `w == v` |
| DomPattern.EscapeAndAdd | third_party/blink/renderer/core/frame/dom_guard.cc:579-596 | The result starts with the current value, then `|`, then at least as many characters as the new value |
| DomPattern.SplitEscapeAndAdd | third_party/blink/renderer/core/frame/dom_guard.cc:579-596 | Splitting an extended value yields the old alternatives followed by the new one, and leaves no escape pending |
| DomPattern.Alternatives | third_party/blink/renderer/core/frame/dom_guard.cc:579-596 | One alternative per recorded value, in order |
| DomPattern.RecordRoundTrip | third_party/blink/renderer/core/frame/dom_guard.cc:579-596 | Recording values one after another from null reads back as an empty first alternative followed by one alternative per value |
| DomPattern.AsWrittenAlternativeIsGlob | third_party/blink/renderer/core/frame/dom_guard.cc:579-596 | As written, a recorded `a\b` refuses itself, a recorded `a?` accepts `ab` and a recorded `a*` accepts `abc` |
| DomPattern.CorrectedAlternativeIsExact | third_party/blink/renderer/core/frame/dom_guard.cc:579-596 | With the corrected encoding, the new alternative matches exactly the value recorded |
| DomGuard.WordsAreDelimited | third_party/blink/renderer/core/frame/dom_guard.cc:110-123 | The words of the mode are exactly its maximal space-delimited runs: non-empty, preceded by the start or a space, followed by the end or a space |
| DomGuard.IdEquals | third_party/blink/renderer/core/frame/dom_guard.cc:110-123 | Two ids are accepted exactly when they match as a pattern, or the mode is longer than one character and some space-delimited word after its first character is a prefix of both |
| DomGuard.IdPrefixAccepts | third_party/blink/renderer/core/frame/dom_guard.cc:110-123 | Two ids sharing any prefix listed as a word of the mode are accepted, whatever follows |
| DomGuard.KindOf | third_party/blink/renderer/core/frame/dom_guard.cc:181-235 | `id` and `dtt-id` compare as ids, `on…` names as scripts, plain comparison only for non-URL attributes |
| DomGuard.ScanDoneExtends | third_party/blink/renderer/core/frame/dom_guard.cc:195-224 | Alternatives completed before a prefix stay completed, in order, whatever follows |
| DomGuard.RefusedBySnoc | third_party/blink/renderer/core/frame/dom_guard.cc:195-224 | Refusing one more alternative keeps a list refused |
| DomGuard.CompletedIsAlternative | third_party/blink/renderer/core/frame/dom_guard.cc:195-224 | An alternative completed by a `|` is one of the alternatives of the whole value |
| DomGuard.AttributeEqualsScan | third_party/blink/renderer/core/frame/dom_guard.cc:181-235 | The character loop, testing alternatives as they complete and returning early, decides the same as "some alternative accepts" |
| DomGuard.AttributeEquals | third_party/blink/renderer/core/frame/dom_guard.cc:181-235 | The decision `attributeEquals` reaches, as a reference definition: null accepts only null, a URL attribute goes to `urlEquals` with all alternatives, any other attribute is accepted when some alternative accepts; AttributeEqualsScan proves the character loop decides the same |
| DomGuard.MergeShadowAttribute | third_party/blink/renderer/core/frame/dom_guard.cc:598-606 | The recorded value is kept when it accepts the new value; otherwise its alternatives gain the new one |
| DomGuard.MergeAccepts | third_party/blink/renderer/core/frame/dom_guard.cc:598-606 | With the corrected encoding, a merged id or plain attribute accepts the value just merged, and merging it again changes nothing |
| DomGuard.MergeAcceptsExactlyOneMore | third_party/blink/renderer/core/frame/dom_guard.cc:598-606 | With the corrected encoding, a merged plain attribute accepts exactly what it accepted before plus the new value |
| DomGuard.AcceptedBySnoc | third_party/blink/renderer/core/frame/dom_guard.cc:195-234 | A list extended by one alternative accepts what it accepted plus what the new alternative accepts |
| DomGuard.MergeAsWrittenMisrecords | third_party/blink/renderer/core/frame/dom_guard.cc:579-606 | As written, merging `a\b` yields a recorded value that still refuses `a\b`, and merging `a?` yields one that accepts `ab` |
| DomGuard.MergeOntoX | third_party/blink/renderer/core/frame/dom_guard.cc:598-606 | Example for one recorded value: merging any other value onto `x` appends it as a second alternative |
| DomGuard.PlainRefusedByBoth | third_party/blink/renderer/core/frame/dom_guard.cc:225-234 | Instance of the loop's decision for two alternatives: a recorded value whose two alternatives both refuse a value refuses it |
| DomGuard.WillModifyAttribute | third_party/blink/renderer/core/frame/dom_guard.cc:870-918 | Unmonitored writes pass untouched; a value is recorded only in record mode for a located element; a write is refused exactly in enforce mode when the recorded value refuses it |
| DomGuard.RecordThenEnforce | third_party/blink/renderer/core/frame/dom_guard.cc:870-918 | With the corrected encoding, a value written while recording is then allowed in enforce mode |
| DomStyle.NumericStep | third_party/blink/renderer/core/frame/dom_guard.cc:255-272 | Accepts exactly when the state already accepts, the numbers are equal, or the direction has flipped: the recorded number is above the actual one from state 2, or below it from state 1. From state 0, a recorded number above the actual one moves to state 1 and one below moves to state 2 |
| DomStyle.CssValueEquals | third_party/blink/renderer/core/frame/dom_guard.cc:237-291 | The comparison always yields a valid match state |
| DomStyle.PropertyEquals | third_party/blink/renderer/core/frame/dom_guard.cc:315-348 | `propertyEquals`: null accepts only null, otherwise the alternatives run through the match states until one accepts; NumericRange states which numeric values are accepted and MergePropertyAccepts that a merged value is |
| DomStyle.ListEquals | third_party/blink/renderer/core/frame/dom_guard.cc:239-254 | The list comparison always yields a valid match state |
| DomStyle.ListDecidedByFirstItem | third_party/blink/renderer/core/frame/dom_guard.cc:239-254 | Two numeric lists of equal length are accepted exactly when their first numbers are equal, whatever the later numbers; otherwise the state records whether the first recorded number is above or below |
| DomStyle.ListEqualsAccepts | third_party/blink/renderer/core/frame/dom_guard.cc:239-254 | A list comparison accepts exactly when every item accepts in turn, the first from the incoming state and the rest from acceptance; otherwise it ends in the first item's state |
| DomStyle.ListStaysAccepted | third_party/blink/renderer/core/frame/dom_guard.cc:239-254 | Once accepted, the rest of a list leaves the state accepted |
| DomStyle.AlternativeStep | third_party/blink/renderer/core/frame/dom_guard.cc:293-313 | An empty alternative accepts only a missing value; a missing value leaves a non-empty alternative undecided; a textual pattern match accepts |
| DomStyle.RunAlternatives | third_party/blink/renderer/core/frame/dom_guard.cc:315-347 | Running the alternatives always yields a valid match state |
| DomStyle.NumericRun | third_party/blink/renderer/core/frame/dom_guard.cc:323-347 | Over numeric alternatives, a number is accepted exactly when one equals it, or alternatives both above and below it are seen |
| DomStyle.NumericRange | third_party/blink/renderer/core/frame/dom_guard.cc:315-347 | A recorded value of numeric alternatives accepts a number exactly when some alternative equals it or it lies between two of them |
| DomStyle.MergeShadowProperty | third_party/blink/renderer/core/frame/dom_guard.cc:608-623 | An empty recorded value is replaced by the new text; an accepting one is kept; otherwise the new text becomes one more alternative |
| DomStyle.RunEndsAccepted | third_party/blink/renderer/core/frame/dom_guard.cc:323-347 | A final alternative that accepts from any state makes the whole run accept |
| DomStyle.MergePropertyAccepts | third_party/blink/renderer/core/frame/dom_guard.cc:608-623 | With the corrected encoding, a merged property value accepts the value just merged |
| ScannerUtils.OneByteFlagsConsistent | third_party/blink/renderer/core/frame/v8_scanner/utils.h:65-89 | Identifier start implies part; whitespace implies whitespace-or-line-terminator; CR and LF get the line flags; maybe-line-end holds exactly for LF, CR, `(` and `)`; identifier start is ID_Start or `\` |
| ScannerUtils.IdentifierStartIsPart | third_party/blink/renderer/core/frame/v8_scanner/utils.h:91-112 | Every identifier start, `\` included, is an identifier part |
| ScannerUtils.IsIdentifierStart | third_party/blink/renderer/core/frame/v8_scanner/utils.h:96-99 | Below 256 the flag table answers for Latin-1 ID_Start, `$`, `_` and `\`; above, the Unicode ID_Start table for BMP characters and false beyond; every identifier start is an identifier part |
| ScannerUtils.IsIdentifierPart | third_party/blink/renderer/core/frame/v8_scanner/utils.h:109-112 | Below 256 the flag table answers for Latin-1 ID_Continue, `$`, `_` and `\`; above, the Unicode ID_Start or ID_Continue tables for BMP characters and false beyond |
| ScannerUtils.IsWhiteSpaceAsWritten | third_party/blink/renderer/core/frame/v8_scanner/utils.h:124-127 | With a bounds-checked table, the inverted range test fails exactly for characters at or past the table's end |
| ScannerUtils.IsWhiteSpaceAsWrittenOverruns | third_party/blink/renderer/core/frame/v8_scanner/utils.h:124-127 | U+0100 already reads past the table |
| ScannerUtils.IsWhiteSpace | third_party/blink/renderer/core/frame/v8_scanner/utils.h:61-63 | Corrected: for Latin-1 exactly tab, vertical tab, form feed, space and no-break space; above it the Unicode table |
| ScannerUtils.IsWhiteSpaceOrLineTerminator | third_party/blink/renderer/core/frame/v8_scanner/utils.h:129-136 | For Latin-1, exactly the whitespace characters plus LF and CR |
| ScannerUtils.AsciiAlphaToLowerOfLetters | third_party/blink/renderer/core/frame/v8_scanner/utils.h:138 | `c | 0x20` maps both cases of an ASCII letter to the lower-case letter |
| ScannerUtils.AsciiCaseRoundTrip | third_party/blink/renderer/core/frame/v8_scanner/utils.h:176-190 | Upper-casing maps `a`..`z` onto `A`..`Z`, lower-casing undoes it, and both leave non-letters alone |
| ScannerUtils.ToAsciiUpper | third_party/blink/renderer/core/frame/v8_scanner/utils.h:184-186 | A lower-case ASCII letter becomes its upper-case letter (0x20 lower); every other character is unchanged |
| ScannerUtils.ToAsciiLower | third_party/blink/renderer/core/frame/v8_scanner/utils.h:188-190 | An upper-case ASCII letter becomes its lower-case letter (0x20 higher); every other character is unchanged |
| ScannerUtils.DigitClassesNest | third_party/blink/renderer/core/frame/v8_scanner/utils.h:144-174 | Binary digits are octal, octal digits are decimal, decimal digits are hex |
| ScannerUtils.HexValueMeaning | third_party/blink/renderer/core/frame/v8_scanner/utils.h:114-120 | The value lies in 0..15 exactly for hex digits and is -1 otherwise; decimal digits and both letter cases get their base-16 value |
| ScannerUtils.HexValue | third_party/blink/renderer/core/frame/v8_scanner/utils.h:114-120 | The digit value with its unsigned wrap-around; HexValueMeaning states it is 0..15 exactly for hex digits and -1 otherwise |
| Unicode.CombineSurrogatePair | third_party/blink/renderer/core/frame/v8_scanner/unicode.h:108-110 | Any combination lies in the supplementary range 0x10000..0x10FFFF |
| Unicode.LeadSurrogate | third_party/blink/renderer/core/frame/v8_scanner/unicode.h:121-123 | The lead half of a supplementary code point is a lead surrogate |
| Unicode.TrailSurrogate | third_party/blink/renderer/core/frame/v8_scanner/unicode.h:124-126 | The trail half of any code point is a trail surrogate |
| Unicode.SurrogateClasses | third_party/blink/renderer/core/frame/v8_scanner/unicode.h:98-106 | No unit is both a lead and a trail; the classes are the ranges 0xD800..0xDBFF and 0xDC00..0xDFFF; a pair is a lead then a trail |
| Unicode.CombineInvertsSplit | third_party/blink/renderer/core/frame/v8_scanner/unicode.h:108-126 | Splitting a supplementary code point and combining the halves gives it back |
| Unicode.SplitInvertsCombine | third_party/blink/renderer/core/frame/v8_scanner/unicode.h:108-126 | Combining a surrogate pair and splitting the result gives the pair back |
| Unicode.TryConvertToLatin1 | third_party/blink/renderer/core/frame/v8_scanner/unicode.h:135-147 | The two Greek mu forms map to 0xB5, capital Y with diaeresis maps to 0xFF, and every other unit is unchanged |
| ScannerEscapes.ScanHexNumber | third_party/blink/renderer/core/frame/v8_scanner/scanner.cc:74-93 | Succeeds exactly when the next `n` units are hex digits, consuming them and, for up to eight digits, returning their value; otherwise fails at the first non-hex unit with an invalid-escape message |
| ScannerEscapes.HexLoopShape | third_party/blink/renderer/core/frame/v8_scanner/scanner.cc:80-90 | The loop stops after `n` digits or at the first non-hex unit, and succeeds exactly in the first case |
| ScannerEscapes.HexLoopValue | third_party/blink/renderer/core/frame/v8_scanner/scanner.cc:80-90 | Within eight digits the `uc32` accumulator never wraps: it holds the exact value of the digits read |
| ScannerEscapes.HexRunEnd | third_party/blink/renderer/core/frame/v8_scanner/scanner.cc:95-113 | The run of hex digits ends at the first non-hex unit |
| ScannerEscapes.ScanUnlimitedLengthHexNumber | third_party/blink/renderer/core/frame/v8_scanner/scanner.cc:95-113 | A returned value never exceeds the bound; a non-hex first unit fails without a message; an overflow fails with the undefined-code-point message |
| ScannerEscapes.UnlimitedHexValue | third_party/blink/renderer/core/frame/v8_scanner/scanner.cc:95-113 | Under a bound such as 0x10FFFF, the scan succeeds exactly when the whole run's value is within the bound, and returns that value |
| ScannerEscapes.SignedDigitMeaning | third_party/blink/renderer/core/frame/v8_scanner/scanner.cc:355-357 | The unit minus `'0'`, read back as a signed `int`, lies in 0..7 exactly for octal digits, and is then the digit's value |
| ScannerEscapes.ScanOctalEscape | third_party/blink/renderer/core/frame/v8_scanner/scanner.cc:351-374 | The value is below 256 and is the octal value of the first digit and at most `length` further octal digits; the scan stops at `length` digits or before a non-octal unit; the octal message is reported exactly when the first digit is not `0`, a further digit was read, or an 8 or 9 follows |
| ScannerEscapes.OctalLoopSpec | third_party/blink/renderer/core/frame/v8_scanner/scanner.cc:355-366 | The loop reads only octal digits, stops before the value would reach 256, and its value is the numeral of the digits read |
| ScannerEscapes.ScanUnicodeEscape | third_party/blink/renderer/core/frame/v8_scanner/scanner.cc:769-788 | A value is within 0x10FFFF; the braced form ends on the `}` right after its hex run; the other form is `ScanHexNumber` of four digits; every failure carries a message |
| ScannerEscapes.UnicodeEscapeValue | third_party/blink/renderer/core/frame/v8_scanner/scanner.cc:769-788 | Both forms denote the hex value of their digits |
| ScannerEscapes.SingleEscape | third_party/blink/renderer/core/frame/v8_scanner/scanner.cc:307-320 | A single-character escape always denotes a control character below 0x20 |
| ScannerEscapes.ScanEscape | third_party/blink/renderer/core/frame/v8_scanner/scanner.cc:296-349 | The escape always consumes the escaped unit; only `\u` and `\x` can fail, and a failure carries a message; an escape adding nothing is a line continuation outside templates; otherwise it adds one unit; an octal message comes only from a digit |
| ScannerEscapes.EscapeMeanings | third_party/blink/renderer/core/frame/v8_scanner/scanner.cc:296-349 | `\n`, `\t` and `\b` denote their control characters, a character that is no single escape, digit, `u` or `x` denotes itself, and `\x` with two hex digits denotes their value |
| ScannerEscapes.OctalEscapeFlag | third_party/blink/renderer/core/frame/v8_scanner/scanner.cc:325-333 | An octal escape adds one unit below 256; `\0` not followed by a digit is NUL with no octal message; `\1` through `\7` always carry the octal message |
| ScannerNumbers.SepLoopAccepts | third_party/blink/renderer/core/frame/v8_scanner/scanner.cc:507-535 | The separator loop accepts exactly the well-separated runs: no `__` and no trailing `_` |
| ScannerNumbers.SepLoopCollects | third_party/blink/renderer/core/frame/v8_scanner/scanner.cc:507-535 | On success it stops at the end of the run and the literal gains the run's digits without the underscores |
| ScannerNumbers.ScanDigitsWithNumericSeparators | third_party/blink/renderer/core/frame/v8_scanner/scanner.cc:507-535 | Succeeds exactly for a well-separated run that, when the first digit is checked, starts with a digit |
| ScannerNumbers.SeparatedScanExtends | third_party/blink/renderer/core/frame/v8_scanner/scanner.cc:507-535 | A successful scan leaves the cursor after the run, on neither a digit nor an underscore |
| ScannerNumbers.DigitsWithoutUnderscores | third_party/blink/renderer/core/frame/v8_scanner/scanner.cc:507-535 | A run of digits alone is well separated and loses nothing when underscores are removed |
| ScannerNumbers.ScanDecimalDigits | third_party/blink/renderer/core/frame/v8_scanner/scanner.cc:537-550 | With separators allowed it is the separator scan; without, it fails exactly when an underscore ends the digit run; success stops on neither a digit nor an underscore, having added only decimal digits |
| ScannerNumbers.ScanDecimalAsSmi | third_party/blink/renderer/core/frame/v8_scanner/scanner.cc:552-593 | The accumulated value is the decimal value of the digits read, reduced modulo 2^64; the scan stops on a non-digit; with separators it succeeds exactly when the separator loop does, and without it always succeeds |
| ScannerNumbers.SmiValueExact | third_party/blink/renderer/core/frame/v8_scanner/scanner.cc:552-593 | For at most ten digits the accumulator is exact |
| ScannerNumbers.ImplicitOctalDigits | third_party/blink/renderer/core/frame/v8_scanner/scanner.cc:603-621 | Legacy octal stays implicit octal exactly when no decimal digit follows; an 8 or 9 makes it a decimal with a leading zero |
| ScannerNumbers.LeadingZero | third_party/blink/renderer/core/frame/v8_scanner/scanner.cc:650-682 | A literal not starting with `0` is decimal from the start; a decimal-with-leading-zero literal starts with `0`; what the lead collects never holds a period |
| ScannerNumbers.Prefixed | third_party/blink/renderer/core/frame/v8_scanner/scanner.cc:650-672 | A `0x`, `0o` or `0b` literal moves past its prefix, keeps the prefix's kind, and collects no period |
| ScannerNumbers.ScanSignedInteger | third_party/blink/renderer/core/frame/v8_scanner/scanner.cc:627-632 | A successful exponent scan consumes and collects at least one unit and stops on a non-digit |
| ScannerNumbers.ScanNumber | third_party/blink/renderer/core/frame/v8_scanner/scanner.cc:634-760 | A small integer has no period, at most ten characters, a value up to 2147483647 and no `.` or identifier start after it; an accepted literal is not followed by a digit or identifier start; an exponent only follows a decimal kind; a BigInt has no period, a valid kind and ends in `n` |
| ScannerNumbers.NonZeroLeadIsDecimal | third_party/blink/renderer/core/frame/v8_scanner/scanner.cc:684-718 | A literal not starting with zero goes straight to the decimal branch |
| ScannerNumbers.FastPathTaken | third_party/blink/renderer/core/frame/v8_scanner/scanner.cc:685-705 | When the fast path read at most ten characters of value at most 2147483647 and no period or identifier start follows, the decimal branch returns that small integer |
| ScannerNumbers.SmallIntegerIsSmi | third_party/blink/renderer/core/frame/v8_scanner/scanner.cc:685-705 | A decimal integer without separators or leading zero, of at most ten digits and value at most 2147483647, followed by neither `.` nor an identifier start, scans as a small integer with that value |
| ScannerNumbers.SmiRunScan | third_party/blink/renderer/core/frame/v8_scanner/scanner.cc:581-593 | The fast path over a short run collects the run and holds its exact value |
| ScannerNumbers.Final | third_party/blink/renderer/core/frame/v8_scanner/scanner.cc:750-759 | A literal is illegal exactly when a decimal digit or an identifier start follows it |
| ScannerLiterals.ScanString | third_party/blink/renderer/core/frame/v8_scanner/scanner.cc:376-415 | A string token is returned only when the opening quote closes it, and every line terminator inside an accepted literal lies inside an escape the body loop read (a line continuation), never bare |
| ScannerLiterals.BodyTerminatorsEscaped | third_party/blink/renderer/core/frame/v8_scanner/scanner.cc:395-415 | In an accepted literal every line terminator lies inside an escape sequence that the one-unit-at-a-time reading reaches from the start of the body |
| ScannerLiterals.TerminatorBody | third_party/blink/renderer/core/frame/v8_scanner/scanner.cc:395-415 | A line terminator reached through plain units makes the body reading end with an illegal string |
| ScannerLiterals.StringRunIsBody | third_party/blink/renderer/core/frame/v8_scanner/scanner.cc:380-394 | The fast loop skips only units the one-at-a-time reading adds unchanged, so both readings agree |
| ScannerLiterals.PlainStringBody | third_party/blink/renderer/core/frame/v8_scanner/scanner.cc:376-415 | A body free of the quote, backslashes and line terminators is read into the literal unchanged |
| ScannerLiterals.PlainString | third_party/blink/renderer/core/frame/v8_scanner/scanner.cc:376-415 | A string literal without escapes or line terminators yields its body and ends after the closing quote |
| ScannerLiterals.LineTerminatorInString | third_party/blink/renderer/core/frame/v8_scanner/scanner.cc:405-410 | A line terminator anywhere after the opening quote, reached through units that are neither the quote, a backslash nor a line terminator, makes the literal illegal |
| ScannerLiterals.ScanRegExpPattern | third_party/blink/renderer/core/frame/v8_scanner/scanner.cc:833-875 | An accepted pattern ends on `/`, its literal is the prefix plus the body, it holds no line terminator, no class is open at its end, and the body is whole escapes and ordinary units with no slash outside a class |
| ScannerLiterals.RegExpBodyLiteral | third_party/blink/renderer/core/frame/v8_scanner/scanner.cc:845-869 | The literal is the units read, in order |
| ScannerLiterals.RegExpBodyNoTerminator | third_party/blink/renderer/core/frame/v8_scanner/scanner.cc:845-869 | No unit of an accepted body is a line terminator |
| ScannerLiterals.RegExpEndsOutsideClass | third_party/blink/renderer/core/frame/v8_scanner/scanner.cc:845-869 | Where an accepted pattern ends, the character-class state read from the opening slash is closed |
| ScannerLiterals.RegExpBodySlashFree | third_party/blink/renderer/core/frame/v8_scanner/scanner.cc:845-869 | An accepted body has no slash outside a character class that is not escaped, and no backslash without a unit after it |
| ScannerLiterals.RegExpBodyFindsSlash | third_party/blink/renderer/core/frame/v8_scanner/scanner.cc:845-869 | Conversely, a slash reached through whole escapes and ordinary units without a line terminator, with the class closed, is where the body loop stops, and the literal is everything before it |
| ScannerLiterals.ScanRegExpPatternExact | third_party/blink/renderer/core/frame/v8_scanner/scanner.cc:833-875 | The pattern is accepted ending at a given slash exactly when the body before it has no line terminator, no slash outside a class that is not escaped, no dangling backslash, and a closed class |
| ScannerLiterals.SlashInClass | third_party/blink/renderer/core/frame/v8_scanner/scanner.cc:845-869 | Example: in `/[/]/` the inner slash belongs to the body |
| ScannerLiterals.EscapedLineTerminatorFails | third_party/blink/renderer/core/frame/v8_scanner/scanner.cc:849-854 | A line terminator directly after a backslash makes the scan fail, whatever follows |
| ScannerLiterals.PlainRegExpBody | third_party/blink/renderer/core/frame/v8_scanner/scanner.cc:845-869 | A body of ordinary units closed by a slash is read unchanged |
| ScannerLiterals.ScanTemplateSpan | third_party/blink/renderer/core/frame/v8_scanner/scanner.cc:430-505 | A tail ends with the backtick; a span ends with `${` or at the end of input; the cooked text is never longer than the raw text |
| ScannerLiterals.TemplateLoopEnd | third_party/blink/renderer/core/frame/v8_scanner/scanner.cc:454-500 | The loop ends in one of the three ways a template token ends |
| ScannerLiterals.TemplateLoopLengths | third_party/blink/renderer/core/frame/v8_scanner/scanner.cc:454-500 | The span extends both literals and keeps an earlier invalid-escape message; each unit adds no more cooked than raw text |
| ScannerLiterals.NormalizeLineTerminators | third_party/blink/renderer/core/frame/v8_scanner/scanner.cc:487-495 | The normalised text is no longer than the original and holds no CR |
| ScannerLiterals.PlainTemplateBody | third_party/blink/renderer/core/frame/v8_scanner/scanner.cc:430-505 | A body without backticks, dollar signs and backslashes gives the same cooked and raw text, its line terminators normalised |
| ScannerLiterals.TemplateNewlineEscape | third_party/blink/renderer/core/frame/v8_scanner/scanner.cc:462-482 | `\n` contributes backslash and `n` to the raw text and a line feed to the cooked text |
| ScannerLiterals.TemplateInvalidHexEscape | third_party/blink/renderer/core/frame/v8_scanner/scanner.cc:476-482 | An invalid `\x` escape does not end the template: the message is recorded and scanning continues |
| LiteralBuffer.TwoByteUnits | third_party/blink/renderer/core/frame/v8_scanner/literal-buffer.h:46-50 | The `n` 16-bit units read little-endian from the store |
| LiteralBuffer.Empty | third_party/blink/renderer/core/frame/v8_scanner/literal-buffer.h:17 | A new buffer is valid, one-byte and holds nothing |
| LiteralBuffer.Length | third_party/blink/renderer/core/frame/v8_scanner/literal-buffer.h:59 | The length is the number of units added |
| LiteralBuffer.Start | third_party/blink/renderer/core/frame/v8_scanner/literal-buffer.h:61-64 | The buffer becomes empty and one-byte; the store is kept |
| LiteralBuffer.Equals | third_party/blink/renderer/core/frame/v8_scanner/literal-buffer.h:41-44 | True exactly for a one-byte buffer whose contents equal the keyword |
| LiteralBuffer.OneByteLiteral | third_party/blink/renderer/core/frame/v8_scanner/literal-buffer.h:52-55 | In one-byte mode the literal is the contents |
| LiteralBuffer.TwoByteLiteral | third_party/blink/renderer/core/frame/v8_scanner/literal-buffer.h:46-50 | In two-byte mode the literal is the contents |
| LiteralBuffer.NewCapacityGrows | third_party/blink/renderer/core/frame/v8_scanner/literal-buffer.cc:15-19 | The new capacity exceeds any positive request and keeps an even request even |
| LiteralBuffer.ExpandBuffer | third_party/blink/renderer/core/frame/v8_scanner/literal-buffer.cc:21-29 | The new store has at least 64 bytes, is larger, keeps the bytes before the write position, and the contents are unchanged |
| LiteralBuffer.AddOneByteChar | third_party/blink/renderer/core/frame/v8_scanner/literal-buffer.h:79-83 | A full store is expanded first, so the write is in bounds; the byte is appended |
| LiteralBuffer.ConvertToTwoByte | third_party/blink/renderer/core/frame/v8_scanner/literal-buffer.cc:31-52 | The buffer becomes two-byte with its write position doubled and its contents unchanged |
| LiteralBuffer.Utf16Units | third_party/blink/renderer/core/frame/v8_scanner/literal-buffer.cc:54-69 | A code point up to 0xFFFF is its own single unit; above that it is a lead then a trail surrogate, and for a code point up to 0x10FFFF the pair combines back to it |
| LiteralBuffer.AddTwoByteChar | third_party/blink/renderer/core/frame/v8_scanner/literal-buffer.cc:54-69 | Every write stays in bounds; the contents gain the character's UTF-16 units; position and store stay even |
| LiteralBuffer.AddChar | third_party/blink/renderer/core/frame/v8_scanner/literal-buffer.h:28-37 | The contents gain the character's units; the buffer stays one-byte exactly when it was and the unit fits a byte |
| LiteralBuffer.AddAsciiChar | third_party/blink/renderer/core/frame/v8_scanner/literal-buffer.h:24-26 | An ASCII character is appended in either mode |
| LiteralBuffer.FillContents | third_party/blink/renderer/core/frame/v8_scanner/literal-buffer.h:46-64 | After `Start` and any sequence of `AddChar` calls, the literal is exactly the added units, in order |
| LiteralBuffer.FillOneByte | third_party/blink/renderer/core/frame/v8_scanner/literal-buffer.h:28-37 | After `Start` and any sequence of `AddChar` calls, the buffer is one-byte exactly when every unit fits a byte |
| CharacterStreams.GetDataAt | third_party/blink/renderer/core/frame/v8_scanner/scanner-character-streams.cc:35-37 | The range runs from the clamped position to the end and never past the data |
| CharacterStreams.UnbufferedReadBlock | third_party/blink/renderer/core/frame/v8_scanner/scanner-character-streams.cc:126-137 | The window is exactly the remaining data, and the read fails exactly when none remains |
| CharacterStreams.BufferedReadBlockAsWritten | third_party/blink/renderer/core/frame/v8_scanner/scanner-character-streams.cc:68-87 | Reading 16-bit units from a range counted in bytes runs past the range exactly when between 1 and 1023 bytes remain |
| CharacterStreams.BufferedReadBlockAsWrittenOverreads | third_party/blink/renderer/core/frame/v8_scanner/scanner-character-streams.cc:68-87 | As written, a one-byte source `a` read at 0 runs past its end |
| CharacterStreams.BufferedReadBlockAsWrittenPairsBytes | third_party/blink/renderer/core/frame/v8_scanner/scanner-character-streams.cc:68-87 | Findings witness: for 1024 bytes `a`, where the as-written read stays in range, it pairs the first two bytes into the unit 0x6161 |
| CharacterStreams.BufferedReadBlock | third_party/blink/renderer/core/frame/v8_scanner/scanner-character-streams.cc:68-87 | Corrected: at most 512 bytes from the position, each widened to one unit; an empty window exactly at the end of the data |
| CharacterStreams.ReadAllIsRest | third_party/blink/renderer/core/frame/v8_scanner/scanner-character-streams.cc:68-87 | Reading block after block yields exactly the remaining bytes, widened, in order |
| CharacterStreams.Utf16ReadAllIsRest | third_party/blink/renderer/core/frame/v8_scanner/scanner-character-streams.cc:161-179 | With a `FillBuffer` that stores at least one unit while data remains and none at the end, however it sizes its blocks, reading block after block yields exactly the rest of the source |
| CharacterStreams.ForTestingBytes | third_party/blink/renderer/core/frame/v8_scanner/scanner-character-streams.cc:186-199 | A null pointer is replaced by the one-element array holding 0, and the stream covers the first `length` elements of the data (of that array for null) |
| CharacterStreams.ForTestingUnits | third_party/blink/renderer/core/frame/v8_scanner/scanner-character-streams.cc:202-214 | For 16-bit data, a null pointer is replaced by the one-element array holding 0, and the stream covers the first `length` elements of the data (of that array for null) |
| CharacterStreams.StrLen | third_party/blink/renderer/core/frame/v8_scanner/scanner-character-streams.cc:181-184 | For bytes holding a terminating zero, as C's `strlen` requires, the index of the first zero byte |
| CharacterStreams.ForTestingCString | third_party/blink/renderer/core/frame/v8_scanner/scanner-character-streams.cc:182-185 | The stream covers the bytes before the terminating zero |
| CharacterStreams.ReadBlock | third_party/blink/renderer/core/frame/v8_scanner/scanner-character-streams.cc:68-137 | With the one-byte path corrected, any block read holds the source's units from the position on: the rest of the data for 16-bit sources, widened bytes for one-byte sources |

## Left out

- Guest-view event wiring: the `once`/`on` listeners, `_sendInternal`, `loadURL`, `capturePage`, the native `webViewManager` binding and logging. Each becomes an `Effect` value or is dropped.
- `parseWebViewWebPreferences` and the allow-lists of `web-view-methods` come from files that are not part of this model. They are parameters.
- GuestViewManager.CreateGuest: only record insertion is modelled. The `did-attach`, `dom-ready`, `new-window` and event-forwarding listeners are outside the registry's state.
- Concurrency: each IPC message and each listener is one atomic state transition. Promise resolution order is not modelled.
- `electron/lib/renderer/web-view/web-view-impl.ts`, `electron_api_web_frame_main.cc`/`.h`, `electron_browser_client.h`, `platform_util.h`/`platform_util_linux.cc` and `element-inl.h` hold renderer UI glue, bindings over foreign objects, process launching and attribute storage. They are not part of this model.
- WebContentsPreferences.OverrideWebkitPrefs: only a subset of the Blink settings is modelled (the booleans, autoplay, insecure content, background colour and v8 cache options). Fonts, default encoding, zoom and the other settings are left out.
- Nested preference dictionaries are opaque values. JavaScript-to-base value conversion is reduced to booleans, strings, lists and truthiness.
- The DOM guard's tree and CSS machinery (`locate*InShadowTree`, `createShadowNode`, the allow-list lookups, `WillSetStyle`, `collectStyleChanges`) depends on Blink DOM and CSS. Where the element was found is a `ShadowMatch` parameter.
- `scriptEquals` needs a full JavaScript tokenizer and `urlEquals` needs URL parsing. Both are parameters of the attribute and style comparisons.
- DomStyle.NumericStep: CSS numeric values are doubles in the source and integers here. Only their order and equality matter to the state machine.
- DomStyle: URI, image and colour values are compared by an abstract `urlEquals`/text environment. Values of other classes compare by text only.
- Identifier and keyword scanning, `Next`, `PeekAhead`, the comment skippers and `SeekForward`/`SeekNext` are driven by `Scan` and stream seeking in `scanner-inl.h`. That file is not part of this model, and neither is `scanner.h`.
- From `scanner-inl.h` and `scanner.h` the model takes only what the modelled fragments need: the string-terminator flag, the end-of-input marker and the order of the number kinds. They are written out in the modules that use them.
- The `unibrow` Unicode tables (ID_Start, ID_Continue, WhiteSpace, line terminators) are a `UnicodeTables` parameter.
- `ErrorState` and error locations: the escape, string and template scanners keep only the first message, not its source range.
- Conversion of decimal and BigInt literal text to floating-point or BigInt values is not modelled. Only the token, the literal text and the small-integer value are.
- ScannerEscapes.ScanHexNumber: the value is stated only for up to eight digits. Beyond that the `uc32` accumulator wraps, and the scanner only asks for two or four.
- ScannerEscapes.UnlimitedHexValue: requires a bound below 2^28. The one bound the scanner uses, 0x10FFFF, meets it; a larger bound could wrap the accumulator.
- ScannerEscapes.ScanUnlimitedLengthHexNumber: for a bound of 2^28 or more, the value is only stated to stay within the bound.
- DomPattern.StringEquals: values are sequences of characters, while Blink's `String` is indexed by UTF-16 code unit. Outside the Basic Multilingual Plane a `?` here consumes the whole character, where Blink consumes only its lead surrogate. So the pattern `a?` accepts `a😀` here and is refused by Blink. Values within the Basic Multilingual Plane are matched alike.
- WebContentsPreferences.AppendCommandLineSwitches: switches are compared by name exactly as written. `base::CommandLine` strips a leading `--`, `-` or `/` from a switch name and lowercases names on Windows. So a custom switch `--enable-sandbox` counts as `enable-sandbox` there and not here. The switch-name strings come from Chromium's and Electron's switch files, which are not part of this model; they are written out as constants.
- `kInvalidSequence`, which `ScanUnicodeEscape` compares the hex value against, is defined in a header that is not part of this model. It is read as the scanner's `Invalid()` sentinel, the value the hex scanners return on failure.
- ScannerNumbers.ScanNumber: number errors are modelled without their messages. An `Illegal` token and a failed digit scan carry no `kContinuousNumericSeparator`, `kTrailingNumericSeparator`, `kInvalidOrUnexpectedToken`, `kZeroDigitNumericSeparator` or `kBigIntTooBig`, and the `kStrictOctalLiteral` an implicit octal records is not kept when the literal then ends illegal (`07n`). The token, its literal and its end position are modelled; the octal message of an accepted literal is kept.
- The `UnicodeTables` predicates are not constrained at the end-of-input marker, where `unibrow` answers false. Some code consults a table without testing for the marker first: the line-continuation tests of `ScanEscape` and of a template backslash, and the fast string-run test. Those contracts are stated in terms of the table's answer for the character read.
- The buffered character streams' `FillBuffer` for UTF-16 and the chunked `ByteStream` sources are not modelled. `FillBuffer` is a parameter: the number of units it stores at each position.

## Findings

| source | as written | input that shows it | evidently intended | confidence | as-written member | corrected member |
|---|---|---|---|---|---|---|
| third_party/blink/renderer/core/frame/dom_guard.cc:579-596 | `escapeAndAddToAttributeValue` escapes `\`, `\|` and `*` once. The splitting loop removes that escape level, and the alternative is then matched as a glob. So `\` in a recorded value escapes the next character, and `?` stays a wildcard | recording `a\b` gives an alternative that refuses `a\b`; recording `a?` gives one that accepts `ab` | the recorded alternative accepts exactly the value recorded, so the escape must survive the split as a glob escape of `\`, `*` and `?` | high, not executed | DomPattern.AsWrittenAlternativeIsGlob, DomGuard.MergeAsWrittenMisrecords | DomPattern.CorrectedAlternativeIsExact, DomGuard.MergeAccepts, DomGuard.MergeAcceptsExactlyOneMore |
| third_party/blink/renderer/core/frame/v8_scanner/scanner-character-streams.cc:68-87 | the buffered `ReadBlock` takes `min(512, length)` as its count, with `length` in bytes, and then copies that many 16-bit units, pairing bytes up; whenever 1 to 1023 bytes remain it reads past the range | the one-byte source `a` read at position 0 | copy up to `kBufferSize` bytes, widening each to a unit, until the data runs out | high, not executed | CharacterStreams.BufferedReadBlockAsWrittenOverreads | CharacterStreams.BufferedReadBlock |
| third_party/blink/renderer/core/frame/v8_scanner/utils.h:124-127 | `IsWhiteSpace` takes the slow path for 0..255 and indexes the 256-entry table for everything else | U+0100 | the table for 0..255 and the slow path above, like `IsWhiteSpaceOrLineTerminator` | high, not executed | ScannerUtils.IsWhiteSpaceAsWrittenOverruns | ScannerUtils.IsWhiteSpace |

=== FILE: character_streams.dfy ===
/** The character streams the scanner reads from (scanner-character-streams.cc): a testing byte
    source over an in-memory array, and the buffered (byte) and unbuffered (16-bit) views that
    `ReadBlock` refills. Pointers become sequences and indices into them. */
module CharacterStreams {
  import opened Globals
  import opened Wrappers

  /** `kBufferSize` of the buffered streams. */
  const kBufferSize: nat := 512

  function Min(a: int, b: int): int { if a <= b then a else b }

  /** `TestingStream::GetDataAt`: the data from `pos` to the end, with `pos` clamped to the
      length, so a position past the end gives an empty range rather than an invalid one. */
  function GetDataAt<T>(data: seq<T>, pos: nat): (range: seq<T>)
    ensures |range| == |data| - Min(|data|, pos)
    ensures forall i :: 0 <= i < |range| ==> range[i] == data[pos + i]
    ensures |range| == 0 <==> pos >= |data|
  {
    data[Min(|data|, pos)..]
  }

  /** The outcome of a `ReadBlock`: whether anything was read, and the units now between the
      buffer start and end. */
  datatype Block = Block(ok: bool, units: seq<uc16>)

  /** `UnbufferedCharacterStream::ReadBlock`: the buffer is the range `GetDataAt` returns itself,
      and the call succeeds exactly when that range is non-empty. */
  function UnbufferedReadBlock(data: seq<uc16>, position: nat): (b: Block)
    ensures b.ok <==> position < |data|
    ensures b.ok ==> b.units == data[position..]
    ensures !b.ok ==> b.units == []
  {
    var range := GetDataAt(data, position);
    Block(|range| != 0, range)
  }

  /** Each byte as a 16-bit unit of the same value, the way a Latin-1 source is read. */
  function Widen(bytes: seq<byte>): (r: seq<uc16>)
    ensures |r| == |bytes|
    ensures forall i :: 0 <= i < |bytes| ==> r[i] == bytes[i] as uc16
  {
    seq(|bytes|, (i: int) requires 0 <= i < |bytes| => bytes[i] as uc16)
  }

  /** `BufferedCharacterStream::ReadBlock` as written: it takes `min(kBufferSize, length)` units
      where `length` counts bytes, and reads unit `i` as the 16-bit little-endian value at byte
      offset `2 * i` of the range. `None` stands for a read past the end of the range, which
      happens whenever the range is non-empty and shorter than `2 * kBufferSize` bytes. */
  function BufferedReadBlockAsWritten(bytes: seq<byte>, position: nat): (r: Option<Block>)
    ensures r.None? <==> (var n := |bytes| - Min(|bytes|, position); 0 < n < 2 * kBufferSize)
  {
    var range := GetDataAt(bytes, position);
    if |range| == 0 then Some(Block(false, []))
    else
      var length := Min(kBufferSize, |range|);
      if 2 * length > |range| then None
      else Some(Block(true, seq(length, (i: int) requires 0 <= i < length =>
                                  (range[2 * i] as int) + 0x100 * (range[2 * i + 1] as int))))
  }

  /** The as-written read runs past the end of a one-byte source: `"a"` at position 0. */
  lemma BufferedReadBlockAsWrittenOverreads()
    ensures BufferedReadBlockAsWritten(['a' as byte], 0).None?
  {
  }

  /** Even when the range is long enough, the as-written read pairs bytes up: 1024 bytes of `a`
      read back as units 0x6161 rather than 0x61. */
  lemma BufferedReadBlockAsWrittenPairsBytes()
    ensures var r := BufferedReadBlockAsWritten(seq(1024, _ => 0x61), 0);
            r.Some? && r.value.ok && r.value.units[0] == 0x6161
  {
  }

  /** `BufferedCharacterStream::ReadBlock` as intended: up to `kBufferSize` bytes from
      `position` on, each widened to one unit; it fails exactly when the range is empty. */
  function BufferedReadBlock(bytes: seq<byte>, position: nat): (b: Block)
    ensures b.ok <==> position < |bytes|
    ensures |b.units| <= kBufferSize
    ensures b.ok ==> 0 < |b.units| && position + |b.units| <= |bytes|
    ensures b.ok ==> b.units == Widen(bytes[position..position + |b.units|])
    ensures b.ok ==> |b.units| == kBufferSize || position + |b.units| == |bytes|
  {
    var range := GetDataAt(bytes, position);
    if |range| == 0 then Block(false, [])
    else
      var length := Min(kBufferSize, |range|);
      Block(true, Widen(range[..length]))
  }

  /** The units a scanner obtains by calling `ReadBlock` at the position just past each block
      until one reports nothing left. */
  function ReadAll(bytes: seq<byte>, position: nat): seq<uc16>
    decreases |bytes| - position
  {
    var b := BufferedReadBlock(bytes, position);
    if !b.ok then [] else b.units + ReadAll(bytes, position + |b.units|)
  }

  /** Reading block after block from `position` yields exactly the remaining bytes, widened, in
      order: nothing is skipped, repeated or invented at block boundaries. */
  lemma {:induction false} ReadAllIsRest(bytes: seq<byte>, position: nat)
    requires position <= |bytes|
    ensures ReadAll(bytes, position) == Widen(bytes[position..])
    decreases |bytes| - position
  {
    var b := BufferedReadBlock(bytes, position);
    if b.ok {
      var next := position + |b.units|;
      ReadAllIsRest(bytes, next);
      assert bytes[position..] == bytes[position..next] + bytes[next..];
      WidenAppend(bytes[position..next], bytes[next..]);
    } else {
      assert bytes[position..] == [];
    }
  }

  lemma WidenAppend(a: seq<byte>, b: seq<byte>)
    ensures Widen(a + b) == Widen(a) + Widen(b)
  {
  }

  /** `BufferedUtf16CharacterStream::ReadBlock` over a random-access source `units`: the buffer
      holds the `count` units `FillBuffer` stored from `position` (at most `kBufferSize`), and
      the call succeeds exactly when it stored any. */
  function BufferedUtf16ReadBlock(units: seq<uc16>, position: nat, count: nat): (b: Block)
    requires count <= kBufferSize && position + count <= |units|
    ensures b.ok <==> count > 0
    ensures b.units == units[position..position + count]
  {
    Block(0 < count, units[position..position + count])
  }

  /** What `FillBuffer` promises its caller, with `fill(p)` the count it returns at position
      `p`: at most `kBufferSize` units, at least one while any remain, none past the end. */
  ghost predicate HonestFill(units: seq<uc16>, fill: nat -> nat) {
    forall p: nat :: && fill(p) <= kBufferSize
                     && (p < |units| ==> 0 < fill(p) && p + fill(p) <= |units|)
                     && (p >= |units| ==> fill(p) == 0)
  }

  /** The units a scanner obtains from a buffered UTF-16 stream by reading block after block. */
  function ReadAllUtf16(units: seq<uc16>, position: nat, fill: nat -> nat): seq<uc16>
    requires HonestFill(units, fill) && position <= |units|
    decreases |units| - position
  {
    var b := BufferedUtf16ReadBlock(units, position, fill(position));
    if !b.ok then [] else b.units + ReadAllUtf16(units, position + |b.units|, fill)
  }

  /** With a `FillBuffer` that keeps its promise, however it sizes its blocks, reading block
      after block yields exactly the rest of the source. */
  lemma {:induction false} Utf16ReadAllIsRest(units: seq<uc16>, position: nat, fill: nat -> nat)
    requires HonestFill(units, fill) && position <= |units|
    ensures ReadAllUtf16(units, position, fill) == units[position..]
    decreases |units| - position
  {
    var b := BufferedUtf16ReadBlock(units, position, fill(position));
    if b.ok {
      var next := position + |b.units|;
      Utf16ReadAllIsRest(units, next, fill);
      assert units[position..] == units[position..next] + units[next..];
    } else {
      assert units[position..] == [];
    }
  }

  /** The source a testing stream reads: a one-byte (`char`) or a 16-bit array. */
  datatype Source = OneByte(bytes: seq<byte>) | TwoByte(units: seq<uc16>)

  /** `ForTesting(const char*, size_t)`: a null pointer is replaced by a one-element array
      holding 0, and the stream covers the first `length` elements. The caller promises that
      `length` elements are readable. */
  function ForTestingBytes(data: Option<seq<byte>>, length: nat): (s: Source)
    requires length <= |data.GetOr([0])|
    ensures s.OneByte? && |s.bytes| == length
    ensures data.Some? ==> s.bytes == data.value[..length]
    ensures data.None? ==> s.bytes == [0][..length]
  {
    var d := if data.None? then [0] else data.value;
    OneByte(d[..length])
  }

  /** `ForTesting(const uint16_t*, size_t)`: the same null substitution for 16-bit data. */
  function ForTestingUnits(data: Option<seq<uc16>>, length: nat): (s: Source)
    requires length <= |data.GetOr([0])|
    ensures s.TwoByte? && |s.units| == length
    ensures data.Some? ==> s.units == data.value[..length]
    ensures data.None? ==> s.units == [0][..length]
  {
    var d := if data.None? then [0] else data.value;
    TwoByte(d[..length])
  }

  /** `strlen`: the index of the first zero byte. */
  function StrLen(s: seq<byte>): (n: nat)
    requires 0 in s
    ensures n < |s| && s[n] == 0
    ensures forall i :: 0 <= i < n ==> s[i] != 0
  {
    if s[0] == 0 then 0 else 1 + StrLen(s[1..])
  }

  /** `ForTesting(const char*)`: the stream covers the bytes before the terminating zero. */
  function ForTestingCString(data: seq<byte>): (s: Source)
    requires 0 in data
    ensures s.OneByte? && 0 !in s.bytes && |s.bytes| < |data|
    ensures data == s.bytes + [0] + data[|s.bytes| + 1..]
  {
    ForTestingBytes(Some(data), StrLen(data))
  }

  /** Any block a stream reads, by either path, holds the source's units from `position` on. */
  function ReadBlock(s: Source, position: nat): (b: Block)
    ensures b.ok <==> position < (if s.OneByte? then |s.bytes| else |s.units|)
    ensures s.TwoByte? && b.ok ==> b.units == s.units[position..]
    ensures s.OneByte? && b.ok ==> position + |b.units| <= |s.bytes|
    ensures s.OneByte? && b.ok ==> b.units == Widen(s.bytes[position..position + |b.units|])
  {
    match s
    case OneByte(bytes) => BufferedReadBlock(bytes, position)
    case TwoByte(units) => UnbufferedReadBlock(units, position)
  }
}

=== FILE: dom_guard.dfy ===
/** The DOM guard's attribute and style checks (dom_guard.cc): a recorded ("shadow") value is
    split into alternatives, each compared with the value the page sets; in record mode a value
    that no alternative accepts is appended as a new alternative, and in enforce mode such a
    value is refused. */
module DomGuard {
  import opened Wrappers
  import opened DomPattern

  // ---------------------------------------------------------------------------------------
  // Identifiers

  /** The length of the run of non-space characters at the start of `s`. */
  function RunLength(s: Str): (n: nat)
    ensures n <= |s|
    ensures forall i :: 0 <= i < n ==> s[i] != ' '
    ensures n < |s| ==> s[n] == ' '
    decreases |s|
  {
    if s == [] || s[0] == ' ' then 0 else 1 + RunLength(s[1..])
  }

  /** `Split(" ", false, ...)`: the space-separated words of `s`, in order, empty entries
      dropped. */
  function Words(s: Str): (ws: seq<Str>)
    ensures forall i :: 0 <= i < |ws| ==> |ws[i]| > 0 && ' ' !in ws[i]
    decreases |s|
  {
    if s == [] then []
    else if s[0] == ' ' then Words(s[1..])
    else
      var n := RunLength(s);
      assert ' ' !in s[..n] by {
        forall i | 0 <= i < n ensures s[..n][i] != ' ' { assert s[..n][i] == s[i]; }
      }
      [s[..n]] + Words(s[n..])
  }

  /** `w` occurs in `s` at `i`, with a space or an end of `s` on either side. */
  ghost predicate DelimitedAt(s: Str, w: Str, i: int) {
    && 0 <= i && i + |w| <= |s| && s[i..i + |w|] == w
    && (i == 0 || s[i - 1] == ' ') && (i + |w| == |s| || s[i + |w|] == ' ')
  }

  /** `w` is a maximal non-empty run of non-space characters of `s`. */
  ghost predicate DelimitedWord(s: Str, w: Str) {
    |w| > 0 && ' ' !in w && exists i :: DelimitedAt(s, w, i)
  }

  /** The words are exactly the maximal non-empty runs of non-space characters. */
  lemma {:induction false} WordsAreDelimited(s: Str, w: Str)
    ensures w in Words(s) <==> DelimitedWord(s, w)
    decreases |s|
  {
    if s == [] {
      forall i ensures !DelimitedAt(s, w, i) || |w| == 0 { }
    } else if s[0] == ' ' {
      WordsAreDelimited(s[1..], w);
      DelimitedSkipSpace(s, w);
    } else {
      var n := RunLength(s);
      assert Words(s) == [s[..n]] + Words(s[n..]);
      WordsAreDelimited(s[n..], w);
      DelimitedAfterRun(s, w);
    }
  }

  /** A leading space bounds no word: the words of `s` are those after it. */
  lemma DelimitedSkipSpace(s: Str, w: Str)
    requires |s| > 0 && s[0] == ' '
    ensures DelimitedWord(s, w) <==> DelimitedWord(s[1..], w)
  {
    if DelimitedWord(s, w) {
      var i :| DelimitedAt(s, w, i);
      assert s[1..][i - 1..i - 1 + |w|] == s[i..i + |w|];
      assert DelimitedAt(s[1..], w, i - 1);
    }
    if DelimitedWord(s[1..], w) {
      var j :| DelimitedAt(s[1..], w, j);
      assert s[j + 1..j + 1 + |w|] == s[1..][j..j + |w|];
      assert DelimitedAt(s, w, j + 1);
    }
  }

  /** A leading run of non-spaces is the first word; the others lie after it. */
  lemma DelimitedAfterRun(s: Str, w: Str)
    requires |s| > 0 && s[0] != ' '
    ensures DelimitedWord(s, w) <==> w == s[..RunLength(s)] || DelimitedWord(s[RunLength(s)..], w)
  {
    var n := RunLength(s);
    if DelimitedWord(s, w) {
      var i :| DelimitedAt(s, w, i);
      if i == 0 {
        DelimitedAtStart(s, w);
      } else {
        DelimitedAfterStart(s, w, i);
      }
    }
    if w == s[..n] {
      assert ' ' !in w by {
        forall k | 0 <= k < |w| ensures w[k] != ' ' { assert w[k] == s[k]; }
      }
      assert DelimitedAt(s, w, 0);
    }
    if DelimitedWord(s[n..], w) {
      var j :| DelimitedAt(s[n..], w, j);
      DelimitedPastRun(s, w, j);
    }
  }

  /** A word of the rest after the leading run is a word of `s`. */
  lemma DelimitedPastRun(s: Str, w: Str, j: int)
    requires |w| > 0 && ' ' !in w && DelimitedAt(s[RunLength(s)..], w, j)
    ensures DelimitedAt(s, w, RunLength(s) + j)
  {
    var n := RunLength(s);
    var t := s[n..];
    assert t[j..j + |w|][0] == t[j];
    assert t[j] != ' ' by { assert w[0] in w; }
    assert j > 0 by { if j == 0 { assert t[0] == s[n]; } }
    assert s[n + j - 1] == t[j - 1];
    assert s[n + j..n + j + |w|] == t[j..j + |w|];
  }

  /** A word at the very start of `s` is the leading run. */
  lemma DelimitedAtStart(s: Str, w: Str)
    requires ' ' !in w && DelimitedAt(s, w, 0)
    ensures w == s[..RunLength(s)]
  {
    var n := RunLength(s);
    assert |w| == n;
  }

  /** A word after a space lies past the leading run. */
  lemma DelimitedAfterStart(s: Str, w: Str, i: int)
    requires |w| > 0 && ' ' !in w && DelimitedAt(s, w, i) && i > 0
    ensures DelimitedWord(s[RunLength(s)..], w)
  {
    var n := RunLength(s);
    assert s[i - 1] == ' ';
    assert i > n;
    assert s[n..][i - n..i - n + |w|] == s[i..i + |w|];
    assert DelimitedAt(s[n..], w, i - n);
  }

  predicate IsPrefix(prefix: Str, s: Str) {
    |prefix| <= |s| && s[..|prefix|] == prefix
  }

  /** Some word of `list` starts both ids. */
  predicate ListedPrefixMatch(list: Str, shadow: Str, actual: Str) {
    var prefixes := Words(list);
    exists i :: 0 <= i < |prefixes| && IsPrefix(prefixes[i], shadow) && IsPrefix(prefixes[i], actual)
  }

  /** Both ids start with one same space-delimited word of `list`. */
  ghost predicate SharedListedPrefix(list: Str, shadow: Str, actual: Str) {
    exists w :: DelimitedWord(list, w) && IsPrefix(w, shadow) && IsPrefix(w, actual)
  }

  lemma ListedPrefixMeaning(list: Str, shadow: Str, actual: Str)
    ensures ListedPrefixMatch(list, shadow, actual) <==> SharedListedPrefix(list, shadow, actual)
  {
    var prefixes := Words(list);
    if ListedPrefixMatch(list, shadow, actual) {
      var i :| 0 <= i < |prefixes| && IsPrefix(prefixes[i], shadow) && IsPrefix(prefixes[i], actual);
      WordsAreDelimited(list, prefixes[i]);
    }
    if SharedListedPrefix(list, shadow, actual) {
      var w :| DelimitedWord(list, w) && IsPrefix(w, shadow) && IsPrefix(w, actual);
      WordsAreDelimited(list, w);
      var i :| 0 <= i < |prefixes| && prefixes[i] == w;
    }
  }

  /** `idEquals`: the shadow and actual ids match as patterns, or (when the mode has more than
      one character) both start with one of the space-separated prefixes after its first
      character. */
  function IdEquals(shadow: Str, actual: Str, mode: Str): (r: bool)
    ensures r <==> StringEquals(shadow, actual) || (|mode| > 1 && SharedListedPrefix(mode[1..], shadow, actual))
  {
    var list := if |mode| > 1 then mode[1..] else [];
    ListedPrefixMeaning(list, shadow, actual);
    var prefixMatch := |mode| > 1 && ListedPrefixMatch(list, shadow, actual);
    prefixMatch || StringEquals(shadow, actual)
  }

  /** Two ids sharing any prefix listed in the mode, wherever it stands in the list, are equal,
      whatever follows. */
  lemma IdPrefixAccepts(m0: char, before: Str, prefix: Str, after: Str, shadow: Str, actual: Str)
    requires |prefix| > 0 && ' ' !in prefix
    requires before == [] || before[|before| - 1] == ' '
    requires after == [] || after[0] == ' '
    requires IsPrefix(prefix, shadow) && IsPrefix(prefix, actual)
    ensures IdEquals(shadow, actual, [m0] + before + prefix + after)
  {
    var mode := [m0] + before + prefix + after;
    var list := before + prefix + after;
    assert mode[1..] == list;
    assert list[|before|..|before| + |prefix|] == prefix;
    assert DelimitedAt(list, prefix, |before|);
  }

  // ---------------------------------------------------------------------------------------
  // Attributes

  /** Which comparison `attributeEquals` applies to an attribute. */
  datatype AttributeKind = IdKind | ScriptKind | UrlKind | PlainKind

  /** `dtt-id` and `id` compare as ids; names starting with `on` as scripts; URL attributes
      (decided by the element, given here as `isUrlAttribute`) as URLs; everything else as
      patterns. */
  function KindOf(name: Str, isUrlAttribute: bool): (k: AttributeKind)
    ensures k == IdKind <==> name == "dtt-id" || name == "id"
    ensures k == ScriptKind <==> name != "dtt-id" && name != "id" && IsPrefix("on", name)
    ensures k == PlainKind ==> !isUrlAttribute
  {
    if name == "dtt-id" || name == "id" then IdKind
    else if IsPrefix("on", name) then ScriptKind
    else if isUrlAttribute then UrlKind
    else PlainKind
  }

  /** The comparisons that need a JavaScript tokenizer (`scriptEquals`) or URL parsing
      (`urlEquals` over all alternatives) are parameters. */
  datatype Matchers = Matchers(scriptEquals: (Str, Str) -> bool, urlEquals: (seq<Str>, Str) -> bool)

  /** The test one alternative gets inside the splitting loop (never used for URL attributes). */
  function AlternativeEquals(m: Matchers, kind: AttributeKind, part: Str, actual: Str, mode: Str): bool {
    match kind
    case IdKind => IdEquals(part, actual, mode)
    case ScriptKind => m.scriptEquals(part, actual)
    case PlainKind => StringEquals(part, actual)
    case UrlKind => false
  }

  /** What `attributeEquals` decides: a null recorded value accepts only a null value; otherwise a
      URL attribute is accepted by `urlEquals` over all alternatives, and any other attribute when
      some alternative accepts it. A null value compares as the empty string; without a frame the
      mode is `"r"`. */
  function AttributeEquals(m: Matchers, kind: AttributeKind, shadow: Option<Str>, actual: Option<Str>,
                           frameMode: Option<Str>): bool
  {
    if shadow.None? then actual.None?
    else
      var parts := Split(shadow.value);
      var a := actual.GetOr([]);
      var mode := frameMode.GetOr("r");
      if kind == UrlKind then m.urlEquals(parts, a)
      else exists i :: 0 <= i < |parts| && AlternativeEquals(m, kind, parts[i], a, mode)
  }

  /** The alternatives completed before a prefix stay completed, in order, whatever follows. */
  lemma {:induction false} ScanDoneExtends(s: SplitState, a: Str, b: Str)
    ensures var d := ScanFrom(s, a).done; var e := ScanFrom(s, a + b).done;
            |d| <= |e| && e[..|d|] == d
    decreases |b|
  {
    ScanAppend(s, a, b);
    if b != [] {
      ScanDoneExtends(s, a, b[..|b| - 1]);
      ScanAppend(s, a, b[..|b| - 1]);
    }
  }

  /** No alternative in `parts` accepts `actual`. */
  predicate RefusedByAll(m: Matchers, kind: AttributeKind, parts: seq<Str>, actual: Str, mode: Str) {
    forall j :: 0 <= j < |parts| ==> !AlternativeEquals(m, kind, parts[j], actual, mode)
  }

  /** Refusing one more alternative keeps a list refused; URL alternatives are refused by every
      alternative test. */
  lemma RefusedBySnoc(m: Matchers, kind: AttributeKind, parts: seq<Str>, last: Str, actual: Str, mode: Str)
    requires RefusedByAll(m, kind, parts, actual, mode)
    requires kind == UrlKind || !AlternativeEquals(m, kind, last, actual, mode)
    ensures RefusedByAll(m, kind, parts + [last], actual, mode)
  {
    forall j | 0 <= j < |parts| + 1
      ensures !AlternativeEquals(m, kind, (parts + [last])[j], actual, mode)
    {
      if j < |parts| {
        assert (parts + [last])[j] == parts[j];
      }
    }
  }

  lemma ScanPrefixStep(sv: Str, i: nat)
    requires i < |sv|
    ensures ScanFrom(SplitStart, sv[..i + 1]) == SplitStep(ScanFrom(SplitStart, sv[..i]), sv[i])
  {
    assert sv[..i + 1][..i] == sv[..i];
  }

  /** An alternative completed by the `|` at index `i` is one of the alternatives of the whole
      value. */
  lemma CompletedIsAlternative(sv: Str, i: nat, done: seq<Str>, part: Str)
    requires i < |sv| && ScanFrom(SplitStart, sv[..i + 1]).done == done + [part]
    ensures |done| < |Split(sv)| && Split(sv)[|done|] == part
  {
    ScanDoneExtends(SplitStart, sv[..i + 1], sv[i + 1..]);
    assert sv[..i + 1] + sv[i + 1..] == sv;
  }

  /** `attributeEquals` with its character loop: alternatives are tested as they are completed
      and the loop stops at the first one accepted; URL alternatives are collected and tested
      together at the end. */
  method AttributeEqualsScan(m: Matchers, kind: AttributeKind, shadow: Option<Str>, actual: Option<Str>,
                             frameMode: Option<Str>) returns (r: bool)
    ensures r == AttributeEquals(m, kind, shadow, actual, frameMode)
  {
    if shadow.None? {
      return actual.None?;
    }
    var sv := shadow.value;
    var a := actual.GetOr([]);
    var mode := frameMode.GetOr("r");
    var escaped := false;
    var part: Str := [];
    var urls: seq<Str> := [];
    ghost var done: seq<Str> := [];
    var i := 0;
    while i < |sv|
      invariant 0 <= i <= |sv|
      invariant ScanFrom(SplitStart, sv[..i]) == SplitState(escaped, part, done)
      invariant kind == UrlKind ==> urls == done
      invariant RefusedByAll(m, kind, done, a, mode)
    {
      var c := sv[i];
      ScanPrefixStep(sv, i);
      ghost var next := SplitStep(SplitState(escaped, part, done), c);
      if escaped {
        escaped := false;
        part := part + [c];
      } else if c == '\\' {
        escaped := true;
      } else if c == '|' {
        if kind != UrlKind && AlternativeEquals(m, kind, part, a, mode) {
          CompletedIsAlternative(sv, i, done, part);
          return true;
        }
        if kind == UrlKind {
          urls := urls + [part];
        }
        RefusedBySnoc(m, kind, done, part, a, mode);
        done := done + [part];
        part := [];
      } else {
        part := part + [c];
      }
      assert SplitState(escaped, part, done) == next;
      i := i + 1;
    }
    assert sv[..i] == sv;
    assert Split(sv) == done + [part];
    if kind == UrlKind {
      r := m.urlEquals(urls + [part], a);
    } else {
      r := AlternativeEquals(m, kind, part, a, mode);
      assert AlternativeEquals(m, kind, Split(sv)[|done|], a, mode) == r;
    }
  }

  /** `mergeShadowAttribute`: the recorded value is kept when it already accepts the new value;
      otherwise the new value is appended as one more alternative (a null value as the empty
      string). */
  function MergeShadowAttribute(rev: Revision, m: Matchers, kind: AttributeKind, current: Option<Str>,
                                newValue: Option<Str>, frameMode: Option<Str>): (r: Option<Str>)
    ensures AttributeEquals(m, kind, current, newValue, frameMode) ==> r == current
    ensures !AttributeEquals(m, kind, current, newValue, frameMode) ==>
              r.Some? && (!PendingEscape(current.GetOr([])) ==>
                Split(r.value) == Split(current.GetOr([])) + [Alternative(rev, newValue.GetOr([]))])
  {
    if AttributeEquals(m, kind, current, newValue, frameMode) then current
    else
      var cur := current.GetOr([]);
      var r := EscapeAndAdd(rev, cur, newValue.GetOr([]));
      SplitWhenNoPendingEscape(rev, cur, newValue.GetOr([]));
      Some(r)
  }

  /** With the corrected encoding, a merged id or plain attribute accepts the value just merged,
      so merging the same value again changes nothing. */
  lemma MergeAccepts(m: Matchers, kind: AttributeKind, current: Option<Str>, newValue: Option<Str>,
                     frameMode: Option<Str>)
    requires kind == IdKind || kind == PlainKind
    requires !PendingEscape(current.GetOr([]))
    ensures var merged := MergeShadowAttribute(Corrected, m, kind, current, newValue, frameMode);
            && AttributeEquals(m, kind, merged, newValue, frameMode)
            && MergeShadowAttribute(Corrected, m, kind, merged, newValue, frameMode) == merged
  {
    var merged := MergeShadowAttribute(Corrected, m, kind, current, newValue, frameMode);
    if !AttributeEquals(m, kind, current, newValue, frameMode) {
      var v := newValue.GetOr([]);
      var parts := Split(merged.value);
      assert parts[|parts| - 1] == GlobEscape(v);
      GlobEscapeExact(v, v);
      assert AlternativeEquals(m, kind, parts[|parts| - 1], v, frameMode.GetOr("r"));
    }
  }

  /** With the corrected encoding, a merged plain attribute accepts exactly what the recorded value
      accepted before, plus the merged value. */
  lemma MergeAcceptsExactlyOneMore(m: Matchers, current: Str, newValue: Option<Str>, w: Option<Str>,
                                   frameMode: Option<Str>)
    requires !PendingEscape(current)
    ensures var merged := MergeShadowAttribute(Corrected, m, PlainKind, Some(current), newValue, frameMode);
            AttributeEquals(m, PlainKind, merged, w, frameMode) <==>
              AttributeEquals(m, PlainKind, Some(current), w, frameMode) || w.GetOr([]) == newValue.GetOr([])
  {
    var merged := MergeShadowAttribute(Corrected, m, PlainKind, Some(current), newValue, frameMode);
    var v := newValue.GetOr([]);
    var a := w.GetOr([]);
    var mode := frameMode.GetOr("r");
    GlobEscapeExact(v, a);
    if !AttributeEquals(m, PlainKind, Some(current), newValue, frameMode) {
      assert Split(merged.value) == Split(current) + [GlobEscape(v)];
      AcceptedBySnoc(m, PlainKind, Split(current), GlobEscape(v), a, mode);
    } else {
      assert merged == Some(current);
      if a == v {
        assert AttributeEquals(m, PlainKind, Some(current), w, frameMode)
            == AttributeEquals(m, PlainKind, Some(current), newValue, frameMode);
      }
    }
  }

  /** A list of alternatives extended by one accepts what the list accepted, plus what the new
      alternative accepts. */
  lemma AcceptedBySnoc(m: Matchers, kind: AttributeKind, before: seq<Str>, last: Str, a: Str, mode: Str)
    ensures var parts := before + [last];
      (exists i :: 0 <= i < |parts| && AlternativeEquals(m, kind, parts[i], a, mode)) <==>
        (exists i :: 0 <= i < |before| && AlternativeEquals(m, kind, before[i], a, mode))
        || AlternativeEquals(m, kind, last, a, mode)
  {
    var parts := before + [last];
    if exists i :: 0 <= i < |parts| && AlternativeEquals(m, kind, parts[i], a, mode) {
      var i :| 0 <= i < |parts| && AlternativeEquals(m, kind, parts[i], a, mode);
      if i < |before| {
        assert parts[i] == before[i];
      }
    }
    if exists i :: 0 <= i < |before| && AlternativeEquals(m, kind, before[i], a, mode) {
      var i :| 0 <= i < |before| && AlternativeEquals(m, kind, before[i], a, mode);
      assert parts[i] == before[i];
    }
    assert parts[|before|] == last;
  }

  /** As written, recording `a\b` leaves a recorded value that refuses `a\b`, so every further
      write of the same value appends it again; and recording `a?` lets `ab` through. */
  lemma MergeAsWrittenMisrecords(m: Matchers, frameMode: Option<Str>)
    ensures var merged := MergeShadowAttribute(AsWritten, m, PlainKind, Some("x"), Some("a\\b"), frameMode);
            && !AttributeEquals(m, PlainKind, merged, Some("a\\b"), frameMode)
            && MergeShadowAttribute(AsWritten, m, PlainKind, merged, Some("a\\b"), frameMode) != merged
    ensures var merged := MergeShadowAttribute(AsWritten, m, PlainKind, Some("x"), Some("a?"), frameMode);
            AttributeEquals(m, PlainKind, merged, Some("ab"), frameMode)
  {
    AsWrittenAlternativeIsGlob();
    var merged := MergeShadowAttribute(AsWritten, m, PlainKind, Some("x"), Some("a\\b"), frameMode);
    MergeOntoX(m, "a\\b", frameMode);
    LiteralPatternExact("x", "a\\b");
    PlainRefusedByBoth(m, merged.value, "x", "a\\b", "a\\b", frameMode);
    var merged2 := MergeShadowAttribute(AsWritten, m, PlainKind, Some("x"), Some("a?"), frameMode);
    MergeOntoX(m, "a?", frameMode);
    assert Split(merged2.value)[1] == "a?";
  }

  /** Merging a value other than `x` onto the recorded value `x` appends it as a second
      alternative. */
  lemma MergeOntoX(m: Matchers, v: Str, frameMode: Option<Str>)
    requires v != "x"
    ensures var merged := MergeShadowAttribute(AsWritten, m, PlainKind, Some("x"), Some(v), frameMode);
            merged.Some? && Split(merged.value) == ["x", v]
  {
    SplitPlain("x");
    LiteralPatternExact("x", v);
    assert !AttributeEquals(m, PlainKind, Some("x"), Some(v), frameMode) by {
      assert Split("x") == ["x"];
    }
  }

  /** A plain recorded value with two alternatives, neither matching `a`, refuses `a`. */
  lemma PlainRefusedByBoth(m: Matchers, sv: Str, p0: Str, p1: Str, a: Str, frameMode: Option<Str>)
    requires Split(sv) == [p0, p1]
    requires !StringEquals(p0, a) && !StringEquals(p1, a)
    ensures !AttributeEquals(m, PlainKind, Some(sv), Some(a), frameMode)
  {
    var parts := Split(sv);
    forall i | 0 <= i < |parts| ensures !StringEquals(parts[i], a) {
      if i == 0 { assert parts[i] == p0; } else { assert parts[i] == p1; }
    }
  }

  /** Where the attribute hook finds the element in the recorded tree (`locate*InShadowTree`,
      not modelled), with the recorded value when found. */
  datatype ShadowMatch =
    | Found(shadowValue: Option<Str>)
    | RootIsNotDocument
    | WhitelistMatch(whitelisted: bool)
    | NotFound

  /** The outcome of the attribute hook: whether the write is allowed, and the new recorded value
      when one is stored. */
  datatype Decision = Decision(allowed: bool, recorded: Option<Option<Str>>)

  /** Enforce mode's verdict on a write, by where the element was located. */
  predicate Refused(m: Matchers, kind: AttributeKind, mode: Str, located: ShadowMatch, newValue: Option<Str>) {
    match located
    case Found(v) => !AttributeEquals(m, kind, v, newValue, Some(mode))
    case RootIsNotDocument => false
    case WhitelistMatch(ok) => !ok
    case NotFound => true
  }

  /** `WillModifyDOMAttrExtended`: unmonitored writes are allowed untouched; in record mode (`r…`)
      a located element's recorded value is merged with the new value and the write is allowed; in
      enforce mode (`e…`) the write is allowed only if the recorded value accepts it, the whitelist
      accepts it, or the tree root is not a document. */
  function WillModifyAttribute(rev: Revision, m: Matchers, kind: AttributeKind, monitored: bool, mode: Str,
                               located: ShadowMatch, newValue: Option<Str>, shadowFrameMode: Option<Str>)
    : (d: Decision)
    ensures !monitored ==> d == Decision(true, None)
    ensures d.recorded.Some? ==> monitored && |mode| > 0 && mode[0] == 'r' && located.Found?
    ensures !d.allowed <==> monitored && |mode| > 0 && mode[0] == 'e' && Refused(m, kind, mode, located, newValue)
  {
    if !monitored then Decision(true, None)
    else if |mode| > 0 && mode[0] == 'r' then
      if located.Found? then
        Decision(true, Some(MergeShadowAttribute(rev, m, kind, located.shadowValue, newValue, shadowFrameMode)))
      else Decision(true, None)
    else if |mode| > 0 && mode[0] == 'e' then
      match located
      case RootIsNotDocument => Decision(true, None)
      case Found(v) => Decision(AttributeEquals(m, kind, v, newValue, Some(mode)), None)
      case WhitelistMatch(ok) => Decision(ok, None)
      case NotFound => Decision(false, None)
    else Decision(true, None)
  }

  /** With the corrected encoding, a plain attribute value written while recording is allowed when
      the same value is written again while enforcing. */
  lemma RecordThenEnforce(m: Matchers, recordedBefore: Option<Str>, v: Option<Str>, mode: Str)
    requires !PendingEscape(recordedBefore.GetOr([]))
    requires |mode| > 0 && mode[0] == 'e'
    ensures var rec := WillModifyAttribute(Corrected, m, PlainKind, true, "r", Found(recordedBefore), v, Some(mode));
            rec.recorded.Some? &&
            WillModifyAttribute(Corrected, m, PlainKind, true, mode, Found(rec.recorded.value), v, Some(mode)).allowed
  {
    MergeAccepts(m, PlainKind, recordedBefore, v, Some(mode));
  }
}

=== FILE: dom_pattern.dfy ===
/** The DOM guard's recorded-value language (dom_guard.cc): a recorded attribute or style value is
    a list of alternatives separated by `|`, in which `\` escapes the next character; each
    alternative is a glob pattern in which `*` matches any run of characters, `?` any one
    character, and `\` makes the next character literal. */
module DomPattern {
  type Str = seq<char>

  /** `stringEquals` from its two start positions on, written over the remaining suffixes
      (`p` of the pattern, `v` of the value); `escaped` is the pending-escape flag of the loop.
      The exhausted-value test comes before a `\` is consumed, so it never sees a pending
      escape. */
  function Glob(p: Str, v: Str, escaped: bool): bool
    decreases |p| + |v|
  {
    if |p| == 0 then |v| == 0
    else if |v| == 0 then p[0] == '*' && |p| == 1
    else if escaped then p[0] == v[0] && Glob(p[1..], v[1..], false)
    else if p[0] == '\\' then Glob(p[1..], v, true)
    else if p[0] == '*' then Glob(p[1..], v, false) || Glob(p, v[1..], false)
    else (p[0] == v[0] || p[0] == '?') && Glob(p[1..], v[1..], false)
  }

  /** `stringEquals(pattern, 0, value, 0)`. */
  function StringEquals(pattern: Str, value: Str): bool {
    Glob(pattern, value, false)
  }

  predicate IsGlobControl(c: char) { c == '*' || c == '?' || c == '\\' }

  /** A pattern without `*`, `?` or `\` matches a value exactly when the two are equal. */
  lemma {:induction false} LiteralPatternExact(p: Str, v: Str)
    requires forall i :: 0 <= i < |p| ==> !IsGlobControl(p[i])
    ensures StringEquals(p, v) <==> p == v
    decreases |p|
  {
    if |p| > 0 && |v| > 0 {
      LiteralPatternExact(p[1..], v[1..]);
      assert p == [p[0]] + p[1..] && v == [v[0]] + v[1..];
    }
  }

  /** An unescaped `?` consumes any one character. */
  lemma QuestionMatchesAnyChar(p: Str, c: char, v: Str)
    ensures StringEquals(['?'] + p, [c] + v) == StringEquals(p, v)
  {
    assert (['?'] + p)[1..] == p && ([c] + v)[1..] == v;
  }

  /** `\c` consumes exactly a literal `c` (so `\?` and `\*` are literals), and does not match
      an exhausted value. */
  lemma EscapeMatchesLiteral(c: char, p: Str, v: Str)
    ensures StringEquals(['\\', c] + p, v) <==> |v| > 0 && v[0] == c && StringEquals(p, v[1..])
  {
    var q := ['\\', c] + p;
    assert q[1..] == [c] + p && q[1..][1..] == p;
    if |v| > 0 {
      assert Glob(q, v, false) == Glob(q[1..], v, true);
    }
  }

  /** An exhausted value is matched only by the exhausted pattern or a lone `*`. */
  lemma ExhaustedValue(p: Str, escaped: bool)
    ensures Glob(p, [], escaped) <==> p == [] || p == ['*']
  {
  }

  /** An unescaped `*` first tries matching nothing, then tries consuming one character. */
  lemma StarAlternatives(p: Str, v: Str)
    requires |v| > 0
    ensures StringEquals(['*'] + p, v) <==> StringEquals(p, v) || StringEquals(['*'] + p, v[1..])
  {
    assert (['*'] + p)[1..] == p;
  }

  // ---------------------------------------------------------------------------------------
  // Splitting a recorded value into alternatives

  /** The splitting loop's state after some prefix: the pending-escape flag, the alternative being
      built, and the alternatives completed so far. */
  datatype SplitState = SplitState(escaped: bool, part: Str, done: seq<Str>)

  const SplitStart: SplitState := SplitState(false, [], [])

  /** One iteration of the splitting loop of `attributeEquals` and `propertyEquals`: an escaped
      character is kept as is, `\` starts an escape, an unescaped `|` ends the alternative. */
  function SplitStep(s: SplitState, c: char): SplitState {
    if s.escaped then s.(escaped := false, part := s.part + [c])
    else if c == '\\' then s.(escaped := true)
    else if c == '|' then s.(part := [], done := s.done + [s.part])
    else s.(part := s.part + [c])
  }

  function ScanFrom(s: SplitState, str: Str): SplitState {
    if str == [] then s else SplitStep(ScanFrom(s, str[..|str| - 1]), str[|str| - 1])
  }

  /** The alternatives of a recorded value: those completed by a `|`, then the final one. */
  function Split(str: Str): (parts: seq<Str>)
    ensures |parts| >= 1
  {
    var s := ScanFrom(SplitStart, str);
    s.done + [s.part]
  }

  /** Whether `str` ends inside an escape (an odd run of trailing `\`). */
  predicate PendingEscape(str: Str) {
    ScanFrom(SplitStart, str).escaped
  }

  lemma {:induction false} ScanAppend(s: SplitState, a: Str, b: Str)
    ensures ScanFrom(s, a + b) == ScanFrom(ScanFrom(s, a), b)
    decreases |b|
  {
    if b != [] {
      var b' := b[..|b| - 1];
      assert (a + b)[..|a + b| - 1] == a + b';
      assert (a + b)[|a + b| - 1] == b[|b| - 1];
      ScanAppend(s, a, b');
    } else {
      assert a + b == a;
    }
  }

  /** A value without `\` or `|` is a single alternative. */
  lemma {:induction false} SplitPlain(str: Str)
    requires forall i :: 0 <= i < |str| ==> str[i] != '\\' && str[i] != '|'
    ensures ScanFrom(SplitStart, str) == SplitState(false, str, [])
    ensures Split(str) == [str]
    decreases |str|
  {
    if str != [] {
      var init, c := str[..|str| - 1], str[|str| - 1];
      SplitPlain(init);
      assert ScanFrom(SplitStart, str) == SplitStep(ScanFrom(SplitStart, init), c);
      assert init + [c] == str;
    }
  }

  // ---------------------------------------------------------------------------------------
  // Encoding a new alternative

  /** What the loop of `escapeAndAddToAttributeValue` appends for one character: `\`, `|` and
      `*` get a `\` in front. */
  function EscapeChar(c: char): Str {
    if c == '\\' || c == '|' || c == '*' then ['\\', c] else [c]
  }

  function AddEscape(v: Str): Str {
    if v == [] then [] else AddEscape(v[..|v| - 1]) + EscapeChar(v[|v| - 1])
  }

  /** Splitting an escaped value after any state without a pending escape appends the value to
      the alternative being built, character for character. */
  lemma {:induction false} ScanAddEscape(s: SplitState, v: Str)
    requires !s.escaped
    ensures ScanFrom(s, AddEscape(v)) == s.(part := s.part + v)
    decreases |v|
  {
    if v != [] {
      var init := v[..|v| - 1];
      var c := v[|v| - 1];
      assert v == init + [c];
      ScanAddEscape(s, init);
      ScanAddEscapeStep(s, init, c, AddEscape(init));
    } else {
      assert s.part + v == s.part;
    }
  }

  /** The step of `ScanAddEscape`: one more escaped character after a prefix already split. */
  lemma ScanAddEscapeStep(s: SplitState, init: Str, c: char, head: Str)
    requires !s.escaped && ScanFrom(s, head) == s.(part := s.part + init)
    ensures ScanFrom(s, head + EscapeChar(c)) == s.(part := s.part + (init + [c]))
  {
    ScanAppend(s, head, EscapeChar(c));
    ScanEscapeChar(s.(part := s.part + init), c);
    SnocAssoc(s.part, init, c);
  }

  lemma SnocAssoc(a: Str, b: Str, c: char)
    ensures a + b + [c] == a + (b + [c])
  {
  }

  /** One escaped character, split after a state without a pending escape, is that character
      added to the alternative being built. */
  lemma ScanEscapeChar(s: SplitState, c: char)
    requires !s.escaped
    ensures ScanFrom(s, EscapeChar(c)) == s.(part := s.part + [c])
  {
    if c == '\\' || c == '|' || c == '*' {
      assert ['\\', c][..1] == ['\\'] && ['\\'][..0] == [];
      assert ScanFrom(s, ['\\']) == SplitStep(s, '\\');
      assert ScanFrom(s, ['\\', c]) == SplitStep(ScanFrom(s, ['\\']), c);
    } else {
      assert [c][..0] == [];
      assert ScanFrom(s, [c]) == SplitStep(s, c);
    }
  }

  /** The two encodings of a new alternative: the one `escapeAndAddToAttributeValue` applies, and
      the corrected one, which first escapes the glob control characters so that the alternative,
      once split off, matches exactly the value. */
  datatype Revision = AsWritten | Corrected

  /** A glob pattern that matches exactly `v`: `*`, `?` and `\` each get a `\` in front. */
  function GlobEscape(v: Str): (p: Str)
    ensures |p| >= |v|
  {
    if v == [] then [] else (if IsGlobControl(v[0]) then ['\\', v[0]] else [v[0]]) + GlobEscape(v[1..])
  }

  /** `GlobEscape(v)` matches `w` exactly when `w == v`. */
  lemma {:induction false} GlobEscapeExact(v: Str, w: Str)
    ensures StringEquals(GlobEscape(v), w) <==> w == v
    decreases |v|
  {
    if v != [] {
      var c := v[0];
      var rest := GlobEscape(v[1..]);
      var p := GlobEscape(v);
      if |w| > 0 {
        GlobEscapeExact(v[1..], w[1..]);
        if IsGlobControl(c) {
          assert p[1..] == [c] + rest && p[1..][1..] == rest;
          assert Glob(p, w, false) == Glob(p[1..], w, true);
          assert Glob(p[1..], w, true) == (c == w[0] && Glob(rest, w[1..], false));
        } else {
          assert p[1..] == rest;
          assert Glob(p, w, false) == ((c == w[0] || c == '?') && Glob(rest, w[1..], false));
        }
        assert v == [c] + v[1..] && w == [w[0]] + w[1..];
      }
    }
  }

  /** The characters written after `cur` and the separating `|`. */
  function Encode(rev: Revision, v: Str): Str {
    match rev
    case AsWritten => AddEscape(v)
    case Corrected => AddEscape(GlobEscape(v))
  }

  /** The alternative `Encode` adds, as the splitting loop reads it back. */
  function Alternative(rev: Revision, v: Str): Str {
    match rev
    case AsWritten => v
    case Corrected => GlobEscape(v)
  }

  /** `escapeAndAddToAttributeValue(cur, v)`: `cur`, then `|`, then the escaped value. A null
      `cur` appends as the empty string. */
  function EscapeAndAdd(rev: Revision, cur: Str, v: Str): (r: Str)
    ensures |r| >= |cur| + 1 + |v|
    ensures r[..|cur|] == cur && r[|cur|] == '|'
  {
    var e := Encode(rev, v);
    assert |e| >= |v| by { EncodeLength(rev, v); }
    cur + ['|'] + e
  }

  lemma {:induction false} AddEscapeLength(v: Str)
    ensures |AddEscape(v)| >= |v|
    decreases |v|
  {
    if v != [] { AddEscapeLength(v[..|v| - 1]); }
  }

  lemma EncodeLength(rev: Revision, v: Str)
    ensures |Encode(rev, v)| >= |v|
  {
    AddEscapeLength(v);
    AddEscapeLength(GlobEscape(v));
  }

  /** Splitting an extended recorded value gives the old alternatives followed by the new one,
      provided the old value does not end inside an escape. As written the new alternative is the
      value itself, unchanged. */
  lemma {:induction false} SplitEscapeAndAdd(rev: Revision, cur: Str, v: Str)
    requires !PendingEscape(cur)
    ensures Split(EscapeAndAdd(rev, cur, v)) == Split(cur) + [Alternative(rev, v)]
    ensures !PendingEscape(EscapeAndAdd(rev, cur, v))
  {
    var s := ScanFrom(SplitStart, cur);
    var e := Encode(rev, v);
    assert EscapeAndAdd(rev, cur, v) == cur + ['|'] + e;
    ScanAppend(SplitStart, cur + ['|'], e);
    ScanAppend(SplitStart, cur, ['|']);
    assert ScanFrom(s, ['|']) == SplitStep(s, '|');
    var t := SplitStep(s, '|');
    assert t == SplitState(false, [], s.done + [s.part]);
    match rev {
      case AsWritten => ScanAddEscape(t, v);
      case Corrected => ScanAddEscape(t, GlobEscape(v));
    }
    assert ScanFrom(SplitStart, EscapeAndAdd(rev, cur, v)) == t.(part := Alternative(rev, v));
  }

  /** `SplitEscapeAndAdd` for any recorded value, the condition moved into the conclusion, as the
      merges of attributes and style properties use it. */
  lemma SplitWhenNoPendingEscape(rev: Revision, cur: Str, v: Str)
    ensures !PendingEscape(cur) ==> Split(EscapeAndAdd(rev, cur, v)) == Split(cur) + [Alternative(rev, v)]
  {
    if !PendingEscape(cur) { SplitEscapeAndAdd(rev, cur, v); }
  }

  /** Recording values one after another into an initially empty (null) recorded value. */
  function Record(rev: Revision, vs: seq<Str>): Str {
    if vs == [] then [] else EscapeAndAdd(rev, Record(rev, vs[..|vs| - 1]), vs[|vs| - 1])
  }

  /** The alternatives `Record` should read back as, one per value. */
  function Alternatives(rev: Revision, vs: seq<Str>): (r: seq<Str>)
    ensures |r| == |vs|
    ensures forall i :: 0 <= i < |vs| ==> r[i] == Alternative(rev, vs[i])
  {
    if vs == [] then [] else Alternatives(rev, vs[..|vs| - 1]) + [Alternative(rev, vs[|vs| - 1])]
  }

  /** The recorded value reads back as an empty first alternative (from the null start) followed
      by one alternative per recorded value, in order. */
  lemma {:induction false} RecordRoundTrip(rev: Revision, vs: seq<Str>)
    ensures !PendingEscape(Record(rev, vs))
    ensures Split(Record(rev, vs)) == [[]] + Alternatives(rev, vs)
    decreases |vs|
  {
    if vs != [] {
      var init := vs[..|vs| - 1];
      RecordRoundTrip(rev, init);
      SplitEscapeAndAdd(rev, Record(rev, init), vs[|vs| - 1]);
    }
  }

  /** As written, the new alternative is read back as a glob: a value with a `\` in it does not
      match itself, and a `?` in it matches any character. */
  lemma AsWrittenAlternativeIsGlob()
    ensures !StringEquals(Alternative(AsWritten, "a\\b"), "a\\b")
    ensures StringEquals(Alternative(AsWritten, "a?"), "ab")
    ensures StringEquals(Alternative(AsWritten, "a*"), "abc")
  {
    assert StringEquals("a\\b", "a\\b") == Glob("\\b", "\\b", false);
    assert Glob("\\b", "\\b", false) == Glob("b", "\\b", true);
    assert StringEquals("a?", "ab") == Glob("?", "b", false);
    assert Glob("?", "b", false) == Glob("", "", false);
    assert StringEquals("a*", "abc") == Glob("*", "bc", false);
    assert Glob("*", "bc", false) <== Glob("*", "c", false);
    assert Glob("*", "c", false) <== Glob("*", "", false);
  }

  /** Corrected, the new alternative matches exactly the value recorded. */
  lemma CorrectedAlternativeIsExact(v: Str, w: Str)
    ensures StringEquals(Alternative(Corrected, v), w) <==> w == v
  {
    GlobEscapeExact(v, w);
  }
}

=== FILE: dom_style.dfy ===
/** The DOM guard's style-property checks (dom_guard.cc `cssValueEquals`, `propertyEquals`,
    `mergeShadowProperty`). A recorded property value is split into alternatives like an
    attribute; the alternatives update a match state that starts at 0 and means: 1 after an
    alternative above the new numeric value, 2 after one below it, -1 once the value is accepted.
    CSS parsing, serialisation and URL comparison are parameters; numbers are compared through an
    integer key standing for the parsed double. */
module DomStyle {
  import opened Wrappers
  import opened DomPattern

  /** The parsed CSS values the comparison distinguishes; `OtherValue` stands for every other
      value class, by an identifying tag. */
  datatype CssValue =
    | Numeric(key: int)
    | ValueList(separator: int, items: seq<CssValue>)
    | UriValue(url: Str)
    | ImageValue(url: Str)
    | ColorValue
    | OtherValue(tag: nat)

  /** `GetClassType()`. */
  function ClassType(v: CssValue): nat {
    match v
    case Numeric(_) => 0
    case ValueList(_, _) => 1
    case UriValue(_) => 2
    case ImageValue(_) => 3
    case ColorValue => 4
    case OtherValue(t) => 5 + t
  }

  /** `CSSParser::ParseSingleValue` for the property, `CssText()`, and `urlEquals` on the URLs of
      two URI or image values. */
  datatype CssEnv = CssEnv(parse: Str -> Option<CssValue>, cssText: CssValue -> Str, urlEquals: (Str, Str) -> bool)

  const Accepted: int := -1

  predicate IsMatchState(s: int) { -1 <= s <= 2 }

  /** The numeric branch of `cssValueEquals`: an equal value accepts; a recorded value above the
      actual one moves 0 to 1 and accepts from 2; one below moves 0 to 2 and accepts from 1. */
  function NumericStep(state: int, recorded: int, actual: int): (r: int)
    requires IsMatchState(state)
    ensures IsMatchState(r)
    ensures r == Accepted <==> state == Accepted || recorded == actual
                               || (recorded > actual && state == 2) || (recorded < actual && state == 1)
    ensures state == 0 && recorded > actual ==> r == 1
    ensures state == 0 && recorded < actual ==> r == 2
  {
    if recorded == actual then Accepted
    else if recorded > actual then
      (if state == 0 then 1 else if state == 2 then Accepted else state)
    else
      (if state == 0 then 2 else if state == 1 then Accepted else state)
  }

  function ItemCount(v: CssValue): nat {
    if v.ValueList? then |v.items| else 0
  }

  /** `cssValueEquals` on two parsed values: values of different classes leave the state alone;
      lists of the same separator and length are compared item by item, stopping at the first
      item that does not leave the state accepted; URI and image values accept when their URLs
      are equal; colours always accept. */
  function CssValueEquals(env: CssEnv, recorded: CssValue, actual: CssValue, state: int): (r: int)
    requires IsMatchState(state)
    ensures IsMatchState(r)
    decreases recorded, ItemCount(recorded) + 1
  {
    if ClassType(recorded) != ClassType(actual) then state
    else
      match recorded
      case ValueList(sep, items) =>
        if sep != actual.separator || |items| != |actual.items| then state
        else ListEquals(env, recorded, actual, 0, state)
      case Numeric(x) => NumericStep(state, x, actual.key)
      case UriValue(u) => if env.urlEquals(u, actual.url) then Accepted else state
      case ImageValue(u) => if env.urlEquals(u, actual.url) then Accepted else state
      case ColorValue => Accepted
      case OtherValue(_) => state
  }

  function ListEquals(env: CssEnv, recorded: CssValue, actual: CssValue, i: nat, state: int): (r: int)
    requires recorded.ValueList? && actual.ValueList? && |recorded.items| == |actual.items|
    requires i <= |recorded.items| && IsMatchState(state)
    ensures IsMatchState(r)
    decreases recorded, ItemCount(recorded) - i
  {
    if i == |recorded.items| then Accepted
    else
      var s := CssValueEquals(env, recorded.items[i], actual.items[i], state);
      if s != Accepted then s else ListEquals(env, recorded, actual, i + 1, s)
  }

  /** Once an item leaves the state accepted, the remaining numeric items cannot change it: two
      lists of numbers of the same length are accepted exactly when their first items are equal,
      and otherwise the list leaves the state the first item set. */
  lemma ListDecidedByFirstItem(env: CssEnv, sep: int, x: int, xs: seq<int>, y: int, ys: seq<int>)
    requires |xs| == |ys|
    ensures var r := ValueList(sep, [Numeric(x)] + seq(|xs|, i requires 0 <= i < |xs| => Numeric(xs[i])));
            var a := ValueList(sep, [Numeric(y)] + seq(|ys|, i requires 0 <= i < |ys| => Numeric(ys[i])));
            && (CssValueEquals(env, r, a, 0) == Accepted <==> x == y)
            && (x > y ==> CssValueEquals(env, r, a, 0) == 1)
            && (x < y ==> CssValueEquals(env, r, a, 0) == 2)
  {
    var r := ValueList(sep, [Numeric(x)] + seq(|xs|, i requires 0 <= i < |xs| => Numeric(xs[i])));
    var a := ValueList(sep, [Numeric(y)] + seq(|ys|, i requires 0 <= i < |ys| => Numeric(ys[i])));
    assert r.items[0] == Numeric(x) && a.items[0] == Numeric(y);
    var s := CssValueEquals(env, r.items[0], a.items[0], 0);
    assert s == NumericStep(0, x, y);
    if x == y {
      assert ListEquals(env, r, a, 0, 0) == ListEquals(env, r, a, 1, Accepted);
      ListStaysAccepted(env, r, a, 1);
    } else {
      assert ListEquals(env, r, a, 0, 0) == s;
    }
  }

  /** A list is accepted exactly when its first remaining item accepts from the incoming state
      and every later item accepts from the accepted state; otherwise the result is the state the
      first refusing item left. */
  lemma {:induction false} ListEqualsAccepts(env: CssEnv, r: CssValue, a: CssValue, i: nat, state: int)
    requires r.ValueList? && a.ValueList? && |r.items| == |a.items|
    requires i <= |r.items| && IsMatchState(state)
    ensures ListEquals(env, r, a, i, state) == Accepted <==>
              i == |r.items| ||
              (&& CssValueEquals(env, r.items[i], a.items[i], state) == Accepted
               && forall j :: i < j < |r.items| ==> CssValueEquals(env, r.items[j], a.items[j], Accepted) == Accepted)
    ensures i < |r.items| && CssValueEquals(env, r.items[i], a.items[i], state) != Accepted ==>
              ListEquals(env, r, a, i, state) == CssValueEquals(env, r.items[i], a.items[i], state)
    decreases |r.items| - i
  {
    if i < |r.items| {
      var s := CssValueEquals(env, r.items[i], a.items[i], state);
      if s == Accepted {
        ListEqualsAccepts(env, r, a, i + 1, Accepted);
      }
    }
  }

  lemma {:induction false} ListStaysAccepted(env: CssEnv, r: CssValue, a: CssValue, i: nat)
    requires r.ValueList? && a.ValueList? && |r.items| == |a.items| && i <= |r.items|
    requires forall j :: i <= j < |r.items| ==> r.items[j].Numeric? && a.items[j].Numeric?
    ensures ListEquals(env, r, a, i, Accepted) == Accepted
    decreases |r.items| - i
  {
    if i < |r.items| {
      ListStaysAccepted(env, r, a, i + 1);
    }
  }

  /** `cssValueEquals` on one recorded alternative's text: an empty alternative accepts only a
      missing value; a missing value resets the state to 0; otherwise the alternative accepts when
      it matches the value's text as a pattern, and is else parsed and compared as a value. */
  function AlternativeStep(env: CssEnv, text: Str, actual: Option<CssValue>, state: int): (r: int)
    requires IsMatchState(state)
    ensures IsMatchState(r)
    ensures |text| == 0 ==> (r == Accepted <==> actual.None? || state == Accepted)
    ensures |text| > 0 && actual.None? ==> r == 0
    ensures |text| > 0 && actual.Some? && StringEquals(text, env.cssText(actual.value)) ==> r == Accepted
  {
    if |text| == 0 then (if actual.None? then Accepted else state)
    else if actual.None? then 0
    else if StringEquals(text, env.cssText(actual.value)) then Accepted
    else match env.parse(text)
      case None => state
      case Some(recorded) => CssValueEquals(env, recorded, actual.value, state)
  }

  /** The loop of `propertyEquals` over the alternatives, returning as soon as one accepts. */
  function RunAlternatives(env: CssEnv, parts: seq<Str>, actual: Option<CssValue>, state: int): (r: int)
    requires IsMatchState(state)
    ensures IsMatchState(r)
  {
    if parts == [] then state
    else
      var s := AlternativeStep(env, parts[0], actual, state);
      if s == Accepted then Accepted else RunAlternatives(env, parts[1..], actual, s)
  }

  /** `propertyEquals`: a null recorded value accepts only a missing value; otherwise the value is
      accepted when the match state reaches -1 over the alternatives. */
  function PropertyEquals(env: CssEnv, current: Option<Str>, actual: Option<CssValue>): bool {
    if current.None? then actual.None?
    else RunAlternatives(env, Split(current.value), actual, 0) == Accepted
  }

  /** How a numeric alternative relates to the numeric value `y`: it accepts outright (same
      text or same key), or lies above or below it. */
  datatype Verdict = Hit | Above | Below

  /** A non-empty alternative that parses to a number. */
  predicate NumericAlternative(env: CssEnv, text: Str) {
    |text| > 0 && env.parse(text).Some? && env.parse(text).value.Numeric?
  }

  function VerdictOf(env: CssEnv, text: Str, y: int): Verdict
    requires NumericAlternative(env, text)
  {
    var x := env.parse(text).value.key;
    if StringEquals(text, env.cssText(Numeric(y))) || x == y then Hit
    else if x > y then Above
    else Below
  }

  predicate SomeVerdict(env: CssEnv, parts: seq<Str>, y: int, v: Verdict)
    requires forall i :: 0 <= i < |parts| ==> NumericAlternative(env, parts[i])
  {
    exists i :: 0 <= i < |parts| && VerdictOf(env, parts[i], y) == v
  }

  /** The range reading of numeric alternatives, from any state short of acceptance: the run
      accepts exactly when some alternative hits the value, or the alternatives (with the state
      so far) bracket it from above and from below. */
  lemma {:induction false} NumericRun(env: CssEnv, parts: seq<Str>, y: int, state: int)
    requires 0 <= state <= 2
    requires forall i :: 0 <= i < |parts| ==> NumericAlternative(env, parts[i])
    ensures RunAlternatives(env, parts, Some(Numeric(y)), state) == Accepted <==>
              SomeVerdict(env, parts, y, Hit) ||
              ((state == 1 || SomeVerdict(env, parts, y, Above)) && (state == 2 || SomeVerdict(env, parts, y, Below)))
  {
    if parts != [] {
      var rest := parts[1..];
      var s := AlternativeStep(env, parts[0], Some(Numeric(y)), state);
      var v := VerdictOf(env, parts[0], y);
      assert forall i :: 0 <= i < |rest| ==> rest[i] == parts[i + 1];
      if s != Accepted {
        NumericRun(env, rest, y, s);
      }
      assert SomeVerdict(env, parts, y, v);
      forall w: Verdict | w != v
        ensures SomeVerdict(env, parts, y, w) <==> SomeVerdict(env, rest, y, w)
      {
        if SomeVerdict(env, parts, y, w) {
          var i :| 0 <= i < |parts| && VerdictOf(env, parts[i], y) == w;
          assert i > 0 && VerdictOf(env, rest[i - 1], y) == w;
        }
        if SomeVerdict(env, rest, y, w) {
          var i :| 0 <= i < |rest| && VerdictOf(env, rest[i], y) == w;
          assert VerdictOf(env, parts[i + 1], y) == w;
        }
      }
    }
  }

  /** A numeric value is accepted by a recorded value whose alternatives are all numeric exactly
      when one alternative equals it, or there is an alternative above it and one below it. */
  lemma NumericRange(env: CssEnv, current: Str, y: int)
    requires forall i :: 0 <= i < |Split(current)| ==> NumericAlternative(env, Split(current)[i])
    ensures PropertyEquals(env, Some(current), Some(Numeric(y))) <==>
              SomeVerdict(env, Split(current), y, Hit) ||
              (SomeVerdict(env, Split(current), y, Above) && SomeVerdict(env, Split(current), y, Below))
  {
    NumericRun(env, Split(current), y, 0);
  }

  /** `mergeShadowProperty`: an empty or null recorded value is replaced by the new value's text
      (or null); a recorded value that accepts the new value is kept; otherwise the new value's
      text is appended as an alternative (a missing value as the empty string). */
  function MergeShadowProperty(rev: Revision, env: CssEnv, current: Option<Str>, newValue: Option<CssValue>)
    : (r: Option<Str>)
    ensures |current.GetOr([])| == 0 ==> r == (if newValue.Some? then Some(env.cssText(newValue.value)) else None)
    ensures |current.GetOr([])| > 0 && PropertyEquals(env, current, newValue) ==> r == current
    ensures |current.GetOr([])| > 0 && !PropertyEquals(env, current, newValue) && !PendingEscape(current.value) ==>
              r.Some? && Split(r.value) == Split(current.value) + [Alternative(rev, TextOf(env, newValue))]
  {
    if |current.GetOr([])| == 0 then
      if newValue.Some? then Some(env.cssText(newValue.value)) else None
    else if PropertyEquals(env, current, newValue) then current
    else
      SplitWhenNoPendingEscape(rev, current.value, TextOf(env, newValue));
      Some(EscapeAndAdd(rev, current.value, TextOf(env, newValue)))
  }

  function TextOf(env: CssEnv, v: Option<CssValue>): Str {
    if v.Some? then env.cssText(v.value) else []
  }

  /** Running the alternatives stops at acceptance, so a final alternative that accepts from any
      state makes the whole run accept. */
  lemma {:induction false} RunEndsAccepted(env: CssEnv, parts: seq<Str>, last: Str, actual: Option<CssValue>, state: int)
    requires IsMatchState(state)
    requires forall s :: IsMatchState(s) ==> AlternativeStep(env, last, actual, s) == Accepted
    ensures RunAlternatives(env, parts + [last], actual, state) == Accepted
    decreases |parts|
  {
    if parts == [] {
      assert parts + [last] == [last];
    } else {
      assert (parts + [last])[1..] == parts[1..] + [last];
      var s := AlternativeStep(env, parts[0], actual, state);
      if s != Accepted {
        RunEndsAccepted(env, parts[1..], last, actual, s);
      }
    }
  }

  /** With the corrected encoding, once a non-empty recorded property value has been merged with
      a value (missing, or with non-empty text), it accepts that value. */
  lemma MergePropertyAccepts(env: CssEnv, current: Str, newValue: Option<CssValue>)
    requires |current| > 0 && !PendingEscape(current)
    requires newValue.Some? ==> |env.cssText(newValue.value)| > 0
    ensures PropertyEquals(env, MergeShadowProperty(Corrected, env, Some(current), newValue), newValue)
  {
    if !PropertyEquals(env, Some(current), newValue) {
      var t := TextOf(env, newValue);
      var last := GlobEscape(t);
      GlobEscapeExact(t, t);
      if newValue.Some? {
        assert |last| > 0;
      }
      RunEndsAccepted(env, Split(current), last, newValue, 0);
    }
  }
}

=== FILE: globals.dfy ===
/** Integer widths and size constants of the V8 scanner (globals.h). */
module Globals {

  const KB: int := 1024
  const MB: int := KB * 1024

  /** Largest value of a 32-bit signed `int`. */
  const kMaxInt: int := 0x7FFF_FFFF

  /** Size in bytes of one UTF-16 code unit. */
  const kUC16Size: int := 2
  /** Size in bytes of one Latin-1 code unit. */
  const kOneByteSize: int := 1

  const TwoTo32: int := 0x1_0000_0000

  type byte = x: int | 0 <= x < 0x100
  type uc16 = x: int | 0 <= x < 0x1_0000
  type uc32 = x: int | 0 <= x < 0x1_0000_0000

  /** Conversion of an arbitrary integer to `uint32_t`: reduction modulo 2^32. */
  function ToUint32(x: int): (r: uc32)
    ensures 0 <= x < TwoTo32 ==> r == x
    ensures (r - x) % TwoTo32 == 0
  {
    x % TwoTo32
  }

  /** `x | 0x20` on a non-negative integer: sets bit 5. */
  function SetBit5(x: nat): (r: nat)
    ensures r == x || r == x + 0x20
    ensures (r / 0x20) % 2 == 1
    ensures r / 0x40 == x / 0x40 && r % 0x20 == x % 0x20
  {
    if (x / 0x20) % 2 == 0 then x + 0x20 else x
  }

  /** `x & ~0x20` on a non-negative integer: clears bit 5. */
  function ClearBit5(x: nat): (r: nat)
    ensures r == x || r == x - 0x20
    ensures (r / 0x20) % 2 == 0
    ensures r / 0x40 == x / 0x40 && r % 0x20 == x % 0x20
  {
    if (x / 0x20) % 2 == 1 then x - 0x20 else x
  }
}

=== FILE: guest_view_manager.dfy ===
/** The browser-side `<webview>` guest registry (guest-view-manager.ts): a map from guest
    instance id to its record, a map from slot key (`"<embedder id>-<element instance id>"`)
    to the guest attached there, and the set of embedders watched for destruction. Every
    WebContents is identified by its integer id; calls into native code and messages sent to
    renderers are returned as a list of effects rather than performed. */
module GuestViewManager {
  import opened Wrappers

  // ---------------------------------------------------------------------------------------
  // JavaScript values

  /** The JavaScript values the attach parameters and preference objects carry. Numbers are
      integers here. */
  datatype JsValue = Undefined | Null | JBool(b: bool) | JNum(n: int) | JStr(s: string)

  /** JavaScript truthiness: `false`, `0`, `""`, `null` and `undefined` are falsy. */
  predicate Truthy(v: JsValue) {
    match v
    case Undefined => false
    case Null => false
    case JBool(b) => b
    case JNum(n) => n != 0
    case JStr(s) => s != ""
  }

  /** `v == null`: loose equality with `null` holds for `null` and `undefined` only. */
  predicate Nullish(v: JsValue) {
    v.Undefined? || v.Null?
  }

  /** A plain JavaScript object: property name to value. */
  type JsObject = map<string, JsValue>

  /** Property read: a missing property reads as `undefined`. */
  function Get(o: JsObject, name: string): (v: JsValue)
    ensures name !in o ==> v == Undefined
    ensures name in o ==> v == o[name]
  {
    if name in o then o[name] else Undefined
  }

  /** `sanitizeOptionsForGuest`: a shallow copy without the `webContents` property, which
      cannot cross IPC. */
  function SanitizeOptionsForGuest(options: JsObject): (r: JsObject)
    ensures "webContents" !in r
    ensures forall k :: k in options && k != "webContents" ==> k in r && r[k] == options[k]
    ensures forall k :: k in r ==> k in options
  {
    options - {"webContents"}
  }

  /** Sanitising twice is sanitising once. */
  lemma SanitizeIdempotent(options: JsObject)
    ensures SanitizeOptionsForGuest(SanitizeOptionsForGuest(options)) == SanitizeOptionsForGuest(options)
  {
  }

  // ---------------------------------------------------------------------------------------
  // State

  /** The guest WebContents as the manager sees it: its id, its host (`hostWebContents`, set at
      creation and by `setEmbedder`), its `viewInstanceId` and whether it was destroyed. */
  datatype Guest = Guest(id: int, host: int, viewInstanceId: JsValue, destroyed: bool)

  /** One `GuestInstance` record. */
  datatype Instance = Instance(embedder: int, guest: Guest, elementInstanceId: Option<int>,
                               visibilityState: Option<string>)

  /** The slot key `"<embedder id>-<element instance id>"`; `None` stands for the element id
      `undefined` of a guest that was never attached. Distinct pairs give distinct strings, so
      the pair stands for the string. */
  datatype SlotKey = SlotKey(embedder: int, element: Option<int>)

  /** The registry: `guestInstances`, `embedderElementsMap`, `watchedEmbedders`, the embedder
      each guest's `destroyed` listener captured at creation, and the next WebContents id. */
  datatype Manager = Manager(guests: map<int, Instance>, slots: map<SlotKey, int>,
                             watched: set<int>, creators: map<int, int>, nextId: int)

  /** The registry before any guest exists. */
  const Empty := Manager(map[], map[], {}, map[], 1)

  /** What the registry keeps true: a record is filed under its guest's id, the guest's host is
      the record's embedder and also the embedder its `destroyed` listener captured, and ids
      below `nextId` are the only ones handed out. */
  ghost predicate Valid(m: Manager) {
    forall id :: id in m.guests ==>
      && m.guests[id].guest.id == id
      && m.guests[id].guest.host == m.guests[id].embedder
      && id in m.creators && m.creators[id] == m.guests[id].embedder
      && id < m.nextId
  }

  /** No record present in both states changed its embedder. */
  ghost predicate EmbedderStable(m: Manager, m': Manager) {
    forall id :: id in m.guests && id in m'.guests ==> m'.guests[id].embedder == m.guests[id].embedder
  }

  /** Calls into the native web-view manager and guest, and messages to renderers. */
  datatype Effect =
    | DetachFromOuterFrame(guest: int)
    | RemoveGuest(embedder: int, guest: int)
    | SendDestroyGuest(embedder: int, viewInstanceId: JsValue)
    | DestroyGuest(guest: int)
    | AddGuest(guest: int, element: int, embedder: int, prefs: JsObject)
    | AttachToIframe(guest: int, embedder: int, frame: int)

  /** A state change with the effects it performed, in order. */
  datatype Step = Step(next: Manager, effects: seq<Effect>)

  // ---------------------------------------------------------------------------------------
  // Creation

  /** `createGuest`, record insertion only: a fresh WebContents (id `nextId`) hosted by
      `embedder` gets a record with no element and no visibility state, and its `destroyed`
      listener captures `embedder`. */
  function CreateGuest(m: Manager, embedder: int): (r: (Manager, int))
    ensures Valid(m) ==> r.1 !in m.guests
    ensures r.1 in r.0.guests && r.0.guests[r.1] == Instance(embedder, Guest(r.1, embedder, Undefined, false), None, None)
    ensures forall id :: id != r.1 ==> (id in r.0.guests <==> id in m.guests)
    ensures forall id :: id in m.guests && id != r.1 ==> r.0.guests[id] == m.guests[id]
    ensures r.0.slots == m.slots && r.0.watched == m.watched && r.0.nextId > m.nextId
  {
    var id := m.nextId;
    (m.(guests := m.guests[id := Instance(embedder, Guest(id, embedder, Undefined, false), None, None)],
        creators := m.creators[id := embedder],
        nextId := id + 1),
     id)
  }

  lemma CreateGuestValid(m: Manager, embedder: int)
    requires Valid(m)
    ensures Valid(CreateGuest(m, embedder).0) && EmbedderStable(m, CreateGuest(m, embedder).0)
  {
  }

  // ---------------------------------------------------------------------------------------
  // Lookup and authorisation

  /** `getGuest`: the guest WebContents of a record, if there is one. */
  function GetGuest(m: Manager, guestInstanceId: int): (r: Option<Guest>)
    ensures r.Some? <==> guestInstanceId in m.guests
    ensures r.Some? ==> r.value == m.guests[guestInstanceId].guest
  {
    if guestInstanceId in m.guests then Some(m.guests[guestInstanceId].guest) else None
  }

  /** Why a request naming a guest was refused. */
  datatype GuestError =
    | InvalidGuestInstanceId
    | AccessDenied
    | InvalidMethod
    | InvalidProperty
    | WebViewDisabled

  /** `getGuestForWebContents`: the guest, provided it exists and `contents` hosts it. */
  function GetGuestForWebContents(m: Manager, guestInstanceId: int, contents: int): (r: Result<Guest, GuestError>)
    ensures r == Failure(InvalidGuestInstanceId) <==> guestInstanceId !in m.guests
    ensures r == Failure(AccessDenied) <==>
              guestInstanceId in m.guests && m.guests[guestInstanceId].guest.host != contents
    ensures r.Success? ==> r.value.host == contents && GetGuest(m, guestInstanceId) == Some(r.value)
  {
    match GetGuest(m, guestInstanceId)
    case None => Failure(InvalidGuestInstanceId)
    case Some(guest) => if guest.host != contents then Failure(AccessDenied) else Success(guest)
  }

  /** In a valid registry, only the embedder of a record can reach its guest. */
  lemma GetGuestOnlyForEmbedder(m: Manager, guestInstanceId: int, contents: int)
    requires Valid(m)
    ensures GetGuestForWebContents(m, guestInstanceId, contents).Success? <==>
              guestInstanceId in m.guests && m.guests[guestInstanceId].embedder == contents
  {
  }

  /** The guest-view request a renderer makes through the guarded IPC handlers. */
  datatype Request =
    | CallAsync(name: string)
    | CallSync(name: string)
    | PropertyGet(name: string)
    | PropertySet(name: string)

  /** The three allow-lists of `web-view-methods`; their contents live outside this model. */
  datatype AllowLists = AllowLists(asyncMethods: set<string>, syncMethods: set<string>, properties: set<string>)

  /** The name in a request and the allow-list it is checked against. */
  predicate Allowed(lists: AllowLists, req: Request) {
    match req
    case CallAsync(name) => name in lists.asyncMethods
    case CallSync(name) => name in lists.syncMethods
    case PropertyGet(name) => name in lists.properties
    case PropertySet(name) => name in lists.properties
  }

  /** The call, get and set handlers: look the guest up for the sender, then check the name
      against the matching allow-list. On success the guest the request applies to. */
  function HandleRequest(m: Manager, lists: AllowLists, sender: int, guestInstanceId: int, req: Request): (r: Result<Guest, GuestError>)
    ensures r.Success? <==>
              GetGuestForWebContents(m, guestInstanceId, sender).Success? && Allowed(lists, req)
    ensures GetGuestForWebContents(m, guestInstanceId, sender).Failure? ==>
              r == GetGuestForWebContents(m, guestInstanceId, sender)
    ensures r.Success? ==> r.value.host == sender
  {
    var guest :- GetGuestForWebContents(m, guestInstanceId, sender);
    match req
    case CallAsync(name) => if name !in lists.asyncMethods then Failure(InvalidMethod) else Success(guest)
    case CallSync(name) => if name !in lists.syncMethods then Failure(InvalidMethod) else Success(guest)
    case PropertyGet(name) => if name !in lists.properties then Failure(InvalidProperty) else Success(guest)
    case PropertySet(name) => if name !in lists.properties then Failure(InvalidProperty) else Success(guest)
  }

  /** `isWebViewTagEnabled`: the first answer for a WebContents is cached, so later preference
      changes are not seen. `lastWebviewTag` is its current `webviewTag` preference. The cache
      only grows: the answer is what the cache now holds for `contents`, and every earlier entry
      is kept. */
  function IsWebViewTagEnabled(cache: map<int, bool>, contents: int, lastWebviewTag: JsValue): (r: (bool, map<int, bool>))
    ensures r.1.Keys == cache.Keys + {contents}
    ensures forall c :: c in cache ==> r.1[c] == cache[c]
    ensures r.0 == r.1[contents]
    ensures contents !in cache ==> r.0 == Truthy(lastWebviewTag)
  {
    if contents in cache then (cache[contents], cache)
    else (Truthy(lastWebviewTag), cache[contents := Truthy(lastWebviewTag)])
  }

  /** Once cached, the answer stays whatever the preference later says. */
  lemma WebViewTagCacheSticks(cache: map<int, bool>, contents: int, first: JsValue, later: JsValue)
    ensures var (a, cache1) := IsWebViewTagEnabled(cache, contents, first);
            IsWebViewTagEnabled(cache1, contents, later).0 == a
  {
  }

  /** `makeSafeHandler`: the handler runs only for a sender with `<webview>` enabled; otherwise
      the request fails. */
  function SafeHandle<T>(enabled: bool, handled: Result<T, GuestError>): (r: Result<T, GuestError>)
    ensures r.Success? <==> enabled && handled.Success?
    ensures !enabled ==> r == Failure(WebViewDisabled)
    ensures enabled ==> r == handled
  {
    if enabled then handled else Failure(WebViewDisabled)
  }

  /** A call, get or set request as the IPC layer runs it: the `<webview>` guard for the sender,
      then the handler. Returns the outcome and the updated answer cache. */
  function GuardedRequest(cache: map<int, bool>, lastWebviewTag: JsValue, m: Manager, lists: AllowLists,
                          sender: int, guestInstanceId: int, req: Request): (r: (Result<Guest, GuestError>, map<int, bool>))
  {
    var (enabled, cache1) := IsWebViewTagEnabled(cache, sender, lastWebviewTag);
    (SafeHandle(enabled, HandleRequest(m, lists, sender, guestInstanceId, req)), cache1)
  }

  /** A guarded request succeeds exactly when the sender has `<webview>` enabled (as first
      answered for it), the guest is hosted by the sender, and the name is on the matching
      allow-list; a sender with `<webview>` disabled is refused before any lookup. */
  lemma GuardedRequestAllowed(cache: map<int, bool>, lastWebviewTag: JsValue, m: Manager, lists: AllowLists,
                              sender: int, guestInstanceId: int, req: Request)
    ensures var enabled := if sender in cache then cache[sender] else Truthy(lastWebviewTag);
            var r := GuardedRequest(cache, lastWebviewTag, m, lists, sender, guestInstanceId, req).0;
            && (r.Success? <==>
                  enabled && guestInstanceId in m.guests && m.guests[guestInstanceId].guest.host == sender
                  && Allowed(lists, req))
            && (!enabled ==> r == Failure(WebViewDisabled))
  {
  }

  /** After one guarded request from a sender, later requests from it are decided by the cached
      answer: the `webviewTag` preference they see makes no difference. */
  lemma GuardedRequestCached(cache: map<int, bool>, first: JsValue, later: JsValue, other: JsValue,
                             m: Manager, lists: AllowLists, sender: int, id1: int, req1: Request,
                             id2: int, req2: Request)
    ensures var cache1 := GuardedRequest(cache, first, m, lists, sender, id1, req1).1;
            GuardedRequest(cache1, later, m, lists, sender, id2, req2) ==
              GuardedRequest(cache1, other, m, lists, sender, id2, req2)
  {
  }

  /** The focus-change listener re-emits `focus-change` on the sender exactly when the sender is
      the named guest itself. */
  function FocusChangeEmitted(m: Manager, sender: int, guestInstanceId: int): (r: bool)
    ensures r <==> guestInstanceId in m.guests && m.guests[guestInstanceId].guest.id == sender
  {
    match GetGuest(m, guestInstanceId)
    case None => false
    case Some(guest) => guest.id == sender
  }

  /** In a valid registry a guest can only report focus for its own id. */
  lemma FocusOnlyForOwnId(m: Manager, sender: int, guestInstanceId: int)
    requires Valid(m)
    ensures FocusChangeEmitted(m, sender, guestInstanceId) ==> sender == guestInstanceId
  {
  }

  // ---------------------------------------------------------------------------------------
  // Preferences handed to the guest

  /** The security options a guest always inherits from its embedder, with their secure
      values. */
  const InheritedNames: seq<string> := [
    "contextIsolation", "javascript", "nativeWindowOpen", "nodeIntegration",
    "enableRemoteModule", "sandbox", "nodeIntegrationInSubFrames", "enableWebSQL"]

  function SecureValue(name: string): Option<bool> {
    if name == "contextIsolation" then Some(true)
    else if name == "javascript" then Some(false)
    else if name == "nativeWindowOpen" then Some(true)
    else if name == "nodeIntegration" then Some(false)
    else if name == "enableRemoteModule" then Some(false)
    else if name == "sandbox" then Some(true)
    else if name == "nodeIntegrationInSubFrames" then Some(false)
    else if name == "enableWebSQL" then Some(false)
    else None
  }

  /** The names whose secure value the inheritance loop can copy. */
  ghost predicate Securable(names: seq<string>) {
    forall i :: 0 <= i < |names| ==> SecureValue(names[i]).Some?
  }

  /** Whether `last` (the embedder's last web preferences) holds the secure value of `name`
      (`=== value`). */
  predicate HoldsSecure(last: JsObject, name: string) {
    SecureValue(name).Some? && name in last && last[name] == JBool(SecureValue(name).value)
  }

  /** The inheritance loop: each listed option the embedder holds at its secure value is forced
      to that value. */
  function Inherit(prefs: JsObject, last: JsObject, names: seq<string>): JsObject
    decreases |names|
  {
    if names == [] then prefs
    else
      var n := names[0];
      var prefs1 := if HoldsSecure(last, n) then prefs[n := JBool(SecureValue(n).value)] else prefs;
      Inherit(prefs1, last, names[1..])
  }

  /** Key by key, inheritance forces a listed option exactly when the embedder holds its secure
      value, and leaves every other property as requested. */
  lemma {:induction false} InheritAt(prefs: JsObject, last: JsObject, names: seq<string>, k: string)
    requires Securable(names)
    ensures var r := Inherit(prefs, last, names);
            && (k in names && HoldsSecure(last, k) ==> k in r && r[k] == JBool(SecureValue(k).value))
            && (!(k in names && HoldsSecure(last, k)) ==> (k in r <==> k in prefs) && (k in r ==> r[k] == prefs[k]))
    decreases |names|
  {
    if names != [] {
      var n := names[0];
      var prefs1 := if HoldsSecure(last, n) then prefs[n := JBool(SecureValue(n).value)] else prefs;
      assert Securable(names[1..]) by {
        forall i | 0 <= i < |names[1..]| ensures SecureValue(names[1..][i]).Some? {
          assert names[1..][i] == names[i + 1];
        }
      }
      InheritAt(prefs1, last, names[1..], k);
      assert names == [n] + names[1..];
    }
  }

  /** The preferences a guest is attached with before inheritance: the defaults derived from
      the `<webview>` attributes, overridden by the parsed `webpreferences` attribute string,
      plus `preloadURL` when a preload script is given. `parse` stands for
      `parseWebViewWebPreferences`. */
  function RequestedPreferences(params: JsObject, guestInstanceId: int, zoomFactor: JsValue,
                                parse: string -> JsObject): (r: JsObject)
    ensures var wp := Get(params, "webpreferences");
            wp.JStr? ==> forall k :: k in parse(wp.s) && k != "preloadURL" ==> k in r && r[k] == parse(wp.s)[k]
    ensures Truthy(Get(params, "preload")) ==> "preloadURL" in r && r["preloadURL"] == Get(params, "preload")
  {
    var base := map[
      "guestInstanceId" := JNum(guestInstanceId),
      "nodeIntegration" := if Nullish(Get(params, "nodeintegration")) then JBool(false) else Get(params, "nodeintegration"),
      "nodeIntegrationInSubFrames" :=
        if Nullish(Get(params, "nodeintegrationinsubframes")) then JBool(false) else Get(params, "nodeintegrationinsubframes"),
      "enableRemoteModule" := Get(params, "enableremotemodule"),
      "plugins" := Get(params, "plugins"),
      "zoomFactor" := zoomFactor,
      "disablePopups" := JBool(!Truthy(Get(params, "allowpopups"))),
      "webSecurity" := JBool(!Truthy(Get(params, "disablewebsecurity"))),
      "enableBlinkFeatures" := Get(params, "blinkfeatures"),
      "disableBlinkFeatures" := Get(params, "disableblinkfeatures")];
    var wp := Get(params, "webpreferences");
    var parsed: JsObject := if wp.JStr? then parse(wp.s) else map[];
    var spread := base + parsed;
    if Truthy(Get(params, "preload")) then spread["preloadURL" := Get(params, "preload")] else spread
  }

  /** The preferences the guest is attached with: the requested ones with inheritance
      applied. */
  function EffectivePreferences(requested: JsObject, last: JsObject): JsObject {
    Inherit(requested, last, InheritedNames)
  }

  /** Whatever the attributes and the `webpreferences` string ask for, an embedder that holds a
      secure value passes it on; for the other properties the request stands. */
  lemma EffectivePreferencesAt(requested: JsObject, last: JsObject, k: string)
    ensures var r := EffectivePreferences(requested, last);
            && (k in InheritedNames && HoldsSecure(last, k) ==> k in r && r[k] == JBool(SecureValue(k).value))
            && (!(k in InheritedNames && HoldsSecure(last, k)) ==>
                  (k in r <==> k in requested) && (k in r ==> r[k] == requested[k]))
  {
    assert Securable(InheritedNames);
    InheritAt(requested, last, InheritedNames, k);
  }

  /** A sandboxed embedder without Node integration yields a sandboxed guest without Node
      integration, even when the guest's attributes ask otherwise. */
  lemma SandboxInherited(requested: JsObject, last: JsObject)
    requires "sandbox" in last && last["sandbox"] == JBool(true)
    requires "nodeIntegration" in last && last["nodeIntegration"] == JBool(false)
    ensures var r := EffectivePreferences(requested, last);
            && "sandbox" in r && r["sandbox"] == JBool(true)
            && "nodeIntegration" in r && r["nodeIntegration"] == JBool(false)
  {
    assert InheritedNames[5] == "sandbox" && InheritedNames[3] == "nodeIntegration";
    EffectivePreferencesAt(requested, last, "sandbox");
    EffectivePreferencesAt(requested, last, "nodeIntegration");
  }

  // ---------------------------------------------------------------------------------------
  // Attach

  /** What an attach request did. */
  datatype AttachStatus = Reattached | Failed(error: GuestError) | Prevented | Attached(prefs: JsObject)

  datatype AttachOutcome = AttachOutcome(next: Manager, status: AttachStatus, effects: seq<Effect>)

  /** The inputs of one attach request: the sender's frame, the element and guest ids, the
      `<webview>` attributes (`params`), the sender's zoom factor and last web preferences, and
      whether a `will-attach-webview` listener called `preventDefault`. */
  datatype AttachRequest = AttachRequest(
    frame: int, element: int, guestInstanceId: int, params: JsObject,
    zoomFactor: JsValue, last: JsObject, prevented: bool)

  /** The record's element id counts as attached only when truthy (`if (elementInstanceId)`),
      so element id 0 reads as not attached. */
  predicate HasElement(g: Instance) {
    g.elementInstanceId.Some? && g.elementInstanceId.value != 0
  }

  /** The effects of the occupied-slot check: the occupant, if it has a record, is detached
      from its frame. */
  function OccupantEffects(m: Manager, key: SlotKey): (r: seq<Effect>)
    ensures key in m.slots && m.slots[key] in m.guests ==> r == [DetachFromOuterFrame(m.slots[key])]
    ensures !(key in m.slots && m.slots[key] in m.guests) ==> r == []
  {
    if key in m.slots && m.slots[key] in m.guests then [DetachFromOuterFrame(m.slots[key])] else []
  }

  /** An attach into a slot held by another recorded guest, whatever becomes of the request,
      detaches that guest from its frame first and leaves its record as it was; with no such
      occupant no guest is detached. */
  lemma AttachDetachesOccupant(m: Manager, caller: int, req: AttachRequest, requested: JsObject)
    ensures var o := Attach(m, caller, req, requested);
            var key := SlotKey(caller, Some(req.element));
            var occupied := key in m.slots && m.slots[key] != req.guestInstanceId && m.slots[key] in m.guests;
            && (occupied ==> |o.effects| > 0 && o.effects[0] == DetachFromOuterFrame(m.slots[key])
                             && m.slots[key] in o.next.guests && o.next.guests[m.slots[key]] == m.guests[m.slots[key]])
            && (!occupied ==> forall e :: e in o.effects ==> !e.DetachFromOuterFrame?)
  {
    var key := SlotKey(caller, Some(req.element));
    if key in m.slots && m.slots[key] != req.guestInstanceId && m.slots[key] in m.guests {
      AttachOccupied(m, caller, req, requested);
    } else {
      AttachUnoccupied(m, caller, req, requested);
    }
  }

  lemma AttachOccupied(m: Manager, caller: int, req: AttachRequest, requested: JsObject)
    requires var key := SlotKey(caller, Some(req.element));
             key in m.slots && m.slots[key] != req.guestInstanceId && m.slots[key] in m.guests
    ensures var o := Attach(m, caller, req, requested);
            var occupant := m.slots[SlotKey(caller, Some(req.element))];
            && |o.effects| > 0 && o.effects[0] == DetachFromOuterFrame(occupant)
            && occupant in o.next.guests && o.next.guests[occupant] == m.guests[occupant]
  {
    var o := Attach(m, caller, req, requested);
    if o.status.Attached? {
      AttachCommitted(m, caller, req, requested);
    } else if o.status == Prevented {
      AttachPrevented(m, caller, req, requested);
    }
  }

  lemma AttachUnoccupied(m: Manager, caller: int, req: AttachRequest, requested: JsObject)
    requires var key := SlotKey(caller, Some(req.element));
             !(key in m.slots && m.slots[key] != req.guestInstanceId && m.slots[key] in m.guests)
    ensures forall e :: e in Attach(m, caller, req, requested).effects ==> !e.DetachFromOuterFrame?
  {
    var key := SlotKey(caller, Some(req.element));
    var id := req.guestInstanceId;
    if !(key in m.slots && m.slots[key] == id) {
      assert OccupantEffects(m, key) == [];
      if id in m.guests && m.guests[id].guest.host == caller {
        AttachAuthorisedNoDetach(m, caller, req, requested);
      }
    }
  }

  /** With no occupant to detach, an attach by the guest's host detaches no guest from its
      frame. */
  lemma AttachAuthorisedNoDetach(m: Manager, caller: int, req: AttachRequest, requested: JsObject)
    requires var key := SlotKey(caller, Some(req.element));
             && !(key in m.slots && m.slots[key] == req.guestInstanceId)
             && OccupantEffects(m, key) == []
             && req.guestInstanceId in m.guests && m.guests[req.guestInstanceId].guest.host == caller
    ensures forall e :: e in Attach(m, caller, req, requested).effects ==> !e.DetachFromOuterFrame?
  {
    var id := req.guestInstanceId;
    var left := LeavePrevious(m, id, Get(req.params, "instanceId")).effects;
    var tail: seq<Effect> := if req.prevented then [DestroyGuest(id)]
                             else [AddGuest(id, req.element, caller, EffectivePreferences(requested, req.last)),
                                   AttachToIframe(id, caller, req.frame)];
    AttachAuthorisedEffects(m, caller, req, requested);
    LeavePreviousDetachesNothing(m, id, Get(req.params, "instanceId"));
    NoDetachInConcat(OccupantEffects(m, SlotKey(caller, Some(req.element))), left, tail);
  }

  /** No detach in any of three effect lists means none in their concatenation. */
  lemma NoDetachInConcat(a: seq<Effect>, b: seq<Effect>, c: seq<Effect>)
    requires forall e :: e in a ==> !e.DetachFromOuterFrame?
    requires forall e :: e in b ==> !e.DetachFromOuterFrame?
    requires forall e :: e in c ==> !e.DetachFromOuterFrame?
    ensures forall e :: e in a + b + c ==> !e.DetachFromOuterFrame?
  {
  }

  /** The effects of an attach by the guest's host into a slot it does not already hold: the
      occupant's detach, leaving the previous element, then destruction or attachment. */
  lemma AttachAuthorisedEffects(m: Manager, caller: int, req: AttachRequest, requested: JsObject)
    requires var key := SlotKey(caller, Some(req.element));
             && !(key in m.slots && m.slots[key] == req.guestInstanceId)
             && req.guestInstanceId in m.guests && m.guests[req.guestInstanceId].guest.host == caller
    ensures var id := req.guestInstanceId;
            Attach(m, caller, req, requested).effects ==
              OccupantEffects(m, SlotKey(caller, Some(req.element)))
              + LeavePrevious(m, id, Get(req.params, "instanceId")).effects
              + (if req.prevented then [DestroyGuest(id)]
                 else [AddGuest(id, req.element, caller, EffectivePreferences(requested, req.last)),
                       AttachToIframe(id, caller, req.frame)])
  {
  }

  /** Leaving the previous element never detaches a guest from its frame. */
  lemma LeavePreviousDetachesNothing(m: Manager, guestInstanceId: int, instanceId: JsValue)
    requires guestInstanceId in m.guests
    ensures forall e :: e in LeavePrevious(m, guestInstanceId, instanceId).effects ==> !e.DetachFromOuterFrame?
  {
  }

  /** Removing a guest from its previous element: its old slot key goes, and when it moves to a
      different `<webview>` the old embedder is told to drop it. */
  function LeavePrevious(m: Manager, guestInstanceId: int, instanceId: JsValue): (r: Step)
    requires guestInstanceId in m.guests
    ensures var g := m.guests[guestInstanceId];
            && r.next.guests == m.guests && r.next.watched == m.watched
            && (HasElement(g) ==> r.next.slots == m.slots - {SlotKey(g.embedder, g.elementInstanceId)})
            && (!HasElement(g) ==> r.next.slots == m.slots && r.effects == [])
  {
    var g := m.guests[guestInstanceId];
    if !HasElement(g) then Step(m, [])
    else
      var slots := m.slots - {SlotKey(g.embedder, g.elementInstanceId)};
      var effects :=
        if g.guest.viewInstanceId != instanceId
        then [RemoveGuest(g.embedder, guestInstanceId), SendDestroyGuest(g.embedder, g.guest.viewInstanceId)]
        else [];
      Step(m.(slots := slots), effects)
  }

  /** `watchEmbedder`: add the embedder to the watched set (its listeners are registered the
      first time only). */
  function WatchEmbedder(m: Manager, embedder: int): (r: Manager)
    ensures r.watched == m.watched + {embedder}
    ensures r.guests == m.guests && r.slots == m.slots && r.creators == m.creators && r.nextId == m.nextId
  {
    if embedder in m.watched then m else m.(watched := m.watched + {embedder})
  }

  lemma WatchEmbedderIdempotent(m: Manager, embedder: int)
    ensures WatchEmbedder(WatchEmbedder(m, embedder), embedder) == WatchEmbedder(m, embedder)
    ensures embedder in m.watched ==> WatchEmbedder(m, embedder) == m
  {
  }

  /** `attachGuest` for a request from `caller`; `parse` stands for
      `parseWebViewWebPreferences`. */
  function AttachGuest(m: Manager, caller: int, req: AttachRequest, parse: string -> JsObject): (o: AttachOutcome)
    ensures o.status.Attached? ==>
              forall k :: k in InheritedNames && HoldsSecure(req.last, k) ==>
                k in o.status.prefs && o.status.prefs[k] == JBool(SecureValue(k).value)
    ensures o.status.Attached? && Truthy(Get(req.params, "preload")) ==>
              "preloadURL" in o.status.prefs && o.status.prefs["preloadURL"] == Get(req.params, "preload")
    ensures o.status.Attached? ==> SlotKey(caller, Some(req.element)) in o.next.slots && o.next.slots[SlotKey(caller, Some(req.element))] == req.guestInstanceId
  {
    AttachGuestPreferences(m, caller, req, parse);
    Attach(m, caller, req, RequestedPreferences(req.params, req.guestInstanceId, req.zoomFactor, parse))
  }

  lemma AttachGuestPreferences(m: Manager, caller: int, req: AttachRequest, parse: string -> JsObject)
    ensures var o := Attach(m, caller, req, RequestedPreferences(req.params, req.guestInstanceId, req.zoomFactor, parse));
            && (o.status.Attached? ==>
                  forall k :: k in InheritedNames && HoldsSecure(req.last, k) ==>
                    k in o.status.prefs && o.status.prefs[k] == JBool(SecureValue(k).value))
            && (o.status.Attached? && Truthy(Get(req.params, "preload")) ==>
                  "preloadURL" in o.status.prefs && o.status.prefs["preloadURL"] == Get(req.params, "preload"))
            && (o.status.Attached? ==> SlotKey(caller, Some(req.element)) in o.next.slots && o.next.slots[SlotKey(caller, Some(req.element))] == req.guestInstanceId)
  {
    var requested := RequestedPreferences(req.params, req.guestInstanceId, req.zoomFactor, parse);
    AttachedPreferences(m, caller, req, requested);
    assert "preloadURL" !in InheritedNames;
  }

  /** An attach that goes through hands the guest the effective preferences: the embedder's
      secure values win, and every property the embedder does not secure stays as requested. */
  lemma AttachedPreferences(m: Manager, caller: int, req: AttachRequest, requested: JsObject)
    ensures var o := Attach(m, caller, req, requested);
            o.status.Attached? ==>
              && SlotKey(caller, Some(req.element)) in o.next.slots && o.next.slots[SlotKey(caller, Some(req.element))] == req.guestInstanceId
              && (forall k :: k in InheritedNames && HoldsSecure(req.last, k) ==>
                    k in o.status.prefs && o.status.prefs[k] == JBool(SecureValue(k).value))
              && (forall k :: k !in InheritedNames && k in requested ==>
                    k in o.status.prefs && o.status.prefs[k] == requested[k])
  {
    var o := Attach(m, caller, req, requested);
    if o.status.Attached? {
      assert o.status.prefs == EffectivePreferences(requested, req.last);
      forall k | k in InheritedNames && HoldsSecure(req.last, k)
        ensures k in o.status.prefs && o.status.prefs[k] == JBool(SecureValue(k).value)
      {
        EffectivePreferencesAt(requested, req.last, k);
      }
      forall k | k !in InheritedNames && k in requested
        ensures k in o.status.prefs && o.status.prefs[k] == requested[k]
      {
        EffectivePreferencesAt(requested, req.last, k);
      }
    }
  }

  /** The body of `attachGuest`, given the preferences requested for the guest. */
  function Attach(m: Manager, caller: int, req: AttachRequest, requested: JsObject): (o: AttachOutcome)
    ensures var key := SlotKey(caller, Some(req.element));
            key in m.slots && m.slots[key] == req.guestInstanceId ==> o == AttachOutcome(m, Reattached, [])
    ensures o.status.Failed? ==> o.next == m && o.effects == OccupantEffects(m, SlotKey(caller, Some(req.element)))
    ensures o.status == Failed(InvalidGuestInstanceId) <==>
              !(SlotKey(caller, Some(req.element)) in m.slots && m.slots[SlotKey(caller, Some(req.element))] == req.guestInstanceId)
              && req.guestInstanceId !in m.guests
    ensures o.status == Failed(AccessDenied) <==>
              !(SlotKey(caller, Some(req.element)) in m.slots && m.slots[SlotKey(caller, Some(req.element))] == req.guestInstanceId)
              && req.guestInstanceId in m.guests && m.guests[req.guestInstanceId].guest.host != caller
  {
    var key := SlotKey(caller, Some(req.element));
    var id := req.guestInstanceId;
    if key in m.slots && m.slots[key] == id then AttachOutcome(m, Reattached, [])
    else
      var occupant := OccupantEffects(m, key);
      if id !in m.guests then AttachOutcome(m, Failed(InvalidGuestInstanceId), occupant)
      else if m.guests[id].guest.host != caller then AttachOutcome(m, Failed(AccessDenied), occupant)
      else
        var left := LeavePrevious(m, id, Get(req.params, "instanceId"));
        var prefs := EffectivePreferences(requested, req.last);
        var g := m.guests[id];
        if req.prevented then
          var view := if Nullish(g.guest.viewInstanceId) then Get(req.params, "instanceId") else g.guest.viewInstanceId;
          var g1 := g.(guest := g.guest.(viewInstanceId := view, destroyed := true));
          AttachOutcome(left.next.(guests := m.guests[id := g1]), Prevented,
                        occupant + left.effects + [DestroyGuest(id)])
        else
          var g1 := g.(embedder := caller, guest := g.guest.(host := caller), elementInstanceId := Some(req.element));
          var next := WatchEmbedder(left.next.(guests := m.guests[id := g1], slots := left.next.slots[key := id]), caller);
          AttachOutcome(next, Attached(prefs),
                        occupant + left.effects + [AddGuest(id, req.element, caller, prefs), AttachToIframe(id, caller, req.frame)])
  }

  /** The slot map after the guest leaves its previous element. */
  function SlotsWithoutPrevious(m: Manager, id: int): map<SlotKey, int>
    requires id in m.guests
  {
    var g := m.guests[id];
    if HasElement(g) then m.slots - {SlotKey(g.embedder, g.elementInstanceId)} else m.slots
  }

  /** A prevented attach destroys the guest, sets its `viewInstanceId` only if it had none, and
      records no new slot, embedder or watch (the guest's previous slot key is already gone). */
  lemma AttachPrevented(m: Manager, caller: int, req: AttachRequest, requested: JsObject)
    requires req.prevented
    requires var o := Attach(m, caller, req, requested); o.status !in {Reattached} && !o.status.Failed?
    ensures var o := Attach(m, caller, req, requested);
            var id := req.guestInstanceId;
            var g := m.guests[id];
            && o.status == Prevented
            && o.next.watched == m.watched
            && o.next.slots == SlotsWithoutPrevious(m, id)
            && o.next.guests.Keys == m.guests.Keys
            && o.next.guests[id].embedder == g.embedder
            && o.next.guests[id].elementInstanceId == g.elementInstanceId
            && o.next.guests[id].guest.destroyed
            && o.next.guests[id].guest.host == g.guest.host && o.next.guests[id].guest.id == g.guest.id
            && o.next.creators == m.creators && o.next.nextId == m.nextId
            && o.next.guests[id].guest.viewInstanceId ==
                 (if Nullish(g.guest.viewInstanceId) then Get(req.params, "instanceId") else g.guest.viewInstanceId)
            && (forall other :: other in m.guests && other != id ==> o.next.guests[other] == m.guests[other])
            && DestroyGuest(id) in o.effects
  {
  }

  /** A committed attach drops the guest's previous slot key, maps the new key to the guest,
      sets the record's embedder and element, watches the embedder and hands the effective
      preferences to the native manager. Every other record stays as it was, the occupant of
      the slot included. */
  lemma AttachCommitted(m: Manager, caller: int, req: AttachRequest, requested: JsObject)
    requires !req.prevented
    requires var o := Attach(m, caller, req, requested); o.status != Reattached && !o.status.Failed?
    ensures var o := Attach(m, caller, req, requested);
            var id := req.guestInstanceId;
            var key := SlotKey(caller, Some(req.element));
            && o.status == Attached(EffectivePreferences(requested, req.last))
            && o.next.slots == SlotsWithoutPrevious(m, id)[key := id]
            && o.next.guests.Keys == m.guests.Keys
            && o.next.guests[id].embedder == caller
            && o.next.guests[id].elementInstanceId == Some(req.element)
            && o.next.guests[id].guest == m.guests[id].guest.(host := caller)
            && o.next.watched == m.watched + {caller}
            && o.next.creators == m.creators && o.next.nextId == m.nextId
            && (forall other :: other in m.guests && other != id ==> o.next.guests[other] == m.guests[other])
            && AddGuest(id, req.element, caller, EffectivePreferences(requested, req.last)) in o.effects
  {
  }

  /** Attaching keeps the registry valid, and never changes a record's embedder: the host check
      admits only the embedder the guest already has. */
  lemma AttachKeepsEmbedder(m: Manager, caller: int, req: AttachRequest, requested: JsObject)
    requires Valid(m)
    ensures Valid(Attach(m, caller, req, requested).next)
    ensures EmbedderStable(m, Attach(m, caller, req, requested).next)
  {
    var o := Attach(m, caller, req, requested);
    if o.status.Attached? {
      AttachCommitted(m, caller, req, requested);
      UpdateOneKeepsValid(m, o.next, req.guestInstanceId);
    } else if o.status == Prevented {
      AttachPrevented(m, caller, req, requested);
      UpdateOneKeepsValid(m, o.next, req.guestInstanceId);
    }
  }

  /** Changing one record without moving it to another embedder keeps the registry valid. */
  lemma UpdateOneKeepsValid(m: Manager, next: Manager, id: int)
    requires Valid(m) && id in m.guests
    requires next.guests.Keys == m.guests.Keys && next.creators == m.creators && next.nextId == m.nextId
    requires forall other :: other in m.guests && other != id ==> next.guests[other] == m.guests[other]
    requires next.guests[id].embedder == m.guests[id].embedder
    requires next.guests[id].guest.id == id && next.guests[id].guest.host == m.guests[id].embedder
    ensures Valid(next) && EmbedderStable(m, next)
  {
  }

  // ---------------------------------------------------------------------------------------
  // Detach and destruction

  /** `detachGuest`: only the recorded embedder can detach; the record and its slot key go. */
  function DetachGuest(m: Manager, embedder: int, guestInstanceId: int): (r: Step)
    ensures guestInstanceId !in m.guests || m.guests[guestInstanceId].embedder != embedder ==> r == Step(m, [])
    ensures guestInstanceId in m.guests && m.guests[guestInstanceId].embedder == embedder ==>
              && r.next.guests == m.guests - {guestInstanceId}
              && r.next.slots == m.slots - {SlotKey(embedder, m.guests[guestInstanceId].elementInstanceId)}
              && r.next.watched == m.watched
              && r.effects == [RemoveGuest(embedder, guestInstanceId)]
  {
    if guestInstanceId !in m.guests then Step(m, [])
    else
      var g := m.guests[guestInstanceId];
      if embedder != g.embedder then Step(m, [])
      else
        Step(m.(guests := m.guests - {guestInstanceId},
                slots := m.slots - {SlotKey(embedder, g.elementInstanceId)}),
             [RemoveGuest(embedder, guestInstanceId)])
  }

  lemma DetachKeepsEmbedder(m: Manager, embedder: int, guestInstanceId: int)
    requires Valid(m)
    ensures Valid(DetachGuest(m, embedder, guestInstanceId).next)
    ensures EmbedderStable(m, DetachGuest(m, embedder, guestInstanceId).next)
  {
  }

  /** The guest's `destroyed` listener: detach on behalf of the embedder captured at creation. */
  function GuestDestroyed(m: Manager, guestInstanceId: int): (r: Step)
    ensures guestInstanceId !in m.guests ==> r == Step(m, [])
  {
    if guestInstanceId in m.guests && guestInstanceId in m.creators
    then DetachGuest(m, m.creators[guestInstanceId], guestInstanceId)
    else Step(m, [])
  }

  /** Because a record's embedder never changes, the embedder the listener captured is still the
      record's embedder, so destruction always removes the record. */
  lemma GuestDestroyedRemoves(m: Manager, guestInstanceId: int)
    requires Valid(m) && guestInstanceId in m.guests
    ensures GuestDestroyed(m, guestInstanceId).next.guests == m.guests - {guestInstanceId}
  {
  }

  /** The guests recorded under `embedder`. */
  function GuestsOf(m: Manager, embedder: int): (r: set<int>)
    ensures forall id :: id in r <==> id in m.guests && m.guests[id].embedder == embedder
  {
    set id | id in m.guests && m.guests[id].embedder == embedder
  }

  /** The slot keys of the guests recorded under `embedder`. */
  function SlotKeysOf(m: Manager, embedder: int): set<SlotKey> {
    set id | id in m.guests && m.guests[id].embedder == embedder :: SlotKey(embedder, m.guests[id].elementInstanceId)
  }

  /** The embedder's `will-destroy` listener (registered only for a watched embedder): every
      guest recorded under it is detached and the embedder is no longer watched. */
  function EmbedderWillDestroy(m: Manager, embedder: int): (r: Manager)
    ensures embedder !in m.watched ==> r == m
    ensures embedder in m.watched ==>
              && r.watched == m.watched - {embedder}
              && (forall id :: id in r.guests <==> id in m.guests && m.guests[id].embedder != embedder)
              && (forall id :: id in r.guests ==> r.guests[id] == m.guests[id])
  {
    if embedder !in m.watched then m
    else
      m.(guests := m.guests - GuestsOf(m, embedder),
         slots := m.slots - SlotKeysOf(m, embedder),
         watched := m.watched - {embedder})
  }

  /** Detaching a list of guests in turn, as the listener's loop does. */
  function DetachEach(m: Manager, embedder: int, ids: seq<int>): Manager
    decreases |ids|
  {
    if ids == [] then m else DetachEach(DetachGuest(m, embedder, ids[0]).next, embedder, ids[1..])
  }

  ghost predicate Distinct(ids: seq<int>) {
    forall i, j :: 0 <= i < j < |ids| ==> ids[i] != ids[j]
  }

  /** Every listed id has a record under `embedder`. */
  ghost predicate AllOf(guests: map<int, Instance>, embedder: int, ids: seq<int>) {
    forall i :: 0 <= i < |ids| ==> ids[i] in guests && guests[ids[i]].embedder == embedder
  }

  /** The slot keys the listed guests' detaches delete. */
  function KeysOf(guests: map<int, Instance>, embedder: int, ids: seq<int>): set<SlotKey>
    decreases |ids|
  {
    if ids == [] then {}
    else
      var here: set<SlotKey> := if ids[0] in guests then {SlotKey(embedder, guests[ids[0]].elementInstanceId)} else {};
      here + KeysOf(guests, embedder, ids[1..])
  }

  lemma {:induction false} KeysOfAgree(g1: map<int, Instance>, g2: map<int, Instance>, embedder: int, ids: seq<int>)
    requires forall i :: 0 <= i < |ids| ==> ids[i] in g1 && ids[i] in g2 && g1[ids[i]] == g2[ids[i]]
    ensures KeysOf(g1, embedder, ids) == KeysOf(g2, embedder, ids)
    decreases |ids|
  {
    if ids != [] {
      KeysOfAgree(g1, g2, embedder, ids[1..]);
    }
  }

  /** Detaching distinct guests of one embedder in turn removes exactly those records and their
      slot keys, whatever the order. */
  lemma {:induction false} DetachEachRemoves(m: Manager, embedder: int, ids: seq<int>)
    requires Distinct(ids) && AllOf(m.guests, embedder, ids)
    ensures var r := DetachEach(m, embedder, ids);
            && r.guests == m.guests - (set i | i in ids)
            && r.slots == m.slots - KeysOf(m.guests, embedder, ids)
            && r.watched == m.watched && r.creators == m.creators && r.nextId == m.nextId
    decreases |ids|
  {
    if ids != [] {
      var id := ids[0];
      var m1 := DetachGuest(m, embedder, id).next;
      var rest := ids[1..];
      DistinctTail(ids);
      forall i | 0 <= i < |rest|
        ensures rest[i] in m1.guests && m1.guests[rest[i]] == m.guests[rest[i]]
      {
        assert rest[i] == ids[i + 1];
      }
      DetachEachRemoves(m1, embedder, rest);
      KeysOfAgree(m1.guests, m.guests, embedder, rest);
      ElementsCons(ids);
      var r := DetachEach(m, embedder, ids);
      assert r == DetachEach(m1, embedder, rest);
      assert r.guests == (m.guests - {id}) - (set i | i in rest);
      assert r.slots == (m.slots - {SlotKey(embedder, m.guests[id].elementInstanceId)}) - KeysOf(m.guests, embedder, rest);
    }
  }

  lemma DistinctTail(ids: seq<int>)
    requires ids != [] && Distinct(ids)
    ensures Distinct(ids[1..]) && ids[0] !in ids[1..]
  {
    var rest := ids[1..];
    forall i, j | 0 <= i < j < |rest| ensures rest[i] != rest[j] {
      assert rest[i] == ids[i + 1] && rest[j] == ids[j + 1];
    }
  }

  lemma ElementsCons(ids: seq<int>)
    requires ids != []
    ensures (set i | i in ids) == {ids[0]} + (set i | i in ids[1..])
  {
    assert ids == [ids[0]] + ids[1..];
  }

  /** A slot key deleted for the listed guests belongs to one of them, and each of them has its
      key deleted. */
  lemma {:induction false} KeysOfMember(guests: map<int, Instance>, embedder: int, ids: seq<int>, k: SlotKey)
    requires AllOf(guests, embedder, ids)
    ensures k in KeysOf(guests, embedder, ids) <==>
              exists i :: 0 <= i < |ids| && k == SlotKey(embedder, guests[ids[i]].elementInstanceId)
    decreases |ids|
  {
    if ids != [] {
      KeysOfMember(guests, embedder, ids[1..], k);
      if k in KeysOf(guests, embedder, ids[1..]) {
        var i :| 0 <= i < |ids[1..]| && k == SlotKey(embedder, guests[ids[1..][i]].elementInstanceId);
        assert ids[1..][i] == ids[i + 1];
      }
      if exists i :: 0 <= i < |ids| && k == SlotKey(embedder, guests[ids[i]].elementInstanceId) {
        var i :| 0 <= i < |ids| && k == SlotKey(embedder, guests[ids[i]].elementInstanceId);
        if i > 0 {
          assert ids[1..][i - 1] == ids[i];
        }
      }
    }
  }

  /** The listener's closed form agrees with its loop: for any enumeration of the embedder's
      guests, detaching each and then unwatching gives `EmbedderWillDestroy`. */
  lemma WillDestroyIsDetachEach(m: Manager, embedder: int, ids: seq<int>)
    requires embedder in m.watched
    requires Distinct(ids) && (set i | i in ids) == GuestsOf(m, embedder)
    ensures var r := DetachEach(m, embedder, ids);
            EmbedderWillDestroy(m, embedder) == r.(watched := r.watched - {embedder})
  {
    assert AllOf(m.guests, embedder, ids) by {
      forall j | 0 <= j < |ids| ensures ids[j] in m.guests && m.guests[ids[j]].embedder == embedder {
        assert ids[j] in (set x | x in ids);
        assert ids[j] in GuestsOf(m, embedder);
      }
    }
    DetachEachRemoves(m, embedder, ids);
    forall k ensures k in SlotKeysOf(m, embedder) <==> k in KeysOf(m.guests, embedder, ids) {
      KeysOfMember(m.guests, embedder, ids, k);
      if k in SlotKeysOf(m, embedder) {
        var id :| id in m.guests && m.guests[id].embedder == embedder && k == SlotKey(embedder, m.guests[id].elementInstanceId);
        assert id in GuestsOf(m, embedder);
        assert id in (set x | x in ids);
        var j :| 0 <= j < |ids| && ids[j] == id;
      }
    }
    assert SlotKeysOf(m, embedder) == KeysOf(m.guests, embedder, ids);
  }

  lemma WillDestroyKeepsEmbedder(m: Manager, embedder: int)
    requires Valid(m)
    ensures Valid(EmbedderWillDestroy(m, embedder)) && EmbedderStable(m, EmbedderWillDestroy(m, embedder))
  {
  }

  /** The embedder's visibility listener (registered only for a watched embedder): every record
      takes the new state, but only the embedder's own guests are sent it. */
  function VisibilityChange(m: Manager, embedder: int, state: string): (r: (Manager, set<int>))
    ensures embedder !in m.watched ==> r == (m, {})
    ensures embedder in m.watched ==>
              && r.0.guests.Keys == m.guests.Keys
              && (forall id :: id in m.guests ==> r.0.guests[id] == m.guests[id].(visibilityState := Some(state)))
              && r.1 == GuestsOf(m, embedder)
    ensures r.0.slots == m.slots && r.0.watched == m.watched && r.0.creators == m.creators && r.0.nextId == m.nextId
  {
    if embedder !in m.watched then (m, {})
    else
      (m.(guests := map id | id in m.guests :: m.guests[id].(visibilityState := Some(state))),
       GuestsOf(m, embedder))
  }

  /** A visibility change keeps the registry valid and changes no embedder. */
  lemma VisibilityChangeKeepsValid(m: Manager, embedder: int, state: string)
    requires Valid(m)
    ensures Valid(VisibilityChange(m, embedder, state).0)
    ensures EmbedderStable(m, VisibilityChange(m, embedder, state).0)
  {
  }

  /** A guest of another embedder has its recorded visibility overwritten without being told. */
  lemma VisibilityOverwritesOthers(m: Manager, embedder: int, state: string, other: int)
    requires embedder in m.watched && other in m.guests && m.guests[other].embedder != embedder
    ensures var (m1, sent) := VisibilityChange(m, embedder, state);
            m1.guests[other].visibilityState == Some(state) && other !in sent
  {
  }

  // ---------------------------------------------------------------------------------------
  // The create, attach and detach IPC handlers

  /** The three registry-changing IPC messages: create a guest, attach one to an element (with
      the request's frame, ids, attributes and sender state), detach one. */
  datatype GuestMessage =
    | CreateGuestMessage
    | AttachGuestMessage(req: AttachRequest)
    | DetachGuestMessage(guestInstanceId: int)

  /** What a handler answers: the new guest's id, or nothing (the attach handler logs and
      swallows a failure, and detach returns nothing). */
  datatype Reply = NewGuest(id: int) | NoReply

  /** The registry, effects and reply (or error) of one message as the IPC layer runs it. */
  datatype MessageOutcome = MessageOutcome(next: Manager, effects: seq<Effect>, reply: Result<Reply, GuestError>)

  /** The handler behind each message, run for `sender`; `parse` stands for
      `parseWebViewWebPreferences`. */
  function HandleGuestMessage(m: Manager, sender: int, msg: GuestMessage, parse: string -> JsObject): (r: MessageOutcome)
    ensures r.reply.Success?
    ensures msg.CreateGuestMessage? ==> r.reply.value.NewGuest? && r.reply.value.id in r.next.guests
                                        && r.next.slots == m.slots && r.effects == []
    ensures !msg.CreateGuestMessage? ==> r.reply.value == NoReply
    ensures msg.DetachGuestMessage? ==> r.next.watched == m.watched
  {
    match msg
    case CreateGuestMessage =>
      var (next, id) := CreateGuest(m, sender);
      MessageOutcome(next, [], Success(NewGuest(id)))
    case AttachGuestMessage(req) =>
      var o := AttachGuest(m, sender, req, parse);
      MessageOutcome(o.next, o.effects, Success(NoReply))
    case DetachGuestMessage(id) =>
      var st := DetachGuest(m, sender, id);
      MessageOutcome(st.next, st.effects, Success(NoReply))
  }

  /** A create, attach or detach message behind the `<webview>` guard, with the updated answer
      cache: a sender with `<webview>` disabled gets the `<webview>`-disabled error, and the
      registry is left exactly as it was, with no effect; an enabled sender's message runs its
      handler unchanged. */
  function GuardedMessage(cache: map<int, bool>, lastWebviewTag: JsValue, m: Manager, sender: int,
                          msg: GuestMessage, parse: string -> JsObject): (r: (MessageOutcome, map<int, bool>))
    ensures var enabled := if sender in cache then cache[sender] else Truthy(lastWebviewTag);
            && (r.0.reply.Success? <==> enabled)
            && (!enabled ==> r.0.next == m && r.0.effects == [] && r.0.reply == Failure(WebViewDisabled))
            && (enabled ==> r.0 == HandleGuestMessage(m, sender, msg, parse))
            && r.1.Keys == cache.Keys + {sender} && sender in r.1 && r.1[sender] == enabled
  {
    var (enabled, cache1) := IsWebViewTagEnabled(cache, sender, lastWebviewTag);
    if enabled then (HandleGuestMessage(m, sender, msg, parse), cache1)
    else (MessageOutcome(m, [], Failure(WebViewDisabled)), cache1)
  }

  /** After one guarded message from a sender, whether a later one from the same sender gets
      through no longer depends on the `webviewTag` preference it sees. */
  lemma GuardedMessageCached(cache: map<int, bool>, tag: JsValue, laterTag: JsValue, m: Manager, later: Manager,
                             sender: int, msg: GuestMessage, laterMsg: GuestMessage, parse: string -> JsObject)
    ensures var cache1 := GuardedMessage(cache, tag, m, sender, msg, parse).1;
            var r := GuardedMessage(cache1, laterTag, later, sender, laterMsg, parse).0;
            r.reply.Success? <==> (if sender in cache then cache[sender] else Truthy(tag))
  {
  }

  /** Behind the guard, a disabled sender can neither create nor remove a guest: the registry's
      guest ids are unchanged. An enabled sender's create adds exactly one guest, which it
      hosts. */
  lemma GuardedCreate(cache: map<int, bool>, lastWebviewTag: JsValue, m: Manager, sender: int, parse: string -> JsObject)
    requires Valid(m)
    ensures var enabled := if sender in cache then cache[sender] else Truthy(lastWebviewTag);
            var r := GuardedMessage(cache, lastWebviewTag, m, sender, CreateGuestMessage, parse).0;
            && (!enabled ==> r.next.guests.Keys == m.guests.Keys)
            && (enabled ==> r.reply.Success? && r.reply.value.NewGuest?
                            && r.next.guests.Keys == m.guests.Keys + {r.reply.value.id}
                            && r.reply.value.id !in m.guests
                            && r.next.guests[r.reply.value.id].guest.host == sender)
  {
    var (next, id) := CreateGuest(m, sender);
    assert next.guests.Keys == m.guests.Keys + {id};
  }

  // ---------------------------------------------------------------------------------------
  // A stale slot

  /** Attaching a second guest to an occupied element leaves the occupant's record claiming that
      element, so detaching the occupant later deletes the slot of the guest that replaced it. */
  lemma OccupantDetachClearsReplacement()
    ensures
      var (m1, a) := CreateGuest(Empty, 7);
      var (m2, b) := CreateGuest(m1, 7);
      var m3 := Attach(m2, 7, AttachRequest(0, 5, a, map[], Undefined, map[], false), map[]).next;
      var m4 := Attach(m3, 7, AttachRequest(0, 5, b, map[], Undefined, map[], false), map[]).next;
      var m5 := DetachGuest(m4, 7, a).next;
      && m4.slots[SlotKey(7, Some(5))] == b
      && m4.guests[a].elementInstanceId == Some(5)
      && b in m5.guests && m5.guests[b].elementInstanceId == Some(5)
      && SlotKey(7, Some(5)) !in m5.slots
  {
    var key := SlotKey(7, Some(5));
    var g1 := Instance(7, Guest(1, 7, Undefined, false), None, None);
    var g2 := Instance(7, Guest(2, 7, Undefined, false), None, None);
    var m2 := Manager(map[1 := g1, 2 := g2], map[], {}, map[1 := 7, 2 := 7], 3);
    assert CreateGuest(Empty, 7).1 == 1;
    assert CreateGuest(CreateGuest(Empty, 7).0, 7) == (m2, 2);
    AttachUnplacedGuest(m2, 7, 0, 5, 1);
    var m3 := m2.(guests := m2.guests[1 := g1.(elementInstanceId := Some(5))], slots := map[key := 1], watched := {7});
    AttachUnplacedGuest(m3, 7, 0, 5, 2);
  }

  /** A guest of `caller` that sits in no element, attached to an element whose slot it does
      not already hold, takes the element and the slot and nothing else changes but the watch. */
  lemma AttachUnplacedGuest(m: Manager, caller: int, frame: int, element: int, id: int)
    requires id in m.guests && m.guests[id].embedder == caller && m.guests[id].guest.host == caller
    requires !HasElement(m.guests[id])
    requires var key := SlotKey(caller, Some(element)); !(key in m.slots && m.slots[key] == id)
    ensures Attach(m, caller, AttachRequest(frame, element, id, map[], Undefined, map[], false), map[]).next
         == m.(guests := m.guests[id := m.guests[id].(elementInstanceId := Some(element))],
               slots := m.slots[SlotKey(caller, Some(element)) := id],
               watched := m.watched + {caller})
  {
  }
}

=== FILE: literal_buffer.dfy ===
/** The scanner's `LiteralBuffer` (literal-buffer.h, literal-buffer.cc): a growable byte store
    that holds Latin-1 code units one byte each until the first wider unit arrives, and 16-bit
    code units (little-endian byte pairs) from then on until `Start`. The C++ object is mutated in
    place; here each operation returns the updated buffer. */
module LiteralBuffer {
  import opened Globals
  import Unicode

  const kInitialCapacity: int := 16
  const kGrowthFactor: int := 4
  const kMaxGrowth: int := 1 * MB

  datatype Buffer = Buffer(backingStore: seq<byte>, position: int, isOneByte: bool)

  /** The class invariant: the write position lies inside the store, the store size is even and,
      in two-byte mode, so is the position. */
  predicate Valid(b: Buffer) {
    && 0 <= b.position <= |b.backingStore|
    && |b.backingStore| % 2 == 0
    && (!b.isOneByte ==> b.position % 2 == 0)
  }

  /** The 16-bit code unit stored little-endian at byte offset `2 * k`. */
  function UnitAt(store: seq<byte>, k: nat): uc16
    requires 2 * k + 1 < |store|
  {
    (store[2 * k] as int) + 0x100 * (store[2 * k + 1] as int)
  }

  /** The first `n` 16-bit units of `store`. */
  function TwoByteUnits(store: seq<byte>, n: nat): (r: seq<uc16>)
    requires 2 * n <= |store|
    ensures |r| == n
    ensures forall k :: 0 <= k < n ==> r[k] == UnitAt(store, k)
  {
    seq(n, (k: int) requires 0 <= k < n => UnitAt(store, k))
  }

  /** The code units added since the last `Start`, as `literal()` reads them back. */
  function Contents(b: Buffer): seq<uc32>
    requires Valid(b)
  {
    if b.isOneByte then b.backingStore[..b.position]
    else TwoByteUnits(b.backingStore, b.position / 2)
  }

  /** The empty buffer the constructor builds. */
  function Empty(): (b: Buffer)
    ensures Valid(b) && b.isOneByte && Contents(b) == []
  {
    Buffer([], 0, true)
  }

  /** `length()`: bytes in one-byte mode, 16-bit units (`position_ >> 1`) otherwise. */
  function Length(b: Buffer): (n: int)
    requires Valid(b)
    ensures n == |Contents(b)|
  {
    if b.isOneByte then b.position else b.position / 2
  }

  /** `Start()`: forgets the contents and returns to one-byte mode; the store is kept. */
  function Start(b: Buffer): (r: Buffer)
    requires Valid(b)
    ensures Valid(r) && r.isOneByte && Length(r) == 0 && Contents(r) == []
    ensures r.backingStore == b.backingStore
  {
    b.(position := 0, isOneByte := true)
  }

  /** `Equals(keyword)`: only a one-byte buffer can equal a keyword, and then exactly when its
      bytes are the keyword's bytes. */
  function Equals(b: Buffer, keyword: seq<byte>): (r: bool)
    requires Valid(b)
    ensures r <==> b.isOneByte && Contents(b) == keyword
  {
    b.isOneByte && |keyword| == b.position && keyword == b.backingStore[..b.position]
  }

  /** `one_byte_literal()`: the first `position_` bytes, in whatever mode. */
  function OneByteLiteral(b: Buffer): (r: seq<byte>)
    requires Valid(b)
    ensures b.isOneByte ==> r == Contents(b)
  {
    b.backingStore[..b.position]
  }

  /** `two_byte_literal()`: the first `position_ >> 1` 16-bit units, in whatever mode. */
  function TwoByteLiteral(b: Buffer): (r: seq<uc16>)
    requires Valid(b)
    ensures !b.isOneByte ==> r == Contents(b)
  {
    TwoByteUnits(b.backingStore, b.position / 2)
  }

  /** `NewCapacity`: quadruple small stores, grow large ones by `kMaxGrowth`. */
  function NewCapacity(minCapacity: int): int {
    if minCapacity < kMaxGrowth / (kGrowthFactor - 1) then minCapacity * kGrowthFactor
    else minCapacity + kMaxGrowth
  }

  /** The new capacity always exceeds a positive request and keeps an even request even. */
  lemma NewCapacityGrows(m: int)
    requires m > 0
    ensures NewCapacity(m) > m
    ensures m % 2 == 0 ==> NewCapacity(m) % 2 == 0
  {
  }

  lemma NewCapacityGrowsAll(m: int)
    requires m >= 0
    ensures NewCapacity(m) >= m && (m % 2 == 0 ==> NewCapacity(m) % 2 == 0)
  {
    if m > 0 { NewCapacityGrows(m); }
  }

  /** `ExpandBuffer`: a store of `NewCapacity(max(16, size))` zero bytes into which the first
      `position_` bytes are copied. */
  function ExpandBuffer(b: Buffer): (r: Buffer)
    requires Valid(b)
    ensures Valid(r)
    ensures |r.backingStore| >= 64 && |r.backingStore| > |b.backingStore|
    ensures r.backingStore[..b.position] == b.backingStore[..b.position]
    ensures r.position == b.position && r.isOneByte == b.isOneByte
    ensures Contents(r) == Contents(b)
  {
    var minCapacity := if kInitialCapacity > |b.backingStore| then kInitialCapacity else |b.backingStore|;
    NewCapacityGrows(minCapacity);
    var size := NewCapacity(minCapacity);
    var newStore := b.backingStore[..b.position] + seq(size - b.position, _ => 0);
    var r := Buffer(newStore, b.position, b.isOneByte);
    assert !b.isOneByte ==> TwoByteUnits(newStore, b.position / 2) == TwoByteUnits(b.backingStore, b.position / 2) by {
      if !b.isOneByte {
        forall k | 0 <= k < b.position / 2
          ensures UnitAt(newStore, k) == UnitAt(b.backingStore, k)
        {
          assert newStore[2 * k] == b.backingStore[2 * k];
          assert newStore[2 * k + 1] == b.backingStore[2 * k + 1];
        }
      }
    }
    r
  }

  /** `AddOneByteChar`: expands a full store first, so the write at `position_` is in bounds. */
  function AddOneByteChar(b: Buffer, x: byte): (r: Buffer)
    requires Valid(b)
    ensures r.position == b.position + 1 && r.isOneByte == b.isOneByte
    ensures r.position <= |r.backingStore| && |r.backingStore| % 2 == 0
    ensures r.backingStore[..b.position] == b.backingStore[..b.position] && r.backingStore[b.position] == x
    ensures b.isOneByte ==> Valid(r) && Contents(r) == Contents(b) + [x]
  {
    var b1 := if b.position >= |b.backingStore| then ExpandBuffer(b) else b;
    assert b1.backingStore[..b.position] == b.backingStore[..b.position];
    var r := b1.(backingStore := b1.backingStore[b.position := x], position := b.position + 1);
    assert r.backingStore[..b.position] == b1.backingStore[..b.position];
    assert b.isOneByte ==> r.backingStore[..r.position] == b.backingStore[..b.position] + [x];
    r
  }

  /** The body of the copy loop in `ConvertToTwoByte`: for `i = n - 1` down to `0`, the 16-bit
      unit at index `i` of `dst` receives byte `i` of `src`. */
  function WidenDown(src: seq<byte>, dst: seq<byte>, n: nat): (r: seq<byte>)
    requires n <= |src| && 2 * n <= |dst|
    ensures |r| == |dst|
    ensures forall k :: 0 <= k < n ==> UnitAt(r, k) == src[k]
    ensures r[2 * n..] == dst[2 * n..]
    decreases n
  {
    if n == 0 then dst
    else
      var i := n - 1;
      var dst' := dst[2 * i := src[i]][2 * i + 1 := 0];
      var r := WidenDown(src, dst', i);
      assert UnitAt(r, i) == UnitAt(dst', i) by {
        assert r[2 * i] == r[2 * i..][0] && r[2 * i + 1] == r[2 * i..][1];
      }
      assert r[2 * n..] == r[2 * i..][2..] && dst'[2 * n..] == dst'[2 * i..][2..];
      assert dst'[2 * n..] == dst[2 * n..];
      r
  }

  /** `ConvertToTwoByte`: widens each stored byte to a 16-bit unit in order, reusing a copy of the
      store when it is large enough and allocating `NewCapacity(2 * position_)` bytes otherwise;
      `position_` doubles and the buffer leaves one-byte mode. */
  function ConvertToTwoByte(b: Buffer): (r: Buffer)
    requires Valid(b) && b.isOneByte
    ensures Valid(r) && !r.isOneByte
    ensures r.position == 2 * b.position
    ensures Contents(r) == Contents(b)
  {
    var newContentSize := b.position * kUC16Size;
    NewCapacityGrowsAll(newContentSize);
    var newStore :=
      if newContentSize >= |b.backingStore| then seq(NewCapacity(newContentSize), _ => 0)
      else b.backingStore;
    var widened := WidenDown(b.backingStore, newStore, b.position);
    var r := Buffer(widened, newContentSize, false);
    assert TwoByteUnits(widened, b.position) == b.backingStore[..b.position];
    r
  }

  /** The units `AddTwoByteChar` and `AddChar` store for `c`: one unit up to 0xFFFF, a
      lead-then-trail surrogate pair above. */
  function Utf16Units(c: uc32): (u: seq<uc16>)
    ensures |u| == 1 || |u| == 2
    ensures c <= 0xFFFF ==> u == [c]
    ensures c > 0xFFFF ==> |u| == 2 && Unicode.IsSurrogatePair(u[0], u[1])
    ensures 0x10000 <= c <= 0x10FFFF ==> Unicode.CombineSurrogatePair(u[0], u[1]) == c
  {
    if c <= Unicode.kMaxNonSurrogateCharCode then [c]
    else
      var u := [Unicode.LeadSurrogate(c), Unicode.TrailSurrogate(c)];
      SplitCombines(c);
      u
  }

  lemma SplitCombines(c: uc32)
    ensures 0x10000 <= c <= 0x10FFFF ==>
              Unicode.CombineSurrogatePair(Unicode.LeadSurrogate(c), Unicode.TrailSurrogate(c)) == c
  {
    if 0x10000 <= c <= 0x10FFFF { Unicode.CombineInvertsSplit(c); }
  }

  /** Writes the 16-bit unit `u` little-endian at `position_`; both bytes are in bounds because the
      position and the store size are even and the position is below the size. */
  function PutUnit(b: Buffer, u: uc16): (r: Buffer)
    requires Valid(b) && !b.isOneByte && b.position < |b.backingStore|
    ensures Valid(r) && !r.isOneByte
    ensures r.position == b.position + kUC16Size && |r.backingStore| == |b.backingStore|
    ensures Contents(r) == Contents(b) + [u]
  {
    var p := b.position;
    var store := b.backingStore[p := u % 0x100][p + 1 := u / 0x100];
    var r := b.(backingStore := store, position := p + 2);
    assert TwoByteUnits(store, p / 2 + 1) == TwoByteUnits(b.backingStore, p / 2) + [u] by {
      forall k | 0 <= k < p / 2
        ensures UnitAt(store, k) == UnitAt(b.backingStore, k)
      {
        assert store[2 * k] == b.backingStore[2 * k];
      }
      assert UnitAt(store, p / 2) == u;
    }
    r
  }

  /** `AddTwoByteChar`: one unit for values up to 0xFFFF, otherwise the lead surrogate and then
      the trail surrogate, expanding the store before each write that would not fit. */
  function AddTwoByteChar(b: Buffer, c: uc32): (r: Buffer)
    requires Valid(b) && !b.isOneByte
    ensures Valid(r) && !r.isOneByte
    ensures Contents(r) == Contents(b) + Utf16Units(c)
  {
    var b1 := if b.position >= |b.backingStore| then ExpandBuffer(b) else b;
    if c <= Unicode.kMaxNonSurrogateCharCode then PutUnit(b1, c)
    else
      var b2 := PutUnit(b1, Unicode.LeadSurrogate(c));
      var b3 := if b2.position >= |b2.backingStore| then ExpandBuffer(b2) else b2;
      PutUnit(b3, Unicode.TrailSurrogate(c))
  }

  /** `AddChar(uc32)`: a one-byte buffer takes units up to 0xFF as single bytes; the first larger
      unit converts it to two-byte mode, which then receives the unit (or its surrogate pair). */
  function AddChar(b: Buffer, c: uc32): (r: Buffer)
    requires Valid(b)
    ensures Valid(r)
    ensures r.isOneByte <==> b.isOneByte && c <= 0xFF
    ensures Contents(r) == Contents(b) + Utf16Units(c)
  {
    if b.isOneByte && c <= 0xFF then AddOneByteChar(b, c)
    else if b.isOneByte then AddTwoByteChar(ConvertToTwoByte(b), c)
    else AddTwoByteChar(b, c)
  }

  /** `AddChar(char)`: the byte goes to `AddOneByteChar` in either mode. In two-byte mode this
      leaves `position_` odd, which breaks the representation; the scanner calls it only right
      after `Start`, in one-byte mode. */
  function AddAsciiChar(b: Buffer, x: byte): (r: Buffer)
    requires Valid(b)
    ensures b.isOneByte ==> Valid(r) && Contents(r) == Contents(b) + [x]
    ensures !b.isOneByte ==> r.position % 2 == 1
  {
    AddOneByteChar(b, x)
  }

  /** All units a sequence of characters contributes. */
  function Flatten(cs: seq<uc32>): seq<uc16> {
    if cs == [] then [] else Flatten(cs[..|cs| - 1]) + Utf16Units(cs[|cs| - 1])
  }

  /** The buffer after `Start` followed by `AddChar` of each element of `cs` in turn. */
  function Fill(b: Buffer, cs: seq<uc32>): (r: Buffer)
    requires Valid(b)
    ensures Valid(r)
  {
    if cs == [] then Start(b) else AddChar(Fill(b, cs[..|cs| - 1]), cs[|cs| - 1])
  }

  /** Every unit of `cs` fits a byte. */
  predicate FitsBytes(cs: seq<uc32>) {
    forall i :: 0 <= i < |cs| ==> cs[i] <= 0xFF
  }

  /** After `Start` and any sequence of `AddChar` calls, `literal()` holds exactly the added
      units in order, and `length()` counts them. */
  lemma {:induction false} FillContents(b: Buffer, cs: seq<uc32>)
    requires Valid(b)
    ensures Contents(Fill(b, cs)) == Flatten(cs)
    ensures Length(Fill(b, cs)) == |Flatten(cs)|
  {
    if cs != [] {
      var init, c := cs[..|cs| - 1], cs[|cs| - 1];
      FillContents(b, init);
      assert Fill(b, cs) == AddChar(Fill(b, init), c);
      assert Flatten(cs) == Flatten(init) + Utf16Units(c);
    }
  }

  /** The buffer is still one-byte after `Start` and any sequence of `AddChar` calls exactly
      when every added unit fits a byte. */
  lemma {:induction false} FillOneByte(b: Buffer, cs: seq<uc32>)
    requires Valid(b)
    ensures Fill(b, cs).isOneByte <==> FitsBytes(cs)
  {
    if cs != [] {
      var init, c := cs[..|cs| - 1], cs[|cs| - 1];
      assert cs == init + [c];
      FitsBytesSnoc(init, c);
      FillOneByte(b, init);
      assert Fill(b, cs) == AddChar(Fill(b, init), c);
    }
  }

  lemma FitsBytesSnoc(s: seq<uc32>, c: uc32)
    ensures FitsBytes(s + [c]) <==> FitsBytes(s) && c <= 0xFF
  {
    if FitsBytes(s + [c]) {
      forall i | 0 <= i < |s| ensures s[i] <= 0xFF {
        assert (s + [c])[i] == s[i];
      }
      assert (s + [c])[|s|] == c;
    }
  }
}

=== FILE: scanner_escapes.dfy ===
/** The escape-sequence scanners of scanner.cc: `ScanHexNumber`, `ScanUnlimitedLengthHexNumber`,
    `ScanOctalEscape`, `ScanUnicodeEscape` and `ScanEscape`. Each reads the source from a cursor
    position and returns the position where it stops. The raw text an escape consumes is
    `src[start..pos]`, because every advance inside these scanners captures the unit it
    passes over when raw capture is on. */
module ScannerEscapes {
  import opened Globals
  import opened Wrappers
  import opened ScannerUtils
  import opened ScannerInput

  /** A scanned code unit or code point, or `Invalid()` with the first error the scan
      reported (`ReportScannerError` keeps only the first). The scanner's `kInvalidSequence`,
      which `ScanUnicodeEscape` compares against, is read as this same `Invalid()` sentinel:
      the header defining it is not part of this model. */
  datatype Scanned =
    | Scanned(value: uc32, pos: nat)
    | Invalid(pos: nat, error: Option<Message>)

  predicate AllHex(s: Source) {
    forall i :: 0 <= i < |s| ==> IsHexDigit(s[i])
  }

  // ---------------------------------------------------------------------------------------
  // ScanHexNumber
  // ---------------------------------------------------------------------------------------

  /** `ScanHexNumber<capture_raw, unicode>(expected_length)` with the cursor at `pos`:
      exactly `n` hex digits, accumulated in a `uc32`. */
  function ScanHexNumber(src: Source, pos: nat, n: nat, unicode: bool): (r: Scanned)
    requires pos <= |src|
    ensures r.Scanned? <==> pos + n <= |src| && AllHex(src[pos..pos + n])
    ensures r.Scanned? ==> r.pos == pos + n
    ensures r.Scanned? && n <= 8 ==> r.value == HexNumeral(src[pos..pos + n])
    ensures r.Invalid? ==>
      pos <= r.pos < pos + n && r.pos <= |src| && AllHex(src[pos..r.pos])
      && !IsHexDigit(C0(src, r.pos))
      && r.error == Some(if unicode then InvalidUnicodeEscapeSequence else InvalidHexEscapeSequence)
  {
    assert src[pos..pos] == [];
    HexLoopShape(src, pos, 0, n, 0, unicode);
    if pos + n <= |src| then HexBetweenSlice(src, pos, pos + n); HexLoopResult(src, pos, n, unicode)
    else HexLoopResult(src, pos, n, unicode)
  }

  /** The result of `ScanHexNumber`'s loop, with what is known of it before the slices. */
  function HexLoopResult(src: Source, pos: nat, n: nat, unicode: bool): (r: Scanned)
    requires pos <= |src|
    ensures r == HexLoop(src, pos, 0, n, 0, unicode)
    ensures r.Scanned? && n <= 8 ==> pos + n <= |src| && AllHex(src[pos..pos + n]) && r.value == HexNumeral(src[pos..pos + n])
    ensures r.Invalid? ==> pos <= r.pos <= |src| && AllHex(src[pos..r.pos])
  {
    assert src[pos..pos] == [];
    HexLoopShape(src, pos, 0, n, 0, unicode);
    var r := HexLoop(src, pos, 0, n, 0, unicode);
    if n <= 8 then HexLoopValue(src, pos, 0, n, 0, unicode); AfterHexLoop(src, pos, r)
    else AfterHexLoop(src, pos, r)
  }

  function AfterHexLoop(src: Source, pos: nat, r: Scanned): (r': Scanned)
    requires r.Invalid? ==> pos <= r.pos && HexBetween(src, pos, r.pos)
    ensures r' == r
    ensures r.Invalid? ==> r.pos <= |src| && AllHex(src[pos..r.pos])
  {
    if r.Invalid? then HexBetweenSlice(src, pos, r.pos); r else r
  }

  /** The loop of `ScanHexNumber` after `i` digits with value `x`. */
  function HexLoop(src: Source, start: nat, i: nat, n: nat, x: uc32, unicode: bool): Scanned
    requires i <= n
    decreases n - i
  {
    if i == n then Scanned(x, start + i)
    else
      var d := HexValue(C0(src, start + i));
      if d < 0 then
        Invalid(start + i, Some(if unicode then InvalidUnicodeEscapeSequence else InvalidHexEscapeSequence))
      else HexLoop(src, start, i + 1, n, ToUint32(x * 16 + d), unicode)
  }

  /** The units `src[a..b]` are all hex digits. */
  predicate HexBetween(src: Source, a: nat, b: nat) {
    b <= |src| && forall k :: a <= k < b ==> IsHexDigit(src[k])
  }

  lemma HexBetweenSlice(src: Source, a: nat, b: nat)
    requires a <= b <= |src|
    ensures HexBetween(src, a, b) <==> AllHex(src[a..b])
  {
    if AllHex(src[a..b]) {
      forall k | a <= k < b ensures IsHexDigit(src[k]) {
        assert src[a..b][k - a] == src[k];
      }
    }
  }

  /** Where `ScanHexNumber`'s loop stops and whether it succeeds. */
  lemma {:induction false} HexLoopShape(src: Source, start: nat, i: nat, n: nat, x: uc32, unicode: bool)
    requires i <= n && HexBetween(src, start, start + i)
    ensures var r := HexLoop(src, start, i, n, x, unicode);
      && (r.Scanned? <==> HexBetween(src, start, start + n))
      && (r.Scanned? ==> r.pos == start + n)
      && (r.Invalid? ==>
            start + i <= r.pos < start + n && HexBetween(src, start, r.pos)
            && !IsHexDigit(C0(src, r.pos))
            && r.error == Some(if unicode then InvalidUnicodeEscapeSequence else InvalidHexEscapeSequence))
    decreases n - i
  {
    if i < n {
      var c := C0(src, start + i);
      HexValueMeaning(c);
      EndOfInputIsNoDigit();
      if HexValue(c) >= 0 {
        HexLoopShape(src, start, i + 1, n, ToUint32(x * 16 + HexValue(c)), unicode);
      }
    }
  }

  /** Within eight digits `ScanHexNumber`'s `uc32` accumulator never wraps: it holds the exact
      value of the digits read. */
  lemma {:induction false} HexLoopValue(src: Source, start: nat, i: nat, n: nat, x: uc32, unicode: bool)
    requires i <= n <= 8 && start + i <= |src|
    requires AllHex(src[start..start + i]) && x == HexNumeral(src[start..start + i])
    ensures var r := HexLoop(src, start, i, n, x, unicode);
      r.Scanned? ==> start + n <= |src| && AllHex(src[start..start + n]) && r.value == HexNumeral(src[start..start + n])
    decreases n - i
  {
    if i < n {
      var c := C0(src, start + i);
      if HexValue(c) >= 0 {
        var nx := ToUint32(x * 16 + HexValue(c));
        HexLoopValueStep(src, start, i, n, x);
        HexLoopValue(src, start, i + 1, n, nx, unicode);
        HexLoopUnfold(src, start, i, n, x, unicode);
        assert HexLoop(src, start, i, n, x, unicode) == HexLoop(src, start, i + 1, n, nx, unicode);
      }
    }
  }

  /** One hex digit read within the first eight keeps the accumulator exact. */
  lemma HexLoopValueStep(src: Source, start: nat, i: nat, n: nat, x: uc32)
    requires i < n <= 8 && start + i <= |src|
    requires AllHex(src[start..start + i]) && x == HexNumeral(src[start..start + i])
    requires HexValue(C0(src, start + i)) >= 0
    ensures start + i < |src| && AllHex(src[start..start + i + 1])
    ensures ToUint32(x * 16 + HexValue(C0(src, start + i))) == HexNumeral(src[start..start + i + 1])
  {
    var p := start + i;
    HexValueMeaning(C0(src, p));
    EndOfInputIsNoDigit();
    HexStep(src, start, p, x, true);
  }

  /** One turn of `ScanHexNumber`'s loop on a hex digit. */
  lemma HexLoopUnfold(src: Source, start: nat, i: nat, n: nat, x: uc32, unicode: bool)
    requires i < n && HexValue(C0(src, start + i)) >= 0
    ensures HexLoop(src, start, i, n, x, unicode)
         == HexLoop(src, start, i + 1, n, ToUint32(x * 16 + HexValue(C0(src, start + i))), unicode)
  {
  }

  /** One digit of `ScanHexNumber`: the run stays hex, and within eight digits the `uc32`
      accumulator is the run's exact value. */
  lemma HexStep(src: Source, start: nat, p: nat, x: uc32, exact: bool)
    requires start <= p < |src| && IsHexDigit(src[p]) && AllHex(src[start..p])
    requires exact ==> p + 1 - start <= 8 && x == HexNumeral(src[start..p])
    ensures AllHex(src[start..p + 1])
    ensures exact ==> ToUint32(x * 16 + HexValue(src[p])) == HexNumeral(src[start..p + 1])
  {
    assert src[start..p + 1] == src[start..p] + [src[p]];
    if exact {
      HexNumeralSnoc(src[start..p], src[p]);
      HexNumeralBound(src[start..p + 1]);
      PowMonotone(16, p + 1 - start, 8);
      assert Pow(16, 8) == TwoTo32;
    }
  }

  lemma AllHexPrefix(s: Source, k: nat)
    requires AllHex(s) && k <= |s|
    ensures AllHex(s[..k])
  {
  }

  lemma AllHexConcat(src: Source, a: nat, b: nat, c: nat)
    requires a <= b <= c <= |src|
    requires AllHex(src[a..b]) && AllHex(src[b..c])
    ensures AllHex(src[a..c])
  {
    assert src[a..c] == src[a..b] + src[b..c];
  }

  lemma HexNumeralBound(s: Source)
    requires AllHex(s)
    ensures HexNumeral(s) < Pow(16, |s|)
  {
    NumeralBound(HexDigitValues(s), 16);
  }

  lemma {:induction false} PowMonotone(base: nat, a: nat, b: nat)
    requires base >= 1 && a <= b
    ensures Pow(base, a) <= Pow(base, b)
    decreases b
  {
    if a < b {
      PowMonotone(base, a, b - 1);
      MulMono(1, base, Pow(base, b - 1));
    }
  }

  // ---------------------------------------------------------------------------------------
  // ScanUnlimitedLengthHexNumber
  // ---------------------------------------------------------------------------------------

  /** The end of the run of hex digits starting at `p`. */
  function HexRunEnd(src: Source, p: nat): (e: nat)
    ensures p <= e
    ensures p <= |src| ==> e <= |src| && AllHex(src[p..e])
    ensures !IsHexDigit(C0(src, e))
    decreases |src| - p
  {
    EndOfInputIsNoDigit();
    if IsHexDigit(C0(src, p)) then
      var e := HexRunEnd(src, p + 1);
      assert src[p..e] == [src[p]] + src[p + 1..e];
      e
    else p
  }

  /** The largest value a code point may take. */
  const kMaxCodePoint: uc32 := 0x10FFFF

  /** `ScanUnlimitedLengthHexNumber<capture_raw>(max_value, beg_pos)` with the cursor at `pos`:
      the whole run of hex digits, failing as soon as the value passes `maxValue`. */
  function ScanUnlimitedLengthHexNumber(src: Source, pos: nat, maxValue: uc32): (r: Scanned)
    requires pos <= |src|
    ensures r.Scanned? ==> r.value <= maxValue && pos < r.pos == HexRunEnd(src, pos)
    ensures pos <= r.pos <= |src|
    ensures r.Invalid? && r.error.None? <==> !IsHexDigit(C0(src, pos))
    ensures r.Invalid? ==> r.error.None? || r.error == Some(UndefinedUnicodeCodePoint)
  {
    var d := HexValue(C0(src, pos));
    HexValueMeaning(C0(src, pos));
    if d < 0 then Invalid(pos, None)
    else
      EndOfInputIsNoDigit();
      UnlimitedLoopShape(src, pos, 0, maxValue);
      UnlimitedLoop(src, pos, 0, maxValue)
  }

  /** The loop of `ScanUnlimitedLengthHexNumber` with the cursor on a hex digit at `p` and the
      value `x` of the digits before it. */
  function UnlimitedLoop(src: Source, p: nat, x: uc32, maxValue: uc32): Scanned
    requires p < |src| && IsHexDigit(src[p])
    decreases |src| - p
  {
    HexValueMeaning(src[p]);
    var nx := ToUint32(x * 16 + HexValue(src[p]));
    if nx > maxValue then Invalid(p, Some(UndefinedUnicodeCodePoint))
    else if HexValue(C0(src, p + 1)) < 0 then Scanned(nx, p + 1)
    else
      HexValueMeaning(C0(src, p + 1));
      EndOfInputIsNoDigit();
      UnlimitedLoop(src, p + 1, nx, maxValue)
  }

  lemma {:induction false} UnlimitedLoopShape(src: Source, p: nat, x: uc32, maxValue: uc32)
    requires p < |src| && IsHexDigit(src[p])
    ensures var r := UnlimitedLoop(src, p, x, maxValue);
      && (r.Scanned? ==> r.value <= maxValue && p < r.pos == HexRunEnd(src, p))
      && p <= r.pos <= |src|
      && (r.Invalid? ==> r.error == Some(UndefinedUnicodeCodePoint))
    decreases |src| - p
  {
    HexValueMeaning(C0(src, p + 1));
    EndOfInputIsNoDigit();
    var nx := ToUint32(x * 16 + HexValue(src[p]));
    if nx <= maxValue && HexValue(C0(src, p + 1)) >= 0 {
      UnlimitedLoopShape(src, p + 1, nx, maxValue);
    }
  }

  /** A hex run's value only grows as the run is extended. */
  lemma {:induction false} HexNumeralPrefix(s: Source, k: nat)
    requires AllHex(s) && k <= |s|
    ensures AllHex(s[..k]) && HexNumeral(s[..k]) <= HexNumeral(s)
    decreases |s| - k
  {
    AllHexPrefix(s, k);
    if k < |s| {
      HexNumeralPrefix(s, k + 1);
      var init := s[..k];
      assert s[..k + 1] == init + [s[k]];
      HexNumeralSnoc(init, s[k]);
      HexValueMeaning(s[k]);
      var a, b := HexNumeral(init), HexNumeral(s[..k + 1]);
      assert b == a * 16 + HexValue(s[k]);
      assert a <= b <= HexNumeral(s);
    } else {
      assert s[..k] == s;
    }
  }

  /** When the bound leaves room for one more hex digit (as `kMaxCodePoint` does), the scan
      succeeds exactly when the whole run of digits fits under the bound, and then its value is
      the run's value: no 32-bit wrap-around can intervene. */
  lemma UnlimitedHexValue(src: Source, pos: nat, maxValue: uc32)
    requires pos <= |src| && maxValue < 0x1000_0000
    ensures var r := ScanUnlimitedLengthHexNumber(src, pos, maxValue);
      var e := HexRunEnd(src, pos);
      && (r.Scanned? <==> pos < e && HexNumeral(src[pos..e]) <= maxValue)
      && (r.Scanned? ==> r.value == HexNumeral(src[pos..e]))
  {
    EndOfInputIsNoDigit();
    var e := HexRunEnd(src, pos);
    if IsHexDigit(C0(src, pos)) {
      assert src[pos..pos] == [];
      UnlimitedLoopValue(src, pos, pos, 0, maxValue);
    }
  }

  lemma {:induction false} UnlimitedLoopValue(src: Source, start: nat, p: nat, x: uc32, maxValue: uc32)
    requires start <= p < |src| && IsHexDigit(src[p]) && maxValue < 0x1000_0000
    requires AllHex(src[start..p]) && x == HexNumeral(src[start..p]) && x <= maxValue
    ensures var r := UnlimitedLoop(src, p, x, maxValue);
      var e := HexRunEnd(src, p);
      && AllHex(src[start..e])
      && (r.Scanned? <==> HexNumeral(src[start..e]) <= maxValue)
      && (r.Scanned? ==> r.value == HexNumeral(src[start..e]))
    decreases |src| - p
  {
    var r := UnlimitedLoop(src, p, x, maxValue);
    var e := HexRunEnd(src, p);
    UnlimitedDigit(src, start, p, x, maxValue);
    var nx := ToUint32(x * 16 + HexValue(src[p]));
    UnlimitedLoopUnfold(src, p, x, maxValue);
    if nx > maxValue {
      assert r.Invalid?;
    } else if IsHexDigit(C0(src, p + 1)) {
      UnlimitedLoopValue(src, start, p + 1, nx, maxValue);
      assert e == HexRunEnd(src, p + 1);
    } else {
      assert e == p + 1;
    }
  }

  /** One digit of `ScanUnlimitedLengthHexNumber` under a bound below 2^28: the accumulator is
      the exact value of the digits read so far, which is at most the whole run's value. */
  lemma UnlimitedDigit(src: Source, start: nat, p: nat, x: uc32, maxValue: uc32)
    requires start <= p < |src| && IsHexDigit(src[p]) && maxValue < 0x1000_0000
    requires AllHex(src[start..p]) && x == HexNumeral(src[start..p]) && x <= maxValue
    ensures var e := HexRunEnd(src, p);
      && p < e && AllHex(src[start..e]) && AllHex(src[start..p + 1])
      && ToUint32(x * 16 + HexValue(src[p])) == HexNumeral(src[start..p + 1]) <= HexNumeral(src[start..e])
  {
    var e := HexRunEnd(src, p);
    EndOfInputIsNoDigit();
    assert e == HexRunEnd(src, p + 1);
    AllHexConcat(src, start, p, e);
    HexStep(src, start, p, x, false);
    assert src[start..p + 1] == src[start..p] + [src[p]];
    HexNumeralSnoc(src[start..p], src[p]);
    HexValueMeaning(src[p]);
    assert src[start..e][..p + 1 - start] == src[start..p + 1];
    HexNumeralPrefix(src[start..e], p + 1 - start);
  }

  /** One turn of `ScanUnlimitedLengthHexNumber`'s loop. */
  lemma UnlimitedLoopUnfold(src: Source, p: nat, x: uc32, maxValue: uc32)
    requires p < |src| && IsHexDigit(src[p])
    ensures var nx := ToUint32(x * 16 + HexValue(src[p]));
      && (nx > maxValue ==> UnlimitedLoop(src, p, x, maxValue) == Invalid(p, Some(UndefinedUnicodeCodePoint)))
      && (nx <= maxValue && !IsHexDigit(C0(src, p + 1)) ==> UnlimitedLoop(src, p, x, maxValue) == Scanned(nx, p + 1))
      && (nx <= maxValue && IsHexDigit(C0(src, p + 1)) ==>
            p + 1 < |src| && UnlimitedLoop(src, p, x, maxValue) == UnlimitedLoop(src, p + 1, nx, maxValue))
  {
    HexValueMeaning(C0(src, p + 1));
    EndOfInputIsNoDigit();
  }

  // ---------------------------------------------------------------------------------------
  // ScanOctalEscape
  // ---------------------------------------------------------------------------------------

  /** `int d = c0_ - '0'`: the subtraction happens in `uc32` and the result is read back as a
      signed 32-bit integer. */
  function SignedDigit(c: uc32): int {
    var u := ToUint32(c - '0' as int);
    if u >= 0x8000_0000 then u - TwoTo32 else u
  }

  lemma SignedDigitMeaning(c: uc32)
    ensures 0 <= SignedDigit(c) <= 7 <==> IsOctalDigit(c)
    ensures IsOctalDigit(c) ==> SignedDigit(c) == c - '0' as int
  {
    if c < '0' as int {
      assert ToUint32(c - '0' as int) == c - '0' as int + TwoTo32;
    } else {
      assert ToUint32(c - '0' as int) == c - '0' as int;
    }
  }

  predicate AllOctal(s: seq<uc32>) {
    forall i :: 0 <= i < |s| ==> IsOctalDigit(s[i])
  }

  function OctalValueOf(c: uc32): (d: int)
    requires IsOctalDigit(c)
    ensures d == c - '0' as int && 0 <= d < 8
  {
    c - '0' as int
  }

  /** The value of a run of octal digits. */
  function OctalNumeral(s: seq<uc32>): nat
    requires AllOctal(s)
  {
    Numeral(seq(|s|, i requires 0 <= i < |s| => OctalValueOf(s[i])), 8)
  }

  lemma OctalNumeralSnoc(s: seq<uc32>, c: uc32)
    requires AllOctal(s) && IsOctalDigit(c)
    ensures OctalNumeral(s + [c]) == OctalNumeral(s) * 8 + (c - '0' as int)
  {
    var ds := seq(|s|, i requires 0 <= i < |s| => OctalValueOf(s[i]));
    assert seq(|s + [c]|, i requires 0 <= i < |s + [c]| => OctalValueOf((s + [c])[i])) == ds + [OctalValueOf(c)];
    NumeralSnoc(ds, OctalValueOf(c), 8);
  }

  /** What `ScanOctalEscape` yields: the value, where the cursor stops, and whether it records
      an octal-escape position (`octal_pos_` / `octal_message_`). */
  datatype OctalScan = OctalScan(value: uc32, pos: nat, octal: bool)

  /** `ScanOctalEscape<capture_raw>(c, length)` with the first digit `c` already consumed and
      the cursor at `pos`: up to `length` further octal digits, stopping before the value would
      reach 256. */
  function ScanOctalEscape(src: Source, pos: nat, c: uc32, length: nat): (r: OctalScan)
    requires IsOctalDigit(c) && pos <= |src|
    ensures r.value < 256
    ensures pos <= r.pos <= pos + length && r.pos <= |src|
    ensures AllOctal(src[pos..r.pos]) && r.value == OctalNumeral([c] + src[pos..r.pos])
    ensures r.pos == pos + length || !IsOctalDigit(C0(src, r.pos))
            || r.value * 8 + (C0(src, r.pos) - '0' as int) >= 256
    ensures r.octal <==> c != '0' as int || r.pos > pos || IsNonOctalDecimalDigit(C0(src, r.pos))
  {
    var x := c - '0' as int;
    assert [c] + src[pos..pos] == [] + [c];
    OctalNumeralSnoc([], c);
    OctalLoopSpec(src, pos, c, 0, length, x);
    var (v, i) := OctalLoop(src, pos, 0, length, x);
    OctalScan(v, pos + i, c != '0' as int || i > 0 || IsNonOctalDecimalDigit(C0(src, pos + i)))
  }

  /** The loop of `ScanOctalEscape` after `i` further digits with value `x`; yields the final
      value and digit count. */
  function OctalLoop(src: Source, pos: nat, i: nat, length: nat, x: uc32): (uc32, nat)
    requires i <= length
    decreases length - i
  {
    if i == length then (x, i)
    else
      var d := SignedDigit(C0(src, pos + i));
      if d < 0 || d > 7 then (x, i)
      else
        var nx := x * 8 + d;
        if nx >= 256 then (x, i)
        else OctalLoop(src, pos, i + 1, length, nx)
  }

  lemma {:induction false} OctalLoopSpec(src: Source, pos: nat, c: uc32, i: nat, length: nat, x: uc32)
    requires IsOctalDigit(c) && i <= length && x < 256
    requires pos + i <= |src| && AllOctal(src[pos..pos + i])
    requires x == OctalNumeral([c] + src[pos..pos + i])
    ensures var (v, k) := OctalLoop(src, pos, i, length, x); i <= k && OctalLoopDone(src, pos, c, length, v, k)
    decreases length - i
  {
    if i < length {
      var cc := C0(src, pos + i);
      SignedDigitMeaning(cc);
      EndOfInputIsNoDigit();
      var d := SignedDigit(cc);
      if 0 <= d <= 7 && x * 8 + d < 256 {
        var nx := x * 8 + d;
        OctalStep(src, pos, c, i, x);
        OctalLoopSpec(src, pos, c, i + 1, length, nx);
        OctalLoopUnfold(src, pos, i, length, x);
        assert OctalLoop(src, pos, i, length, x) == OctalLoop(src, pos, i + 1, length, nx);
      } else {
        OctalLoopStops(src, pos, i, length, x);
        assert !IsOctalDigit(cc) || x * 8 + (cc - '0' as int) >= 256;
      }
    }
  }

  /** Where `ScanOctalEscape`'s loop may stop with value `v` after `k` further digits: the digits
      read are octal and make up `v`, which stays below 256, and the next unit is past the length
      limit, no octal digit, or would take the value to 256 or more. */
  predicate OctalLoopDone(src: Source, pos: nat, c: uc32, length: nat, v: uc32, k: nat)
    requires IsOctalDigit(c)
  {
    && v < 256 && k <= length && pos + k <= |src| && AllOctal(src[pos..pos + k])
    && v == OctalNumeral([c] + src[pos..pos + k])
    && (k == length || !IsOctalDigit(C0(src, pos + k)) || v * 8 + (C0(src, pos + k) - '0' as int) >= 256)
  }

  /** One turn of `ScanOctalEscape`'s loop on an octal digit that keeps the value below 256. */
  lemma OctalLoopUnfold(src: Source, pos: nat, i: nat, length: nat, x: uc32)
    requires i < length && 0 <= SignedDigit(C0(src, pos + i)) <= 7
    requires x * 8 + SignedDigit(C0(src, pos + i)) < 256
    ensures OctalLoop(src, pos, i, length, x) == OctalLoop(src, pos, i + 1, length, x * 8 + SignedDigit(C0(src, pos + i)))
  {
  }

  /** `ScanOctalEscape`'s loop stops on anything else. */
  lemma OctalLoopStops(src: Source, pos: nat, i: nat, length: nat, x: uc32)
    requires i < length
    requires var d := SignedDigit(C0(src, pos + i)); d < 0 || d > 7 || x * 8 + d >= 256
    ensures OctalLoop(src, pos, i, length, x) == (x, i)
  {
  }

  /** One more octal digit extends the escape's numeral. */
  lemma OctalStep(src: Source, pos: nat, c: uc32, i: nat, x: uc32)
    requires IsOctalDigit(c) && pos + i < |src| && IsOctalDigit(src[pos + i])
    requires AllOctal(src[pos..pos + i]) && x == OctalNumeral([c] + src[pos..pos + i])
    ensures AllOctal(src[pos..pos + i + 1])
    ensures x * 8 + (src[pos + i] - '0' as int) == OctalNumeral([c] + src[pos..pos + i + 1])
  {
    var cc := src[pos + i];
    var s := [c] + src[pos..pos + i];
    assert [c] + src[pos..pos + i + 1] == s + [cc];
    assert AllOctal(s);
    OctalNumeralSnoc(s, cc);
    assert src[pos..pos + i + 1] == src[pos..pos + i] + [cc];
  }

  // ---------------------------------------------------------------------------------------
  // ScanUnicodeEscape
  // ---------------------------------------------------------------------------------------

  /** The first error of a scan: an earlier report wins over a later one. */
  function FirstError(earlier: Option<Message>, later: Message): (e: Option<Message>)
    ensures e.Some?
    ensures earlier.Some? ==> e == earlier
  {
    if earlier.Some? then earlier else Some(later)
  }

  /** `ScanUnicodeEscape<capture_raw>()` with `\u` consumed and the cursor at `pos`: either
      `{` hex digits `}` with a value at most 0x10FFFF, or exactly four hex digits. */
  function ScanUnicodeEscape(src: Source, pos: nat): (r: Scanned)
    requires pos <= |src|
    ensures r.Scanned? ==> r.value <= kMaxCodePoint && pos < r.pos
    ensures pos <= r.pos <= |src|
    ensures r.Invalid? ==> r.error.Some?
    ensures r.Scanned? && C0(src, pos) == '{' as int ==>
      pos + 2 < r.pos <= |src| && src[r.pos - 1] == '}' as int
      && r.pos - 1 == HexRunEnd(src, pos + 1)
    ensures C0(src, pos) != '{' as int ==> r == ScanHexNumber(src, pos, 4, true)
  {
    if C0(src, pos) == '{' as int then
      var q := ScanUnlimitedLengthHexNumber(src, pos + 1, kMaxCodePoint);
      if q.Invalid? then Invalid(q.pos, FirstError(q.error, InvalidUnicodeEscapeSequence))
      else if C0(src, q.pos) != '}' as int then Invalid(q.pos, Some(InvalidUnicodeEscapeSequence))
      else Scanned(q.value, q.pos + 1)
    else
      var r := ScanHexNumber(src, pos, 4, true);
      if r.Scanned? then
        HexNumeralBound(src[pos..pos + 4]);
        assert Pow(16, 4) == 0x10000;
        r
      else r
  }

  /** Both forms of a `\u` escape denote the hex value of their digits. */
  lemma UnicodeEscapeValue(src: Source, pos: nat)
    requires pos <= |src|
    ensures var r := ScanUnicodeEscape(src, pos);
      && (C0(src, pos) == '{' as int ==>
            var e := HexRunEnd(src, pos + 1);
            (r.Scanned? <==> pos + 1 < e && HexNumeral(src[pos + 1..e]) <= kMaxCodePoint && C0(src, e) == '}' as int)
            && (r.Scanned? ==> r.value == HexNumeral(src[pos + 1..e])))
      && (C0(src, pos) != '{' as int ==>
            (r.Scanned? <==> pos + 4 <= |src| && AllHex(src[pos..pos + 4]))
            && (r.Scanned? ==> r.value == HexNumeral(src[pos..pos + 4])))
  {
    if C0(src, pos) == '{' as int {
      UnlimitedHexValue(src, pos + 1, kMaxCodePoint);
    }
  }

  // ---------------------------------------------------------------------------------------
  // ScanEscape
  // ---------------------------------------------------------------------------------------

  /** What `ScanEscape` yields: the units it adds to the literal and the octal message it
      records, or failure with the first error reported. */
  datatype Escape =
    | Escaped(pos: nat, chars: seq<uc32>, octal: Option<Message>)
    | BadEscape(pos: nat, error: Option<Message>)

  /** The character a single-character escape denotes, if `c` is one. */
  function SingleEscape(c: uc32): (r: Option<uc32>)
    ensures r.Some? ==> r.value < 0x20
  {
    if c == 'b' as int then Some(0x08)
    else if c == 'f' as int then Some(0x0C)
    else if c == 'n' as int then Some(0x0A)
    else if c == 'r' as int then Some(0x0D)
    else if c == 't' as int then Some(0x09)
    else if c == 'v' as int then Some(0x0B)
    else None
  }

  /** `ScanEscape<capture_raw>()` with the backslash consumed and the cursor at `pos` on the
      escaped character. */
  function ScanEscape(src: Source, pos: nat, captureRaw: bool, u: UnicodeTables): (r: Escape)
    ensures pos < r.pos
    ensures pos < |src| ==> r.pos <= |src|
    ensures pos >= |src| ==> r.pos == pos + 1
    ensures r.Escaped? ==> |r.chars| <= 1
    ensures r.BadEscape? ==> r.error.Some? && (C0(src, pos) == 'u' as int || C0(src, pos) == 'x' as int)
    ensures r.Escaped? && r.chars == [] ==> !captureRaw && u.lineTerminator(C0(src, pos))
    ensures r.Escaped? && r.octal.Some? ==> IsDecimalDigit(C0(src, pos))
  {
    var c := C0(src, pos);
    if !captureRaw && u.lineTerminator(c) then
      // An escaped line terminator continues the literal; CR LF counts as one.
      if IsCarriageReturn(c) && IsLineFeed(C0(src, pos + 1)) then Escaped(pos + 2, [], None)
      else Escaped(pos + 1, [], None)
    else if c == 'u' as int then EscapeFrom(src, pos, ScanUnicodeEscape(src, pos + 1))
    else if c == 'x' as int then EscapeFrom(src, pos, ScanHexNumber(src, pos + 1, 2, false))
    else CharacterEscape(src, pos, captureRaw)
  }

  /** The escapes that denote one character computed from the escaped character alone, plus
      the octal forms. */
  function CharacterEscape(src: Source, pos: nat, captureRaw: bool): (r: Escape)
    requires C0(src, pos) != 'u' as int && C0(src, pos) != 'x' as int
    ensures r.Escaped? && |r.chars| == 1 && pos < r.pos
    ensures pos < |src| ==> r.pos <= |src|
    ensures pos >= |src| ==> r.pos == pos + 1
    ensures r.octal.Some? ==> IsDecimalDigit(C0(src, pos))
  {
    var c := C0(src, pos);
    if SingleEscape(c).Some? then Escaped(pos + 1, [SingleEscape(c).value], None)
    else if IsOctalDigit(c) then
      EndOfInputIsNoDigit();
      var o := ScanOctalEscape(src, pos + 1, c, 2);
      Escaped(o.pos, [o.value], if o.octal then Some(if captureRaw then TemplateOctalLiteral else StrictOctalEscape) else None)
    else if IsNonOctalDecimalDigit(c) then
      Escaped(pos + 1, [c], Some(if captureRaw then Template8Or9Escape else Strict8Or9Escape))
    else Escaped(pos + 1, [c], None)
  }

  /** The outcome of an escape whose value a sub-scanner computed. */
  function EscapeFrom(src: Source, pos: nat, v: Scanned): (r: Escape)
    requires C0(src, pos) == 'u' as int || C0(src, pos) == 'x' as int
    requires v.Invalid? ==> v.error.Some?
    requires pos < v.pos <= |src|
    ensures r.pos == v.pos
    ensures r.Escaped? <==> v.Scanned?
    ensures r.Escaped? ==> r.chars == [v.value] && r.octal.None?
    ensures r.BadEscape? ==> r.error == v.error
  {
    if v.Invalid? then BadEscape(v.pos, v.error) else Escaped(v.pos, [v.value], None)
  }

  /** The escapes of ECMAScript's SingleEscapeCharacter denote their control characters, every
      other character that is not a line terminator, digit, `u` or `x` denotes itself, and
      `\x` followed by two hex digits denotes their value. */
  lemma EscapeMeanings(src: Source, pos: nat, captureRaw: bool, u: UnicodeTables)
    requires pos < |src|
    requires captureRaw || !u.lineTerminator(src[pos])
    ensures var r := ScanEscape(src, pos, captureRaw, u);
      var c := src[pos];
      && (c == 'n' as int ==> r == Escaped(pos + 1, [0x0A], None))
      && (c == 't' as int ==> r == Escaped(pos + 1, [0x09], None))
      && (c == 'b' as int ==> r == Escaped(pos + 1, [0x08], None))
      && (SingleEscape(c).None? && !IsDecimalDigit(c) && c != 'u' as int && c != 'x' as int
          ==> r == Escaped(pos + 1, [c], None))
      && (c == 'x' as int && pos + 3 <= |src| && AllHex(src[pos + 1..pos + 3])
          ==> r == Escaped(pos + 3, [HexNumeral(src[pos + 1..pos + 3])], None))
  {
  }

  /** `\0` not followed by a digit is the NUL character and is no octal escape; `\1` through
      `\7` always are. */
  lemma OctalEscapeFlag(src: Source, pos: nat, captureRaw: bool, u: UnicodeTables)
    requires pos < |src| && IsOctalDigit(src[pos])
    requires captureRaw || !u.lineTerminator(src[pos])
    ensures var r := ScanEscape(src, pos, captureRaw, u);
      && r.Escaped? && |r.chars| == 1 && r.chars[0] < 256
      && (src[pos] == '0' as int && !IsDecimalDigit(C0(src, pos + 1)) ==> r == Escaped(pos + 1, [0], None))
      && (src[pos] != '0' as int ==> r.octal.Some?)
  {
  }
}

=== FILE: scanner_input.dfy ===
/** What the scanner fragments of scanner.cc share: the source as UTF-16 code units read
    through a cursor, the end-of-input marker, the messages they report, and the positional
    values of digit strings the scanners accumulate. */
module ScannerInput {
  import opened Globals
  import opened ScannerUtils

  /** The source as the character stream delivers it. */
  type Source = seq<uc16>

  /** `kEndOfInput`, `static_cast<uc32>(-1)`: the value `c0_` holds past the last unit. No code
      unit takes it. */
  const kEndOfInput: uc32 := 0xFFFF_FFFF

  /** `c0_` when the cursor is at `pos`: the unit there, or the end marker. The stream keeps
      counting positions past the end, so `pos` may exceed `|src|`. */
  function C0(src: Source, pos: nat): (c: uc32)
    ensures pos < |src| ==> c == src[pos] && c != kEndOfInput
    ensures pos >= |src| ==> c == kEndOfInput
  {
    if pos < |src| then src[pos] else kEndOfInput
  }

  /** The end marker is no digit of any base and no quote, escape or separator character. */
  lemma EndOfInputIsNoDigit()
    ensures !IsHexDigit(kEndOfInput) && !IsDecimalDigit(kEndOfInput) && !IsOctalDigit(kEndOfInput)
    ensures HexValue(kEndOfInput) == -1
  {
    HexValueMeaning(kEndOfInput);
  }

  /** The message templates the modelled fragments report. */
  datatype Message =
    | InvalidHexEscapeSequence
    | InvalidUnicodeEscapeSequence
    | UndefinedUnicodeCodePoint
    | StrictOctalEscape
    | TemplateOctalLiteral
    | Strict8Or9Escape
    | Template8Or9Escape
    | StrictOctalLiteral
    | StrictDecimalWithLeadingZero

  const TwoTo64: int := 0x1_0000_0000_0000_0000

  /** Conversion to `uint64_t`: reduction modulo 2^64. */
  function ToUint64(x: int): (r: int)
    ensures 0 <= r < TwoTo64
    ensures 0 <= x < TwoTo64 ==> r == x
  {
    x % TwoTo64
  }

  /** The value of a digit string in base `radix`, most significant digit first, where
      `digit` gives each unit's value. */
  function Numeral(s: seq<int>, radix: nat): nat
    requires forall i :: 0 <= i < |s| ==> 0 <= s[i] < radix
    decreases |s|
  {
    if s == [] then 0 else Numeral(s[..|s| - 1], radix) * radix + s[|s| - 1]
  }

  function Pow(b: nat, n: nat): nat {
    if n == 0 then 1 else b * Pow(b, n - 1)
  }

  /** A numeral of `n` digits is below `radix^n`. */
  lemma {:induction false} NumeralBound(s: seq<int>, radix: nat)
    requires forall i :: 0 <= i < |s| ==> 0 <= s[i] < radix
    ensures Numeral(s, radix) < Pow(radix, |s|)
    decreases |s|
  {
    if s != [] {
      var init := s[..|s| - 1];
      NumeralBound(init, radix);
      DigitAppendBound(Numeral(init, radix), Pow(radix, |init|), s[|s| - 1], radix);
    }
  }

  /** Below `p`, one more digit stays below `radix * p`. */
  lemma DigitAppendBound(n: nat, p: nat, d: int, radix: nat)
    requires n < p && 0 <= d < radix
    ensures n * radix + d < radix * p
  {
    MulMono(n + 1, p, radix);
    assert (n + 1) * radix == n * radix + radix;
  }

  lemma MulMono(a: int, b: int, c: nat)
    requires a <= b
    ensures a * c <= b * c
  {
  }

  /** Appending one digit on the right shifts the value one place. */
  lemma NumeralSnoc(s: seq<int>, d: int, radix: nat)
    requires forall i :: 0 <= i < |s| ==> 0 <= s[i] < radix
    requires 0 <= d < radix
    ensures Numeral(s + [d], radix) == Numeral(s, radix) * radix + d
  {
    assert (s + [d])[..|s + [d]| - 1] == s;
  }

  /** The digit values of a run of hex digits. */
  function HexDigitValues(s: Source): (r: seq<int>)
    requires forall i :: 0 <= i < |s| ==> IsHexDigit(s[i])
    ensures |r| == |s|
    ensures forall i :: 0 <= i < |s| ==> r[i] == HexValue(s[i]) && 0 <= r[i] < 16
  {
    seq(|s|, i requires 0 <= i < |s| => HexValueOf(s[i]))
  }

  function HexValueOf(c: uc32): (d: int)
    requires IsHexDigit(c)
    ensures d == HexValue(c) && 0 <= d < 16
  {
    HexValueMeaning(c);
    HexValue(c)
  }

  /** The value of a run of hex digits. */
  function HexNumeral(s: Source): nat
    requires forall i :: 0 <= i < |s| ==> IsHexDigit(s[i])
  {
    Numeral(HexDigitValues(s), 16)
  }

  /** Extending a hex run by one digit. */
  lemma HexNumeralSnoc(s: Source, c: uc16)
    requires forall i :: 0 <= i < |s| ==> IsHexDigit(s[i])
    requires IsHexDigit(c)
    ensures HexNumeral(s + [c]) == HexNumeral(s) * 16 + HexValue(c)
  {
    assert HexDigitValues(s + [c]) == HexDigitValues(s) + [HexValueOf(c)];
    NumeralSnoc(HexDigitValues(s), HexValueOf(c), 16);
  }

  /** The digit values of a run of decimal digits. */
  function DecimalDigitValues(s: seq<uc32>): (r: seq<int>)
    requires forall i :: 0 <= i < |s| ==> IsDecimalDigit(s[i])
    ensures |r| == |s|
    ensures forall i :: 0 <= i < |s| ==> r[i] == s[i] - '0' as int && 0 <= r[i] < 10
  {
    seq(|s|, i requires 0 <= i < |s| => DecimalValueOf(s[i]))
  }

  function DecimalValueOf(c: uc32): (d: int)
    requires IsDecimalDigit(c)
    ensures d == c - '0' as int && 0 <= d < 10
  {
    c - '0' as int
  }

  /** The value of a run of decimal digits. */
  function DecimalNumeral(s: seq<uc32>): nat
    requires forall i :: 0 <= i < |s| ==> IsDecimalDigit(s[i])
  {
    Numeral(DecimalDigitValues(s), 10)
  }

  lemma DecimalNumeralSnoc(s: seq<uc32>, c: uc32)
    requires forall i :: 0 <= i < |s| ==> IsDecimalDigit(s[i])
    requires IsDecimalDigit(c)
    ensures DecimalNumeral(s + [c]) == DecimalNumeral(s) * 10 + (c - '0' as int)
  {
    assert DecimalDigitValues(s + [c]) == DecimalDigitValues(s) + [c - '0' as int];
    NumeralSnoc(DecimalDigitValues(s), c - '0' as int, 10);
  }

  lemma DecimalNumeralBound(s: seq<uc32>)
    requires forall i :: 0 <= i < |s| ==> IsDecimalDigit(s[i])
    ensures DecimalNumeral(s) < Pow(10, |s|)
  {
    NumeralBound(DecimalDigitValues(s), 10);
  }
}

=== FILE: scanner_literals.dfy ===
/** The literal scanners of scanner.cc that collect a body of characters up to a closing
    delimiter: `ScanString`, `ScanRegExpPattern` and `ScanTemplateSpan`. Each starts with the
    cursor on the first unit it examines and returns the token, the collected literal and the
    position after the closing delimiter. */
module ScannerLiterals {
  import opened Globals
  import opened Wrappers
  import opened ScannerUtils
  import opened ScannerInput
  import opened ScannerEscapes

  const Backslash: uc32 := '\\' as int
  const SingleQuote: uc32 := '\'' as int
  const DoubleQuote: uc32 := '"' as int
  const kMaxAscii: uc32 := 127

  /** The units of `src` from `a` up to `b`, with the end marker for positions past the end:
      what the scanner appends when it advances over them. */
  function Units(src: Source, a: nat, b: nat): (r: seq<uc32>)
    requires a <= b
    ensures |r| == b - a
    ensures forall i :: 0 <= i < |r| ==> r[i] == C0(src, a + i)
    ensures b <= |src| ==> r == src[a..b]
    decreases b - a
  {
    if a == b then [] else [C0(src, a)] + Units(src, a + 1, b)
  }

  /** The first of two optional messages that is present. */
  function FirstMessage(earlier: Option<Message>, later: Option<Message>): (r: Option<Message>)
    ensures earlier.Some? ==> r == earlier
    ensures earlier.None? ==> r == later
  {
    if earlier.Some? then earlier else later
  }

  // ---------------------------------------------------------------------------------------
  // ScanString
  // ---------------------------------------------------------------------------------------

  /** The outcome of `ScanString`: `Token::STRING` with the position after the closing quote,
      the cooked literal and the octal message its escapes recorded last, or
      `Token::ILLEGAL` with the error reported. */
  datatype StringToken =
    | StringLit(pos: nat, literal: seq<uc32>, octal: Option<Message>)
    | IllegalString(error: Option<Message>)

  /** The `kStringTerminator` flag of `character_scan_flags`: the ASCII units at which the
      fast loop of `ScanString` stops. */
  predicate MayTerminateString(c: uc32) {
    c == SingleQuote || c == DoubleQuote || c == Backslash || IsLineFeed(c) || IsCarriageReturn(c)
  }

  /** The stop test of the `AdvanceUntil` loop in `ScanString`: the flag table for ASCII, the
      string-literal line terminators beyond it. */
  predicate StopsRun(u: UnicodeTables, c: uc32) {
    if c > kMaxAscii then u.stringLiteralLineTerminator(c) else MayTerminateString(c)
  }

  /** `unibrow::IsStringLiteralLineTerminator` agrees on ASCII with the flag table: it holds of
      LF and CR and of no other ASCII unit. */
  predicate AsciiStringTerminatorsAgree(u: UnicodeTables) {
    forall c: uc32 | c <= kMaxAscii :: u.stringLiteralLineTerminator(c) <==> IsLineFeed(c) || IsCarriageReturn(c)
  }

  /** `ScanString()` with the cursor on the opening quote at `pos`. */
  function ScanString(src: Source, pos: nat, u: UnicodeTables): (r: StringToken)
    requires pos < |src| && (src[pos] == SingleQuote || src[pos] == DoubleQuote)
    ensures r.StringLit? ==> pos + 1 < r.pos <= |src| && src[r.pos - 1] == src[pos]
    ensures AsciiStringTerminatorsAgree(u) && r.StringLit? ==>
              forall k :: pos < k < r.pos - 1 && u.stringLiteralLineTerminator(src[k]) ==>
                InsideReadEscape(src, pos + 1, src[pos], u, k)
  {
    StringTerminatorsEscaped(src, pos, u);
    StringRun(src, pos + 1, src[pos], [], None, u)
  }

  lemma StringTerminatorsEscaped(src: Source, pos: nat, u: UnicodeTables)
    requires pos < |src| && (src[pos] == SingleQuote || src[pos] == DoubleQuote)
    ensures var r := StringRun(src, pos + 1, src[pos], [], None, u);
            AsciiStringTerminatorsAgree(u) && r.StringLit? ==>
              forall k :: pos < k < r.pos - 1 && u.stringLiteralLineTerminator(src[k]) ==>
                InsideReadEscape(src, pos + 1, src[pos], u, k)
  {
    if AsciiStringTerminatorsAgree(u) {
      StringRunIsBody(src, pos + 1, src[pos], [], None, u);
      BodyTerminatorsEscaped(src, pos + 1, src[pos], [], None, u);
    }
  }

  /** The `AdvanceUntil` phase: units that do not stop the run go to the literal unchanged. */
  function StringRun(src: Source, p: nat, quote: uc32, lit: seq<uc32>, octal: Option<Message>,
                     u: UnicodeTables): (r: StringToken)
    requires p <= |src|
    requires quote == SingleQuote || quote == DoubleQuote
    ensures r.StringLit? ==> p < r.pos <= |src| && src[r.pos - 1] == quote
    decreases |src| - p, 2
  {
    if p < |src| && !StopsRun(u, src[p]) then StringRun(src, p + 1, quote, lit + [src[p]], octal, u)
    else StringStop(src, p, quote, lit, octal, u)
  }

  /** What follows the run: a chain of escapes, the closing quote, the end of the input or a
      line terminator, or any other unit, which is added before the run resumes. */
  function StringStop(src: Source, p: nat, quote: uc32, lit: seq<uc32>, octal: Option<Message>,
                      u: UnicodeTables): (r: StringToken)
    requires p <= |src|
    requires quote == SingleQuote || quote == DoubleQuote
    ensures r.StringLit? ==> p < r.pos <= |src| && src[r.pos - 1] == quote
    decreases |src| - p, 1
  {
    var c := C0(src, p);
    if c == Backslash then
      // A backslash at the end of the input is illegal before any escape is scanned.
      if p + 1 == |src| then IllegalString(None)
      else StringEscape(src, p, ScanEscape(src, p + 1, false, u), quote, lit, octal, u)
    else if c == quote then StringLit(p + 1, lit, octal)
    else if c == kEndOfInput || u.stringLiteralLineTerminator(c) then IllegalString(None)
    else StringRun(src, p + 1, quote, lit + [c], octal, u)
  }

  /** The escape at the backslash at `p`, which `ScanEscape` scanned as `esc`: a failure ends
      the literal as illegal, otherwise its units join the literal and the escape loop goes
      on. */
  function StringEscape(src: Source, p: nat, esc: Escape, quote: uc32, lit: seq<uc32>, octal: Option<Message>,
                        u: UnicodeTables): (r: StringToken)
    requires p + 1 < esc.pos <= |src|
    requires quote == SingleQuote || quote == DoubleQuote
    ensures r.StringLit? ==> p < r.pos <= |src| && src[r.pos - 1] == quote
    decreases |src| - p, 0
  {
    if esc.BadEscape? then IllegalString(esc.error)
    else StringStop(src, esc.pos, quote, lit + esc.chars, FirstMessage(esc.octal, octal), u)
  }

  /** The string body of ECMAScript's StringLiteral read one unit at a time: a backslash
      starts an escape or a line continuation, the opening quote closes the literal, the end
      of the input and the string-literal line terminators are errors, and any other unit
      stands for itself. */
  function StringBody(src: Source, p: nat, quote: uc32, lit: seq<uc32>, octal: Option<Message>,
                      u: UnicodeTables): (r: StringToken)
    requires p <= |src|
    decreases |src| - p
  {
    var c := C0(src, p);
    if c == Backslash then
      if C0(src, p + 1) == kEndOfInput then IllegalString(None)
      else match ScanEscape(src, p + 1, false, u)
        case BadEscape(_, e) => IllegalString(e)
        case Escaped(q, chars, o) => StringBody(src, q, quote, lit + chars, FirstMessage(o, octal), u)
    else if c == quote then StringLit(p + 1, lit, octal)
    else if c == kEndOfInput || u.stringLiteralLineTerminator(c) then IllegalString(None)
    else StringBody(src, p + 1, quote, lit + [c], octal, u)
  }

  /** The fast loop skips only units the body reading adds unchanged, so the two-phase scan
      is the body reading. */
  lemma {:induction false} StringRunIsBody(src: Source, p: nat, quote: uc32, lit: seq<uc32>,
                                           octal: Option<Message>, u: UnicodeTables)
    requires p <= |src|
    requires quote == SingleQuote || quote == DoubleQuote
    requires AsciiStringTerminatorsAgree(u)
    ensures StringRun(src, p, quote, lit, octal, u) == StringBody(src, p, quote, lit, octal, u)
    decreases |src| - p, 2
  {
    if p < |src| && !StopsRun(u, src[p]) {
      var c := src[p];
      assert !u.stringLiteralLineTerminator(c) by {
        if c <= kMaxAscii {
          assert !IsLineFeed(c) && !IsCarriageReturn(c);
        }
      }
      StringRunIsBody(src, p + 1, quote, lit + [c], octal, u);
    } else {
      StringStopIsBody(src, p, quote, lit, octal, u);
    }
  }

  lemma {:induction false} StringStopIsBody(src: Source, p: nat, quote: uc32, lit: seq<uc32>,
                                            octal: Option<Message>, u: UnicodeTables)
    requires p <= |src|
    requires quote == SingleQuote || quote == DoubleQuote
    requires AsciiStringTerminatorsAgree(u)
    ensures StringStop(src, p, quote, lit, octal, u) == StringBody(src, p, quote, lit, octal, u)
    decreases |src| - p, 1
  {
    var c := C0(src, p);
    if c == Backslash {
      if p + 1 < |src| {
        var esc := ScanEscape(src, p + 1, false, u);
        assert StringStop(src, p, quote, lit, octal, u) == StringEscape(src, p, esc, quote, lit, octal, u);
        if esc.Escaped? {
          StringStopIsBody(src, esc.pos, quote, lit + esc.chars, FirstMessage(esc.octal, octal), u);
        }
      }
    } else if c == quote {
    } else if c == kEndOfInput || u.stringLiteralLineTerminator(c) {
    } else {
      StringRunIsBody(src, p + 1, quote, lit + [c], octal, u);
    }
  }

  /** One ordinary unit of a string body: it is added to the literal. */
  lemma StringBodyStep(src: Source, p: nat, quote: uc32, lit: seq<uc32>, octal: Option<Message>,
                       u: UnicodeTables)
    requires p < |src|
    requires src[p] != quote && src[p] != Backslash && !u.stringLiteralLineTerminator(src[p])
    ensures StringBody(src, p, quote, lit, octal, u) == StringBody(src, p + 1, quote, lit + [src[p]], octal, u)
  {
  }

  /** A body free of the quote, backslashes and string-literal line terminators is read
      verbatim. */
  lemma {:induction false} PlainStringBody(src: Source, p: nat, e: nat, quote: uc32, lit: seq<uc32>,
                                           octal: Option<Message>, u: UnicodeTables)
    requires p <= e < |src| && src[e] == quote && quote != Backslash
    requires forall k :: p <= k < e ==>
      src[k] != quote && src[k] != Backslash && !u.stringLiteralLineTerminator(src[k])
    ensures StringBody(src, p, quote, lit, octal, u) == StringLit(e + 1, lit + src[p..e], octal)
    decreases e - p
  {
    if p < e {
      StringBodyStep(src, p, quote, lit, octal, u);
      PlainStringBody(src, p + 1, e, quote, lit + [src[p]], octal, u);
      assert src[p..e] == [src[p]] + src[p + 1..e];
      assert lit + [src[p]] + src[p + 1..e] == lit + src[p..e];
    } else {
      assert src[p..e] == [];
      assert StringBody(src, p, quote, lit, octal, u) == StringLit(e + 1, lit, octal);
    }
  }

  /** A string literal without escapes or line terminators yields its body unchanged and
      ends after its closing quote, the first occurrence of the opening one. */
  lemma PlainString(src: Source, pos: nat, e: nat, u: UnicodeTables)
    requires pos < e < |src| && (src[pos] == SingleQuote || src[pos] == DoubleQuote)
    requires AsciiStringTerminatorsAgree(u)
    requires src[e] == src[pos]
    requires forall k :: pos < k < e ==>
      src[k] != src[pos] && src[k] != Backslash && !u.stringLiteralLineTerminator(src[k])
    ensures ScanString(src, pos, u) == StringLit(e + 1, src[pos + 1..e], None)
  {
    PlainStringRun(src, pos + 1, e, src[pos], u);
  }

  lemma PlainStringRun(src: Source, p: nat, e: nat, quote: uc32, u: UnicodeTables)
    requires p <= e < |src| && src[e] == quote && (quote == SingleQuote || quote == DoubleQuote)
    requires AsciiStringTerminatorsAgree(u)
    requires forall k :: p <= k < e ==>
      src[k] != quote && src[k] != Backslash && !u.stringLiteralLineTerminator(src[k])
    ensures StringRun(src, p, quote, [], None, u) == StringLit(e + 1, src[p..e], None)
  {
    StringRunIsBody(src, p, quote, [], None, u);
    PlainStringBody(src, p, e, quote, [], None, u);
    assert [] + src[p..e] == src[p..e];
  }

  /** A string-literal line terminator before the closing quote, with nothing before it but
      units that stand for themselves, makes the literal illegal. */
  lemma LineTerminatorInString(src: Source, pos: nat, e: nat, u: UnicodeTables)
    requires pos < e < |src| && (src[pos] == SingleQuote || src[pos] == DoubleQuote)
    requires AsciiStringTerminatorsAgree(u)
    requires u.stringLiteralLineTerminator(src[e])
    requires forall k :: pos < k < e ==>
      src[k] != src[pos] && src[k] != Backslash && !u.stringLiteralLineTerminator(src[k])
    ensures ScanString(src, pos, u) == IllegalString(None)
  {
    StringRunIsBody(src, pos + 1, src[pos], [], None, u);
    TerminatorBody(src, pos + 1, e, src[pos], [], None, u);
  }

  lemma {:induction false} TerminatorBody(src: Source, p: nat, e: nat, quote: uc32, lit: seq<uc32>,
                                          octal: Option<Message>, u: UnicodeTables)
    requires p <= e < |src| && (quote == SingleQuote || quote == DoubleQuote)
    requires AsciiStringTerminatorsAgree(u)
    requires u.stringLiteralLineTerminator(src[e])
    requires forall k :: p <= k < e ==>
      src[k] != quote && src[k] != Backslash && !u.stringLiteralLineTerminator(src[k])
    ensures StringBody(src, p, quote, lit, octal, u) == IllegalString(None)
    decreases e - p
  {
    if p < e {
      StringBodyStep(src, p, quote, lit, octal, u);
      TerminatorBody(src, p + 1, e, quote, lit + [src[p]], octal, u);
    } else {
      var c := src[e];
      assert c != Backslash && c != quote by {
        if c <= kMaxAscii {
          assert IsLineFeed(c) || IsCarriageReturn(c);
        }
      }
    }
  }

  /** The one-unit-at-a-time reading of a string body that starts at `p` arrives at `j`: every
      unit in between was either a unit standing for itself or part of an escape it read. */
  ghost predicate BodyReaches(src: Source, p: nat, quote: uc32, u: UnicodeTables, j: nat)
    decreases |src| - p
  {
    if j == p then true
    else if j < p || p >= |src| then false
    else if src[p] == Backslash then
      p + 1 < |src| && ScanEscape(src, p + 1, false, u).Escaped?
      && BodyReaches(src, ScanEscape(src, p + 1, false, u).pos, quote, u, j)
    else src[p] != quote && !u.stringLiteralLineTerminator(src[p]) && BodyReaches(src, p + 1, quote, u, j)
  }

  /** Position `k` lies inside an escape that the body reading from `p` began at a backslash
      `j`: the escaped character or the rest of the escape sequence. */
  ghost predicate InsideReadEscape(src: Source, p: nat, quote: uc32, u: UnicodeTables, k: nat) {
    exists j: nat :: p <= j < k && j < |src| && BodyReaches(src, p, quote, u, j) && src[j] == Backslash
                     && k < ScanEscape(src, j + 1, false, u).pos
  }

  /** In a string body read to its closing quote, every string-literal line terminator lies
      inside an escape: a line continuation. */
  lemma {:induction false} BodyTerminatorsEscaped(src: Source, p: nat, quote: uc32, lit: seq<uc32>,
                                                  octal: Option<Message>, u: UnicodeTables)
    requires p <= |src| && (quote == SingleQuote || quote == DoubleQuote)
    requires AsciiStringTerminatorsAgree(u)
    ensures var r := StringBody(src, p, quote, lit, octal, u);
            r.StringLit? ==> forall k :: p <= k < r.pos - 1 && k < |src| && u.stringLiteralLineTerminator(src[k]) ==>
                               InsideReadEscape(src, p, quote, u, k)
    decreases |src| - p
  {
    var r := StringBody(src, p, quote, lit, octal, u);
    var c := C0(src, p);
    if r.StringLit? && c != quote {
      if c == Backslash {
        var esc := ScanEscape(src, p + 1, false, u);
        assert p + 1 < |src| && esc.Escaped?;
        var q := esc.pos;
        BodyTerminatorsEscaped(src, q, quote, lit + esc.chars, FirstMessage(esc.octal, octal), u);
        forall k | p <= k < r.pos - 1 && k < |src| && u.stringLiteralLineTerminator(src[k])
          ensures InsideReadEscape(src, p, quote, u, k)
        {
          assert k != p by { BackslashNoTerminator(u); }
          if k < q {
            assert BodyReaches(src, p, quote, u, p);
          } else {
            var j: nat :| q <= j < k && j < |src| && BodyReaches(src, q, quote, u, j) && src[j] == Backslash
                          && k < ScanEscape(src, j + 1, false, u).pos;
            assert BodyReaches(src, p, quote, u, j);
          }
        }
      } else {
        BodyTerminatorsEscaped(src, p + 1, quote, lit + [c], octal, u);
        forall k | p <= k < r.pos - 1 && k < |src| && u.stringLiteralLineTerminator(src[k])
          ensures InsideReadEscape(src, p, quote, u, k)
        {
          var j: nat :| p + 1 <= j < k && j < |src| && BodyReaches(src, p + 1, quote, u, j) && src[j] == Backslash
                        && k < ScanEscape(src, j + 1, false, u).pos;
          assert BodyReaches(src, p, quote, u, j);
        }
      }
    }
  }

  /** The backslash is no string-literal line terminator. */
  lemma BackslashNoTerminator(u: UnicodeTables)
    requires AsciiStringTerminatorsAgree(u)
    ensures !u.stringLiteralLineTerminator(Backslash)
  {
  }

  // ---------------------------------------------------------------------------------------
  // ScanRegExpPattern
  // ---------------------------------------------------------------------------------------

  /** `Token::REGEXP_LITERAL` with the position after the closing slash and the body. */
  datatype RegExpLiteral = RegExpLiteral(pos: nat, literal: seq<uc32>)

  /** The literal `ScanRegExpPattern` starts from: `=` when the current token is
      `Token::ASSIGN_DIV`, that is when the pattern was opened by `/=`. */
  function RegExpPrefix(assignDiv: bool): seq<uc32> {
    if assignDiv then ['=' as int] else []
  }

  /** `ScanRegExpPattern()` with the cursor on the unit after the opening `/` or `/=`; `None`
      when it returns false. */
  function ScanRegExpPattern(src: Source, pos: nat, assignDiv: bool, u: UnicodeTables): (r: Option<RegExpLiteral>)
    requires pos <= |src|
    ensures r.Some? ==>
      && pos < r.value.pos <= |src| && src[r.value.pos - 1] == '/' as int
      && r.value.literal == RegExpPrefix(assignDiv) + src[pos..r.value.pos - 1]
      && (forall k :: pos <= k < r.value.pos - 1 ==> !u.lineTerminator(src[k]))
      && !ClassOpenAfter(src[pos..r.value.pos - 1], false)
      && BareSlashFree(src[pos..r.value.pos - 1], false)
  {
    RegExpBodyLiteral(src, pos, false, RegExpPrefix(assignDiv), u);
    RegExpBodyNoTerminator(src, pos, false, RegExpPrefix(assignDiv), u);
    RegExpEndsOutsideClass(src, pos, false, RegExpPrefix(assignDiv), u);
    RegExpBodySlashFree(src, pos, false, RegExpPrefix(assignDiv), u);
    RegExpBody(src, pos, false, RegExpPrefix(assignDiv), u)
  }

  /** The body loop from `p`, inside a character class when `inClass` holds. */
  function RegExpBody(src: Source, p: nat, inClass: bool, lit: seq<uc32>, u: UnicodeTables): (r: Option<RegExpLiteral>)
    requires p <= |src|
    ensures r.Some? ==> p < r.value.pos <= |src|
    decreases |src| - p
  {
    var c := C0(src, p);
    if c == '/' as int && !inClass then Some(RegExpLiteral(p + 1, lit))
    else if c == kEndOfInput || u.lineTerminator(c) then None
    else if c == Backslash then
      var d := C0(src, p + 1);
      if d == kEndOfInput || u.lineTerminator(d) then None
      else RegExpBody(src, p + 2, inClass, lit + [c, d], u)
    else RegExpBody(src, p + 1, ClassAfter(c, inClass), lit + [c], u)
  }

  /** The character-class state after the unescaped unit `c`: `[` opens a class, `]` closes
      it, every other unit leaves the state alone. */
  function ClassAfter(c: uc32, inClass: bool): bool {
    if c == '[' as int then true else if c == ']' as int then false else inClass
  }

  /** Whether a character class is open after reading `s` from the left with `inClass` as
      the starting state, where a backslash makes the unit after it ordinary. */
  function ClassOpenAfter(s: seq<uc32>, inClass: bool): bool
    decreases |s|
  {
    if s == [] then inClass
    else if s[0] == Backslash then (if |s| == 1 then inClass else ClassOpenAfter(s[2..], inClass))
    else ClassOpenAfter(s[1..], ClassAfter(s[0], inClass))
  }

  /** Whether `s`, read from the left with `inClass` as the starting class state, is made of
      whole escapes (a backslash and the unit after it) and ordinary units, with no slash
      outside a character class. */
  function BareSlashFree(s: seq<uc32>, inClass: bool): bool
    decreases |s|
  {
    if s == [] then true
    else if s[0] == Backslash then |s| >= 2 && BareSlashFree(s[2..], inClass)
    else if s[0] == '/' as int && !inClass then false
    else BareSlashFree(s[1..], ClassAfter(s[0], inClass))
  }

  /** An accepted body holds no unescaped slash outside a class and no dangling backslash. */
  lemma {:induction false} RegExpBodySlashFree(src: Source, p: nat, inClass: bool, lit: seq<uc32>, u: UnicodeTables)
    requires p <= |src|
    ensures var r := RegExpBody(src, p, inClass, lit, u);
      r.Some? ==> BareSlashFree(src[p..r.value.pos - 1], inClass)
    decreases |src| - p
  {
    var r := RegExpBody(src, p, inClass, lit, u);
    if r.Some? {
      var c := src[p];
      var e := r.value.pos - 1;
      if c == '/' as int && !inClass {
        assert r == Some(RegExpLiteral(p + 1, lit));
        assert src[p..e] == [];
      } else if c == Backslash {
        var d := src[p + 1];
        assert r == RegExpBody(src, p + 2, inClass, lit + [c, d], u);
        RegExpBodySlashFree(src, p + 2, inClass, lit + [c, d], u);
        assert src[p..e][2..] == src[p + 2..e];
      } else {
        assert r == RegExpBody(src, p + 1, ClassAfter(c, inClass), lit + [c], u);
        RegExpBodySlashFree(src, p + 1, ClassAfter(c, inClass), lit + [c], u);
        assert src[p..e][1..] == src[p + 1..e];
      }
    }
  }

  /** Conversely, a slash reached through whole escapes and ordinary units, with the class
      closed and no line terminator on the way, is where the pattern ends. */
  lemma {:induction false} RegExpBodyFindsSlash(src: Source, p: nat, e: nat, inClass: bool, lit: seq<uc32>, u: UnicodeTables)
    requires p <= e < |src| && src[e] == '/' as int
    requires BareSlashFree(src[p..e], inClass) && !ClassOpenAfter(src[p..e], inClass)
    requires forall k :: p <= k < e ==> !u.lineTerminator(src[k])
    ensures RegExpBody(src, p, inClass, lit, u) == Some(RegExpLiteral(e + 1, lit + src[p..e]))
    decreases e - p
  {
    if p == e {
      assert src[p..e] == [];
      assert !inClass && C0(src, p) == '/' as int;
      assert lit + src[p..e] == lit;
    } else {
      var c := src[p];
      assert src[p..e][0] == c;
      if c == Backslash {
        var d := src[p + 1];
        assert src[p..e][2..] == src[p + 2..e];
        RegExpBodyFindsSlash(src, p + 2, e, inClass, lit + [c, d], u);
        assert [c, d] == src[p..p + 2];
        AppendSlices(lit, src, p, p + 2, e);
      } else {
        assert src[p..e][1..] == src[p + 1..e];
        RegExpBodyFindsSlash(src, p + 1, e, ClassAfter(c, inClass), lit + [c], u);
        assert [c] == src[p..p + 1];
        AppendSlices(lit, src, p, p + 1, e);
      }
    }
  }

  /** `ScanRegExpPattern` accepts exactly the slash that closes a body of whole escapes and
      ordinary units with no bare slash outside a class, no line terminator and the class
      closed; the literal is the prefix and that body. */
  lemma ScanRegExpPatternExact(src: Source, pos: nat, e: nat, assignDiv: bool, u: UnicodeTables)
    requires pos <= e < |src|
    ensures (ScanRegExpPattern(src, pos, assignDiv, u) == Some(RegExpLiteral(e + 1, RegExpPrefix(assignDiv) + src[pos..e])))
              <==> (&& src[e] == '/' as int
                    && BareSlashFree(src[pos..e], false) && !ClassOpenAfter(src[pos..e], false)
                    && forall k :: pos <= k < e ==> !u.lineTerminator(src[k]))
  {
    if src[e] == '/' as int && BareSlashFree(src[pos..e], false) && !ClassOpenAfter(src[pos..e], false)
       && forall k :: pos <= k < e ==> !u.lineTerminator(src[k]) {
      RegExpBodyFindsSlash(src, pos, e, false, RegExpPrefix(assignDiv), u);
    }
  }

  /** The literal is the units read, in order, and the pattern ends with a slash. */
  lemma {:induction false} RegExpBodyLiteral(src: Source, p: nat, inClass: bool, lit: seq<uc32>, u: UnicodeTables)
    requires p <= |src|
    ensures var r := RegExpBody(src, p, inClass, lit, u);
      r.Some? ==> src[r.value.pos - 1] == '/' as int && r.value.literal == lit + src[p..r.value.pos - 1]
    decreases |src| - p
  {
    var r := RegExpBody(src, p, inClass, lit, u);
    if r.Some? {
      var c := src[p];
      var e := r.value.pos - 1;
      if c == '/' as int && !inClass {
        assert r == Some(RegExpLiteral(p + 1, lit));
        assert src[p..e] == [];
      } else if c == Backslash {
        var d := src[p + 1];
        assert r == RegExpBody(src, p + 2, inClass, lit + [c, d], u);
        RegExpBodyLiteral(src, p + 2, inClass, lit + [c, d], u);
        assert [c, d] == src[p..p + 2];
        AppendSlices(lit, src, p, p + 2, e);
      } else {
        assert r == RegExpBody(src, p + 1, ClassAfter(c, inClass), lit + [c], u);
        RegExpBodyLiteral(src, p + 1, ClassAfter(c, inClass), lit + [c], u);
        assert [c] == src[p..p + 1];
        AppendSlices(lit, src, p, p + 1, e);
      }
    }
  }

  /** Appending two adjacent slices appends their union. */
  lemma AppendSlices(lit: seq<uc32>, src: Source, a: nat, b: nat, c: nat)
    requires a <= b <= c <= |src|
    ensures lit + src[a..b] + src[b..c] == lit + src[a..c]
  {
    assert src[a..c] == src[a..b] + src[b..c];
  }

  /** No unit of an accepted body is a line terminator. */
  lemma {:induction false} RegExpBodyNoTerminator(src: Source, p: nat, inClass: bool, lit: seq<uc32>, u: UnicodeTables)
    requires p <= |src|
    ensures var r := RegExpBody(src, p, inClass, lit, u);
      r.Some? ==> forall k :: p <= k < r.value.pos - 1 ==> !u.lineTerminator(src[k])
    decreases |src| - p
  {
    var r := RegExpBody(src, p, inClass, lit, u);
    if r.Some? {
      var c := src[p];
      if c == '/' as int && !inClass {
        assert r == Some(RegExpLiteral(p + 1, lit));
      } else if c == Backslash {
        var d := src[p + 1];
        assert !u.lineTerminator(c) && !u.lineTerminator(d);
        assert r == RegExpBody(src, p + 2, inClass, lit + [c, d], u);
        RegExpBodyNoTerminator(src, p + 2, inClass, lit + [c, d], u);
      } else {
        assert !u.lineTerminator(c);
        assert r == RegExpBody(src, p + 1, ClassAfter(c, inClass), lit + [c], u);
        RegExpBodyNoTerminator(src, p + 1, ClassAfter(c, inClass), lit + [c], u);
      }
    }
  }

  /** The pattern ends at the first slash that is neither escaped nor inside a character
      class: the class state is closed where it ends. */
  lemma {:induction false} RegExpEndsOutsideClass(src: Source, p: nat, inClass: bool, lit: seq<uc32>, u: UnicodeTables)
    requires p <= |src|
    ensures var r := RegExpBody(src, p, inClass, lit, u);
      r.Some? ==> !ClassOpenAfter(src[p..r.value.pos - 1], inClass)
    decreases |src| - p
  {
    var r := RegExpBody(src, p, inClass, lit, u);
    if r.Some? {
      var c := src[p];
      var e := r.value.pos - 1;
      if c == '/' as int && !inClass {
        assert r == Some(RegExpLiteral(p + 1, lit));
        assert src[p..e] == [];
      } else if c == Backslash {
        var d := src[p + 1];
        assert r == RegExpBody(src, p + 2, inClass, lit + [c, d], u);
        RegExpEndsOutsideClass(src, p + 2, inClass, lit + [c, d], u);
        assert src[p..e][2..] == src[p + 2..e];
      } else {
        assert r == RegExpBody(src, p + 1, ClassAfter(c, inClass), lit + [c], u);
        RegExpEndsOutsideClass(src, p + 1, ClassAfter(c, inClass), lit + [c], u);
        assert src[p..e][1..] == src[p + 1..e];
      }
    }
  }

  /** `/[/]/`: a slash inside a character class belongs to the body. */
  lemma SlashInClass(u: UnicodeTables)
    requires !u.lineTerminator('[' as int) && !u.lineTerminator('/' as int) && !u.lineTerminator(']' as int)
    ensures ScanRegExpPattern(['[' as int, '/' as int, ']' as int, '/' as int], 0, false, u)
      == Some(RegExpLiteral(4, ['[' as int, '/' as int, ']' as int]))
  {
    var src: Source := ['[' as int, '/' as int, ']' as int, '/' as int];
    var lit: seq<uc32> := ['[' as int, '/' as int, ']' as int];
    assert RegExpBody(src, 3, false, lit, u) == Some(RegExpLiteral(4, lit));
    assert lit[..2] + [']' as int] == lit;
    assert RegExpBody(src, 2, true, lit[..2], u) == Some(RegExpLiteral(4, lit));
    assert lit[..1] + ['/' as int] == lit[..2];
    assert RegExpBody(src, 1, true, lit[..1], u) == Some(RegExpLiteral(4, lit));
    assert [] + ['[' as int] == lit[..1];
  }

  /** A line terminator directly after a backslash makes the scan fail, whatever follows. */
  lemma EscapedLineTerminatorFails(src: Source, p: nat, inClass: bool, lit: seq<uc32>, u: UnicodeTables)
    requires p + 1 < |src|
    requires src[p] == Backslash && !u.lineTerminator(Backslash) && u.lineTerminator(src[p + 1])
    ensures RegExpBody(src, p, inClass, lit, u).None?
  {
  }

  /** A body of ordinary units, with no slash, backslash, bracket or line terminator, is the
      literal, and the first slash after it closes the pattern. */
  lemma {:induction false} PlainRegExpBody(src: Source, p: nat, e: nat, lit: seq<uc32>, u: UnicodeTables)
    requires p <= e < |src| && src[e] == '/' as int
    requires forall k :: p <= k < e ==>
      && src[k] != '/' as int && src[k] != Backslash && src[k] != '[' as int && src[k] != ']' as int
      && !u.lineTerminator(src[k])
    ensures RegExpBody(src, p, false, lit, u) == Some(RegExpLiteral(e + 1, lit + src[p..e]))
    decreases e - p
  {
    if p < e {
      var c := src[p];
      assert RegExpBody(src, p, false, lit, u) == RegExpBody(src, p + 1, false, lit + [c], u);
      PlainRegExpBody(src, p + 1, e, lit + [c], u);
      assert [c] == src[p..p + 1];
      AppendSlices(lit, src, p, p + 1, e);
    } else {
      assert RegExpBody(src, p, false, lit, u) == Some(RegExpLiteral(e + 1, lit));
      assert lit + src[p..e] == lit;
    }
  }

  // ---------------------------------------------------------------------------------------
  // ScanTemplateSpan
  // ---------------------------------------------------------------------------------------

  /** The outcome of `ScanTemplateSpan`: `Token::TEMPLATE_TAIL` when `tail`, otherwise
      `Token::TEMPLATE_SPAN`; the position after the span; the cooked and the raw literal;
      and the first invalid-escape message, which the parser reports. */
  datatype TemplateToken = TemplateToken(tail: bool, pos: nat, cooked: seq<uc32>, raw: seq<uc32>,
                                         invalidEscape: Option<Message>)

  /** `ScanTemplateSpan()` with the cursor after the opening backtick or the closing brace of
      a substitution. The raw literal is always captured. */
  function ScanTemplateSpan(src: Source, pos: nat, u: UnicodeTables): (r: TemplateToken)
    requires pos <= |src|
    ensures pos <= r.pos <= |src| + 1
    ensures r.tail ==> pos < r.pos <= |src| && src[r.pos - 1] == '`' as int
    ensures !r.tail ==> |src| <= r.pos || (pos + 2 <= r.pos && src[r.pos - 2] == '$' as int && src[r.pos - 1] == '{' as int)
    ensures |r.cooked| <= |r.raw|
  {
    TemplateLoopEnd(src, pos, [], [], None, u);
    TemplateLoopLengths(src, pos, [], [], None, u);
    TemplateLoop(src, pos, [], [], None, u)
  }

  /** The template loop from `p`, with the literals and the message collected so far. */
  function TemplateLoop(src: Source, p: nat, cooked: seq<uc32>, raw: seq<uc32>, msg: Option<Message>,
                        u: UnicodeTables): (r: TemplateToken)
    requires p <= |src| + 1
    ensures p <= r.pos <= |src| + 1
    decreases |src| + 1 - p, 2
  {
    var c := C0(src, p);
    if c == '`' as int then TemplateToken(true, p + 1, cooked, raw, msg)
    else if c == '$' as int && C0(src, p + 1) == '{' as int then TemplateToken(false, p + 2, cooked, raw, msg)
    else if c == Backslash then TemplateBackslash(src, p, cooked, raw, msg, u)
    else if c == kEndOfInput then TemplateToken(false, p, cooked, raw, msg)
    else TemplateLoop(src, AfterUnit(src, p), cooked + [NormalizedUnit(c)], raw + [NormalizedUnit(c)], msg, u)
  }

  /** The position after the unit at `p`, where CR LF counts as one unit. */
  function AfterUnit(src: Source, p: nat): (q: nat)
    requires p <= |src|
    ensures q == p + 1 || (q == p + 2 && p + 1 < |src| && IsCarriageReturn(src[p]) && IsLineFeed(src[p + 1]))
  {
    if IsCarriageReturn(C0(src, p)) && IsLineFeed(C0(src, p + 1)) then p + 2 else p + 1
  }

  /** A unit as template values see it: CR, alone or before LF, is LF. */
  function NormalizedUnit(c: uc32): (t: uc32)
    ensures !IsCarriageReturn(t)
    ensures !IsCarriageReturn(c) ==> t == c
  {
    if IsCarriageReturn(c) then 0x0A else c
  }

  /** The backslash at `p` inside a template: a line continuation, which is raw only, or an
      escape. */
  function TemplateBackslash(src: Source, p: nat, cooked: seq<uc32>, raw: seq<uc32>, msg: Option<Message>,
                             u: UnicodeTables): (r: TemplateToken)
    requires p < |src|
    ensures p < r.pos <= |src| + 1
    decreases |src| + 1 - p, 1
  {
    var d := C0(src, p + 1);
    if u.lineTerminator(d) then
      // A line continuation: nothing is cooked, and the terminator is raw.
      TemplateLoop(src, AfterUnit(src, p + 1), cooked, raw + [Backslash, NormalizedUnit(d)], msg, u)
    else TemplateEscape(src, p, ScanEscape(src, p + 1, true, u), cooked, raw, msg, u)
  }

  /** The escape at the backslash at `p` inside a template, which `ScanEscape` scanned as
      `esc`: its source text is raw and its meaning is cooked. A failing escape does not end
      the span; its message is kept for the parser. */
  function TemplateEscape(src: Source, p: nat, esc: Escape, cooked: seq<uc32>, raw: seq<uc32>,
                          msg: Option<Message>, u: UnicodeTables): (r: TemplateToken)
    requires p + 1 < esc.pos <= |src| + 1
    ensures p < r.pos <= |src| + 1
    decreases |src| + 1 - p, 0
  {
    var raw' := raw + [Backslash] + Units(src, p + 1, esc.pos);
    if esc.Escaped? then TemplateLoop(src, esc.pos, cooked + esc.chars, raw', FirstMessage(msg, esc.octal), u)
    else TemplateLoop(src, esc.pos, cooked, raw', FirstMessage(msg, esc.error), u)
  }

  /** How a template token scanned from `p` ends: a tail with its backtick; a span with `${`,
      or at the end of the input when the template is unterminated. */
  predicate TemplateEnds(src: Source, p: nat, r: TemplateToken) {
    && (r.tail ==> p < r.pos <= |src| && src[r.pos - 1] == '`' as int)
    && (!r.tail ==> |src| <= r.pos || (p + 2 <= r.pos && src[r.pos - 2] == '$' as int && src[r.pos - 1] == '{' as int))
  }

  lemma TemplateEndsFrom(src: Source, p: nat, q: nat, r: TemplateToken)
    requires p <= q && TemplateEnds(src, q, r)
    ensures TemplateEnds(src, p, r)
  {
  }

  lemma {:induction false} TemplateLoopEnd(src: Source, p: nat, cooked: seq<uc32>, raw: seq<uc32>,
                                           msg: Option<Message>, u: UnicodeTables)
    requires p <= |src| + 1
    ensures TemplateEnds(src, p, TemplateLoop(src, p, cooked, raw, msg, u))
    decreases |src| + 1 - p, 2
  {
    var c := C0(src, p);
    if c == '`' as int || (c == '$' as int && C0(src, p + 1) == '{' as int) {
    } else if c == Backslash {
      TemplateBackslashEnd(src, p, cooked, raw, msg, u);
    } else if c == kEndOfInput {
    } else {
      var q, t := AfterUnit(src, p), NormalizedUnit(c);
      assert TemplateLoop(src, p, cooked, raw, msg, u) == TemplateLoop(src, q, cooked + [t], raw + [t], msg, u);
      TemplateLoopEnd(src, q, cooked + [t], raw + [t], msg, u);
      TemplateEndsFrom(src, p, q, TemplateLoop(src, q, cooked + [t], raw + [t], msg, u));
    }
  }

  lemma {:induction false} TemplateBackslashEnd(src: Source, p: nat, cooked: seq<uc32>, raw: seq<uc32>,
                                msg: Option<Message>, u: UnicodeTables)
    requires p < |src|
    ensures TemplateEnds(src, p, TemplateBackslash(src, p, cooked, raw, msg, u))
    decreases |src| + 1 - p, 1
  {
    var d := C0(src, p + 1);
    if u.lineTerminator(d) {
      var q, raw' := AfterUnit(src, p + 1), raw + [Backslash, NormalizedUnit(d)];
      assert TemplateBackslash(src, p, cooked, raw, msg, u) == TemplateLoop(src, q, cooked, raw', msg, u);
      TemplateLoopEnd(src, q, cooked, raw', msg, u);
      TemplateEndsFrom(src, p, q, TemplateLoop(src, q, cooked, raw', msg, u));
    } else {
      var e := ScanEscape(src, p + 1, true, u);
      assert TemplateBackslash(src, p, cooked, raw, msg, u) == TemplateEscape(src, p, e, cooked, raw, msg, u);
      TemplateEscapeEnd(src, p, e, cooked, raw, msg, u);
    }
  }

  lemma {:induction false} TemplateEscapeEnd(src: Source, p: nat, esc: Escape, cooked: seq<uc32>, raw: seq<uc32>,
                                             msg: Option<Message>, u: UnicodeTables)
    requires p + 1 < esc.pos <= |src| + 1
    ensures TemplateEnds(src, p, TemplateEscape(src, p, esc, cooked, raw, msg, u))
    decreases |src| + 1 - p, 0
  {
    var raw' := raw + [Backslash] + Units(src, p + 1, esc.pos);
    var cooked', msg' := if esc.Escaped? then cooked + esc.chars else cooked,
      FirstMessage(msg, if esc.Escaped? then esc.octal else esc.error);
    assert TemplateEscape(src, p, esc, cooked, raw, msg, u) == TemplateLoop(src, esc.pos, cooked', raw', msg', u);
    TemplateLoopEnd(src, esc.pos, cooked', raw', msg', u);
    TemplateEndsFrom(src, p, esc.pos, TemplateLoop(src, esc.pos, cooked', raw', msg', u));
  }

  /** The span extends both literals and keeps an earlier invalid-escape message; every
      cooked unit comes with at least one raw unit. */
  lemma {:induction false} TemplateLoopLengths(src: Source, p: nat, cooked: seq<uc32>, raw: seq<uc32>,
                                               msg: Option<Message>, u: UnicodeTables)
    requires p <= |src| + 1
    ensures var r := TemplateLoop(src, p, cooked, raw, msg, u);
      && cooked <= r.cooked && raw <= r.raw
      && |r.cooked| - |cooked| <= |r.raw| - |raw|
      && (msg.Some? ==> r.invalidEscape == msg)
    decreases |src| + 1 - p, 2
  {
    var c := C0(src, p);
    if c == '`' as int || (c == '$' as int && C0(src, p + 1) == '{' as int) {
    } else if c == Backslash {
      TemplateBackslashLengths(src, p, cooked, raw, msg, u);
    } else if c == kEndOfInput {
    } else {
      TemplateLoopLengths(src, AfterUnit(src, p), cooked + [NormalizedUnit(c)], raw + [NormalizedUnit(c)], msg, u);
    }
  }

  lemma {:induction false} TemplateBackslashLengths(src: Source, p: nat, cooked: seq<uc32>, raw: seq<uc32>,
                                msg: Option<Message>, u: UnicodeTables)
    requires p < |src|
    ensures var r := TemplateBackslash(src, p, cooked, raw, msg, u);
      && cooked <= r.cooked && raw <= r.raw
      && |r.cooked| - |cooked| <= |r.raw| - |raw|
      && (msg.Some? ==> r.invalidEscape == msg)
    decreases |src| + 1 - p, 1
  {
    var d := C0(src, p + 1);
    if u.lineTerminator(d) {
      var q, raw' := AfterUnit(src, p + 1), raw + [Backslash, NormalizedUnit(d)];
      assert TemplateBackslash(src, p, cooked, raw, msg, u) == TemplateLoop(src, q, cooked, raw', msg, u);
      TemplateLoopLengths(src, q, cooked, raw', msg, u);
    } else {
      var e := ScanEscape(src, p + 1, true, u);
      assert TemplateBackslash(src, p, cooked, raw, msg, u) == TemplateEscape(src, p, e, cooked, raw, msg, u);
      TemplateEscapeLengths(src, p, e, cooked, raw, msg, u);
    }
  }

  lemma {:induction false} TemplateEscapeLengths(src: Source, p: nat, esc: Escape, cooked: seq<uc32>, raw: seq<uc32>,
                                                 msg: Option<Message>, u: UnicodeTables)
    requires p + 1 < esc.pos <= |src| + 1
    requires esc.Escaped? ==> |esc.chars| <= 1
    ensures var r := TemplateEscape(src, p, esc, cooked, raw, msg, u);
      && cooked <= r.cooked && raw <= r.raw
      && |r.cooked| - |cooked| <= |r.raw| - |raw|
      && (msg.Some? ==> r.invalidEscape == msg)
    decreases |src| + 1 - p, 0
  {
    var raw' := raw + [Backslash] + Units(src, p + 1, esc.pos);
    if esc.Escaped? {
      TemplateLoopLengths(src, esc.pos, cooked + esc.chars, raw', FirstMessage(msg, esc.octal), u);
    } else {
      TemplateLoopLengths(src, esc.pos, cooked, raw', FirstMessage(msg, esc.error), u);
    }
  }

  /** Template text with its line terminator sequences normalised: CR LF and a lone CR become
      LF, as in the template value and the raw value of ECMAScript's LineTerminatorSequence. */
  function NormalizeLineTerminators(s: seq<uc32>): (r: seq<uc32>)
    ensures |r| <= |s|
    ensures forall i :: 0 <= i < |r| ==> !IsCarriageReturn(r[i])
    decreases |s|
  {
    if s == [] then []
    else if IsCarriageReturn(s[0]) then
      [0x0A] + NormalizeLineTerminators(if |s| > 1 && IsLineFeed(s[1]) then s[2..] else s[1..])
    else [s[0]] + NormalizeLineTerminators(s[1..])
  }

  /** One unit of template text other than a backtick, dollar sign or backslash. */
  lemma TemplateTextStep(src: Source, p: nat, cooked: seq<uc32>, raw: seq<uc32>, msg: Option<Message>,
                         u: UnicodeTables)
    requires p < |src| && src[p] != '`' as int && src[p] != '$' as int && src[p] != Backslash
    ensures var t := NormalizedUnit(src[p]);
      TemplateLoop(src, p, cooked, raw, msg, u) == TemplateLoop(src, AfterUnit(src, p), cooked + [t], raw + [t], msg, u)
  {
  }

  /** A template body without backticks, dollar signs and backslashes has the same cooked and
      raw value: its text with line terminators normalised. */
  lemma {:induction false} PlainTemplateBody(src: Source, p: nat, e: nat, cooked: seq<uc32>, raw: seq<uc32>,
                                             msg: Option<Message>, u: UnicodeTables)
    requires p <= e < |src| && src[e] == '`' as int
    requires forall k :: p <= k < e ==> src[k] != '`' as int && src[k] != '$' as int && src[k] != Backslash
    ensures var n := NormalizeLineTerminators(src[p..e]);
      TemplateLoop(src, p, cooked, raw, msg, u) == TemplateToken(true, e + 1, cooked + n, raw + n, msg)
    decreases e - p
  {
    if p == e {
      assert src[p..e] == [];
      assert TemplateLoop(src, p, cooked, raw, msg, u) == TemplateToken(true, e + 1, cooked, raw, msg);
    } else {
      var q := AfterUnit(src, p);
      var t := NormalizedUnit(src[p]);
      TemplateTextStep(src, p, cooked, raw, msg, u);
      NormalizeStep(src, p, e);
      PlainTemplateBody(src, q, e, cooked + [t], raw + [t], msg, u);
      AppendAssoc(cooked, [t], NormalizeLineTerminators(src[q..e]));
      AppendAssoc(raw, [t], NormalizeLineTerminators(src[q..e]));
    }
  }

  lemma AppendAssoc(a: seq<uc32>, b: seq<uc32>, c: seq<uc32>)
    ensures a + b + c == a + (b + c)
  {
  }

  lemma NormalizeStep(src: Source, p: nat, e: nat)
    requires p < e < |src| && src[e] == '`' as int
    ensures AfterUnit(src, p) <= e
    ensures NormalizeLineTerminators(src[p..e])
      == [NormalizedUnit(src[p])] + NormalizeLineTerminators(src[AfterUnit(src, p)..e])
  {
    var s := src[p..e];
    if AfterUnit(src, p) == p + 2 {
      assert s[2..] == src[p + 2..e];
    } else {
      assert s[1..] == src[p + 1..e];
    }
  }

  /** An escape is raw as written and cooked as meant: `\n` contributes backslash and `n` to
      the raw value and one LF to the cooked value. */
  lemma TemplateNewlineEscape(src: Source, p: nat, cooked: seq<uc32>, raw: seq<uc32>,
                              msg: Option<Message>, u: UnicodeTables)
    requires p + 1 < |src| && src[p] == Backslash && src[p + 1] == 'n' as int
    requires !u.lineTerminator('n' as int)
    ensures TemplateLoop(src, p, cooked, raw, msg, u)
      == TemplateLoop(src, p + 2, cooked + [0x0A], raw + [Backslash, 'n' as int], msg, u)
  {
    var esc := ScanEscape(src, p + 1, true, u);
    assert esc == Escaped(p + 2, [0x0A], None);
    assert TemplateLoop(src, p, cooked, raw, msg, u) == TemplateBackslash(src, p, cooked, raw, msg, u);
    assert TemplateBackslash(src, p, cooked, raw, msg, u) == TemplateEscape(src, p, esc, cooked, raw, msg, u);
    assert Units(src, p + 1, p + 2) == ['n' as int];
    assert raw + [Backslash] + ['n' as int] == raw + [Backslash, 'n' as int];
  }

  /** An invalid escape does not end a template: `\x` before a non-hex unit records the
      message for the parser and scanning resumes at that unit. */
  lemma TemplateInvalidHexEscape(src: Source, p: nat, cooked: seq<uc32>, raw: seq<uc32>, u: UnicodeTables)
    requires p + 2 < |src| && src[p] == Backslash && src[p + 1] == 'x' as int && !IsHexDigit(src[p + 2])
    requires !u.lineTerminator('x' as int)
    ensures TemplateLoop(src, p, cooked, raw, None, u)
      == TemplateLoop(src, p + 2, cooked, raw + [Backslash, 'x' as int], Some(InvalidHexEscapeSequence), u)
  {
    var h := ScanHexNumber(src, p + 2, 2, false);
    assert !AllHex(src[p + 2..p + 3]) by {
      assert src[p + 2..p + 3][0] == src[p + 2];
    }
    assert h == Invalid(p + 2, Some(InvalidHexEscapeSequence)) by {
      if p + 4 <= |src| {
        assert src[p + 2..p + 4][0] == src[p + 2];
      }
    }
    var esc := ScanEscape(src, p + 1, true, u);
    assert esc == EscapeFrom(src, p + 1, h);
    assert TemplateLoop(src, p, cooked, raw, None, u) == TemplateBackslash(src, p, cooked, raw, None, u);
    assert TemplateBackslash(src, p, cooked, raw, None, u) == TemplateEscape(src, p, esc, cooked, raw, None, u);
    assert Units(src, p + 1, p + 2) == ['x' as int];
    assert raw + [Backslash] + ['x' as int] == raw + [Backslash, 'x' as int];
  }
}

=== FILE: scanner_numbers.dfy ===
/** Numeric literals: `ScanDigitsWithNumericSeparators`, `ScanDecimalDigits`, the small-integer
    fast path `ScanDecimalAsSmi`, the prefixed and implicit-octal digit scanners,
    `ScanSignedInteger` and `ScanNumber` of scanner.cc. The literal buffer is the sequence of
    units the scan adds to it; numeric separators never reach it. */
module ScannerNumbers {
  import opened Globals
  import opened Wrappers
  import opened ScannerUtils
  import opened ScannerInput

  /** `Scanner::NumberKind`, in the declaration order of scanner.h. */
  datatype NumberKind = ImplicitOctal | Binary | Octal | Hex | Decimal | DecimalWithLeadingZero

  /** `IsValidBigIntKind`: the kinds from `BINARY` to `DECIMAL`. */
  predicate IsValidBigIntKind(k: NumberKind) {
    k.Binary? || k.Octal? || k.Hex? || k.Decimal?
  }

  /** `IsDecimalNumberKind`: `DECIMAL` and `DECIMAL_WITH_LEADING_ZERO`. */
  predicate IsDecimalNumberKind(k: NumberKind) {
    k.Decimal? || k.DecimalWithLeadingZero?
  }

  /** The digit predicates handed to `ScanDigitsWithNumericSeparators`. */
  datatype DigitClass = BinaryDigit | OctalDigit | DecimalDigit | HexDigit

  predicate IsDigitOf(d: DigitClass, c: uc32) {
    match d
    case BinaryDigit => IsBinaryDigit(c)
    case OctalDigit => IsOctalDigit(c)
    case DecimalDigit => IsDecimalDigit(c)
    case HexDigit => IsHexDigit(c)
  }

  const Underscore: uc32 := '_' as int
  const Period: uc32 := '.' as int

  lemma EndOfInputIsNoDigitOf(d: DigitClass)
    ensures !IsDigitOf(d, kEndOfInput) && kEndOfInput != Underscore
  {
    EndOfInputIsNoDigit();
  }

  /** The cursor position and the literal collected so far. */
  datatype Cursor = Cursor(pos: nat, literal: seq<uc32>)

  /** `r` continues `c`: the cursor moved forward and only digits of class `d` were added. */
  predicate Extends(c: Cursor, r: Cursor, d: DigitClass) {
    && c.pos <= r.pos
    && |c.literal| <= |r.literal|
    && r.literal[..|c.literal|] == c.literal
    && forall k :: |c.literal| <= k < |r.literal| ==> IsDigitOf(d, r.literal[k])
  }

  // ---------------------------------------------------------------------------------------
  // Digits with numeric separators
  // ---------------------------------------------------------------------------------------

  /** The end of the run of digits of class `d` and underscores starting at `pos`. */
  function RunEnd(src: Source, pos: nat, d: DigitClass): (e: nat)
    ensures pos <= e
    ensures pos <= |src| ==> e <= |src|
    ensures !IsDigitOf(d, C0(src, e)) && C0(src, e) != Underscore
    ensures forall k :: pos <= k < e ==> k < |src| && (IsDigitOf(d, src[k]) || src[k] == Underscore)
    decreases |src| - pos
  {
    EndOfInputIsNoDigitOf(d);
    if IsDigitOf(d, C0(src, pos)) || C0(src, pos) == Underscore then RunEnd(src, pos + 1, d) else pos
  }

  /** A run obeys the numeric-separator rules: no two underscores in a row and none at the
      end. */
  predicate WellSeparated(s: seq<uc32>) {
    && (forall i :: 0 <= i < |s| - 1 ==> !(s[i] == Underscore && s[i + 1] == Underscore))
    && (|s| > 0 ==> s[|s| - 1] != Underscore)
  }

  /** A run with its underscores removed. */
  function Digits(s: seq<uc32>): (r: seq<uc32>)
    ensures |r| <= |s|
  {
    if s == [] then []
    else (if s[0] == Underscore then [] else [s[0]]) + Digits(s[1..])
  }

  /** Removing the underscores from a run leaves only its digits. */
  lemma {:induction false} DigitsOfRun(s: seq<uc32>, d: DigitClass)
    requires forall k :: 0 <= k < |s| ==> IsDigitOf(d, s[k]) || s[k] == Underscore
    ensures forall k :: 0 <= k < |Digits(s)| ==> IsDigitOf(d, Digits(s)[k])
    decreases |s|
  {
    if s != [] {
      DigitsOfRun(s[1..], d);
    }
  }

  /** The loop of `ScanDigitsWithNumericSeparators`; `sepSeen` is `separator_seen`. */
  function SepLoop(src: Source, pos: nat, lit: seq<uc32>, d: DigitClass, sepSeen: bool): Option<Cursor>
    decreases |src| - pos
  {
    EndOfInputIsNoDigitOf(d);
    var c := C0(src, pos);
    if IsDigitOf(d, c) || c == Underscore then
      if c == Underscore then
        if C0(src, pos + 1) == Underscore then None
        else SepLoop(src, pos + 1, lit, d, true)
      else SepLoop(src, pos + 1, lit + [c], d, false)
    else if sepSeen then None
    else Some(Cursor(pos, lit))
  }

  lemma WellSeparatedCons(c: uc32, s: seq<uc32>)
    ensures c != Underscore ==> (WellSeparated([c] + s) <==> WellSeparated(s))
    ensures c == Underscore && (s == [] || s[0] != Underscore) ==>
              (WellSeparated([c] + s) <==> s != [] && WellSeparated(s))
    ensures c == Underscore && s != [] && s[0] == Underscore ==> !WellSeparated([c] + s)
  {
    var t := [c] + s;
    if c != Underscore && WellSeparated(s) {
      forall i | 0 <= i < |t| - 1 ensures !(t[i] == Underscore && t[i + 1] == Underscore) {
        if i > 0 { assert t[i] == s[i - 1] && t[i + 1] == s[i]; }
      }
    }
    if WellSeparated(t) {
      forall i | 0 <= i < |s| - 1 ensures !(s[i] == Underscore && s[i + 1] == Underscore) {
        assert s[i] == t[i + 1] && s[i + 1] == t[i + 2];
      }
    }
    if c == Underscore && s != [] && s[0] == Underscore {
      assert t[0] == Underscore && t[1] == Underscore;
    }
    if c == Underscore && s != [] && s[0] != Underscore && WellSeparated(s) {
      forall i | 0 <= i < |t| - 1 ensures !(t[i] == Underscore && t[i + 1] == Underscore) {
        if i > 0 { assert t[i] == s[i - 1] && t[i + 1] == s[i]; }
      }
    }
  }

  lemma DigitsCons(c: uc32, s: seq<uc32>)
    ensures Digits([c] + s) == (if c == Underscore then [] else [c]) + Digits(s)
  {
    assert ([c] + s)[1..] == s;
  }

  /** One turn of `ScanDigitsWithNumericSeparators`' loop. */
  lemma SepLoopUnfold(src: Source, pos: nat, lit: seq<uc32>, d: DigitClass, sepSeen: bool)
    ensures var c := C0(src, pos);
      && (IsDigitOf(d, c) ==> pos < |src| && SepLoop(src, pos, lit, d, sepSeen) == SepLoop(src, pos + 1, lit + [c], d, false))
      && (c == Underscore && C0(src, pos + 1) == Underscore ==> SepLoop(src, pos, lit, d, sepSeen).None?)
      && (c == Underscore && C0(src, pos + 1) != Underscore ==>
            pos < |src| && SepLoop(src, pos, lit, d, sepSeen) == SepLoop(src, pos + 1, lit, d, true))
      && (!IsDigitOf(d, c) && c != Underscore ==>
            SepLoop(src, pos, lit, d, sepSeen) == if sepSeen then None else Some(Cursor(pos, lit)))
  {
    EndOfInputIsNoDigitOf(d);
    assert IsDigitOf(d, C0(src, pos)) ==> C0(src, pos) != Underscore by {
      DigitClassesNest(C0(src, pos));
    }
  }

  /** The run at `pos` is its first unit followed by the run at `pos + 1`. */
  lemma RunCons(src: Source, pos: nat, d: DigitClass)
    requires pos < |src| && (IsDigitOf(d, src[pos]) || src[pos] == Underscore)
    ensures RunEnd(src, pos, d) == RunEnd(src, pos + 1, d)
    ensures src[pos..RunEnd(src, pos, d)] == [src[pos]] + src[pos + 1..RunEnd(src, pos + 1, d)]
  {
  }

  /** The loop accepts exactly the well-separated runs (one that is not empty when it starts
      right after an underscore). */
  lemma {:induction false} SepLoopAccepts(src: Source, pos: nat, lit: seq<uc32>, d: DigitClass, sepSeen: bool)
    requires pos <= |src|
    requires sepSeen ==> C0(src, pos) != Underscore
    ensures var e := RunEnd(src, pos, d);
      SepLoop(src, pos, lit, d, sepSeen).Some? <==> WellSeparated(src[pos..e]) && !(sepSeen && e == pos)
    decreases |src| - pos
  {
    EndOfInputIsNoDigitOf(d);
    SepLoopUnfold(src, pos, lit, d, sepSeen);
    var c := C0(src, pos);
    if IsDigitOf(d, c) || c == Underscore {
      RunCons(src, pos, d);
      var rest := src[pos + 1..RunEnd(src, pos + 1, d)];
      WellSeparatedCons(c, rest);
      if c == Underscore {
        if C0(src, pos + 1) != Underscore {
          SepLoopAccepts(src, pos + 1, lit, d, true);
        } else {
          assert rest[0] == Underscore;
        }
      } else {
        SepLoopAccepts(src, pos + 1, lit + [c], d, false);
      }
    } else {
      assert src[pos..pos] == [];
    }
  }

  /** When the loop succeeds it stops at the end of the run and has collected the run's
      digits. */
  lemma {:induction false} SepLoopCollects(src: Source, pos: nat, lit: seq<uc32>, d: DigitClass, sepSeen: bool)
    requires pos <= |src|
    ensures var r := SepLoop(src, pos, lit, d, sepSeen);
      var e := RunEnd(src, pos, d);
      r.Some? ==> r.value == Cursor(e, lit + Digits(src[pos..e]))
    decreases |src| - pos
  {
    EndOfInputIsNoDigitOf(d);
    SepLoopUnfold(src, pos, lit, d, sepSeen);
    var c := C0(src, pos);
    if IsDigitOf(d, c) || c == Underscore {
      RunCons(src, pos, d);
      var e := RunEnd(src, pos + 1, d);
      var rest := src[pos + 1..e];
      DigitsCons(c, rest);
      if c == Underscore {
        if C0(src, pos + 1) != Underscore {
          SepLoopCollects(src, pos + 1, lit, d, true);
          assert Digits(src[pos..e]) == Digits(rest);
        }
      } else {
        SepLoopCollects(src, pos + 1, lit + [c], d, false);
        assert Digits(src[pos..e]) == [c] + Digits(rest);
        assert lit + [c] + Digits(rest) == lit + ([c] + Digits(rest));
      }
    } else {
      assert RunEnd(src, pos, d) == pos;
      assert src[pos..pos] == [];
      assert lit + Digits([]) == lit;
    }
  }

  /** `ScanDigitsWithNumericSeparators(predicate, is_check_first_digit)`. */
  function ScanDigitsWithNumericSeparators(src: Source, cur: Cursor, d: DigitClass, checkFirst: bool): (r: Option<Cursor>)
    requires cur.pos <= |src|
    ensures var e := RunEnd(src, cur.pos, d);
      && (r.Some? <==> WellSeparated(src[cur.pos..e]) && (checkFirst ==> IsDigitOf(d, C0(src, cur.pos))))
      && (r.Some? ==> r.value == Cursor(e, cur.literal + Digits(src[cur.pos..e])))
  {
    if checkFirst && !IsDigitOf(d, C0(src, cur.pos)) then None
    else
      SepLoopAccepts(src, cur.pos, cur.literal, d, false);
      SepLoopCollects(src, cur.pos, cur.literal, d, false);
      SepLoop(src, cur.pos, cur.literal, d, false)
  }

  /** What a successful separator scan leaves: the cursor after the run, on neither a digit
      nor an underscore, and only digits added to the literal. */
  lemma SeparatedScanExtends(src: Source, cur: Cursor, d: DigitClass, checkFirst: bool)
    requires cur.pos <= |src|
    ensures var r := ScanDigitsWithNumericSeparators(src, cur, d, checkFirst);
      r.Some? ==>
        && Extends(cur, r.value, d)
        && !IsDigitOf(d, C0(src, r.value.pos)) && C0(src, r.value.pos) != Underscore
  {
    var r := ScanDigitsWithNumericSeparators(src, cur, d, checkFirst);
    if r.Some? {
      var e := RunEnd(src, cur.pos, d);
      var run := src[cur.pos..e];
      DigitsOfRun(run, d);
      var ds := Digits(run);
      assert r.value.literal == cur.literal + ds;
      forall k | |cur.literal| <= k < |r.value.literal| ensures IsDigitOf(d, r.value.literal[k]) {
        assert r.value.literal[k] == ds[k - |cur.literal|];
      }
      assert r.value.literal[..|cur.literal|] == cur.literal;
    }
  }

  // ---------------------------------------------------------------------------------------
  // Decimal digits
  // ---------------------------------------------------------------------------------------

  /** Decimal digits without separators, each added to the literal. */
  function DecimalRun(src: Source, cur: Cursor): (r: Cursor)
    requires cur.pos <= |src|
    ensures cur.pos <= r.pos <= |src|
    ensures r.literal == cur.literal + src[cur.pos..r.pos]
    ensures forall k :: cur.pos <= k < r.pos ==> IsDecimalDigit(src[k])
    ensures !IsDecimalDigit(C0(src, r.pos))
    decreases |src| - cur.pos
  {
    EndOfInputIsNoDigit();
    if IsDecimalDigit(C0(src, cur.pos)) then
      var r := DecimalRun(src, Cursor(cur.pos + 1, cur.literal + [src[cur.pos]]));
      assert src[cur.pos..r.pos] == [src[cur.pos]] + src[cur.pos + 1..r.pos];
      r
    else Cursor(cur.pos, cur.literal)
  }

  /** `ScanDecimalDigits(allow_numeric_separator)`. */
  function ScanDecimalDigits(src: Source, cur: Cursor, allowSeparator: bool): (r: Option<Cursor>)
    requires cur.pos <= |src|
    ensures r.Some? ==> Extends(cur, r.value, DecimalDigit) && r.value.pos <= |src|
    ensures r.Some? ==> !IsDecimalDigit(C0(src, r.value.pos)) && C0(src, r.value.pos) != Underscore
    ensures allowSeparator ==> r == ScanDigitsWithNumericSeparators(src, cur, DecimalDigit, false)
    ensures !allowSeparator ==> (r.Some? <==> C0(src, DecimalRun(src, cur).pos) != Underscore)
  {
    if allowSeparator then
      SeparatedScanExtends(src, cur, DecimalDigit, false);
      ScanDigitsWithNumericSeparators(src, cur, DecimalDigit, false)
    else
      var c := DecimalRun(src, cur);
      assert c.literal[..|cur.literal|] == cur.literal;
      if C0(src, c.pos) == Underscore then None else Some(c)
  }

  // ---------------------------------------------------------------------------------------
  // The small-integer fast path
  // ---------------------------------------------------------------------------------------

  predicate AllDecimal(s: seq<uc32>) {
    forall i :: 0 <= i < |s| ==> IsDecimalDigit(s[i])
  }

  /** `*value = 10 * *value + (c0_ - '0')` in `uint64_t`. */
  function SmiStep(value: nat, c: uc32): nat
    requires IsDecimalDigit(c)
  {
    ToUint64(10 * value + (c - '0' as int))
  }

  /** The loop of `ScanDecimalAsSmiWithNumericSeparators`. */
  function SmiSepLoop(src: Source, pos: nat, lit: seq<uc32>, value: nat, sepSeen: bool): Option<(Cursor, nat)>
    decreases |src| - pos
  {
    EndOfInputIsNoDigit();
    var c := C0(src, pos);
    if IsDecimalDigit(c) || c == Underscore then
      if c == Underscore then
        if C0(src, pos + 1) == Underscore then None
        else SmiSepLoop(src, pos + 1, lit, value, true)
      else SmiSepLoop(src, pos + 1, lit + [c], SmiStep(value, c), false)
    else if sepSeen then None
    else Some((Cursor(pos, lit), value))
  }

  /** The loop of `ScanDecimalAsSmi` without separators. */
  function SmiPlainLoop(src: Source, pos: nat, lit: seq<uc32>, value: nat): (Cursor, nat)
    decreases |src| - pos
  {
    EndOfInputIsNoDigit();
    var c := C0(src, pos);
    if IsDecimalDigit(c) then SmiPlainLoop(src, pos + 1, lit + [c], SmiStep(value, c))
    else (Cursor(pos, lit), value)
  }

  /** `ScanDecimalAsSmi(&value, allow_numeric_separator)` starting from `value == 0`. */
  function ScanDecimalAsSmi(src: Source, cur: Cursor, allowSeparator: bool): (r: Option<(Cursor, nat)>)
    requires cur.pos <= |src|
    requires AllDecimal(cur.literal) && DecimalNumeral(cur.literal) == 0
    ensures r.Some? ==> AllDecimal(r.value.0.literal)
                        && r.value.1 == ToUint64(DecimalNumeral(r.value.0.literal))
    ensures r.Some? ==> Extends(cur, r.value.0, DecimalDigit) && r.value.0.pos <= |src|
                        && !IsDecimalDigit(C0(src, r.value.0.pos))
    ensures allowSeparator ==>
      (r.Some? <==> SepLoop(src, cur.pos, cur.literal, DecimalDigit, false).Some?)
      && (r.Some? ==> r.value.0 == SepLoop(src, cur.pos, cur.literal, DecimalDigit, false).value)
    ensures !allowSeparator ==> r.Some?
  {
    if allowSeparator then
      SmiSepLoopSpec(src, cur.pos, cur.literal, 0, false, cur.literal);
      SmiSepLoop(src, cur.pos, cur.literal, 0, false)
    else
      SmiPlainLoopSpec(src, cur.pos, cur.literal, 0, cur.literal);
      Some(SmiPlainLoop(src, cur.pos, cur.literal, 0))
  }

  /** Reduction modulo 2^64 commutes with one decimal step. */
  lemma SmiStepMod(n: nat, c: uc32)
    requires IsDecimalDigit(c)
    ensures SmiStep(ToUint64(n), c) == ToUint64(10 * n + (c - '0' as int))
  {
    var q, m := n / TwoTo64, n % TwoTo64;
    var dd := c - '0' as int;
    assert n == q * TwoTo64 + m;
    assert 10 * n + dd == (10 * q) * TwoTo64 + (10 * m + dd);
    ModAddMultiple(10 * q, 10 * m + dd);
  }

  lemma ModAddMultiple(k: nat, x: nat)
    ensures (k * TwoTo64 + x) % TwoTo64 == x % TwoTo64
  {
    var q, r := x / TwoTo64, x % TwoTo64;
    assert k * TwoTo64 + x == (k + q) * TwoTo64 + r;
  }

  /** Each digit the fast path reads goes to the literal, and the `uint64_t` accumulator holds
      the literal's value modulo 2^64. */
  lemma {:induction false} SmiValueStep(lit: seq<uc32>, value: nat, c: uc32)
    requires AllDecimal(lit) && IsDecimalDigit(c) && value == ToUint64(DecimalNumeral(lit))
    ensures AllDecimal(lit + [c]) && SmiStep(value, c) == ToUint64(DecimalNumeral(lit + [c]))
  {
    DecimalNumeralSnoc(lit, c);
    SmiStepMod(DecimalNumeral(lit), c);
  }

  lemma {:induction false} SmiSepLoopSpec(src: Source, pos: nat, lit: seq<uc32>, value: nat, sepSeen: bool, lit0: seq<uc32>)
    requires pos <= |src|
    requires AllDecimal(lit) && value == ToUint64(DecimalNumeral(lit))
    requires |lit0| <= |lit| && lit[..|lit0|] == lit0
    ensures var r := SmiSepLoop(src, pos, lit, value, sepSeen);
      var s := SepLoop(src, pos, lit, DecimalDigit, sepSeen);
      && (r.Some? <==> s.Some?)
      && (r.Some? ==> r.value.0 == s.value && AllDecimal(r.value.0.literal)
                      && r.value.1 == ToUint64(DecimalNumeral(r.value.0.literal))
                      && pos <= r.value.0.pos <= |src| && !IsDecimalDigit(C0(src, r.value.0.pos))
                      && |lit0| <= |r.value.0.literal| && r.value.0.literal[..|lit0|] == lit0)
    decreases |src| - pos
  {
    EndOfInputIsNoDigit();
    var c := C0(src, pos);
    if IsDecimalDigit(c) {
      SmiValueStep(lit, value, c);
      assert (lit + [c])[..|lit0|] == lit0;
      SmiSepLoopSpec(src, pos + 1, lit + [c], SmiStep(value, c), false, lit0);
    } else if c == Underscore && C0(src, pos + 1) != Underscore {
      SmiSepLoopSpec(src, pos + 1, lit, value, true, lit0);
    }
  }

  lemma {:induction false} SmiPlainLoopSpec(src: Source, pos: nat, lit: seq<uc32>, value: nat, lit0: seq<uc32>)
    requires pos <= |src|
    requires AllDecimal(lit) && value == ToUint64(DecimalNumeral(lit))
    requires |lit0| <= |lit| && lit[..|lit0|] == lit0
    ensures var (c, v) := SmiPlainLoop(src, pos, lit, value);
      && AllDecimal(c.literal) && v == ToUint64(DecimalNumeral(c.literal))
      && pos <= c.pos <= |src| && !IsDecimalDigit(C0(src, c.pos))
      && |lit0| <= |c.literal| && c.literal[..|lit0|] == lit0
    decreases |src| - pos
  {
    EndOfInputIsNoDigit();
    var c := C0(src, pos);
    if IsDecimalDigit(c) {
      SmiValueStep(lit, value, c);
      assert (lit + [c])[..|lit0|] == lit0;
      SmiPlainLoopSpec(src, pos + 1, lit + [c], SmiStep(value, c), lit0);
    }
  }

  lemma SmiValueExactIf(lit: seq<uc32>)
    requires AllDecimal(lit)
    ensures |lit| <= 10 ==> ToUint64(DecimalNumeral(lit)) == DecimalNumeral(lit)
  {
    if |lit| <= 10 { SmiValueExact(lit); }
  }

  /** A literal of at most ten decimal digits is below 2^64, so the fast path's accumulator is
      its exact value. */
  lemma SmiValueExact(lit: seq<uc32>)
    requires AllDecimal(lit) && |lit| <= 10
    ensures ToUint64(DecimalNumeral(lit)) == DecimalNumeral(lit)
  {
    DecimalNumeralBound(lit);
    PowTenBound(|lit|);
  }

  lemma {:induction false} PowTenBound(n: nat)
    requires n <= 10
    ensures Pow(10, n) <= 10_000_000_000
    decreases 10 - n
  {
    if n < 10 {
      PowTenBound(n + 1);
      assert Pow(10, n + 1) == 10 * Pow(10, n);
    }
  }

  // ---------------------------------------------------------------------------------------
  // Prefixes, exponents and ScanNumber
  // ---------------------------------------------------------------------------------------

  /** `ScanImplicitOctalDigits`: octal digits after a leading zero; a digit 8 or 9 turns the
      literal into a decimal with a leading zero. */
  function ImplicitOctalDigits(src: Source, cur: Cursor): (r: (Cursor, NumberKind))
    requires cur.pos <= |src|
    ensures r.1 == ImplicitOctal || r.1 == DecimalWithLeadingZero
    ensures Extends(cur, r.0, OctalDigit) && r.0.pos <= |src|
    ensures r.1 == ImplicitOctal <==> !IsDecimalDigit(C0(src, r.0.pos))
    ensures r.1 == DecimalWithLeadingZero <==> IsNonOctalDecimalDigit(C0(src, r.0.pos))
    decreases |src| - cur.pos
  {
    EndOfInputIsNoDigit();
    var c := C0(src, cur.pos);
    if IsNonOctalDecimalDigit(c) then (cur, DecimalWithLeadingZero)
    else if !IsOctalDigit(c) then (cur, ImplicitOctal)
    else
      var r := ImplicitOctalDigits(src, Cursor(cur.pos + 1, cur.literal + [c]));
      assert r.0.literal[..|cur.literal| + 1] == cur.literal + [c];
      assert r.0.literal[..|cur.literal|] == cur.literal;
      r
  }

  /** What the leading characters decide: the cursor after them, the kind, and `at_start`. */
  datatype Lead = Lead(cur: Cursor, kind: NumberKind, atStart: bool)

  /** The part of `ScanNumber` that inspects a leading zero (`seen_period` false). */
  function LeadingZero(src: Source, pos: nat): (r: Option<Lead>)
    requires pos <= |src|
    ensures r.Some? ==> r.value.cur.pos <= |src| && pos <= r.value.cur.pos
    ensures r.Some? && r.value.kind.Decimal? ==> r.value.atStart && AllDecimal(r.value.cur.literal)
                                                 && DecimalNumeral(r.value.cur.literal) == 0
    ensures r.Some? && r.value.kind.DecimalWithLeadingZero? ==>
      C0(src, pos) == '0' as int && (r.value.atStart <==> r.value.cur.literal == ['0' as int])
    ensures r.Some? && r.value.kind.DecimalWithLeadingZero? && r.value.atStart ==>
      AllDecimal(r.value.cur.literal) && DecimalNumeral(r.value.cur.literal) == 0
    ensures r.Some? ==> NoPeriod(r.value.cur.literal)
    ensures C0(src, pos) != '0' as int ==> r == Some(Lead(Cursor(pos, []), Decimal, true))
  {
    if C0(src, pos) != '0' as int then Some(Lead(Cursor(pos, []), Decimal, true))
    else
      var c := Cursor(pos + 1, ['0' as int]);
      var c1 := C0(src, pos + 1);
      var l := AsciiAlphaToLower(c1);
      assert DecimalNumeral(['0' as int]) == 0 by { DecimalNumeralSnoc([], '0' as int); }
      if l == 'x' as int then Prefixed(src, pos + 1, Hex, HexDigit)
      else if l == 'o' as int then Prefixed(src, pos + 1, Octal, OctalDigit)
      else if l == 'b' as int then Prefixed(src, pos + 1, Binary, BinaryDigit)
      else if IsOctalDigit(c1) then
        var (c2, kind) := ImplicitOctalDigits(src, c);
        assert forall k :: 0 <= k < |c2.literal| ==> c2.literal[k] != Period by {
          assert c2.literal[..1] == ['0' as int];
          forall k | 0 <= k < |c2.literal| ensures c2.literal[k] != Period {
            if k == 0 { assert c2.literal[0] == c2.literal[..1][0]; }
          }
        }
        Some(Lead(c2, kind, kind != DecimalWithLeadingZero))
      else if IsNonOctalDecimalDigit(c1) then Some(Lead(c, DecimalWithLeadingZero, true))
      else if c1 == Underscore then None
      else Some(Lead(c, Decimal, true))
  }

  /** `0x`, `0o` or `0b` and the digits that must follow, with the cursor on the letter. */
  function Prefixed(src: Source, pos: nat, kind: NumberKind, d: DigitClass): (r: Option<Lead>)
    requires 0 < pos < |src| && d != DecimalDigit && !IsDecimalNumberKind(kind)
    requires AsciiAlphaToLower(src[pos]) >= 'b' as int
    ensures r.Some? ==> r.value.cur.pos <= |src| && pos < r.value.cur.pos && r.value.kind == kind
    ensures r.Some? ==> NoPeriod(r.value.cur.literal)
  {
    var c := Cursor(pos + 1, ['0' as int, src[pos]]);
    assert src[pos] != Period by { SetBit5Of(src[pos]); }
    SeparatedScanExtends(src, c, d, true);
    match ScanDigitsWithNumericSeparators(src, c, d, true)
    case None => None
    case Some(c2) =>
      assert forall k :: 0 <= k < |c2.literal| ==> c2.literal[k] != Period by {
        forall k | 0 <= k < |c2.literal| ensures c2.literal[k] != Period {
          if k < 2 { assert c2.literal[k] == c2.literal[..2][k]; }
        }
      }
      Some(Lead(c2, kind, true))
  }

  lemma SetBit5Of(c: uc32)
    ensures c == Period ==> AsciiAlphaToLower(c) == Period
  {
  }

  /** `ScanSignedInteger`: an optional sign and at least one decimal digit. */
  function ScanSignedInteger(src: Source, cur: Cursor): (r: Option<Cursor>)
    requires cur.pos <= |src|
    ensures r.Some? ==> cur.pos < r.value.pos <= |src| && !IsDecimalDigit(C0(src, r.value.pos))
    ensures r.Some? ==> |cur.literal| < |r.value.literal|
  {
    var c := C0(src, cur.pos);
    var c1 := if c == '+' as int || c == '-' as int then Cursor(cur.pos + 1, cur.literal + [c]) else cur;
    if !IsDecimalDigit(C0(src, c1.pos)) then None
    else
      var r := ScanDecimalDigits(src, c1, true);
      if r.Some? then
        EndOfInputIsNoDigit();
        assert r.value.pos != c1.pos;
        r
      else r
  }

  /** The scanned token with what the rest of the scanner reads from it. */
  datatype NumberToken =
    | Illegal
    | Smi(value: int, pos: nat, literal: seq<uc32>, octal: Option<Message>)
    | NumberLit(pos: nat, literal: seq<uc32>, kind: NumberKind, period: bool, exponent: bool, octal: Option<Message>)
    | BigIntLit(pos: nat, literal: seq<uc32>, kind: NumberKind)

  const kMaxSmi: int := 2147483647
  const kMaxBigIntCharacters: int := 0x1000_0000

  /** The octal message a finished literal of this kind records. */
  function OctalMessageFor(kind: NumberKind): Option<Message> {
    if kind == DecimalWithLeadingZero then Some(StrictDecimalWithLeadingZero)
    else if kind == ImplicitOctal then Some(StrictOctalLiteral)
    else None
  }

  predicate NoPeriod(s: seq<uc32>) {
    forall k :: 0 <= k < |s| ==> s[k] != Period
  }

  lemma ExtendsKeepsNoPeriod(c: Cursor, r: Cursor, d: DigitClass)
    requires Extends(c, r, d)
    ensures NoPeriod(c.literal) ==> NoPeriod(r.literal)
  {
    if NoPeriod(c.literal) {
      DigitIsNoPeriod(d, r);
    }
    forall k | 0 <= k < |r.literal| && NoPeriod(c.literal) ensures r.literal[k] != Period {
      if k < |c.literal| {
        assert r.literal[k] == r.literal[..|c.literal|][k];
      }
    }
  }

  lemma DigitIsNoPeriod(d: DigitClass, r: Cursor)
    ensures forall k :: 0 <= k < |r.literal| && IsDigitOf(d, r.literal[k]) ==> r.literal[k] != Period
  {
  }

  /** `ScanNumber(seen_period)` with the cursor on the first digit (or, when `seenPeriod`, on
      the character after the period). A small integer is a `SMI` only when its literal has at
      most ten characters, its value is at most 2^31 - 1 and neither a period nor an
      identifier start follows; every accepted literal is followed by neither a decimal digit
      nor an identifier start; exponents belong to decimal literals only; a BigInt has no
      period and ends in `n`. */
  function ScanNumber(src: Source, pos: nat, seenPeriod: bool, u: UnicodeTables): (r: NumberToken)
    requires pos <= |src|
    ensures r.Smi? ==>
      && !seenPeriod && r.value <= kMaxSmi && |r.literal| <= 10
      && C0(src, r.pos) != Period && !IsIdentifierStart(u, C0(src, r.pos))
      && AllDecimal(r.literal) && r.value == DecimalNumeral(r.literal)
    ensures !r.Illegal? ==> pos <= r.pos && !IsDecimalDigit(C0(src, r.pos)) && !IsIdentifierStart(u, C0(src, r.pos))
    ensures r.NumberLit? && r.exponent ==> IsDecimalNumberKind(r.kind)
    ensures r.NumberLit? && seenPeriod ==> r.period
    ensures r.BigIntLit? ==>
      && !seenPeriod && IsValidBigIntKind(r.kind) && pos < r.pos <= |src| && src[r.pos - 1] == 'n' as int
      && NoPeriod(r.literal)
  {
    if seenPeriod then Fraction(src, pos, u) else WholeNumber(src, pos, u)
  }

  /** `ScanNumber` entered after a leading `.`: the fraction digits, then the tail. */
  function Fraction(src: Source, pos: nat, u: UnicodeTables): (r: NumberToken)
    requires pos <= |src|
    ensures !r.Smi? && !r.BigIntLit?
    ensures !r.Illegal? ==> pos <= r.pos && !IsDecimalDigit(C0(src, r.pos)) && !IsIdentifierStart(u, C0(src, r.pos))
    ensures r.NumberLit? ==> r.period && IsDecimalNumberKind(r.kind)
  {
    FractionDigits(src, Cursor(pos, [Period]), Decimal, pos, u)
  }

  /** The digits after a period (which must not start with `_`), then the tail. */
  function FractionDigits(src: Source, cur: Cursor, kind: NumberKind, startPos: nat, u: UnicodeTables): (r: NumberToken)
    requires cur.pos <= |src|
    ensures !r.Smi? && !r.BigIntLit?
    ensures !r.Illegal? ==> cur.pos <= r.pos && !IsDecimalDigit(C0(src, r.pos)) && !IsIdentifierStart(u, C0(src, r.pos))
    ensures r.NumberLit? ==> r.period && r.kind == kind
  {
    if C0(src, cur.pos) == Underscore then Illegal
    else match ScanDecimalDigits(src, cur, true)
      case None => Illegal
      case Some(c) => Tail(src, c, kind, true, startPos, u)
  }

  /** `ScanNumber` entered at a digit: the prefix or leading zero, then the body for its kind. */
  function WholeNumber(src: Source, pos: nat, u: UnicodeTables): (r: NumberToken)
    requires pos <= |src|
    ensures r.Smi? ==>
      && r.value <= kMaxSmi && |r.literal| <= 10
      && C0(src, r.pos) != Period && !IsIdentifierStart(u, C0(src, r.pos))
      && AllDecimal(r.literal) && r.value == DecimalNumeral(r.literal)
    ensures !r.Illegal? ==> pos <= r.pos && !IsDecimalDigit(C0(src, r.pos)) && !IsIdentifierStart(u, C0(src, r.pos))
    ensures r.NumberLit? && r.exponent ==> IsDecimalNumberKind(r.kind)
    ensures r.BigIntLit? ==>
      && IsValidBigIntKind(r.kind) && pos < r.pos <= |src| && src[r.pos - 1] == 'n' as int
      && NoPeriod(r.literal)
  {
    match LeadingZero(src, pos)
    case None => Illegal
    case Some(lead) => AfterLead(src, lead, pos, u)
  }

  /** The body of the literal for the kind its leading characters decided. */
  function AfterLead(src: Source, lead: Lead, pos: nat, u: UnicodeTables): (r: NumberToken)
    requires pos <= lead.cur.pos <= |src| && NoPeriod(lead.cur.literal)
    requires IsDecimalNumberKind(lead.kind) && lead.atStart ==>
               AllDecimal(lead.cur.literal) && DecimalNumeral(lead.cur.literal) == 0
    ensures r.Smi? ==>
      && r.value <= kMaxSmi && |r.literal| <= 10
      && C0(src, r.pos) != Period && !IsIdentifierStart(u, C0(src, r.pos))
      && AllDecimal(r.literal) && r.value == DecimalNumeral(r.literal)
    ensures !r.Illegal? ==> pos <= r.pos && !IsDecimalDigit(C0(src, r.pos)) && !IsIdentifierStart(u, C0(src, r.pos))
    ensures r.NumberLit? && r.exponent ==> IsDecimalNumberKind(r.kind)
    ensures r.BigIntLit? ==>
      && IsValidBigIntKind(r.kind) && pos < r.pos <= |src| && src[r.pos - 1] == 'n' as int
      && NoPeriod(r.literal)
  {
    if IsDecimalNumberKind(lead.kind) then DecimalPart(src, lead, pos, u)
    else Tail(src, lead.cur, lead.kind, false, pos, u)
  }

  /** The decimal branch of `ScanNumber`: the small-integer fast path, then the remaining
      digits and a fraction. */
  function DecimalPart(src: Source, lead: Lead, startPos: nat, u: UnicodeTables): (r: NumberToken)
    requires lead.cur.pos <= |src| && IsDecimalNumberKind(lead.kind)
    requires lead.atStart ==> AllDecimal(lead.cur.literal) && DecimalNumeral(lead.cur.literal) == 0
    ensures r.Smi? ==>
      && lead.atStart && r.value <= kMaxSmi && |r.literal| <= 10
      && C0(src, r.pos) != Period && !IsIdentifierStart(u, C0(src, r.pos)) && !IsDecimalDigit(C0(src, r.pos))
      && AllDecimal(r.literal) && r.value == DecimalNumeral(r.literal) && lead.cur.pos <= r.pos
    ensures !r.Illegal? ==> lead.cur.pos <= r.pos && !IsDecimalDigit(C0(src, r.pos)) && !IsIdentifierStart(u, C0(src, r.pos))
    ensures r.NumberLit? ==> IsDecimalNumberKind(r.kind)
    ensures r.BigIntLit? ==> NoPeriod(lead.cur.literal) ==>
      IsValidBigIntKind(r.kind) && lead.cur.pos < r.pos <= |src| && src[r.pos - 1] == 'n' as int && NoPeriod(r.literal)
  {
    if lead.atStart then
      match ScanDecimalAsSmi(src, lead.cur, lead.kind != DecimalWithLeadingZero)
      case None => Illegal
      case Some((c, value)) => SmiOrAfter(src, lead, c, value, startPos, u)
    else
      var r := AfterSmi(src, lead.cur, lead.kind, startPos, u);
      assert !r.Smi?;
      r
  }

  /** The fast path's verdict on the digits it read: a small integer when at most ten digits
      with a value up to `kMaxSmi` are followed by neither `.` nor an identifier start. */
  function SmiOrAfter(src: Source, lead: Lead, c: Cursor, value: nat, startPos: nat, u: UnicodeTables)
    : (r: NumberToken)
    requires c.pos <= |src| && IsDecimalNumberKind(lead.kind) && lead.atStart
    requires Extends(lead.cur, c, DecimalDigit) && !IsDecimalDigit(C0(src, c.pos))
    requires AllDecimal(c.literal) && value == ToUint64(DecimalNumeral(c.literal))
    ensures r.Smi? ==>
      && r.value <= kMaxSmi && |r.literal| <= 10
      && C0(src, r.pos) != Period && !IsIdentifierStart(u, C0(src, r.pos)) && !IsDecimalDigit(C0(src, r.pos))
      && AllDecimal(r.literal) && r.value == DecimalNumeral(r.literal) && lead.cur.pos <= r.pos
    ensures !r.Illegal? ==> lead.cur.pos <= r.pos && !IsDecimalDigit(C0(src, r.pos)) && !IsIdentifierStart(u, C0(src, r.pos))
    ensures r.NumberLit? ==> IsDecimalNumberKind(r.kind)
    ensures r.BigIntLit? ==> NoPeriod(lead.cur.literal) ==>
      IsValidBigIntKind(r.kind) && lead.cur.pos < r.pos <= |src| && src[r.pos - 1] == 'n' as int && NoPeriod(r.literal)
  {
    SmiValueExactIf(c.literal);
    if |c.literal| <= 10 && value <= kMaxSmi && C0(src, c.pos) != Period && !IsIdentifierStart(u, C0(src, c.pos))
    then Smi(value, c.pos, c.literal, if lead.kind == DecimalWithLeadingZero then Some(StrictDecimalWithLeadingZero) else None)
    else
      ExtendsKeepsNoPeriod(lead.cur, c, DecimalDigit);
      AfterSmi(src, c, lead.kind, startPos, u)
  }

  /** The rest of the decimal branch once the fast path declined. */
  function AfterSmi(src: Source, cur: Cursor, kind: NumberKind, startPos: nat, u: UnicodeTables): (r: NumberToken)
    requires cur.pos <= |src| && IsDecimalNumberKind(kind)
    ensures !r.Smi?
    ensures !r.Illegal? ==> cur.pos <= r.pos && !IsDecimalDigit(C0(src, r.pos)) && !IsIdentifierStart(u, C0(src, r.pos))
    ensures r.NumberLit? ==> r.kind == kind
    ensures r.BigIntLit? ==> NoPeriod(cur.literal) ==>
      IsValidBigIntKind(r.kind) && cur.pos < r.pos <= |src| && src[r.pos - 1] == 'n' as int && NoPeriod(r.literal)
  {
    match ScanDecimalDigits(src, cur, kind != DecimalWithLeadingZero)
    case None => Illegal
    case Some(c) =>
      ExtendsKeepsNoPeriod(cur, c, DecimalDigit);
      if C0(src, c.pos) == Period then FractionDigits(src, Cursor(c.pos + 1, c.literal + [Period]), kind, startPos, u)
      else Tail(src, c, kind, false, startPos, u)
  }

  /** The BigInt suffix or exponent, if any, and the check on the following character. */
  function Tail(src: Source, cur: Cursor, kind: NumberKind, seenPeriod: bool, startPos: nat, u: UnicodeTables): (r: NumberToken)
    requires cur.pos <= |src|
    ensures r.BigIntLit? ==> !seenPeriod && IsValidBigIntKind(r.kind) && r.kind == kind
                             && r.pos == cur.pos + 1 && C0(src, cur.pos) == 'n' as int && r.literal == cur.literal
    ensures r.NumberLit? ==> r.kind == kind && r.period == seenPeriod
    ensures r.NumberLit? && r.exponent ==> IsDecimalNumberKind(kind)
    ensures r.NumberLit? && !r.exponent ==> r.literal == cur.literal
    ensures !r.Illegal? ==> !r.Smi? && !IsDecimalDigit(C0(src, r.pos)) && !IsIdentifierStart(u, C0(src, r.pos))
  {
    var c0 := C0(src, cur.pos);
    if c0 == 'n' as int && !seenPeriod && IsValidBigIntKind(kind) then
      var length := cur.pos - startPos - (if kind != Decimal then 2 else 0);
      if length > kMaxBigIntCharacters then Illegal
      else Final(src, Cursor(cur.pos + 1, cur.literal), kind, seenPeriod, true, false, u)
    else if AsciiAlphaToLower(c0) == 'e' as int then
      if !IsDecimalNumberKind(kind) then Illegal
      else match ScanSignedInteger(src, Cursor(cur.pos + 1, cur.literal + [c0]))
        case None => Illegal
        case Some(c) => Final(src, c, kind, seenPeriod, false, true, u)
    else Final(src, cur, kind, seenPeriod, false, false, u)
  }

  /** A literal must not run into a decimal digit or an identifier start. */
  function Final(src: Source, cur: Cursor, kind: NumberKind, seenPeriod: bool, bigint: bool, exponent: bool, u: UnicodeTables): (r: NumberToken)
    ensures r.Illegal? <==> IsDecimalDigit(C0(src, cur.pos)) || IsIdentifierStart(u, C0(src, cur.pos))
    ensures r.BigIntLit? <==> !r.Illegal? && bigint
    ensures r.BigIntLit? ==> r == BigIntLit(cur.pos, cur.literal, kind)
    ensures r.NumberLit? ==> r == NumberLit(cur.pos, cur.literal, kind, seenPeriod, exponent, OctalMessageFor(kind))
    ensures !r.Smi?
  {
    var c0 := C0(src, cur.pos);
    if IsDecimalDigit(c0) || IsIdentifierStart(u, c0) then Illegal
    else if bigint then BigIntLit(cur.pos, cur.literal, kind)
    else NumberLit(cur.pos, cur.literal, kind, seenPeriod, exponent, OctalMessageFor(kind))
  }

  // ---------------------------------------------------------------------------------------
  // A reference point for ScanNumber
  // ---------------------------------------------------------------------------------------

  lemma {:induction false} RunEndOfDigits(src: Source, pos: nat, e: nat, d: DigitClass)
    requires pos <= e <= |src|
    requires forall k :: pos <= k < e ==> IsDigitOf(d, src[k])
    requires !IsDigitOf(d, C0(src, e)) && C0(src, e) != Underscore
    ensures RunEnd(src, pos, d) == e
    decreases e - pos
  {
    if pos < e {
      RunEndOfDigits(src, pos + 1, e, d);
    }
  }

  lemma {:induction false} DigitsWithoutUnderscores(s: seq<uc32>)
    requires forall k :: 0 <= k < |s| ==> s[k] != Underscore
    ensures Digits(s) == s && WellSeparated(s)
    decreases |s|
  {
    if s != [] {
      DigitsWithoutUnderscores(s[1..]);
      assert [s[0]] + s[1..] == s;
    }
  }

  /** A literal that does not start with zero goes straight to the decimal branch. */
  lemma NonZeroLeadIsDecimal(src: Source, pos: nat, u: UnicodeTables)
    requires pos <= |src| && C0(src, pos) != '0' as int
    ensures DecimalNumeral([]) == 0
    ensures ScanNumber(src, pos, false, u) == DecimalPart(src, Lead(Cursor(pos, []), Decimal, true), pos, u)
  {
    assert DecimalNumeral([]) == 0;
  }

  /** The fast path's verdict when it returns. */
  lemma FastPathTaken(src: Source, lead: Lead, startPos: nat, u: UnicodeTables, c: Cursor, value: nat)
    requires lead.cur.pos <= |src| && lead.kind == Decimal && lead.atStart
    requires AllDecimal(lead.cur.literal) && DecimalNumeral(lead.cur.literal) == 0
    requires ScanDecimalAsSmi(src, lead.cur, true) == Some((c, value))
    requires |c.literal| <= 10 && value <= kMaxSmi && C0(src, c.pos) != Period && !IsIdentifierStart(u, C0(src, c.pos))
    ensures DecimalPart(src, lead, startPos, u) == Smi(value, c.pos, c.literal, None)
  {
  }

  /** A decimal integer without separators or leading zero, of at most ten digits and value at
      most 2^31 - 1, followed by neither a period, a digit nor an identifier start, is scanned
      as a `SMI` carrying its value, its digits as the literal, and no octal message. */
  lemma SmallIntegerIsSmi(src: Source, pos: nat, e: nat, u: UnicodeTables)
    requires pos < e <= |src| && e - pos <= 10
    requires src[pos] != '0' as int
    requires forall k :: pos <= k < e ==> IsDecimalDigit(src[k])
    requires DecimalNumeral(src[pos..e]) <= kMaxSmi
    requires var c := C0(src, e); c != Period && c != Underscore && !IsDecimalDigit(c) && !IsIdentifierStart(u, c)
    ensures ScanNumber(src, pos, false, u) == Smi(DecimalNumeral(src[pos..e]), e, src[pos..e], None)
  {
    var run := src[pos..e];
    NonZeroLeadIsDecimal(src, pos, u);
    SmiRunScan(src, pos, e);
    FastPathTaken(src, Lead(Cursor(pos, []), Decimal, true), pos, u, Cursor(e, run), DecimalNumeral(run));
  }

  /** The fast path over a run of at most ten digits without separators collects the run and
      its exact value. */
  lemma SmiRunScan(src: Source, pos: nat, e: nat)
    requires pos < e <= |src| && e - pos <= 10
    requires forall k :: pos <= k < e ==> IsDecimalDigit(src[k])
    requires var c := C0(src, e); c != Underscore && !IsDecimalDigit(c)
    ensures AllDecimal(src[pos..e]) && DecimalNumeral([]) == 0
    ensures ScanDecimalAsSmi(src, Cursor(pos, []), true) == Some((Cursor(e, src[pos..e]), DecimalNumeral(src[pos..e])))
  {
    var run := src[pos..e];
    RunEndOfDigits(src, pos, e, DecimalDigit);
    assert forall k :: 0 <= k < |run| ==> run[k] == src[pos + k];
    DigitsWithoutUnderscores(run);
    assert DecimalNumeral([]) == 0;
    SepLoopAccepts(src, pos, [], DecimalDigit, false);
    SepLoopCollects(src, pos, [], DecimalDigit, false);
    assert [] + run == run;
    var r := ScanDecimalAsSmi(src, Cursor(pos, []), true);
    assert r.Some? && r.value.0 == Cursor(e, run);
    SmiValueExact(run);
  }
}

=== FILE: unicode.dfy ===
/** UTF-16 surrogate arithmetic and the Latin-1 case helper of the V8 scanner (unicode.h),
    following RFC 2781, sections 2.1 and 2.2. Bit operations are written out arithmetically:
    `(x & (0x3f << 10)) >> 10` is `(x / 0x400) % 0x40`, which also holds for negative `int`
    arguments because Dafny's division by a positive constant rounds towards minus infinity. */
module Unicode {
  import opened Globals

  const kMaxNonSurrogateCharCode: int := 0xFFFF
  const kLatin1MaxChar: int := 0xFF

  /** `(code & 0xfc00) == 0xd800`. */
  predicate IsLeadSurrogate(code: int) {
    (code / 0x400) % 0x40 == 0x36
  }

  /** `(code & 0xfc00) == 0xdc00`. */
  predicate IsTrailSurrogate(code: int) {
    (code / 0x400) % 0x40 == 0x37
  }

  predicate IsSurrogatePair(lead: int, trail: int) {
    IsLeadSurrogate(lead) && IsTrailSurrogate(trail)
  }

  /** `0x10000 + ((lead & 0x3ff) << 10) + (trail & 0x3ff)`. */
  function CombineSurrogatePair(lead: uc32, trail: uc32): (r: int)
    ensures 0x10000 <= r <= 0x10FFFF
  {
    0x10000 + (lead % 0x400) * 0x400 + trail % 0x400
  }

  /** `0xd800 + (((char_code - 0x10000) >> 10) & 0x3ff)`, the subtraction wrapping as `uint32_t`. */
  function LeadSurrogate(charCode: uc32): (r: uc16)
    ensures 0xD800 <= r <= 0xDBFF
    ensures IsLeadSurrogate(r)
  {
    0xD800 + (ToUint32(charCode - 0x10000) / 0x400) % 0x400
  }

  /** `0xdc00 + (char_code & 0x3ff)`. */
  function TrailSurrogate(charCode: uc32): (r: uc16)
    ensures 0xDC00 <= r <= 0xDFFF
    ensures IsTrailSurrogate(r)
  {
    0xDC00 + charCode % 0x400
  }

  /** No code unit is both a lead and a trail surrogate, and the surrogate ranges are exactly
      0xD800..0xDBFF and 0xDC00..0xDFFF among 16-bit code units. */
  lemma SurrogateClasses(code: uc16)
    ensures !(IsLeadSurrogate(code) && IsTrailSurrogate(code))
    ensures IsLeadSurrogate(code) <==> 0xD800 <= code <= 0xDBFF
    ensures IsTrailSurrogate(code) <==> 0xDC00 <= code <= 0xDFFF
  {
    assert code / 0x400 < 0x40;
  }

  /** Encoding a supplementary code point and combining the two halves gives the code point back. */
  lemma {:induction false} CombineInvertsSplit(c: uc32)
    requires 0x10000 <= c <= 0x10FFFF
    ensures IsSurrogatePair(LeadSurrogate(c), TrailSurrogate(c))
    ensures CombineSurrogatePair(LeadSurrogate(c), TrailSurrogate(c)) == c
  {
    var d := c - 0x10000;
    assert ToUint32(c - 0x10000) == d;
    var hi := d / 0x400;
    var lo := d % 0x400;
    assert d == hi * 0x400 + lo;
    assert hi < 0x400;
    assert LeadSurrogate(c) == 0xD800 + hi;
    assert (0xD800 + hi) % 0x400 == hi;
    assert c == 0x40 * 0x400 + d;
    assert c % 0x400 == lo;
    assert TrailSurrogate(c) % 0x400 == lo;
  }

  /** Conversely, splitting the combination of a surrogate pair gives the pair back. */
  lemma {:induction false} SplitInvertsCombine(lead: uc16, trail: uc16)
    requires IsSurrogatePair(lead, trail)
    ensures LeadSurrogate(CombineSurrogatePair(lead, trail)) == lead
    ensures TrailSurrogate(CombineSurrogatePair(lead, trail)) == trail
  {
    SurrogateClasses(lead);
    SurrogateClasses(trail);
    var hi := lead % 0x400;
    var lo := trail % 0x400;
    assert lead == 0xD800 + hi;
    assert trail == 0xDC00 + lo;
    var c := CombineSurrogatePair(lead, trail);
    assert c - 0x10000 == hi * 0x400 + lo;
    assert ToUint32(c - 0x10000) == hi * 0x400 + lo;
    assert (hi * 0x400 + lo) / 0x400 == hi;
    assert c == (0x40 + hi) * 0x400 + lo;
    assert c % 0x400 == lo;
  }

  /** `Latin1::TryConvertToLatin1`: the two Greek mu forms map to the micro sign 0xB5 and the
      capital Y with diaeresis maps to 0xFF; every other unit is returned unchanged. */
  function TryConvertToLatin1(c: uc16): (r: uc16)
    ensures c == 0x39C || c == 0x3BC ==> r == 0xB5
    ensures c == 0x178 ==> r == 0xFF
    ensures r != c <==> c in {0x39C, 0x3BC, 0x178}
    ensures r != c ==> r <= kLatin1MaxChar
  {
    match c
    case 0x39C => 0xB5
    case 0x3BC => 0xB5
    case 0x178 => 0xFF
    case _ => c
  }
}

=== FILE: utils.dfy ===
/** Character classification of the V8 scanner (utils.h). Characters are `uc32` values. The
    Unicode property tables of the `unibrow` library are not part of this model: they enter as
    the function-valued fields of `UnicodeTables`. */
module ScannerUtils {
  import opened Globals
  import opened Wrappers

  /** The `unibrow` predicates the scanner consults for characters outside Latin-1. */
  datatype UnicodeTables = UnicodeTables(
    idStart: uc32 -> bool,
    idContinue: uc32 -> bool,
    whiteSpace: uc32 -> bool,
    lineTerminator: uc32 -> bool,
    stringLiteralLineTerminator: uc32 -> bool)

  /** One entry of `kOneByteCharFlags`: the five bits of `OneByteCharFlags` as booleans. */
  datatype CharFlags = CharFlags(
    isIdentifierStart: bool,
    isIdentifierPart: bool,
    isWhiteSpace: bool,
    isWhiteSpaceOrLineTerminator: bool,
    maybeLineEnd: bool)

  predicate InRange(c: int, lo: int, hi: int) {
    lo <= c <= hi
  }

  /** Unicode ID_Start restricted to Latin-1, plus '$' and '_'. */
  predicate IsOneByteIDStart(c: uc32) {
    c == 0x24 || InRange(c, 0x41, 0x5A) || c == 0x5F || InRange(c, 0x61, 0x7A) || c == 0xAA
    || c == 0xB5 || c == 0xBA || InRange(c, 0xC0, 0xD6) || InRange(c, 0xD8, 0xF6) || InRange(c, 0xF8, 0xFF)
  }

  /** Unicode ID_Continue restricted to Latin-1, plus '$' and '_'. */
  predicate IsOneByteIDContinue(c: uc32) {
    c == 0x24 || InRange(c, 0x30, 0x39) || c == 0x5F || InRange(c, 0x41, 0x5A) || InRange(c, 0x61, 0x7A)
    || c == 0xAA || c == 0xB5 || c == 0xB7 || c == 0xBA || InRange(c, 0xC0, 0xD6) || InRange(c, 0xD8, 0xF6)
    || InRange(c, 0xF8, 0xFF)
  }

  /** Tab, vertical tab, form feed, space and no-break space. */
  predicate IsOneByteWhitespace(c: uc32) {
    c == 0x09 || c == 0x0B || c == 0x0C || c == 0x20 || c == 0xA0
  }

  /** `BuildOneByteCharFlags`. The markers for U+2028 and U+2029 are compared after truncation to
      `uint8_t`, so they land on 0x28 '(' and 0x29 ')'. */
  function BuildOneByteCharFlags(c: uc32): CharFlags {
    var lineEnd := c == 0x0D || c == 0x0A;
    CharFlags(
      isIdentifierStart := IsOneByteIDStart(c) || c == 0x5C,
      isIdentifierPart := IsOneByteIDContinue(c) || c == 0x5C,
      isWhiteSpace := IsOneByteWhitespace(c),
      isWhiteSpaceOrLineTerminator := IsOneByteWhitespace(c) || lineEnd,
      maybeLineEnd := lineEnd || c == 0x28 || c == 0x29)
  }

  /** Number of entries of the table `kOneByteCharFlags`. */
  const kOneByteCharFlagsSize: int := 256

  /** The entry of `kOneByteCharFlags` for `c`; the table is built by applying
      `BuildOneByteCharFlags` to every index, and indexing it requires an index below its size. */
  function OneByteFlags(c: uc32): CharFlags
    requires c < kOneByteCharFlagsSize
  {
    BuildOneByteCharFlags(c)
  }

  /** Flag consistency of the table: identifier start implies identifier part, whitespace
      implies whitespace-or-line-terminator, CR and LF are line terminators that may end a line,
      and '(' and ')' carry the line-end marker of U+2028/U+2029. */
  lemma OneByteFlagsConsistent(c: uc32)
    requires c < 256
    ensures OneByteFlags(c).isIdentifierStart ==> OneByteFlags(c).isIdentifierPart
    ensures OneByteFlags(c).isWhiteSpace ==> OneByteFlags(c).isWhiteSpaceOrLineTerminator
    ensures c == 0x0D || c == 0x0A ==> OneByteFlags(c).isWhiteSpaceOrLineTerminator && OneByteFlags(c).maybeLineEnd
    ensures OneByteFlags(c).maybeLineEnd <==> c in {0x0A, 0x0D, 0x28, 0x29}
    ensures OneByteFlags(c).isIdentifierStart <==> IsOneByteIDStart(c) || c == 0x5C
  {
  }

  function IsIdentifierStartSlow(u: UnicodeTables, c: uc32): bool {
    if c <= 0xFFFF then u.idStart(c) else false
  }

  function IsIdentifierPartSlow(u: UnicodeTables, c: uc32): bool {
    if c <= 0xFFFF then u.idStart(c) || u.idContinue(c) else false
  }

  /** Below 256 the flag table's answer: Latin-1 ID_Start, `$`, `_` or `\`; above, the Unicode
      table for BMP characters. Every identifier start is an identifier part. */
  function IsIdentifierStart(u: UnicodeTables, c: uc32): (r: bool)
    ensures c < 256 ==> (r <==> IsOneByteIDStart(c) || c == '\\' as int)
    ensures c >= 256 ==> (r <==> c <= 0xFFFF && u.idStart(c))
    ensures r ==> IsIdentifierPart(u, c)
  {
    if !InRange(c, 0, 255) then IsIdentifierStartSlow(u, c) else OneByteFlags(c).isIdentifierStart
  }

  /** Below 256 the flag table's answer: Latin-1 ID_Continue, `$`, `_` or `\`; above, the
      Unicode tables for BMP characters. */
  function IsIdentifierPart(u: UnicodeTables, c: uc32): (r: bool)
    ensures c < 256 ==> (r <==> IsOneByteIDContinue(c) || c == '\\' as int)
    ensures c >= 256 ==> (r <==> c <= 0xFFFF && (u.idStart(c) || u.idContinue(c)))
  {
    if !InRange(c, 0, 255) then IsIdentifierPartSlow(u, c) else OneByteFlags(c).isIdentifierPart
  }

  /** Every identifier start, '\' included, is an identifier part, whatever the Unicode tables say. */
  lemma IdentifierStartIsPart(u: UnicodeTables, c: uc32)
    ensures IsIdentifierStart(u, c) ==> IsIdentifierPart(u, c)
  {
    if c < 256 {
      OneByteFlagsConsistent(c);
    }
  }

  function IsWhiteSpaceSlow(u: UnicodeTables, c: uc32): bool {
    u.whiteSpace(c)
  }

  /** `IsWhiteSpace` as written: the range test is inverted, so a Latin-1 character takes the slow
      path and every other character indexes the 256-entry table out of bounds (`None`). */
  function IsWhiteSpaceAsWritten(u: UnicodeTables, c: uc32): (r: Option<bool>)
    ensures r.None? <==> c >= kOneByteCharFlagsSize
  {
    if InRange(c, 0, 255) then Some(IsWhiteSpaceSlow(u, c))
    else if c < kOneByteCharFlagsSize then Some(OneByteFlags(c).isWhiteSpace)
    else None
  }

  /** The code point U+0100 already drives the as-written `IsWhiteSpace` past the table's end. */
  lemma IsWhiteSpaceAsWrittenOverruns(u: UnicodeTables)
    ensures IsWhiteSpaceAsWritten(u, 0x100).None?
  {
  }

  /** `IsWhiteSpace` with the range test of its siblings: the table for Latin-1, the slow path
      otherwise. It never indexes outside the table. */
  function IsWhiteSpace(u: UnicodeTables, c: uc32): (r: bool)
    ensures c < 256 ==> (r <==> IsOneByteWhitespace(c))
    ensures c >= 256 ==> (r <==> u.whiteSpace(c))
  {
    if !InRange(c, 0, 255) then IsWhiteSpaceSlow(u, c) else OneByteFlags(c).isWhiteSpace
  }

  function IsWhiteSpaceOrLineTerminatorSlow(u: UnicodeTables, c: uc32): bool {
    IsWhiteSpaceSlow(u, c) || u.lineTerminator(c)
  }

  function IsWhiteSpaceOrLineTerminator(u: UnicodeTables, c: uc32): (r: bool)
    ensures c < 256 ==> (r <==> IsOneByteWhitespace(c) || c == 0x0A || c == 0x0D)
  {
    if !InRange(c, 0, 255) then IsWhiteSpaceOrLineTerminatorSlow(u, c)
    else OneByteFlags(c).isWhiteSpaceOrLineTerminator
  }

  /** `c | 0x20`: lower-cases an ASCII letter and is used only for comparisons with letters. */
  function AsciiAlphaToLower(c: uc32): nat {
    SetBit5(c)
  }

  predicate IsCarriageReturn(c: uc32) { c == 0x0D }

  predicate IsLineFeed(c: uc32) { c == 0x0A }

  predicate IsDecimalDigit(c: uc32) { InRange(c, '0' as int, '9' as int) }

  predicate IsAlphaNumeric(c: uc32) {
    InRange(AsciiAlphaToLower(c), 'a' as int, 'z' as int) || IsDecimalDigit(c)
  }

  predicate IsAsciiIdentifier(c: uc32) {
    IsAlphaNumeric(c) || c == '$' as int || c == '_' as int
  }

  predicate IsHexDigit(c: uc32) {
    IsDecimalDigit(c) || InRange(AsciiAlphaToLower(c), 'a' as int, 'f' as int)
  }

  predicate IsOctalDigit(c: uc32) { InRange(c, '0' as int, '7' as int) }

  predicate IsNonOctalDecimalDigit(c: uc32) { InRange(c, '8' as int, '9' as int) }

  predicate IsBinaryDigit(c: uc32) { c == '0' as int || c == '1' as int }

  predicate IsAsciiLower(c: uc32) { InRange(c, 'a' as int, 'z' as int) }

  predicate IsAsciiUpper(c: uc32) { InRange(c, 'A' as int, 'Z' as int) }

  predicate IsRegExpWord(c: uc32) { IsAlphaNumeric(c) || c == '_' as int }

  /** `c & ~(IsAsciiLower(c) << 5)`. */
  function ToAsciiUpper(c: uc32): (r: uc32)
    ensures IsAsciiLower(c) ==> r == c - 0x20 && IsAsciiUpper(r)
    ensures !IsAsciiLower(c) ==> r == c
  {
    if IsAsciiLower(c) then
      assert (c / 0x20) % 2 == 1;
      ClearBit5(c)
    else c
  }

  /** `c | (IsAsciiUpper(c) << 5)`. */
  function ToAsciiLower(c: uc32): (r: uc32)
    ensures IsAsciiUpper(c) ==> r == c + 0x20 && IsAsciiLower(r)
    ensures !IsAsciiUpper(c) ==> r == c
  {
    if IsAsciiUpper(c) then
      assert (c / 0x20) % 2 == 0;
      SetBit5(c)
    else c
  }

  /** The ASCII letters sit in two blocks that differ only in bit 5. */
  lemma {:induction false} AsciiAlphaToLowerOfLetters(c: uc32)
    ensures AsciiAlphaToLower(c) == 'x' as int <==> c == 'x' as int || c == 'X' as int
    ensures AsciiAlphaToLower(c) == 'o' as int <==> c == 'o' as int || c == 'O' as int
    ensures AsciiAlphaToLower(c) == 'b' as int <==> c == 'b' as int || c == 'B' as int
    ensures AsciiAlphaToLower(c) == 'e' as int <==> c == 'e' as int || c == 'E' as int
    ensures IsAsciiLower(c) ==> AsciiAlphaToLower(c) == c
    ensures IsAsciiUpper(c) ==> AsciiAlphaToLower(c) == c + 0x20
    ensures InRange(AsciiAlphaToLower(c), 'a' as int, 'z' as int) <==> IsAsciiLower(c) || IsAsciiUpper(c)
  {
    var r := AsciiAlphaToLower(c);
    assert r == c || r == c + 0x20;
    if c < 0x40 {
      assert r < 0x60;
    } else if c < 0x80 {
      assert c / 0x40 == 1 && r / 0x40 == 1;
      assert (c / 0x20) % 2 == 0 <==> c < 0x60;
    } else {
      assert r >= 0x80;
    }
  }

  /** `ToAsciiUpper` maps 'a'..'z' onto 'A'..'Z', `ToAsciiLower` undoes it, and both are the
      identity on every character that is not a letter of the matching case. */
  lemma {:induction false} AsciiCaseRoundTrip(c: uc32)
    ensures IsAsciiLower(c) ==> ToAsciiUpper(c) == c - 0x20 && IsAsciiUpper(ToAsciiUpper(c))
    ensures IsAsciiLower(c) ==> ToAsciiLower(ToAsciiUpper(c)) == c
    ensures IsAsciiUpper(c) ==> ToAsciiLower(c) == c + 0x20 && ToAsciiUpper(ToAsciiLower(c)) == c
    ensures !IsAsciiLower(c) ==> ToAsciiUpper(c) == c
    ensures !IsAsciiUpper(c) ==> ToAsciiLower(c) == c
  {
    AsciiAlphaToLowerOfLetters(c);
    if IsAsciiLower(c) {
      assert (c / 0x20) % 2 == 1;
    }
    if IsAsciiUpper(c) {
      assert (c / 0x20) % 2 == 0;
    }
  }

  /** Binary digits are octal digits, octal digits are decimal digits, decimal digits are hex digits. */
  lemma DigitClassesNest(c: uc32)
    ensures IsBinaryDigit(c) ==> IsOctalDigit(c)
    ensures IsOctalDigit(c) ==> IsDecimalDigit(c)
    ensures IsDecimalDigit(c) ==> IsHexDigit(c)
    ensures IsNonOctalDecimalDigit(c) <==> IsDecimalDigit(c) && !IsOctalDigit(c)
  {
  }

  /** `HexValue`. `c - '0'` and `(c | 0x20) - ('a' - '0')` are computed in `uint32_t`, so values
      below the subtrahend wrap to large numbers and fail the `<= 9` / `<= 5` tests. */
  function HexValue(c: uc32): int {
    var d := ToUint32(c - '0' as int);
    if d <= 9 then d
    else
      var e := ToUint32(SetBit5(d) - ('a' as int - '0' as int));
      if e <= 5 then e + 10 else -1
  }

  /** `HexValue` is a digit value exactly for hex digits, -1 otherwise, and the usual base-16
      digit value in both cases of letter. */
  lemma {:induction false} HexValueMeaning(c: uc32)
    ensures 0 <= HexValue(c) <= 15 <==> IsHexDigit(c)
    ensures !IsHexDigit(c) ==> HexValue(c) == -1
    ensures IsDecimalDigit(c) ==> HexValue(c) == c - '0' as int
    ensures InRange(c, 'a' as int, 'f' as int) ==> HexValue(c) == c - 'a' as int + 10
    ensures InRange(c, 'A' as int, 'F' as int) ==> HexValue(c) == c - 'A' as int + 10
  {
    if c < '0' as int {
      HexValueBelowDigits(c);
    } else if c > '9' as int {
      HexValueAboveDigits(c);
      HexLetterCases(c);
    }
  }

  /** Below '0', `c - '0'` wraps and so does the letter test. */
  lemma HexValueBelowDigits(c: uc32)
    requires c < '0' as int
    ensures HexValue(c) == -1
  {
    var d := ToUint32(c - '0' as int);
    assert d == c - '0' as int + TwoTo32;
    assert SetBit5(d) >= d;
    assert SetBit5(d) < TwoTo32;
  }

  /** Above '9', the letter test succeeds exactly for 'A'..'F' and 'a'..'f'. */
  lemma HexValueAboveDigits(c: uc32)
    requires c > '9' as int
    ensures HexValue(c) == (if InRange(c, 'A' as int, 'F' as int) then c - 'A' as int + 10
                            else if InRange(c, 'a' as int, 'f' as int) then c - 'a' as int + 10
                            else -1)
  {
    var d := c - '0' as int;
    assert ToUint32(c - '0' as int) == d;
    var s := SetBit5(d);
    assert s < TwoTo32;
    if s < 0x31 {
      assert ToUint32(s - 0x31) == s - 0x31 + TwoTo32;
    } else {
      assert ToUint32(s - 0x31) == s - 0x31;
      if s <= 0x36 {
        assert d == s || d == s - 0x20;
        assert s / 0x40 == 0 && (s / 0x20) % 2 == 1;
      }
    }
  }

  /** `c | 0x20` lies in 'a'..'f' exactly for the hex letters of either case. */
  lemma HexLetterCases(c: uc32)
    ensures InRange(AsciiAlphaToLower(c), 'a' as int, 'f' as int)
            <==> InRange(c, 'A' as int, 'F' as int) || InRange(c, 'a' as int, 'f' as int)
  {
    var r := AsciiAlphaToLower(c);
    if 0x61 <= r <= 0x66 {
      assert r / 0x40 == 1 && r % 0x20 <= 6;
      assert c / 0x40 == 1 && 1 <= c % 0x20 <= 6;
    }
    if InRange(c, 'A' as int, 'F' as int) { assert (c / 0x20) % 2 == 0; }
    if InRange(c, 'a' as int, 'f' as int) { assert (c / 0x20) % 2 == 1; }
  }
}

=== FILE: web_contents_preferences.dfy ===
/** Electron's `WebContentsPreferences` (web_contents_preferences.cc): the web preferences of one
    WebContents as a dictionary from key to value, the defaults the constructor fills in, and how
    the dictionary decides renderer switches and Blink settings. Keys are written as Electron's
    `webPreferences` option names. */
module WebContentsPreferences {
  import opened Wrappers

  /** The `webPreferences` options this model reads or writes: the boolean options, the others,
      and `Named` for any option not modelled here. The dictionary is keyed by name; a `Named`
      tag stands for a name that is none of the modelled options' names (`BoolName`,
      `OtherName`), so every option has exactly one key. */
  datatype Key = Bool(b: BoolOption) | Other(o: OtherOption) | Named(tag: nat)

  datatype BoolOption =
    | Plugins | ExperimentalFeatures | NodeIntegration | NodeIntegrationInSubFrames
    | NodeIntegrationInWorker | DisableHtmlFullscreenWindowResize | WebviewTag | Sandbox
    | NativeWindowOpen | ContextIsolation | WorldSafeExecuteJavaScript | Javascript | Images
    | TextAreasAreResizable | WebGL | EnableWebSQL | EnablePreferredSizeMode | WebSecurity
    | AllowRunningInsecureContent | ScrollBounce | Offscreen | Spellcheck | NavigateOnDragDrop

  datatype OtherOption =
    | AutoplayPolicyKey | V8CacheOptionsKey | BackgroundColor | CustomArgs | CommandLineSwitches
    | EnableBlinkFeaturesKey | DisableBlinkFeaturesKey | Embedder | Session | Type

  /** The name of each boolean option in `webPreferences`. */
  function BoolName(o: BoolOption): string {
    match o
    case Plugins => "plugins"
    case ExperimentalFeatures => "experimentalFeatures"
    case NodeIntegration => "nodeIntegration"
    case NodeIntegrationInSubFrames => "nodeIntegrationInSubFrames"
    case NodeIntegrationInWorker => "nodeIntegrationInWorker"
    case DisableHtmlFullscreenWindowResize => "disableHtmlFullscreenWindowResize"
    case WebviewTag => "webviewTag"
    case Sandbox => "sandbox"
    case NativeWindowOpen => "nativeWindowOpen"
    case ContextIsolation => "contextIsolation"
    case WorldSafeExecuteJavaScript => "worldSafeExecuteJavaScript"
    case Javascript => "javascript"
    case Images => "images"
    case TextAreasAreResizable => "textAreasAreResizable"
    case WebGL => "webgl"
    case EnableWebSQL => "enableWebSQL"
    case EnablePreferredSizeMode => "enablePreferredSizeMode"
    case WebSecurity => "webSecurity"
    case AllowRunningInsecureContent => "allowRunningInsecureContent"
    case ScrollBounce => "scrollBounce"
    case Offscreen => "offscreen"
    case Spellcheck => "spellcheck"
    case NavigateOnDragDrop => "navigateOnDragDrop"
  }

  /** The name of each other modelled option; `customArgs` is `additionalArguments`. */
  function OtherName(o: OtherOption): string {
    match o
    case AutoplayPolicyKey => "autoplayPolicy"
    case V8CacheOptionsKey => "v8CacheOptions"
    case BackgroundColor => "backgroundColor"
    case CustomArgs => "additionalArguments"
    case CommandLineSwitches => "commandLineSwitches"
    case EnableBlinkFeaturesKey => "enableBlinkFeatures"
    case DisableBlinkFeaturesKey => "disableBlinkFeatures"
    case Embedder => "embedder"
    case Session => "session"
    case Type => "type"
  }

  /** The dictionary key a modelled option stands for. */
  function KeyName(k: Key): string
    requires !k.Named?
  {
    match k
    case Bool(o) => BoolName(o)
    case Other(o) => OtherName(o)
  }

  /** A preference value after conversion from JavaScript. Nested dictionaries are opaque. */
  datatype Value = BoolV(b: bool) | IntV(i: int) | StrV(s: string) | ListV(items: seq<Value>) | DictV | NullV

  type Prefs = map<Key, Value>

  /** JavaScript truthiness of the original value, which is what the dictionary's `Get` into a
      `bool` yields for a present key. */
  predicate Truthy(v: Value) {
    match v
    case BoolV(b) => b
    case IntV(i) => i != 0
    case StrV(s) => s != ""
    case ListV(_) => true
    case DictV => true
    case NullV => false
  }

  /** The boolean stored under `key`, if the value there is a boolean (`FindKeyOfType(BOOLEAN)`). */
  function FindBool(p: Prefs, key: Key): (r: Option<bool>)
    ensures r.Some? <==> key in p && p[key].BoolV?
    ensures r.Some? ==> p[key] == BoolV(r.value)
  {
    if key in p && p[key].BoolV? then Some(p[key].b) else None
  }

  /** The string stored under `key`, if the value there is a string (`GetAsString`). */
  function FindString(p: Prefs, key: Key): (r: Option<string>)
    ensures r.Some? <==> key in p && p[key].StrV?
    ensures r.Some? ==> p[key] == StrV(r.value)
  {
    if key in p && p[key].StrV? then Some(p[key].s) else None
  }

  /** `IsEnabled`: the stored boolean, or `default` when the key is absent or not a boolean. */
  function IsEnabled(p: Prefs, key: Key, default: bool): (r: bool)
    ensures key in p && p[key].BoolV? ==> r == p[key].b
    ensures !(key in p && p[key].BoolV?) ==> r == default
  {
    FindBool(p, key).GetOr(default)
  }

  /** `SetDefaultBoolIfUndefined`: an existing boolean is kept and returned; otherwise `val` is
      stored (replacing any value of another type) and returned. */
  function SetDefaultBoolIfUndefined(p: Prefs, key: Key, val: bool): (r: (bool, Prefs))
    ensures key in p && p[key].BoolV? ==> r == (p[key].b, p)
    ensures !(key in p && p[key].BoolV?) ==> r == (val, p[key := BoolV(val)])
  {
    match FindBool(p, key)
    case Some(b) => (b, p)
    case None => (val, p[key := BoolV(val)])
  }

  /** The options whose constructor default is on; every other defaulted option defaults off. */
  predicate DefaultsOn(o: BoolOption) {
    o in {NodeIntegration, WebviewTag, Javascript, Images, TextAreasAreResizable, WebGL, EnableWebSQL,
          WebSecurity, Spellcheck}
  }

  /** Applies `SetDefaultBoolIfUndefined` to each listed option in turn, with its default. */
  function SetDefaults(p: Prefs, options: seq<BoolOption>): Prefs
    decreases |options|
  {
    if options == [] then p
    else SetDefaults(SetDefaultBoolIfUndefined(p, Bool(options[0]), DefaultsOn(options[0])).1, options[1..])
  }

  function Lookup(p: Prefs, k: Key): Option<Value> {
    if k in p then Some(p[k]) else None
  }

  /** What a defaulted boolean key holds: the caller's boolean if there is one, else `d`. */
  function Defaulted(p: Prefs, k: Key, d: bool): Option<Value> {
    if k in p && p[k].BoolV? then Some(p[k]) else Some(BoolV(d))
  }

  /** Defaulting a list of options acts key by key: a listed option keeps a boolean it already
      has and otherwise gets its default; any other key is untouched. */
  lemma {:induction false} SetDefaultsAt(p: Prefs, options: seq<BoolOption>, k: Key)
    ensures Lookup(SetDefaults(p, options), k) ==
              if k.Bool? && k.b in options then Defaulted(p, k, DefaultsOn(k.b)) else Lookup(p, k)
    decreases |options|
  {
    if options != [] {
      var p1 := SetDefaultBoolIfUndefined(p, Bool(options[0]), DefaultsOn(options[0])).1;
      SetDefaultsAt(p1, options[1..], k);
      assert k.Bool? && k.b in options <==> (k.Bool? && k.b == options[0]) || (k.Bool? && k.b in options[1..]) by {
        assert options == [options[0]] + options[1..];
      }
    }
  }

  /** The options the constructor defaults, in order, before `allowRunningInsecureContent`. */
  const BaseOptions: seq<BoolOption> := [
    Plugins, ExperimentalFeatures, NodeIntegration, NodeIntegrationInSubFrames, NodeIntegrationInWorker,
    DisableHtmlFullscreenWindowResize, WebviewTag, Sandbox, NativeWindowOpen, ContextIsolation,
    WorldSafeExecuteJavaScript, Javascript, Images, TextAreasAreResizable, WebGL, EnableWebSQL,
    EnablePreferredSizeMode, WebSecurity]

  /** Platform and build switches of the constructor: macOS adds `scrollBounce`, the built-in
      spellchecker adds `spellcheck`. */
  datatype Build = Build(isMac: bool, builtinSpellchecker: bool)

  /** The options defaulted after `allowRunningInsecureContent`. */
  function TrailingOptions(build: Build): (r: seq<BoolOption>)
    ensures forall o :: o in r <==>
              (o == ScrollBounce && build.isMac) || o == Offscreen || (o == Spellcheck && build.builtinSpellchecker)
  {
    (if build.isMac then [ScrollBounce] else [])
    + [Offscreen]
    + (if build.builtinSpellchecker then [Spellcheck] else [])
  }

  const ReservedKeys: set<Key> := {Other(Embedder), Other(Session), Other(Type)}

  /** A WebContents' preferences and the snapshot `last_preference_` taken by `SetDefaults` and
      `AppendCommandLineSwitches`. */
  datatype WebPrefs = WebPrefs(preference: Prefs, last: Prefs)

  /** `SetDefaults`: a sandboxed WebContents always gets `nativeWindowOpen`; the snapshot is
      refreshed. */
  function ApplySandboxDefaults(p: Prefs): (w: WebPrefs)
    ensures IsEnabled(w.preference, Bool(Sandbox), false) <==> IsEnabled(p, Bool(Sandbox), false)
    ensures IsEnabled(p, Bool(Sandbox), false) ==> Lookup(w.preference, Bool(NativeWindowOpen)) == Some(BoolV(true))
    ensures !IsEnabled(p, Bool(Sandbox), false) ==> w.preference == p
    ensures w.last == w.preference
    ensures forall k :: k != Bool(NativeWindowOpen) ==> Lookup(w.preference, k) == Lookup(p, k)
  {
    var q := if IsEnabled(p, Bool(Sandbox), false) then p[Bool(NativeWindowOpen) := BoolV(true)] else p;
    WebPrefs(q, q)
  }

  /** The constructor. `raw` is the `webPreferences` object; `embedderOffscreen` says whether it
      names a guest instance whose embedder has offscreen rendering enabled (looked up through
      the WebView manager, not modelled). */
  function Create(raw: Prefs, build: Build, embedderOffscreen: bool): (w: WebPrefs)
  {
    ApplySandboxDefaults(Prepared(raw, BaseOptions, build, embedderOffscreen))
  }

  /** The copied dictionary with the reserved keys deleted and the base defaults filled in. */
  function BaseStage(raw: Prefs, base: seq<BoolOption>): Prefs {
    SetDefaults(raw - ReservedKeys, base)
  }

  /** ... then the `allowRunningInsecureContent` default, which follows `webSecurity`. */
  function InsecureStage(raw: Prefs, base: seq<BoolOption>): Prefs {
    var webSecurity := FindWebSecurity(raw);
    SetDefaultBoolIfUndefined(BaseStage(raw, base), Bool(AllowRunningInsecureContent), webSecurity.Some? && !webSecurity.value).1
  }

  /** ... then the platform defaults. */
  function TrailingStage(raw: Prefs, base: seq<BoolOption>, build: Build): Prefs {
    SetDefaults(InsecureStage(raw, base), TrailingOptions(build))
  }

  /** ... and `offscreen` forced on for a guest of an offscreen embedder: the dictionary just
      before `SetDefaults`. */
  function Prepared(raw: Prefs, base: seq<BoolOption>, build: Build, embedderOffscreen: bool): Prefs {
    var p := TrailingStage(raw, base, build);
    if embedderOffscreen then p[Bool(Offscreen) := BoolV(true)] else p
  }

  /** `web_preferences.Get(WebSecurity, &bool)`: present means converted by truthiness. */
  function FindWebSecurity(raw: Prefs): (r: Option<bool>)
    ensures r.Some? <==> Bool(WebSecurity) in raw
  {
    if Bool(WebSecurity) in raw then Some(Truthy(raw[Bool(WebSecurity)])) else None
  }

  /** The `allowRunningInsecureContent` default: on exactly when `webSecurity` was given falsy. */
  function InsecureDefault(raw: Prefs): bool {
    Bool(WebSecurity) in raw && !Truthy(raw[Bool(WebSecurity)])
  }

  /** What the constructor stores under `k` before `SetDefaults`, defined key by key rather than
      as a sequence of updates: reserved keys are gone, a forced `offscreen` is on, a defaulted
      option holds the caller's boolean or its default, and any other key is the caller's. */
  function ConstructorValue(raw: Prefs, base: seq<BoolOption>, build: Build, embedderOffscreen: bool, k: Key)
    : Option<Value>
  {
    if k in ReservedKeys then None
    else if k == Bool(Offscreen) && embedderOffscreen then Some(BoolV(true))
    else if k.Bool? && (k.b in base || k.b in TrailingOptions(build)) then Defaulted(raw, k, DefaultsOn(k.b))
    else if k == Bool(AllowRunningInsecureContent) then Defaulted(raw, k, InsecureDefault(raw))
    else Lookup(raw, k)
  }

  /** A list of base options that leaves `allowRunningInsecureContent` and the later defaults
      alone. */
  predicate BaseShape(base: seq<BoolOption>) {
    forall o :: o in base ==> o !in {AllowRunningInsecureContent, ScrollBounce, Offscreen, Spellcheck}
  }

  lemma BaseOptionsShape()
    ensures BaseShape(BaseOptions)
  {
  }

  lemma BaseStageAt(raw: Prefs, base: seq<BoolOption>, k: Key)
    ensures Lookup(BaseStage(raw, base), k) ==
              if k in ReservedKeys then None
              else if k.Bool? && k.b in base then Defaulted(raw, k, DefaultsOn(k.b))
              else Lookup(raw, k)
  {
    SetDefaultsAt(raw - ReservedKeys, base, k);
  }

  lemma InsecureStageAt(raw: Prefs, base: seq<BoolOption>, k: Key)
    requires BaseShape(base)
    ensures Lookup(InsecureStage(raw, base), k) ==
              if k == Bool(AllowRunningInsecureContent) then Defaulted(raw, k, InsecureDefault(raw))
              else Lookup(BaseStage(raw, base), k)
  {
    BaseStageAt(raw, base, Bool(AllowRunningInsecureContent));
  }

  lemma TrailingStageAt(raw: Prefs, base: seq<BoolOption>, build: Build, k: Key)
    requires BaseShape(base)
    ensures Lookup(TrailingStage(raw, base, build), k) ==
              if k.Bool? && k.b in TrailingOptions(build) then Defaulted(raw, k, DefaultsOn(k.b))
              else Lookup(InsecureStage(raw, base), k)
  {
    SetDefaultsAt(InsecureStage(raw, base), TrailingOptions(build), k);
    if k.Bool? && k.b in TrailingOptions(build) {
      InsecureStageAt(raw, base, k);
      BaseStageAt(raw, base, k);
    }
  }

  /** The sequence of updates in the constructor agrees with the key-by-key definition. */
  lemma PreparedAt(raw: Prefs, base: seq<BoolOption>, build: Build, embedderOffscreen: bool, k: Key)
    requires BaseShape(base)
    ensures Lookup(Prepared(raw, base, build, embedderOffscreen), k) == ConstructorValue(raw, base, build, embedderOffscreen, k)
  {
    TrailingStageAt(raw, base, build, k);
    if !(k.Bool? && k.b in TrailingOptions(build)) {
      InsecureStageAt(raw, base, k);
      if k != Bool(AllowRunningInsecureContent) {
        BaseStageAt(raw, base, k);
      }
    }
  }

  /** The preferences after construction, key by key; only `nativeWindowOpen` can still change,
      in `SetDefaults`. */
  lemma CreateAt(raw: Prefs, build: Build, embedderOffscreen: bool, k: Key)
    requires k != Bool(NativeWindowOpen)
    ensures Lookup(Create(raw, build, embedderOffscreen).preference, k) ==
              ConstructorValue(raw, BaseOptions, build, embedderOffscreen, k)
  {
    BaseOptionsShape();
    PreparedAt(raw, BaseOptions, build, embedderOffscreen, k);
  }

  /** The constructor never stores `embedder`, `session` or `type`: no key it keeps has one of
      those names. */
  lemma CreateDropsReservedKeys(raw: Prefs, build: Build, embedderOffscreen: bool)
    ensures forall k :: k in ReservedKeys ==> k !in Create(raw, build, embedderOffscreen).preference
    ensures forall k :: k in Create(raw, build, embedderOffscreen).preference && !k.Named? ==>
              KeyName(k) !in {"embedder", "session", "type"}
  {
    forall k | k in ReservedKeys
      ensures k !in Create(raw, build, embedderOffscreen).preference
    {
      CreateDropsReservedKey(raw, build, embedderOffscreen, k);
    }
    NoReservedNames(Create(raw, build, embedderOffscreen).preference);
  }

  lemma CreateDropsReservedKey(raw: Prefs, build: Build, embedderOffscreen: bool, k: Key)
    requires k in ReservedKeys
    ensures k !in Create(raw, build, embedderOffscreen).preference
  {
    CreateAt(raw, build, embedderOffscreen, k);
    ReservedValue(raw, build, embedderOffscreen, k, ConstructorValue(raw, BaseOptions, build, embedderOffscreen, k));
  }

  /** Preferences without the reserved keys hold no key with a reserved name. */
  lemma NoReservedNames(p: Prefs)
    requires forall k :: k in ReservedKeys ==> k !in p
    ensures forall k :: k in p && !k.Named? ==> KeyName(k) !in {"embedder", "session", "type"}
  {
    forall k | k in p && !k.Named?
      ensures KeyName(k) !in {"embedder", "session", "type"}
    {
      ReservedNames(k);
    }
  }

  /** Only the reserved keys carry the reserved names. */
  lemma ReservedNames(k: Key)
    requires !k.Named? && k !in ReservedKeys
    ensures KeyName(k) !in {"embedder", "session", "type"}
  {
  }

  lemma ReservedValue(raw: Prefs, build: Build, embedderOffscreen: bool, k: Key, v: Option<Value>)
    requires k in ReservedKeys && v == ConstructorValue(raw, BaseOptions, build, embedderOffscreen, k)
    ensures v == None
  {
  }

  /** `allowRunningInsecureContent` keeps an explicit boolean; otherwise it is true exactly when
      `webSecurity` was given and is falsy. */
  lemma CreateInsecureContent(raw: Prefs, build: Build, embedderOffscreen: bool)
    ensures Lookup(Create(raw, build, embedderOffscreen).preference, Bool(AllowRunningInsecureContent)) ==
              Defaulted(raw, Bool(AllowRunningInsecureContent), InsecureDefault(raw))
  {
    var k := Bool(AllowRunningInsecureContent);
    CreateAt(raw, build, embedderOffscreen, k);
    InsecureValue(raw, build, embedderOffscreen, ConstructorValue(raw, BaseOptions, build, embedderOffscreen, k));
  }

  lemma InsecureValue(raw: Prefs, build: Build, embedderOffscreen: bool, v: Option<Value>)
    requires v == ConstructorValue(raw, BaseOptions, build, embedderOffscreen, Bool(AllowRunningInsecureContent))
    ensures v == Defaulted(raw, Bool(AllowRunningInsecureContent), InsecureDefault(raw))
  {
  }

  /** Every base option other than `nativeWindowOpen` holds the caller's boolean if one was
      given, and its default otherwise. */
  lemma CreateDefaults(raw: Prefs, build: Build, embedderOffscreen: bool, o: BoolOption)
    requires o in BaseOptions && o != NativeWindowOpen
    ensures Lookup(Create(raw, build, embedderOffscreen).preference, Bool(o)) == Defaulted(raw, Bool(o), DefaultsOn(o))
  {
    CreateAt(raw, build, embedderOffscreen, Bool(o));
    BaseValue(raw, build, embedderOffscreen, o, ConstructorValue(raw, BaseOptions, build, embedderOffscreen, Bool(o)));
  }

  lemma BaseValue(raw: Prefs, build: Build, embedderOffscreen: bool, o: BoolOption, v: Option<Value>)
    requires o in BaseOptions
    requires v == ConstructorValue(raw, BaseOptions, build, embedderOffscreen, Bool(o))
    ensures v == Defaulted(raw, Bool(o), DefaultsOn(o))
  {
    BaseOptionsShape();
  }

  /** Node integration and web security default on, sandbox and context isolation off. */
  lemma CreateSecurityDefaults(raw: Prefs, build: Build, embedderOffscreen: bool)
    ensures var p := Create(raw, build, embedderOffscreen).preference;
            && Lookup(p, Bool(NodeIntegration)) == Defaulted(raw, Bool(NodeIntegration), true)
            && Lookup(p, Bool(WebSecurity)) == Defaulted(raw, Bool(WebSecurity), true)
            && Lookup(p, Bool(Sandbox)) == Defaulted(raw, Bool(Sandbox), false)
            && Lookup(p, Bool(ContextIsolation)) == Defaulted(raw, Bool(ContextIsolation), false)
  {
    var p := Create(raw, build, embedderOffscreen).preference;
    forall o | o in BaseOptions && o != NativeWindowOpen
      ensures Lookup(p, Bool(o)) == Defaulted(raw, Bool(o), DefaultsOn(o))
    {
      CreateDefaults(raw, build, embedderOffscreen, o);
    }
    SecurityDefaultsOf(raw, p);
  }

  lemma SecurityDefaultsOf(raw: Prefs, p: Prefs)
    requires forall o :: o in BaseOptions && o != NativeWindowOpen ==> Lookup(p, Bool(o)) == Defaulted(raw, Bool(o), DefaultsOn(o))
    ensures && Lookup(p, Bool(NodeIntegration)) == Defaulted(raw, Bool(NodeIntegration), true)
            && Lookup(p, Bool(WebSecurity)) == Defaulted(raw, Bool(WebSecurity), true)
            && Lookup(p, Bool(Sandbox)) == Defaulted(raw, Bool(Sandbox), false)
            && Lookup(p, Bool(ContextIsolation)) == Defaulted(raw, Bool(ContextIsolation), false)
  {
    assert BaseOptions[2] == NodeIntegration && BaseOptions[17] == WebSecurity;
    assert BaseOptions[7] == Sandbox && BaseOptions[9] == ContextIsolation;
  }

  /** `offscreen` is on when the embedder renders offscreen, and otherwise defaults to off. */
  lemma CreateOffscreen(raw: Prefs, build: Build, embedderOffscreen: bool)
    ensures Lookup(Create(raw, build, embedderOffscreen).preference, Bool(Offscreen)) ==
              if embedderOffscreen then Some(BoolV(true)) else Defaulted(raw, Bool(Offscreen), false)
  {
    CreateAt(raw, build, embedderOffscreen, Bool(Offscreen));
    OffscreenValue(raw, build, embedderOffscreen, ConstructorValue(raw, BaseOptions, build, embedderOffscreen, Bool(Offscreen)));
  }

  lemma OffscreenValue(raw: Prefs, build: Build, embedderOffscreen: bool, v: Option<Value>)
    requires v == ConstructorValue(raw, BaseOptions, build, embedderOffscreen, Bool(Offscreen))
    ensures v == if embedderOffscreen then Some(BoolV(true)) else Defaulted(raw, Bool(Offscreen), false)
  {
  }

  /** The constructor leaves a sandboxed WebContents with `nativeWindowOpen` on, and a snapshot
      equal to the preferences. */
  lemma CreateInvariants(raw: Prefs, build: Build, embedderOffscreen: bool)
    ensures var w := Create(raw, build, embedderOffscreen);
            && (IsEnabled(w.preference, Bool(Sandbox), false) ==> IsEnabled(w.preference, Bool(NativeWindowOpen), false))
            && w.last == w.preference
  {
  }

  /** `Merge`: the extension's entries replace the current ones, then `SetDefaults` runs, so a
      sandboxed result still has `nativeWindowOpen`. */
  function Merge(w: WebPrefs, extend: Prefs): (r: WebPrefs)
    ensures forall k :: k in extend && k != Bool(NativeWindowOpen) ==> Lookup(r.preference, k) == Some(extend[k])
    ensures forall k :: k !in extend && k != Bool(NativeWindowOpen) ==> Lookup(r.preference, k) == Lookup(w.preference, k)
    ensures IsEnabled(r.preference, Bool(Sandbox), false) ==> IsEnabled(r.preference, Bool(NativeWindowOpen), false)
    ensures r.last == r.preference
  {
    ApplySandboxDefaults(w.preference + extend)
  }

  // ---------------------------------------------------------------------------------------
  // Command line

  /** A renderer command line as `base::CommandLine` holds it: switches by name, each with a
      value (empty for a plain switch), and plain arguments. */
  datatype CommandLineItem = Sw(name: string, value: string) | Arg(arg: string)

  type CommandLine = seq<CommandLineItem>

  /** The switch names `AppendCommandLineSwitches` uses. */
  const ExperimentalSwitch: string := "enable-experimental-web-platform-features"
  const EnableSandboxSwitch: string := "enable-sandbox"
  const NoSandboxSwitch: string := "no-sandbox"
  const NoZygoteSwitch: string := "no-zygote"
  const OffscreenSwitch: string := "offscreen"
  const ScrollBounceSwitch: string := "scroll-bounce"
  const EnableBlinkFeaturesSwitch: string := "enable-blink-features"
  const DisableBlinkFeaturesSwitch: string := "disable-blink-features"
  const NodeIntegrationInWorkerSwitch: string := "node-integration-in-worker"

  /** `HasSwitch`: some switch on the command line has this name. */
  predicate HasSwitch(cmd: CommandLine, name: string) {
    exists i :: 0 <= i < |cmd| && cmd[i].Sw? && cmd[i].name == name
  }

  /** The sandbox rule: sandboxed preferences, or a subframe without
      `nodeIntegrationInSubFrames`. */
  predicate SandboxRule(p: Prefs, isSubframe: bool) {
    IsEnabled(p, Bool(Sandbox), false) || (isSubframe && !IsEnabled(p, Bool(NodeIntegrationInSubFrames), false))
  }

  /** The sandbox decision: `enable-sandbox` under the sandbox rule; otherwise `no-sandbox` and
      `no-zygote`, unless a switch of that name is already on the command line. */
  function SandboxSwitches(p: Prefs, isSubframe: bool, cmd: CommandLine): (r: CommandLine)
    ensures HasSwitch(r, EnableSandboxSwitch) <==> SandboxRule(p, isSubframe)
    ensures HasSwitch(r, NoSandboxSwitch) <==> !SandboxRule(p, isSubframe) && !HasSwitch(cmd, EnableSandboxSwitch)
    ensures HasSwitch(r, NoZygoteSwitch) <==> !SandboxRule(p, isSubframe) && !HasSwitch(cmd, EnableSandboxSwitch)
    ensures forall n :: HasSwitch(r, n) ==> n == EnableSandboxSwitch || n == NoSandboxSwitch || n == NoZygoteSwitch
    ensures forall i :: 0 <= i < |r| ==> r[i].Sw? && r[i].value == ""
  {
    var canSandboxFrame := isSubframe && !IsEnabled(p, Bool(NodeIntegrationInSubFrames), false);
    if IsEnabled(p, Bool(Sandbox), false) || canSandboxFrame then
      assert [Sw(EnableSandboxSwitch, "")][0].name == EnableSandboxSwitch;
      [Sw(EnableSandboxSwitch, "")]
    else if !HasSwitch(cmd, EnableSandboxSwitch) then
      var r := [Sw(NoSandboxSwitch, ""), Sw(NoZygoteSwitch, "")];
      assert r[0].name == NoSandboxSwitch && r[1].name == NoZygoteSwitch;
      r
    else []
  }

  /** The string elements of a list preference, in order. */
  function Strings(items: seq<Value>): (r: seq<string>)
    ensures |r| <= |items|
    ensures forall s :: s in r <==> StrV(s) in items
  {
    if items == [] then []
    else (if items[0].StrV? then [items[0].s] else []) + Strings(items[1..])
  }

  function ListPref(p: Prefs, key: Key): seq<Value> {
    if key in p && p[key].ListV? then p[key].items else []
  }

  lemma HasSwitchAppend(a: CommandLine, b: CommandLine, name: string)
    ensures HasSwitch(a + b, name) <==> HasSwitch(a, name) || HasSwitch(b, name)
  {
    if HasSwitch(a + b, name) {
      var i :| 0 <= i < |a + b| && (a + b)[i].Sw? && (a + b)[i].name == name;
      if i >= |a| { assert b[i - |a|] == (a + b)[i]; }
    }
    if HasSwitch(a, name) {
      var i :| 0 <= i < |a| && a[i].Sw? && a[i].name == name;
      assert (a + b)[i] == a[i];
    }
    if HasSwitch(b, name) {
      var i :| 0 <= i < |b| && b[i].Sw? && b[i].name == name;
      assert (a + b)[|a| + i] == b[i];
    }
  }

  /** `AppendArg` for each string: plain arguments, in order, and no switch. */
  function Args(ss: seq<string>): (r: CommandLine)
    ensures |r| == |ss| && forall i :: 0 <= i < |ss| ==> r[i] == Arg(ss[i])
    ensures forall n :: !HasSwitch(r, n)
  {
    seq(|ss|, i requires 0 <= i < |ss| => Arg(ss[i]))
  }

  /** `AppendSwitch(arg_val)` for each string: a switch of exactly that name, so a custom switch
      is the same switch as a built-in one of the same name. */
  function CustomSwitches(ss: seq<string>): (r: CommandLine)
    ensures |r| == |ss| && forall i :: 0 <= i < |ss| ==> r[i] == Sw(ss[i], "")
    ensures forall n :: HasSwitch(r, n) <==> n in ss
  {
    var r := seq(|ss|, i requires 0 <= i < |ss| => Sw(ss[i], ""));
    forall n | n in ss
      ensures HasSwitch(r, n)
    {
      var i :| 0 <= i < |ss| && ss[i] == n;
      assert r[i].name == n;
    }
    r
  }

  /** One switch of this name and value when `b` holds, nothing otherwise. */
  function SwitchIf(b: bool, name: string, value: string): (r: CommandLine)
    ensures forall n :: HasSwitch(r, n) <==> b && n == name
    ensures forall s :: Arg(s) !in r
  {
    assert [Sw(name, value)][0].name == name;
    if b then [Sw(name, value)] else []
  }

  /** The items `AppendCommandLineSwitches` adds, in order, up to and including the sandbox
      decision. */
  function LeadingSwitches(p: Prefs, isSubframe: bool, cmd: CommandLine): CommandLine {
    var experimental := SwitchIf(IsEnabled(p, Bool(ExperimentalFeatures), false), ExperimentalSwitch, "");
    experimental + SandboxSwitches(p, isSubframe, cmd + experimental)
  }

  /** The switch names the trailing items add by themselves, without custom switches. */
  predicate TrailingBuiltin(n: string, offscreen: bool, scrollBounce: bool, enable: Option<string>,
                            disable: Option<string>, worker: bool) {
    || (n == OffscreenSwitch && offscreen)
    || (n == ScrollBounceSwitch && scrollBounce)
    || (n == EnableBlinkFeaturesSwitch && enable.Some?)
    || (n == DisableBlinkFeaturesSwitch && disable.Some?)
    || (n == NodeIntegrationInWorkerSwitch && worker)
  }

  /** The items added after the sandbox decision, from the values read out of the preferences:
      custom arguments, `offscreen`, scroll bounce, custom switches, the two Blink feature lists
      and Node integration in workers. A switch name is present exactly when a custom switch has
      it or the matching built-in condition holds; the plain arguments are the custom ones. */
  function TrailingItems(args: seq<string>, offscreen: bool, scrollBounce: bool, switches: seq<string>,
                         enable: Option<string>, disable: Option<string>, worker: bool): (r: CommandLine)
    ensures forall n :: HasSwitch(r, n) <==>
              n in switches || TrailingBuiltin(n, offscreen, scrollBounce, enable, disable, worker)
    ensures forall s :: Arg(s) in r <==> s in args
  {
    var a := Args(args);
    var b := SwitchIf(offscreen, OffscreenSwitch, "");
    var c := SwitchIf(scrollBounce, ScrollBounceSwitch, "");
    var d := CustomSwitches(switches);
    var e := SwitchIf(enable.Some?, EnableBlinkFeaturesSwitch, enable.GetOr(""));
    var f := SwitchIf(disable.Some?, DisableBlinkFeaturesSwitch, disable.GetOr(""));
    var g := SwitchIf(worker, NodeIntegrationInWorkerSwitch, "");
    var r := a + b + c + d + e + f + g;
    forall n
      ensures HasSwitch(r, n) <==> n in switches || TrailingBuiltin(n, offscreen, scrollBounce, enable, disable, worker)
    {
      HasSwitchAppend(a, b, n);
      HasSwitchAppend(a + b, c, n);
      HasSwitchAppend(a + b + c, d, n);
      HasSwitchAppend(a + b + c + d, e, n);
      HasSwitchAppend(a + b + c + d + e, f, n);
      HasSwitchAppend(a + b + c + d + e + f, g, n);
    }
    assert forall s :: Arg(s) in r <==> Arg(s) in a by {
      assert forall x :: x in d ==> x.Sw?;
    }
    r
  }

  /** The strings of the `commandLineSwitches` list. */
  function CustomSwitchNames(p: Prefs): seq<string> {
    Strings(ListPref(p, Other(CommandLineSwitches)))
  }

  /** The items added after the sandbox decision. Only a custom switch can name
      `enable-sandbox` or `no-sandbox` here. */
  function TrailingSwitches(p: Prefs, isMac: bool): (r: CommandLine)
    ensures HasSwitch(r, EnableSandboxSwitch) <==> EnableSandboxSwitch in CustomSwitchNames(p)
    ensures HasSwitch(r, NoSandboxSwitch) <==> NoSandboxSwitch in CustomSwitchNames(p)
    ensures HasSwitch(r, OffscreenSwitch) <==>
              IsEnabled(p, Bool(Offscreen), false) || OffscreenSwitch in CustomSwitchNames(p)
    ensures forall s :: Arg(s) in r <==> StrV(s) in ListPref(p, Other(CustomArgs))
  {
    TrailingItems(
      Strings(ListPref(p, Other(CustomArgs))),
      IsEnabled(p, Bool(Offscreen), false),
      isMac && IsEnabled(p, Bool(ScrollBounce), false),
      NonEmpty(CustomSwitchNames(p)),
      FindString(p, Other(EnableBlinkFeaturesKey)),
      FindString(p, Other(DisableBlinkFeaturesKey)),
      IsEnabled(p, Bool(NodeIntegrationInWorker), false))
  }

  /** `AppendCommandLineSwitches`: the items appended to `cmd`, in order, and the refreshed
      snapshot. `enable-sandbox` is appended exactly under the sandbox rule or when a custom
      switch names it; `no-sandbox` exactly when the rule fails and no `enable-sandbox` was
      already there, or when a custom switch names it. */
  function AppendCommandLineSwitches(w: WebPrefs, isSubframe: bool, isMac: bool, cmd: CommandLine)
    : (r: (CommandLine, WebPrefs))
    ensures r.1 == WebPrefs(w.preference, w.preference)
    ensures |r.0| >= |cmd| && r.0[..|cmd|] == cmd
    ensures HasSwitch(r.0[|cmd|..], EnableSandboxSwitch) <==>
              SandboxRule(w.preference, isSubframe) || EnableSandboxSwitch in CustomSwitchNames(w.preference)
    ensures HasSwitch(r.0[|cmd|..], NoSandboxSwitch) <==>
              (!SandboxRule(w.preference, isSubframe) && !HasSwitch(cmd, EnableSandboxSwitch))
              || NoSandboxSwitch in CustomSwitchNames(w.preference)
  {
    var p := w.preference;
    var lead := LeadingSwitches(p, isSubframe, cmd);
    var trail := TrailingSwitches(p, isMac);
    var experimental := SwitchIf(IsEnabled(p, Bool(ExperimentalFeatures), false), ExperimentalSwitch, "");
    var sandbox := SandboxSwitches(p, isSubframe, cmd + experimental);
    HasSwitchAppend(cmd, experimental, EnableSandboxSwitch);
    HasSwitchAppend(experimental, sandbox, EnableSandboxSwitch);
    HasSwitchAppend(experimental, sandbox, NoSandboxSwitch);
    HasSwitchAppend(lead, trail, EnableSandboxSwitch);
    HasSwitchAppend(lead, trail, NoSandboxSwitch);
    assert (cmd + (lead + trail))[|cmd|..] == lead + trail;
    (cmd + (lead + trail), WebPrefs(p, p))
  }

  /** Every renderer gets a sandbox decision: after appending, the command line holds
      `enable-sandbox` or `no-sandbox`. */
  lemma SandboxDecided(w: WebPrefs, isSubframe: bool, isMac: bool, cmd: CommandLine)
    ensures var line := AppendCommandLineSwitches(w, isSubframe, isMac, cmd).0;
            HasSwitch(line, EnableSandboxSwitch) || HasSwitch(line, NoSandboxSwitch)
  {
    var line := AppendCommandLineSwitches(w, isSubframe, isMac, cmd).0;
    assert line == line[..|cmd|] + line[|cmd|..];
    HasSwitchAppend(line[..|cmd|], line[|cmd|..], EnableSandboxSwitch);
    HasSwitchAppend(line[..|cmd|], line[|cmd|..], NoSandboxSwitch);
  }

  function NonEmpty(ss: seq<string>): (r: seq<string>)
    ensures forall s :: s in r <==> s in ss && s != ""
  {
    if ss == [] then [] else (if ss[0] != "" then [ss[0]] else []) + NonEmpty(ss[1..])
  }

  // ---------------------------------------------------------------------------------------
  // Blink settings

  datatype AutoplayPolicy = NoUserGestureRequired | UserGestureRequired | DocumentUserActivationRequired

  /** `GetAsAutoplayPolicy`: one of three exact strings, otherwise nothing. */
  function GetAsAutoplayPolicy(p: Prefs, key: Key): (r: Option<AutoplayPolicy>)
    ensures r == Some(NoUserGestureRequired) <==> FindString(p, key) == Some("no-user-gesture-required")
    ensures r == Some(UserGestureRequired) <==> FindString(p, key) == Some("user-gesture-required")
    ensures r == Some(DocumentUserActivationRequired) <==> FindString(p, key) == Some("document-user-activation-required")
  {
    match FindString(p, key)
    case None => None
    case Some(s) =>
      if s == "no-user-gesture-required" then Some(NoUserGestureRequired)
      else if s == "user-gesture-required" then Some(UserGestureRequired)
      else if s == "document-user-activation-required" then Some(DocumentUserActivationRequired)
      else None
  }

  datatype V8CacheOptions = Default | NoCache | Code | CodeWithoutHeatCheck | FullCodeWithoutHeatCheck

  /** The Blink settings `OverrideWebkitPrefs` derives from the preferences (a subset). */
  datatype WebkitPrefs = WebkitPrefs(
    javascriptEnabled: bool, imagesEnabled: bool, textAreasAreResizable: bool,
    navigateOnDragDrop: bool, autoplayPolicy: AutoplayPolicy,
    webgl1Enabled: bool, webgl2Enabled: bool,
    webSecurityEnabled: bool, allowRunningInsecureContent: bool,
    backgroundColor: Option<string>, contextIsolation: bool, worldSafeExecuteJavaScript: bool,
    offscreen: bool, nativeWindowOpen: bool, nodeIntegration: bool,
    nodeIntegrationInWorker: bool, nodeIntegrationInSubFrames: bool,
    enablePlugins: bool, webviewTag: bool, enableWebSQL: bool,
    v8CacheOptions: V8CacheOptions)

  /** The `v8CacheOptions` string mapping: four names, anything else `Default`. */
  function V8CacheOptionsOf(s: string): (r: V8CacheOptions)
    ensures r == NoCache <==> s == "none"
    ensures r == Code <==> s == "code"
    ensures r == CodeWithoutHeatCheck <==> s == "bypassHeatCheck"
    ensures r == FullCodeWithoutHeatCheck <==> s == "bypassHeatCheckAndEagerCompile"
    ensures r == Default <==> s !in {"none", "code", "bypassHeatCheck", "bypassHeatCheckAndEagerCompile"}
  {
    if s == "none" then NoCache
    else if s == "code" then Code
    else if s == "bypassHeatCheck" then CodeWithoutHeatCheck
    else if s == "bypassHeatCheckAndEagerCompile" then FullCodeWithoutHeatCheck
    else Default
  }

  /** `OverrideWebkitPrefs` on the modelled settings; `prior` supplies the fields it leaves alone
      (`v8CacheOptions` without a string preference, the background colour of an offscreen
      WebContents without one). */
  function OverrideWebkitPrefs(p: Prefs, prior: WebkitPrefs): WebkitPrefs
  {
    var webSecurity := IsEnabled(p, Bool(WebSecurity), true);
    var webgl := IsEnabled(p, Bool(WebGL), true);
    WebkitPrefs(
      javascriptEnabled := IsEnabled(p, Bool(Javascript), true),
      imagesEnabled := IsEnabled(p, Bool(Images), true),
      textAreasAreResizable := IsEnabled(p, Bool(TextAreasAreResizable), true),
      navigateOnDragDrop := IsEnabled(p, Bool(NavigateOnDragDrop), false),
      autoplayPolicy := GetAsAutoplayPolicy(p, Other(AutoplayPolicyKey)).GetOr(NoUserGestureRequired),
      webgl1Enabled := webgl,
      webgl2Enabled := webgl,
      webSecurityEnabled := webSecurity,
      allowRunningInsecureContent := IsEnabled(p, Bool(AllowRunningInsecureContent), !webSecurity),
      backgroundColor :=
        if FindString(p, Other(BackgroundColor)).Some? then FindString(p, Other(BackgroundColor))
        else if !IsEnabled(p, Bool(Offscreen), false) then Some("#fff")
        else prior.backgroundColor,
      contextIsolation := IsEnabled(p, Bool(ContextIsolation), false),
      worldSafeExecuteJavaScript := IsEnabled(p, Bool(WorldSafeExecuteJavaScript), false),
      offscreen := IsEnabled(p, Bool(Offscreen), false),
      nativeWindowOpen := IsEnabled(p, Bool(NativeWindowOpen), false),
      nodeIntegration := IsEnabled(p, Bool(NodeIntegration), false),
      nodeIntegrationInWorker := IsEnabled(p, Bool(NodeIntegrationInWorker), false),
      nodeIntegrationInSubFrames := IsEnabled(p, Bool(NodeIntegrationInSubFrames), false),
      enablePlugins := IsEnabled(p, Bool(Plugins), false),
      webviewTag := IsEnabled(p, Bool(WebviewTag), false),
      enableWebSQL := IsEnabled(p, Bool(EnableWebSQL), false),
      v8CacheOptions :=
        if FindString(p, Other(V8CacheOptionsKey)).Some? then V8CacheOptionsOf(FindString(p, Other(V8CacheOptionsKey)).value)
        else prior.v8CacheOptions)
  }

  /** An unrecognised autoplay string, or none, yields `NoUserGestureRequired`. */
  lemma AutoplayFallback(p: Prefs, prior: WebkitPrefs)
    requires FindString(p, Other(AutoplayPolicyKey)) !in
               {Some("user-gesture-required"), Some("document-user-activation-required")}
    ensures OverrideWebkitPrefs(p, prior).autoplayPolicy == NoUserGestureRequired
  {
  }

  /** A `v8CacheOptions` string selects the setting by `V8CacheOptionsOf`; without a string the
      setting is left as it was. */
  lemma V8CacheOptionsSetting(p: Prefs, prior: WebkitPrefs)
    ensures FindString(p, Other(V8CacheOptionsKey)).None? ==>
              OverrideWebkitPrefs(p, prior).v8CacheOptions == prior.v8CacheOptions
    ensures FindString(p, Other(V8CacheOptionsKey)).Some? ==>
              OverrideWebkitPrefs(p, prior).v8CacheOptions == V8CacheOptionsOf(FindString(p, Other(V8CacheOptionsKey)).value)
  {
  }

  /** For a freshly created WebContents, Blink's insecure-content setting follows the
      constructor's default: on exactly when `webSecurity` was given falsy, unless set
      explicitly. */
  lemma CreatedInsecureContentSetting(raw: Prefs, build: Build, embedderOffscreen: bool, prior: WebkitPrefs)
    ensures var p := Create(raw, build, embedderOffscreen).preference;
            OverrideWebkitPrefs(p, prior).allowRunningInsecureContent ==
              if Bool(AllowRunningInsecureContent) in raw && raw[Bool(AllowRunningInsecureContent)].BoolV?
              then raw[Bool(AllowRunningInsecureContent)].b
              else Bool(WebSecurity) in raw && !Truthy(raw[Bool(WebSecurity)])
  {
    CreateInsecureContent(raw, build, embedderOffscreen);
    InsecureContentSetting(Create(raw, build, embedderOffscreen).preference, raw, prior);
  }

  /** Preferences holding the constructor's `allowRunningInsecureContent` give Blink that
      setting, whatever else they hold. */
  lemma InsecureContentSetting(p: Prefs, raw: Prefs, prior: WebkitPrefs)
    requires Lookup(p, Bool(AllowRunningInsecureContent))
          == Defaulted(raw, Bool(AllowRunningInsecureContent), InsecureDefault(raw))
    ensures OverrideWebkitPrefs(p, prior).allowRunningInsecureContent ==
              if Bool(AllowRunningInsecureContent) in raw && raw[Bool(AllowRunningInsecureContent)].BoolV?
              then raw[Bool(AllowRunningInsecureContent)].b
              else Bool(WebSecurity) in raw && !Truthy(raw[Bool(WebSecurity)])
  {
  }
}

=== FILE: wrappers.dfy ===
/** Failure-carrying wrappers shared by the modules of this model. */
module Wrappers {

  /** An optional value: JavaScript `undefined`/`null`, C++ `nullptr` or a missing map entry. */
  datatype Option<+T> = None | Some(value: T) {

    /** The wrapped value, or `default` when there is none. */
    function GetOr(default: T): T {
      match this
      case Some(v) => v
      case None => default
    }
  }

  /** The outcome of an operation that can fail with an error of type `E`. */
  datatype Result<+R, +E> = Success(value: R) | Failure(error: E) {

    predicate IsFailure() {
      Failure?
    }

    function PropagateFailure<U>(): Result<U, E>
      requires Failure?
    {
      Failure(error)
    }

    function Extract(): R
      requires Success?
    {
      value
    }
  }
}
